=== FILE: README.md ===
# AutoCDA core in Dafny

AutoCDA turns a plain-language request for a small analog circuit into a circuit record,
then into a text DSL, a SKiDL script and a KiCad schematic, with a plain-language
explanation alongside. This project models the deterministic core of that pipeline and
proves properties of it:

- **Standard values.** The calculator and the optimizer snap values to the E12 and E24
  preferred-number series of IEC 60063. They size an RC filter and a voltage divider, search
  for the best RC pair, and format and parse values with unit suffixes
  (`preferred.dfy`, `decades.dfy`, `component_calculator.dfy`, `component_values.dfy`,
  `circuit_optimizer.dfy`).
- **Validation.** The leveled rule engine of `circuit_validator.py` checks records in a fixed
  order. The schema predicates of `models.py` check fields
  (`circuit_json.dfy`, `circuit_validator.dfy`, `models.dfy`).
- **The text pipeline.** `json_to_dsl` writes `COMP:`/`CONSTRAINT:`/`NET:` lines.
  `dsl_to_skidl` parses them back and writes the SKiDL script. The parse of the emitted
  DSL gives back the record's components and constraints
  (`dsl_generator.dfy`, `skidl_generator.dfy`, `round_trip.dfy`).
- **The explanation.** The explainer reads values with `_parse_value` and assembles its
  sections (`explainer.dfy`).
- **The schematic.** `file_manager.py` scrapes the netlist, chooses a layout from the
  reference prefixes, and draws the RC stage or the two-resistor divider. The model states
  which pins and labels those drawings actually wire (`file_manager.dfy`).
- **Input checks.** The two request validators and the filename sanitiser
  (`user_input.dfy`, `input_validator.dfy`).
- **Small stores and tables.** The request cache, the issue list, the offline demo circuits
  and the Q&A store (`caching.dfy`, `issue_tracker.dfy`, `offline_circuits.dfy`,
  `qa_responses.dfy`).
- **Shared helpers.** Python's string operations, `float()` on decimal literals, and
  `Option`/`Result` (`strings.dfy`, `pyfloat.dfy`, `wrappers.dfy`).

The source's form is kept:
- Objects whose methods update fields are classes with `modifies` clauses: the cache, the
  issue tracker, the validator, the DSL and explanation generators.
- Loops are methods with invariants, each proved equal to a specification function.
- Pure code is functions and lemmas.
- Python exceptions are `Failure` values of a `Result`, named after the exception the code
  raises.

## Where the code departs from its own comments and callers

The model follows the code in each of these cases:
- `_parse_value` in `explainer.py` lower-cases its input before it looks up the prefix, so "m"
  and "M" both mean mega, and milli cannot be written (`Explainer.NoMilli`). The validator's
  list of value endings (`circuit_validator.py:130`) keeps "m" and "M" apart.
- `find_nearest_standard_value` returns the target with "Invalid value" for a target ≤ 0
  instead of failing. The calculator's `_nearest_e12` does raise.
- `_generate_components` skips a component whose type has no mapping, and nothing reports it.
  When such a component has a net, the connection code then uses a name it never defined.
- The netlist scrape keeps only the first node record after each net header
  (`FileManager.OneNodePerMatch`), not every endpoint of the net. The inner loop over node
  records, which would collect them all, only ever sees the text up to the first one.
- No netlist gives an "empty netlist" error. No components means the generic layout, which is
  the empty schematic.
- The drawings do not match their comments and docstrings:
  - the wire commented "Horizontal wire connecting both ground points" is diagonal in the RC
    layout (`FileManager.RcGroundTie`), and so is the divider's ground tie
    (`FileManager.DividerGroundTie`);
  - the RC drawing, "complete RC filter with voltage source", leaves the source's and the
    resistor's pins unwired;
  - the divider's VOUT label sits on no wire.

  The last two are listed under Findings.
- Each `uuid.uuid4()` and `datetime.now()` makes repeated runs differ. Byte-identical reruns
  hold only with the identifier supply and the date fixed, which the model takes as
  parameters.

## Model

| member | source | states |
|---|---|---|
| Caching.CacheKey | backend/utils/caching.py:12-15 | the key text is `description.lower().strip()`: never longer than the description and with no surrounding whitespace |
| Caching.LookupIn | backend/utils/caching.py:17-23 | a result is found exactly when the description's normalised key is stored, and it is the stored value |
| Caching.Store | backend/utils/caching.py:25-29 | storing adds exactly the description's key to the key set |
| Caching.RequestCache.constructor | backend/utils/caching.py:10 | the module-level cache starts empty |
| Caching.RequestCache.GetCachedResult | backend/utils/caching.py:17-23 | returns the entry under the normalised key, `None` when the key is absent |
| Caching.RequestCache.CacheResult | backend/utils/caching.py:25-29 | the new dictionary is the old one with the key bound to the result |
| Caching.RequestCache.ClearCache | backend/utils/caching.py:31-35 | the dictionary is empty afterwards |
| Caching.RequestCache.GetCacheSize | backend/utils/caching.py:37-39 | returns the number of stored keys |
| Caching.RequestCache.PreloadDemoCache | backend/utils/caching.py:61-65 | the dictionary is the old one with every demo entry stored in dictionary order |
| Caching.LowerIdempotent | backend/utils/caching.py:14 | lower-casing twice is lower-casing once |
| Caching.LowerStrip | backend/utils/caching.py:14 | lower-casing and stripping commute |
| Caching.CacheKeyIdempotent | backend/utils/caching.py:12-15 | a key is its own normalised form |
| Caching.CacheKeyNormalises | backend/utils/caching.py:12-15 | the key ignores case (upper-casing first changes nothing) and surrounding whitespace |
| Caching.LookupAfterStore | backend/utils/caching.py:17-29 | after a store, every description with the same normalised form finds the stored result; other keys are unaffected |
| Caching.FoundUnderVariants | backend/utils/caching.py:17-29 | after a store the result is found under the upper-cased and the stripped description |
| Caching.StoreSize | backend/utils/caching.py:25-39 | overwriting an existing key keeps the size; a new key adds one |
| Caching.StoreAllOutside | backend/utils/caching.py:61-65 | a key no item normalises to keeps its presence and its value through a sequence of stores |
| Caching.StoreAllFinds | backend/utils/caching.py:61-65 | with pairwise different keys, every item stored in sequence is found afterwards |
| Caching.KeysDifferAtEnd | backend/utils/caching.py:12-15 | descriptions ending in different lower-case, non-space characters have different keys |
| Caching.DemoKeysDistinct | backend/utils/caching.py:42-59 | the demo descriptions have pairwise different keys |
| Caching.PreloadFindsDemos | backend/utils/caching.py:42-65 | after preloading, each demo description finds its own demo result |
| IssueTracker.NewIssue | backend/issue_tracker.py:27-36 | the new record carries the given id, status "open", no resolution time and the priority's string value |
| IssueTracker.Resolved | backend/issue_tracker.py:44-46 | a resolved record has status "resolved", the resolution time and notes, and keeps id, title, priority and creation time |
| IssueTracker.FirstWithId | backend/issue_tracker.py:42-43 | finds the first index whose record has the id, and reports none exactly when no record has it |
| IssueTracker.ResolveIn | backend/issue_tracker.py:41-49 | resolving keeps the list length |
| IssueTracker.OpenWith | backend/issue_tracker.py:51-58 | the filtered list is never longer than the list it filters |
| IssueTracker.IssueTracker.constructor | backend/issue_tracker.py:11-19 | the list is the stored one when the file exists, empty otherwise |
| IssueTracker.IssueTracker.AddIssue | backend/issue_tracker.py:26-39 | appends exactly one open record numbered one past the previous length, and keeps the 1..n numbering |
| IssueTracker.IssueTracker.ResolveIssue | backend/issue_tracker.py:41-49 | resolves the first record with the id and returns it; returns none, changing nothing, when no id matches |
| IssueTracker.IssueTracker.OpenP0Issues | backend/issue_tracker.py:51-52 | the open records with priority "P0_CRITICAL", in list order: a record is listed exactly when it is open and has that priority |
| IssueTracker.IssueTracker.OpenP1Issues | backend/issue_tracker.py:54-55 | the open records with priority "P1_NICE_TO_HAVE", in list order: a record is listed exactly when it is open and has that priority |
| IssueTracker.IssueTracker.AllOpenIssues | backend/issue_tracker.py:57-58 | all open records, in list order: a record is listed exactly when it is open |
| IssueTracker.NoEarlierMatch | backend/issue_tracker.py:42-43 | a match with none before it is the one the loop finds |
| IssueTracker.NumberedDistinct | backend/issue_tracker.py:26-39 | ids numbered 1..n are pairwise distinct |
| IssueTracker.NumberedLookup | backend/issue_tracker.py:41-49 | in a numbered list, id n is found at index n-1 and ids outside 1..n are not found |
| IssueTracker.ResolveChangesOne | backend/issue_tracker.py:41-49 | resolving changes no other record and no id, so the numbering survives |
| IssueTracker.ResolvedNotOpen | backend/issue_tracker.py:44-58 | a resolved record passes none of the open filters |
| IssueTracker.OpenConcat | backend/issue_tracker.py:51-58 | filtering a concatenation filters each part, in order |
| IssueTracker.OpenExactly | backend/issue_tracker.py:51-58 | a record is in the filtered list exactly when it is in the list, open, and of the requested priority if one is given |
| IssueTracker.AddedIsOpen | backend/issue_tracker.py:26-58 | a new issue appears last in the open list of its priority and in the list of all open issues |
| IssueTracker.PrioritiesSeparate | backend/issue_tracker.py:6-8 | a P0 record never appears among the open P1 records |
| OfflineCircuits.GetCachedCircuit | backend/offline_circuits.py:78-95 | on the lower-cased text: the divider entry exactly when its test holds; the low-pass entry exactly when the divider test fails and the low-pass test holds; the LED entry exactly when both earlier tests fail and "led" and "current" occur; `None` exactly when all three fail |
| OfflineCircuits.MatchIgnoresCase | backend/offline_circuits.py:83 | upper-casing the request selects the same entry |
| OfflineCircuits.DividerDigitsAnywhere | backend/offline_circuits.py:85-86 | a "15V to 9V" divider request gets the 9 V to 5 V entry, because the digits may occur anywhere |
| QaResponses.KeyIndexFrom | backend/qa_responses.py:72 | finds a position holding the key, and reports none only when no later position holds it |
| QaResponses.GetQaResponse | backend/qa_responses.py:68-75 | a stored entry exactly when the key is in the dictionary, and then that key's entry; otherwise the fixed fallback with answer and strategy only |
| QaResponses.Hits | backend/qa_responses.py:87-98 | never more results than entries |
| QaResponses.SearchQa | backend/qa_responses.py:83-98 | the loop's results are the matching entries' key, question and answer, in dictionary order |
| QaResponses.HitsConcat | backend/qa_responses.py:90-96 | searching a concatenation searches each part, in order |
| QaResponses.HitsExactly | backend/qa_responses.py:87-96 | a result is returned exactly when it is some entry whose lower-cased question or answer contains the lower-cased keyword |
| QaResponses.EmptyKeywordFindsAll | backend/qa_responses.py:91 | an empty keyword returns every entry, in order |
| UserInput.ValidateUserInput | backend/input_validator.py:19-69 | non-string or empty input fails; otherwise success exactly when the stripped text has length in [10, 500], no forbidden pattern in any case and some circuit keyword, and then the result is the stripped text; too short and too long get their own errors |
| UserInput.ValidateIdempotent | backend/input_validator.py:19-69 | an accepted description is accepted again, unchanged |
| UserInput.ForbiddenIgnoresCase | backend/input_validator.py:49-61 | upper-casing the text changes neither the forbidden-pattern test nor the keyword test |
| UserInput.ReplaceUnsafe | backend/input_validator.py:86 | each character maps to itself when it is in `[a-zA-Z0-9._-]` and to '_' otherwise; the length is kept |
| UserInput.RemoveShortens | backend/input_validator.py:83 | deleting every occurrence of a pattern never lengthens the text |
| UserInput.RemoveDotsNoDoubleDot | backend/input_validator.py:83 | the single left-to-right pass removing ".." leaves no ".." behind |
| UserInput.ReplaceUnsafeNoParent | backend/input_validator.py:86 | mapping unsafe characters to '_' creates no ".." |
| UserInput.SanitizeFilename | backend/input_validator.py:72-88 | the output holds only `[A-Za-z0-9._-]`, hence no '/' or '\\', never contains "..", and is never longer than the input |
| UserInput.SanitizeFixedPoint | backend/input_validator.py:72-88 | a name of kept characters without ".." is its own sanitised form |
| UserInput.SanitizeIdempotent | backend/input_validator.py:72-88 | sanitising twice gives what sanitising once gives |
| InputValidator.WordRun | backend/validators/input_validator.py:18 | the end of the maximal `\w` run from an index: every character before it is a word character and the one at it is not |
| InputValidator.SpaceRun | backend/validators/input_validator.py:18 | the end of the maximal `\s` run from an index |
| InputValidator.HandlerGreedy | backend/validators/input_validator.py:18 | the greedy reading of `on\w+\s*=` at an index succeeds exactly when some split of the pattern matches there |
| InputValidator.CollapseEdges | backend/validators/input_validator.py:50 | collapsing whitespace keeps the text empty or not, and leaves a space at an edge exactly where there was whitespace |
| InputValidator.CollapseSingle | backend/validators/input_validator.py:50 | after collapsing, the only whitespace is single spaces |
| InputValidator.CollapseShape | backend/validators/input_validator.py:50 | the collapsed text is single-spaced, with edge spaces exactly where the input had edge whitespace |
| InputValidator.CollapseWord | backend/validators/input_validator.py:50 | a leading run of non-space characters is copied unchanged |
| InputValidator.WordsSplit | backend/validators/input_validator.py:50 | splitting on whitespace yields the first word, then the words of the rest |
| InputValidator.CollapseSplit | backend/validators/input_validator.py:50 | collapsing copies the first word, writes one space and goes on after the whitespace |
| InputValidator.CollapseIsJoinedWords | backend/validators/input_validator.py:49-50 | on text without edge whitespace, collapsing every whitespace run to one space is joining its words with single spaces |
| InputValidator.CountSpecial | backend/validators/input_validator.py:53 | the number of characters outside `[a-zA-Z0-9\s.,-]` is at most the length |
| InputValidator.ValidateInput | backend/validators/input_validator.py:29-57 | success exactly when the stripped text is non-empty, the raw length is at most 500, the stripped length at least 10, no forbidden pattern matches the raw input and at most 30% of the sanitised characters are special; the result is the stripped, whitespace-collapsed text; each failure gives its own message in check order |
| InputValidator.Accepted | backend/validators/input_validator.py:49-57 | an accepted text is the collapsed stripped input and is not over the special-character ratio |
| InputValidator.ValidatedIsJoinedWords | backend/validators/input_validator.py:49-57 | an accepted description comes back as its words joined by single spaces |
| InputValidator.ValidatedShape | backend/validators/input_validator.py:49-57 | an accepted text is non-empty, has no edge whitespace, is single-spaced, and at most 3/10 of it is special |
| InputValidator.CollapseStripped | backend/validators/input_validator.py:49-50 | collapsing non-empty text without edge whitespace keeps it non-empty and without edge whitespace |
| InputValidator.UnitsAreHz | backend/validators/input_validator.py:73 | the test for any of "hz", "khz", "mhz" is the test for "hz" |
| InputValidator.DetectAmbiguity | backend/validators/input_validator.py:60-80 | no message exactly when no ambiguous keyword occurs, "filter" comes with "hz" and "divider" with a digit; the first ambiguous keyword in list order names the message; then the missing-frequency message; then the missing-voltages message |
| InputValidator.NumberEnd | backend/validators/input_validator.py:90 | the greedy end of `\d+(?:\.\d+)?` lies after its first digit |
| InputValidator.UnitAt | backend/validators/input_validator.py:90 | the first alternative, in alternation order, that occurs at the index; none when no alternative occurs there |
| InputValidator.MatchAt | backend/validators/input_validator.py:90-97 | a match at an index ends group 1 after its start and the match no later than the text's end |
| InputValidator.UnitUnique | backend/validators/input_validator.py:90 | with unit alternatives that begin with distinct letters, the unit occurring at an index is the only one |
| InputValidator.GreedyFinds | backend/validators/input_validator.py:90 | for any split of a match the pattern allows, the greedy reading finds the same ends |
| InputValidator.MatchAtIsRegex | backend/validators/input_validator.py:90 | the greedy reading at an index is exactly the regular expression's match there, which is therefore unique |
| InputValidator.GreedyIsRegex | backend/validators/input_validator.py:90 | what the greedy reading finds is a match of the pattern |
| InputValidator.FirstMatchFrom | backend/validators/input_validator.py:91 | `re.search`: the leftmost index at or after the start where the pattern matches, with no match before it |
| InputValidator.MatchesFrom | backend/validators/input_validator.py:97 | `re.findall`: every listed match lies at or after the start, and inside the text |
| InputValidator.MatchesFromAt | backend/validators/input_validator.py:97 | each listed match is the pattern's match at its own start |
| InputValidator.MatchesFromOrdered | backend/validators/input_validator.py:97 | each listed match ends before the next begins, so matches do not overlap |
| InputValidator.MatchesFromFirst | backend/validators/input_validator.py:97 | no match starts before the first listed one, or anywhere when none is listed |
| InputValidator.MatchesFromGaps | backend/validators/input_validator.py:97 | no match starts between consecutive listed matches: the scan skips nothing |
| InputValidator.UnitsAreSeparate | backend/validators/input_validator.py:90-96 | the frequency and voltage unit lists satisfy the distinct-first-letter condition |
| InputValidator.FrequencyIsLeftmost | backend/validators/input_validator.py:90-93 | when no frequency is recorded the pattern matches nowhere; otherwise the recorded text is the text of a match with no match further left |
| InputValidator.VoltagesNoneIffNoMatch | backend/validators/input_validator.py:96-99 | no voltages exactly when the voltage pattern matches nowhere |
| InputValidator.ExtractConstraints | backend/validators/input_validator.py:83-108 | the keys are among frequency, voltages and circuit_type; each is present exactly when its pattern or word occurs in the lower-cased input, holding the first frequency match, all voltage numbers in order, and the first circuit-type word in list order |
| Decades.DecadeExp | backend/component_calculator.py:102 | `floor(log10 v)`: the exponent that brings v into [1, 10) |
| Decades.DecadeExpUnique | backend/component_calculator.py:102 | that exponent is the only one that brings v into [1, 10) |
| Decades.DecadeBounds | backend/component_calculator.py:102 | the decade lies at or below the value, and ten times the decade above it |
| Decades.Normalised | backend/component_calculator.py:103 | the normalised value lies in [1, 10) |
| Decades.NormalisedIsQuotient | backend/component_calculator.py:103 | the normalised value is the quotient value / decade |
| Preferred.NearestIndex | backend/component_calculator.py:106 | `min(series, key=abs(x - n))` as an index into the series |
| Preferred.NearestFromSpec | backend/component_calculator.py:106 | the scan of `min` keeps the first member nearest to the value |
| Preferred.NearestSpec | backend/component_calculator.py:106 | the chosen member is at least as near as every member and strictly nearer than every earlier one |
| Preferred.NearestIsFirstMinimal | backend/component_calculator.py:106 | the first nearest member is unique, so it is the one chosen |
| Preferred.NearestBound | backend/component_calculator.py:106 | when no later member is as near as member m, the choice is at or before m |
| Preferred.IncreasingFromAdjacent | backend/component_calculator.py:9 | adjacent increasing members make the whole series strictly increasing |
| Preferred.SnapIsNearest | backend/component_calculator.py:102-108 | a snapped value is the member nearest to value / decade, times the decade |
| Preferred.SnapRange | backend/component_calculator.py:102-108 | a snapped value lies between the first and the last member times the decade |
| Preferred.MemberNearestItself | backend/component_calculator.py:106 | in a strictly increasing series, a member is its own nearest member |
| Preferred.SnapMember | backend/component_calculator.py:102-108 | snapping a member times a power of ten gives it back |
| Preferred.SnapIdempotent | backend/component_calculator.py:102-108 | snapping to a decade series is idempotent |
| Preferred.SnapWithin | backend/component_calculator.py:102-108 | a snap whose chosen member lies in [lo, hi] lies in that range times the decade |
| Preferred.NearestPrefix | backend/component_calculator.py:121 | when a prefix of the list already holds an exact match, later members do not win |
| Preferred.SnapPrefixMember | backend/component_calculator.py:117-123 | a member of a decade-series prefix times a power of ten snaps to itself under the whole list |
| Preferred.SnapOnSeries | backend/component_calculator.py:102-108 | every snapped value is a member times a power of ten |
| Preferred.SnapFixedPoints | backend/component_calculator.py:102-108 | the values a decade series snaps to themselves are exactly the members times powers of ten |
| ComponentCalculator.E12IsDecadeSeries | backend/component_calculator.py:9 | the E12 list lies in [1, 10), strictly increases, and runs from 1.0 to 8.2 |
| ComponentCalculator.CapPrefixIsDecadeSeries | backend/component_calculator.py:12 | the first six capacitor values form a decade series |
| ComponentCalculator.SnapE12Range | backend/component_calculator.py:102-108 | an E12 snap lies in [decade, 8.2 * decade] |
| ComponentCalculator.CapIndexBound | backend/component_calculator.py:121 | for a normalised value in [1, 10), only the capacitor entries up to 10 can win |
| ComponentCalculator.CapTopIsTen | backend/component_calculator.py:12 | the seventh capacitor value is 10 |
| ComponentCalculator.CapPrefixBound | backend/component_calculator.py:12 | the capacitor entries up to index 6 lie in [1, 10] |
| ComponentCalculator.SnapCapRange | backend/component_calculator.py:117-123 | a snapped capacitance lies in [decade, 10 * decade] |
| ComponentCalculator.SnapCapIdempotent | backend/component_calculator.py:117-123 | snapping to the capacitor list is idempotent, even for a value that snaps to 10 times its decade |
| ComponentCalculator.NearestE12 | backend/component_calculator.py:96-108 | fails with ValueError exactly for values that are not positive; otherwise the E12 snap, in [decade, 8.2 * decade] |
| ComponentCalculator.NearestCapacitor | backend/component_calculator.py:111-123 | fails with ValueError exactly for values that are not positive; otherwise the capacitor-list snap, in [decade, 10 * decade] |
| ComponentCalculator.NearestE12Idempotent | backend/component_calculator.py:96-108 | a resistance `_nearest_e12` returned snaps to itself |
| ComponentCalculator.NearestCapacitorIdempotent | backend/component_calculator.py:111-123 | a capacitance `_nearest_capacitor` returned snaps to itself |
| ComponentCalculator.StartCapacitance | backend/component_calculator.py:29-40 | 1 uF below 100 Hz, 100 nF below 1 kHz, 10 nF below 10 kHz, else 1 nF, each exactly on its band |
| ComponentCalculator.StartCapacitanceMonotone | backend/component_calculator.py:29-40 | a higher cutoff never starts from a larger capacitor |
| ComponentCalculator.CutoffReciprocalSign | backend/component_calculator.py:44 | for a positive second factor, `1 / (2 pi a b)` is positive exactly when a is |
| ComponentCalculator.RcFilterOutcome | backend/component_calculator.py:15-59 | fails exactly for a cutoff that is not positive (ZeroDivisionError at 0, ValueError below); otherwise R is the E12 snap of the band's R and C the list snap recomputed from R, each a fixed point of its own snapping |
| ComponentCalculator.CalculateRcFilter | backend/component_calculator.py:15-59 | fails exactly when the value computation fails; otherwise the resistor and capacitor formatted |
| ComponentCalculator.R1Target | backend/component_calculator.py:82-83 | the R1 target is positive exactly when the output voltage is |
| ComponentCalculator.SnapTenKilohm | backend/component_calculator.py:79-87 | 10 kOhm is on the E12 series, so R2 snaps to itself |
| ComponentCalculator.VoltageDividerErrors | backend/component_calculator.py:74-87 | fails exactly when the output is not below the input (ValueError) or not positive (ZeroDivisionError at 0, ValueError below) |
| ComponentCalculator.VoltageDividerResult | backend/component_calculator.py:77-93 | otherwise R2 is exactly 10 kOhm, printed "10.0k", and R1 is the E12 snap of the target and a fixed point of snapping |
| ComponentCalculator.CalculateVoltageDivider | backend/component_calculator.py:62-93 | fails exactly when the value computation fails; otherwise both resistances formatted |
| ComponentCalculator.RenderedRoundTrip | backend/component_calculator.py:126-210 | a value printed as digits plus a formatter suffix parses back to the digits' float times the suffix's scale, which is the value when the digits are exact |
| ComponentCalculator.ResistanceRoundTrip | backend/component_calculator.py:126-210 | formatting a resistance and parsing the printed text gives back the resistance when the printed digits are exact |
| ComponentCalculator.CapacitanceRoundTrip | backend/component_calculator.py:136-210 | the same round trip for capacitances |
| ComponentValues.ParseFromPlain | backend/component_calculator.py:206-210 | a text ending in no later table letter is parsed as a plain float |
| ComponentValues.ParseFromAt | backend/component_calculator.py:206-208 | a text ending in the letter of the table entry being tried is scaled by that entry |
| ComponentValues.ParseFromPast | backend/component_calculator.py:206-207 | a text not ending in that letter goes on to the next entry |
| ComponentValues.LettersDiffer | backend/component_calculator.py:196-202 | the table's suffix letters are pairwise different |
| ComponentValues.ParseFromHit | backend/component_calculator.py:206-208 | a text ending in the letter of entry k reaches entry k: no earlier entry matches it |
| ComponentValues.ParseSuffixed | backend/component_calculator.py:194-210 | a number followed by a table letter parses to the number's float times that letter's scale |
| ComponentValues.ParseUnsuffixed | backend/component_calculator.py:194-210 | a printed number on its own parses as a plain float |
| ComponentValues.ParseFormatted | backend/component_calculator.py:194-210 | every suffix a formatter emits maps back to the scale it divided by |
| ComponentValues.FormatResistance | backend/component_calculator.py:126-133 | suffix M exactly from 1e6, k exactly in [1e3, 1e6), none below; the printed mantissa times the suffix's scale is the resistance |
| ComponentValues.FormatCapacitance | backend/component_calculator.py:136-145 | suffix u exactly from 1e-6, n in [1e-9, 1e-6), p in [1e-12, 1e-9), exponent form exactly below 1e-12; the mantissa times the scale is the capacitance |
| CircuitOptimizer.E24IsDecadeSeries | backend/circuit_optimizer.py:16-19 | the E24 list lies in [1, 10), strictly increases, and runs from 1.0 to 9.1 |
| CircuitOptimizer.Optimizer.Series | backend/circuit_optimizer.py:21-22 | the series is E24 when `use_e24` is set and E12 otherwise, a non-empty decade series either way |
| CircuitOptimizer.FormatValue | backend/circuit_optimizer.py:42-62 | resistors: M exactly from 1e6, k in [1e3, 1e6), Ω below; capacitors: µF from 1e-6, nF, pF, exponent form with F exactly below 1e-12; other types: bare exponent form; the mantissa times the unit's scale is the value |
| CircuitOptimizer.FormatResistorAgrees | backend/circuit_optimizer.py:44-50 | the optimizer prints resistances with the calculator's mantissa, and Ω where the calculator prints no suffix |
| CircuitOptimizer.FormatCapacitorAgrees | backend/circuit_optimizer.py:52-60 | the optimizer prints capacitances with the calculator's mantissa and form, with F after the prefix |
| CircuitOptimizer.StandardValue | backend/circuit_optimizer.py:26-35 | a target that is not positive is returned unchanged; a positive one gives a positive standard value |
| CircuitOptimizer.FindNearestStandardValue | backend/circuit_optimizer.py:24-40 | a note "Invalid value" exactly for a target that is not positive, otherwise the standard value and its `_format_value` text |
| CircuitOptimizer.FindNearestSpec | backend/circuit_optimizer.py:30-35 | the standard value is the first nearest series member to target / decade, times the decade |
| CircuitOptimizer.FindNearestE24Range | backend/circuit_optimizer.py:30-35 | with E24 the standard value lies in [decade, 9.1 * decade] |
| CircuitOptimizer.FindNearestIdempotent | backend/circuit_optimizer.py:24-40 | a standard value is its own standard value, whatever the component types |
| CircuitOptimizer.FindNearestFixedPoints | backend/circuit_optimizer.py:24-40 | the positive values that are their own standard value are exactly the members times powers of ten |
| CircuitOptimizer.Row | backend/circuit_optimizer.py:75-76 | one trial per multiplier of the inner loop |
| CircuitOptimizer.Trials | backend/circuit_optimizer.py:74-76 | three trials per series member |
| CircuitOptimizer.TrialAt | backend/circuit_optimizer.py:74-76 | trial k is member k / 3 times multiplier k % 3: series outer, multiplier inner |
| CircuitOptimizer.TrialOf | backend/circuit_optimizer.py:74-76 | the trial of member i and multiplier j sits at index 3i + j and is positive |
| CircuitOptimizer.MultIsShift | backend/circuit_optimizer.py:75 | the multipliers 1e3, 1e4, 1e5 shift by three, four and five decades |
| CircuitOptimizer.TrialOnSeries | backend/circuit_optimizer.py:74-76 | every trial is a member times a power of ten |
| CircuitOptimizer.TrialsPositive | backend/circuit_optimizer.py:74-76 | every trial of a decade series is positive |
| CircuitOptimizer.StandardCapacitor | backend/circuit_optimizer.py:79-82 | the snapped capacitor for a resistance and a non-zero target is not zero |
| CircuitOptimizer.Search | backend/circuit_optimizer.py:69-91 | a candidate, when there is one, lies in the preferred range, with a positive resistance and a non-zero capacitor |
| CircuitOptimizer.SearchCandidate | backend/circuit_optimizer.py:79-91 | the candidate carries its own trial's standard capacitor and relative error |
| CircuitOptimizer.SearchErrors | backend/circuit_optimizer.py:69-91 | no candidate exactly when no trial lies in range; the search raises only ZeroDivisionError, exactly for a zero target with some trial in range |
| CircuitOptimizer.BestReplaced | backend/circuit_optimizer.py:88-91 | a trial in range that is strictly better than the first best so far becomes the first best |
| CircuitOptimizer.BestKept | backend/circuit_optimizer.py:88-91 | a last trial out of range or not strictly better leaves the first best in place |
| CircuitOptimizer.BestFirst | backend/circuit_optimizer.py:88-91 | the first trial in range is the first best so far |
| CircuitOptimizer.SearchBest | backend/circuit_optimizer.py:86-91 | the strict `<` update keeps the first trial in search order with minimal relative error |
| CircuitOptimizer.SearchFailureSticks | backend/circuit_optimizer.py:79-86 | once a trial raised, later trials change nothing |
| CircuitOptimizer.OptimizeErrors | backend/circuit_optimizer.py:64-113 | TypeError exactly when no trial lies in range; ZeroDivisionError exactly for a zero target with a trial in range; success otherwise |
| CircuitOptimizer.OptimizeResult | backend/circuit_optimizer.py:86-111 | on success the reported resistor is the first trial of minimal error, the re-snapped values equal the calculated ones, the capacitor is that resistor's standard capacitor, and the error percent is its relative error times 100 |
| CircuitOptimizer.PairFromResnap | backend/circuit_optimizer.py:93-111 | the result built from a searched candidate reports the candidate's values unchanged |
| CircuitOptimizer.TrialResnaps | backend/circuit_optimizer.py:93 | a trial re-snaps to itself |
| CircuitOptimizer.CapacitorResnaps | backend/circuit_optimizer.py:94 | a standard capacitor re-snaps to itself |
| CircuitOptimizer.OptimizeFromSearch | backend/circuit_optimizer.py:93-113 | without a candidate the final snap raises TypeError; with one the result is built from it |
| CircuitOptimizer.TryResistor | backend/circuit_optimizer.py:76-91 | one pass of the inner loop body is the search step on that trial |
| CircuitOptimizer.RowFromFailure | backend/circuit_optimizer.py:75-91 | an exception raised earlier passes through the rest of the row |
| CircuitOptimizer.SearchRowStep | backend/circuit_optimizer.py:74-91 | searching one more row of trials runs the inner loop on that row |
| CircuitOptimizer.SearchRow | backend/circuit_optimizer.py:75-91 | the inner loop over the three multipliers computes the row's search step |
| CircuitOptimizer.OptimizeRcPair | backend/circuit_optimizer.py:64-113 | the nested loops and the final re-snap compute exactly the reference outcome on the optimizer's series |
| CircuitJson.NetItems | backend/circuit_validator.py:158-160 | iterating a list visits its names; iterating a string visits one item per character |
| CircuitJson.Get | backend/models.py:133-135 | `d.get(key)` finds a value exactly when some entry has the key, and the value is that entry's |
| CircuitJson.Count | backend/models.py:120-126 | the occurrence count is zero exactly when the net does not occur |
| CircuitJson.CountSnoc | backend/models.py:120-126 | one more occurrence adds one to its own count only |
| CircuitJson.FirstSeen | backend/circuit_validator.py:160-166 | the dictionary's key order: exactly the nets that occur |
| CircuitJson.FirstSeenSnoc | backend/circuit_validator.py:161-162 | a new net is appended to the key order; a known one changes nothing |
| CircuitJson.FirstSeenDistinct | backend/circuit_validator.py:161-162 | no key appears twice |
| CircuitJson.FirstIndex | backend/models.py:128 | the first occurrence of a net: it is there and not before |
| CircuitJson.FirstSeenOrdered | backend/circuit_validator.py:166 | keys are ordered by their first occurrence |
| CircuitJson.FirstIndexPrefix | backend/models.py:128 | appending an element does not move an earlier first occurrence |
| CircuitJson.FirstIndexNotIn | backend/models.py:128 | a net first seen at the end has its first occurrence there |
| CircuitJson.FloatingMembers | backend/models.py:128 | the floating keys are exactly the keys occurring fewer than twice |
| CircuitValidation.HasErrorConcat | backend/circuit_validator.py:68-72 | an ERROR in a concatenation is an ERROR in one of its parts |
| CircuitValidation.HasErrorExists | backend/circuit_validator.py:68-72 | the error test means some message has level ERROR |
| CircuitValidation.RequiredMessages | backend/circuit_validator.py:74-80 | an ERROR exactly when both `type` and `circuit_type` are missing, or `components` is missing or empty |
| CircuitValidation.NumericPart | backend/circuit_validator.py:133 | the kept text holds only digits and dots, the same digits (any, all zero) and as many dots as the value, and is empty exactly when the value has no digit or dot |
| CircuitValidation.ValueVerdict | backend/circuit_validator.py:121-150 | at most one message; an ERROR exactly when the value is non-empty, has a digit, at most one dot and only zero digits, that is when it parses to a value that is not positive |
| CircuitValidation.ComponentVerdict | backend/circuit_validator.py:86-119 | a component raises KeyError exactly when it has an id and a value but no type; otherwise it gets an ERROR exactly when its id is missing or repeated, its type is missing, its nets are missing, not a list or fewer than two, or its value check errs |
| CircuitValidation.RunStops | backend/circuit_validator.py:86-119 | once a component raises, later components are not checked |
| CircuitValidation.RunStep | backend/circuit_validator.py:86-119 | one more component extends the run by that component's checks |
| CircuitValidation.SeenStep | backend/circuit_validator.py:92-97 | the seen-id set grows by the component's id when it has one |
| CircuitValidation.DuplicateNotesConcat | backend/circuit_validator.py:94-96 | duplicate-id messages of a concatenation add up |
| CircuitValidation.DuplicateNotesOfFields | backend/circuit_validator.py:94-115 | the field checks emit one duplicate-id message exactly when the id was seen before |
| CircuitValidation.DuplicateNotesOfComponent | backend/circuit_validator.py:86-119 | a component yields one duplicate-id message exactly when it has an id already seen |
| CircuitValidation.ValueNotesNone | backend/circuit_validator.py:121-150 | the value check never reports a duplicate id |
| CircuitValidation.DuplicatesCounted | backend/circuit_validator.py:94-97 | each occurrence of an id seen earlier yields exactly one duplicate-id ERROR |
| CircuitValidation.CountConcat | backend/circuit_validator.py:156-163 | occurrences in a concatenation add up |
| CircuitValidation.AddNetsFacts | backend/circuit_validator.py:160-163 | the inner loop adds exactly the component's nets, each with one more id per occurrence, and keeps the ids already listed |
| CircuitValidation.ConnMapFacts | backend/circuit_validator.py:154-163 | the dictionary holds exactly the nets seen, each with as many ids as the net has occurrences |
| CircuitValidation.ConnMapTallied | backend/circuit_validator.py:154-163 | every key in first-seen order has a non-empty id list whose length is its occurrence count |
| CircuitValidation.FloatQuiet | backend/circuit_validator.py:166-169 | the floating-net scan never adds an ERROR |
| CircuitValidation.FloatStep | backend/circuit_validator.py:166-169 | the warnings from key k on are key k's warning, then the rest's |
| CircuitValidation.Warned | backend/circuit_validator.py:168-169 | one warning per listed net |
| CircuitValidation.FloatWarningsAre | backend/circuit_validator.py:166-169 | the scan warns once per floating net, in first-seen order, naming its only component |
| CircuitValidation.FloatingReport | backend/circuit_validator.py:152-169 | the floating scan emits one WARNING per net occurring once, in first-seen order, naming that net's first component |
| CircuitValidation.GroundMessages | backend/circuit_validator.py:171-183 | at most one message, an ERROR exactly when no net of any component upper-cases to GND, GROUND or 0 |
| CircuitValidation.ValidateVerdict | backend/circuit_validator.py:38-66 | the run has an ERROR exactly when the required fields, the component checks, or the ground check on an RC type erred; the floating scan never decides it |
| CircuitValidation.CircuitValidator.constructor | backend/circuit_validator.py:34-36 | no messages and no errors |
| CircuitValidation.CircuitValidator.AddMessage | backend/circuit_validator.py:68-72 | appends one message and sets `has_errors` when its level is ERROR |
| CircuitValidation.CircuitValidator.Validate | backend/circuit_validator.py:38-66 | resets the state, adds exactly the reference run's messages, and returns `is_valid` as the absence of an ERROR among them, or the exception the run raised |
| CircuitValidation.CircuitValidator.CheckRequiredFields | backend/circuit_validator.py:74-80 | appends exactly the required-field messages |
| CircuitValidation.CircuitValidator.ValidateComponents | backend/circuit_validator.py:82-119 | the loop appends exactly the run's messages and reports its exception |
| CircuitValidation.CircuitValidator.CheckNext | backend/circuit_validator.py:86-119 | one pass of the loop extends the run by one component |
| CircuitValidation.CircuitValidator.CheckComponent | backend/circuit_validator.py:86-119 | appends exactly one component's messages and reports its exception |
| CircuitValidation.CircuitValidator.CheckFields | backend/circuit_validator.py:94-115 | appends exactly the duplicate, type and nets messages |
| CircuitValidation.CircuitValidator.ValidateComponentValue | backend/circuit_validator.py:121-150 | appends exactly the value check's messages |
| CircuitValidation.CircuitValidator.CheckFloatingNodes | backend/circuit_validator.py:152-169 | appends exactly the floating-net warnings and leaves `has_errors` unchanged |
| CircuitValidation.CircuitValidator.WarnFloating | backend/circuit_validator.py:166-169 | the warning loop appends one warning per key with fewer than two ids, in key order, and leaves `has_errors` unchanged |
| CircuitValidation.CircuitValidator.CheckGroundExists | backend/circuit_validator.py:171-183 | appends exactly the ground check's message, if any |
| CircuitValidation.CollectConnections | backend/circuit_validator.py:154-163 | the loop builds exactly the reference dictionary, with its keys in first-seen order |
| CircuitValidation.DefaultThenAppend | backend/circuit_validator.py:161-163 | creating an empty entry when the net is new and then appending the id is one owner step |
| CircuitValidation.NetsStep | backend/circuit_validator.py:160-163 | one more net of a component is one owner step, and extends the key order when the net is new |
| CircuitValidation.ConnectNets | backend/circuit_validator.py:160-163 | the inner loop adds the component's nets to the dictionary and to the key order |
| Models.ValidateComponent | backend/models.py:17-46 | an accepted component keeps the raw id, value, nets and type, has an id starting with a letter, a value with a digit and two different nets; a rejected one has at least one error |
| Models.ComponentRejections | backend/models.py:23-46 | an empty id, an id not starting with a letter, a value without a digit, and two equal nets are each rejected with their own error |
| Models.ItemErrors | backend/models.py:66 | no item errors exactly when every component from the index on is valid |
| Models.ComponentErrors | backend/models.py:66 | no errors for a component exactly when it is valid |
| Models.Validated | backend/models.py:66 | one validated component per raw one, in order |
| Models.ComponentsCheck | backend/models.py:69-93 | passes exactly when the ids are unique and, for a known type, the parts it needs are there; duplicate ids are reported first |
| Models.ComponentsField | backend/models.py:66-93 | an accepted list is non-empty, with unique ids, the parts the type needs, and every component well formed; a rejected one has errors |
| Models.NumericErrors | backend/models.py:54-61 | no error exactly when the field is absent or `float` accepts it |
| Models.ConstraintsField | backend/models.py:49-106 | accepted constraints have numeric present fields and the fields the circuit type needs; rejected ones have errors |
| Models.ValidateCircuit | backend/models.py:64-106 | an accepted circuit is well formed (non-empty unique well-formed components, type parts, type constraints) and has the raw circuit type |
| Models.TallySnoc | backend/models.py:119-120 | counting one more net keeps the count dictionary and its key order right |
| Models.GetFloatingNets | backend/models.py:115-122 | the loops return the nets counted fewer than twice, in first-appearance order |
| Models.CountNets | backend/models.py:117-120 | the counting loop tallies every net of every component, keys in first-appearance order |
| Models.CountInto | backend/models.py:119-120 | the inner loop extends the tally by one component's nets |
| Models.KeepFloating | backend/models.py:122 | the filter keeps exactly the keys counted fewer than twice, in key order |
| Models.TallyAt | backend/models.py:117-120 | each listed key holds its occurrence count |
| Models.FloatingStep | backend/models.py:122 | the filter from key k keeps key k when counted fewer than twice, then filters the rest |
| Models.Warnings | backend/models.py:136-142 | at most two warnings; the missing-GND warning exactly when no net is exactly "GND" |
| Models.ValidateCircuitJson | backend/models.py:126-148 | the circuit with its warnings exactly when the schema accepts it; otherwise no circuit and a non-empty error list |
| Models.SameNetTwiceRejected | backend/models.py:40-46 | a component joined to one net twice is rejected |
| Models.MissingCutoffRejected | backend/models.py:95-101 | an RC circuit without `cutoff_freq` is rejected |
| Models.DuplicateIdsRejected | backend/models.py:74-77 | two components with one id are rejected |
| Models.FloatingExactly | backend/models.py:115-122 | a net is floating exactly when it occurs once among all nets |
| Models.FloatingDistinct | backend/models.py:115-122 | the floating list names each net once |
| Models.FloatingSubsequence | backend/models.py:122 | filtering distinct keys gives distinct keys |
| DslGenerator.ConstraintEntries | backend/dsl_generator.py:52-53 | one `CONSTRAINT: k=v` line per entry, in dictionary order |
| DslGenerator.ComponentEntries | backend/dsl_generator.py:58-73 | one `COMP:` line per component, in input order |
| DslGenerator.ConnectionEntries | backend/dsl_generator.py:78-82 | one `NET:` line per connection, in input order |
| DslGenerator.DslLines | backend/dsl_generator.py:26-45 | the buffer starts with `# AutoCDA DSL - {type}` ("unknown" when absent) and a blank line |
| DslGenerator.JoinAvoids | backend/dsl_generator.py:47 | a character in neither the elements nor the separator is not in the join |
| DslGenerator.CompLineOneLine | backend/dsl_generator.py:59-71 | a component without newlines in its fields gives a one-line `COMP:` line |
| DslGenerator.ConnectionLineOneLine | backend/dsl_generator.py:79-82 | a connection without newlines gives a one-line `NET:` line |
| DslGenerator.ConstraintsOneLine | backend/dsl_generator.py:49-53 | constraint entries without newlines give one-line constraint lines |
| DslGenerator.ComponentsOneLine | backend/dsl_generator.py:55-73 | components without newlines give one-line component lines |
| DslGenerator.ConnectionsOneLine | backend/dsl_generator.py:75-82 | connections without newlines give one-line connection lines |
| DslGenerator.LinesOneLine | backend/dsl_generator.py:26-45 | no buffered line holds a newline when no text of the record does |
| DslGenerator.PartsOneLine | backend/dsl_generator.py:33-45 | each of the three optional sections is newline-free under that condition |
| DslGenerator.DslSplitsIntoLines | backend/dsl_generator.py:47 | splitting the output on newlines gives back the buffer's lines when the record holds no newline |
| DslGenerator.DslGenerator.constructor | backend/dsl_generator.py:13-14 | the buffer starts empty |
| DslGenerator.DslGenerator.JsonToDsl | backend/dsl_generator.py:16-47 | resets the buffer, leaves exactly the reference lines in it, and returns them joined by newlines, so the output depends only on the argument |
| DslGenerator.DslGenerator.AddConstraints | backend/dsl_generator.py:49-53 | appends the constraints heading and one line per entry |
| DslGenerator.DslGenerator.AddComponents | backend/dsl_generator.py:55-73 | appends the components heading and one line per component |
| DslGenerator.DslGenerator.AddConnections | backend/dsl_generator.py:75-82 | appends the connections heading and one line per connection |
| SkidlGenerator.ValueOf | backend/skidl_generator.py:60-62 | the value is None exactly when `value=` does not occur; otherwise it is one whitespace-free word, and `value=` followed by nothing raises IndexError |
| SkidlGenerator.NetNames | backend/skidl_generator.py:64-67 | the comma split gives at least one name, each stripped of edge spaces |
| SkidlGenerator.ParseComponent | backend/skidl_generator.py:46-74 | a line with fewer than two tokens raises IndexError; otherwise id, type and value are single words and every net name is stripped |
| SkidlGenerator.ParseConstraint | backend/skidl_generator.py:76-81 | succeeds exactly when the text holds a single `=`, else raises ValueError; key and value are stripped and free of `=` |
| SkidlGenerator.ConstraintStep | backend/skidl_generator.py:35-36 | a `CONSTRAINT:` line that parses appends its pair to the constraints and leaves the components alone |
| SkidlGenerator.ComponentStep | backend/skidl_generator.py:33-34 | a `COMP:` line that parses appends its component and leaves the constraints alone |
| SkidlGenerator.ComponentDecl | backend/skidl_generator.py:96-108 | a component gets a `Part(...)` line, starting with its id, exactly when its lower-cased type is one of the four supported ones |
| SkidlGenerator.BelowIrreflexive | backend/skidl_generator.py:123 | no name sorts before itself |
| SkidlGenerator.BelowTransitive | backend/skidl_generator.py:123 | the string order of `sorted` is transitive |
| SkidlGenerator.BelowTotal | backend/skidl_generator.py:123 | of two different names one sorts before the other |
| SkidlGenerator.BelowAsymmetric | backend/skidl_generator.py:123 | two names never sort before each other |
| SkidlGenerator.TailAbove | backend/skidl_generator.py:123 | in an increasing list every other name sorts after the first |
| SkidlGenerator.IncreasingUnique | backend/skidl_generator.py:123 | two increasing lists of the same names are equal, so the sorted order is unique |
| SkidlGenerator.Insert | backend/skidl_generator.py:118-123 | adding a name to an increasing list keeps it increasing and adds exactly that name |
| SkidlGenerator.SortedNames | backend/skidl_generator.py:118-123 | `sorted(set(...))` is increasing and holds exactly the names of the input |
| SkidlGenerator.NetDecl | backend/skidl_generator.py:124-125 | a net gets a `Net(...)` line exactly when its name is not empty |
| SkidlGenerator.PinLine | backend/skidl_generator.py:134-136 | a pin gets a connection line exactly when its net name is not empty |
| SkidlGenerator.ScanStep | backend/skidl_generator.py:31-36 | one more line of the loop is one more step of the scan, the first error ending it |
| SkidlGenerator.PinsStep | backend/skidl_generator.py:134-136 | one more net appends the line of the pin with its 1-based number |
| SkidlGenerator.ScanFromAppend | backend/skidl_generator.py:31-36 | scanning two blocks of lines is scanning the first and continuing with the second from its result |
| SkidlGenerator.SkipsIgnored | backend/skidl_generator.py:31-36 | a line that starts with neither keyword once stripped can be removed without changing the result |
| SkidlGenerator.IgnoredByFirst | backend/skidl_generator.py:32-35 | a line that is empty or starts with a character that is neither a space nor `C` is ignored |
| SkidlGenerator.ComponentsIgnoreConstraints | backend/skidl_generator.py:31-41 | the components the scan collects, and whether it fails, do not depend on the constraints collected so far |
| SkidlGenerator.LineIgnoresConstraints | backend/skidl_generator.py:32-36 | the same for a single line |
| SkidlGenerator.DropsConstraint | backend/skidl_generator.py:35-41 | a constraint line that parses does not change the script, since constraints are parsed but never written |
| SkidlGenerator.ParseLineRStrip | backend/skidl_generator.py:32 | trailing spaces of a line do not change its step |
| SkidlGenerator.ScanDropBlank | backend/skidl_generator.py:31-36 | a trailing empty line does not change the scan |
| SkidlGenerator.ScanOne | backend/skidl_generator.py:31-36 | the scan of a single line is that line's step |
| SkidlGenerator.ScanLastRStrip | backend/skidl_generator.py:31-36 | trailing spaces on the last line do not change the scan |
| SkidlGenerator.TextDropBlank | backend/skidl_generator.py:26 | stripping the text removes a trailing empty line |
| SkidlGenerator.TextTrimLast | backend/skidl_generator.py:26 | stripping the joined text removes only the trailing spaces of the last line, when the first line starts with non-space |
| SkidlGenerator.ScanText | backend/skidl_generator.py:26-36 | for lines without newlines whose first line does not start with a space, splitting the joined, stripped text and scanning gives the same result as scanning the lines |
| SkidlGenerator.LinesFront | backend/skidl_generator.py:26 | the single-line condition carries over to the front of a list |
| SkidlGenerator.ScanTextBlank | backend/skidl_generator.py:26-36 | the text round trip when the last line is empty |
| SkidlGenerator.ScanTextTrim | backend/skidl_generator.py:26-36 | the text round trip when the last line is not blank |
| SkidlGenerator.SortSet | backend/skidl_generator.py:123 | the loop builds an increasing list holding exactly the names of the set |
| SkidlGenerator.GenerateComponents | backend/skidl_generator.py:92-111 | the loop writes the heading, the `Part(...)` line of each supported component in order, and a blank line |
| SkidlGenerator.ConnectPins | backend/skidl_generator.py:134-136 | the loop writes one line per non-empty net, numbered from 1 |
| SkidlGenerator.CollectNets | backend/skidl_generator.py:118-120 | the set holds exactly the net names of all components |
| SkidlGenerator.DeclareNets | backend/skidl_generator.py:123-125 | the loop writes the `Net(...)` line of each non-empty name, in the given order |
| SkidlGenerator.ConnectAll | backend/skidl_generator.py:130-136 | the loop writes every component's pin lines in input order |
| SkidlGenerator.GenerateConnections | backend/skidl_generator.py:113-139 | the code declares the distinct non-empty nets in sorted order, then connects every pin |
| SkidlGenerator.ParseLines | backend/skidl_generator.py:31-36 | the loop collects components and constraints in order, or returns the first parse error |
| SkidlGenerator.DslToSkidl | backend/skidl_generator.py:16-44 | the result is the header, the component and connection code of the parsed components and the footer, or the first parse error |
| RoundTrip.ValueRoundTrip | backend/skidl_generator.py:60-62 | the `value=` token written for a component reads back as its value, and no token reads back as None |
| RoundTrip.NetNamesRoundTrip | backend/skidl_generator.py:64-67 | the `nets=(...)` text written for a component splits back into exactly its net names |
| RoundTrip.ComponentRoundTrip | backend/skidl_generator.py:46-74 | `_parse_component` of the `COMP:` line written for a component gives back its id, type, value and nets |
| RoundTrip.ConstraintRoundTrip | backend/skidl_generator.py:76-81 | `_parse_constraint` of the `CONSTRAINT:` line written for an entry gives back the entry |
| RoundTrip.RecoveredAll | backend/dsl_generator.py:55-73 | one recovered component per component, in order |
| RoundTrip.ScanConstraintLines | backend/dsl_generator.py:52-53 | scanning the constraint lines appends every entry, in order |
| RoundTrip.ScanComponentLines | backend/dsl_generator.py:58-73 | scanning the component lines appends every recovered component, in order |
| RoundTrip.ConnectionIgnored | backend/dsl_generator.py:79-82 | the parser skips every `NET:` line |
| RoundTrip.ScanConnectionLines | backend/dsl_generator.py:78-82 | scanning the connection lines changes nothing |
| RoundTrip.ScanConstraintPart | backend/dsl_generator.py:49-53 | the whole constraints section, heading and blank included, appends exactly the entries |
| RoundTrip.ScanComponentPart | backend/dsl_generator.py:55-73 | the whole components section appends exactly the recovered components |
| RoundTrip.ScanConnectionPart | backend/dsl_generator.py:75-82 | the whole connections section changes nothing |
| RoundTrip.DslScan | backend/skidl_generator.py:26-36 | the parse loop over the lines `json_to_dsl` buffers gives back every constraint and every component of the record, in order |
| RoundTrip.DslToScript | backend/skidl_generator.py:38-44 | the script for those lines is the script for the record's components |
| RoundTrip.DslOpen | backend/dsl_generator.py:26-45 | every buffered line is blank or starts with a non-space character |
| RoundTrip.DslToSkidlText | backend/skidl_generator.py:16-44 | `dsl_to_skidl(json_to_dsl(j))` is the script for the record's components when every text fits on one line and every entry can be carried by its line |
| Explainer.Span | backend/explainer.py:221 | the end of the longest run of matching characters from a position: all before it match and the next does not |
| Explainer.PrefixFrom | backend/explainer.py:227-229 | the first unit prefix, in table order, that the unit starts with; none earlier matches |
| Explainer.UnitScale | backend/explainer.py:204-231 | the scale applied to the number is always positive, 1 when no prefix matches |
| Explainer.NumberEnd | backend/explainer.py:221 | the digits-and-dots run the pattern matches at the start ends within the text |
| Explainer.ParseText | backend/explainer.py:219-233 | None exactly when the text does not start with a digit or '.'; a ValueError exactly when `float` rejects that run (two dots, or no digit); otherwise a non-negative number |
| Explainer.ScaledNonNegative | backend/explainer.py:229 | a non-negative number times a positive scale stays non-negative |
| Explainer.CaseInsensitive | backend/explainer.py:201 | two texts that differ only in letter case parse to the same result |
| Explainer.NoMilli | backend/explainer.py:204-217 | no unit scales by a thousandth: a unit starting with "m" is mega |
| Explainer.ParseTextValue | backend/explainer.py:221-231 | where `float` reads the leading digits-and-dots run as x, the result is x times the scale of the unit that follows |
| Explainer.ParseNumberUnit | backend/explainer.py:221-231 | digits followed directly by a lower-case unit parse to the integer the digits spell times the unit's scale |
| Explainer.NormalisedDigitsUnit | backend/explainer.py:201 | stripping and lower-casing digits followed by a unit in any case keeps the digits and lower-cases the unit |
| Explainer.DigitsUnitExample | backend/explainer.py:195-233 | a value written as digits and a unit in any case parses to the digits' integer times the unit's scale |
| Explainer.ScaleExamples | backend/explainer.py:204-231 | "v" scales by 1, "nf" by 1e-9, "hz" by 100 (the "h" prefix), "kohm" by 1000 |
| Explainer.ExampleProducts | backend/explainer.py:204-231 | 9 times the scale of "v" is 9, 159 times that of "nf" is 1.59e-7, and 100 times that of "hz" is 10000 |
| Explainer.NineVolts | backend/explainer.py:195-233 | `_parse_value("9V")` is 9.0 |
| Explainer.NanoFarads | backend/explainer.py:195-233 | `_parse_value("159nF")` is 1.59e-7 |
| Explainer.HundredHertz | backend/explainer.py:195-233 | `_parse_value("100Hz")` is 10000.0, because "h" is read as hecto |
| Explainer.UnitExamples | backend/explainer.py:195-233 | the three values together: "9V" is 9, "159nF" is 159e-9 and "100Hz" is 10000 |
| Explainer.Mentions | backend/explainer.py:66-70 | one phrase for a cutoff frequency, when given, and then one for the voltage conversion, when both voltages are given; each phrase quotes the values |
| Explainer.Items | backend/explainer.py:83-92 | one entry per component, in input order, each the item text of its component |
| Explainer.SentenceForms | backend/explainer.py:94-99 | one, two and three entries read "A", "A and B" and "A, B, and C" |
| Explainer.ComponentsPart | backend/explainer.py:78-101 | nothing for no components, otherwise exactly one sentence |
| Explainer.VerificationPart | backend/explainer.py:235-244 | at most one verification sentence, present exactly for the two RC filters and the voltage divider |
| Explainer.PickOf | backend/explainer.py:120-125 | reading a component fails exactly when `_parse_value` rejects its value; it keeps the text, and its number is never negative |
| Explainer.SelectStep | backend/explainer.py:119-125 | one more component is one more turn of the selection loop |
| Explainer.SelectFails | backend/explainer.py:119-125 | the loop raises exactly when some component it reads has a value `_parse_value` rejects |
| Explainer.RejectedStep | backend/explainer.py:119-125 | a list has a rejected selected value exactly when its front or its last component has one |
| Explainer.SelectSlots | backend/explainer.py:119-125 | without an error each slot holds the value of the last component selected for it; a component passing both tests goes to the first slot only |
| Explainer.SelectParsed | backend/explainer.py:119-125 | without an error each slot's number is what `_parse_value` makes of that slot's text |
| Explainer.SelectOneParsed | backend/explainer.py:119-125 | one turn of the loop keeps each slot's number equal to its text parsed |
| Explainer.SelectIgnores | backend/explainer.py:119-125 | a component neither test selects changes nothing |
| Explainer.SelectStops | backend/explainer.py:119-125 | once the loop has raised, later components change nothing |
| Explainer.SelectNonNegative | backend/explainer.py:154-160 | both selected numbers are non-negative |
| Explainer.UsablePositive | backend/explainer.py:127 | a number that passes the truth test is positive, so the divisions of the calculation are defined |
| Explainer.PickUsable | backend/explainer.py:127 | a selected value passes the truth test on text and number exactly when its text is given and parses to a non-zero number |
| Explainer.RcPart | backend/explainer.py:112-145 | raises exactly when a resistor or capacitor value is rejected; otherwise one section, starting "Calculations:", exactly when the last resistor's and the last capacitor's values are usable, and none otherwise |
| Explainer.DividerPart | backend/explainer.py:147-193 | raises exactly when an R1 or R2 value is rejected, or both are usable and a given input voltage is rejected; otherwise one section exactly when the last R1's and R2's values are usable: the fallback sentence naming them when the input voltage is absent, empty, has no number or is zero, else a text starting "Calculations:" |
| Explainer.InputParsed | backend/explainer.py:164-167 | the input voltage, parsed only when non-empty, raises exactly when it is rejected, and gives a non-zero number exactly when it is usable |
| Explainer.DividerWith | backend/explainer.py:162-193 | once R1 and R2 are picked: raises exactly when both are usable and the given input voltage is rejected; one section exactly when both are usable |
| Explainer.DividerWithText | backend/explainer.py:164-193 | the section is the fallback sentence naming R1 and R2 when the input voltage is not usable, and a calculation text otherwise |
| Explainer.CalculationPart | backend/explainer.py:103-193 | at most one section and none for a type without a formula; for an RC filter and for a divider, it raises and holds a section exactly as the RC and divider parts state |
| Explainer.Parts | backend/explainer.py:34-50 | the sections are the opening, the component sentence, at most one calculation (only for a type with a formula) and the verification, in that order |
| Explainer.SectionsLayout | backend/explainer.py:34-50 | the opening comes first, the component sentence second when there are components, the calculation next, and the verification last when the type has one; one to four sections |
| Explainer.SelectValues | backend/explainer.py:119-125 | the loop computes the selection, stopping at the first parse error |
| Explainer.ExplanationGenerator.constructor | backend/explainer.py:20-21 | the parts start empty |
| Explainer.ExplanationGenerator.GenerateExplanation | backend/explainer.py:23-50 | resets the parts, leaves exactly the sections in them and returns them joined by blank lines, or the parse error |
| Explainer.ExplanationGenerator.AddOpening | backend/explainer.py:52-76 | appends the opening sentence |
| Explainer.ExplanationGenerator.ExplainComponents | backend/explainer.py:78-101 | appends the component sentence, if any |
| Explainer.ExplanationGenerator.ExplainCalculations | backend/explainer.py:103-193 | appends the calculation section, or reports the parse error |
| Explainer.ExplanationGenerator.ExplainRc | backend/explainer.py:112-145 | appends the RC calculation section when R and C are usable, or reports the parse error |
| Explainer.ExplanationGenerator.ExplainDivider | backend/explainer.py:147-193 | appends the divider section, or the fallback sentence when the input voltage gives no number, or reports the parse error |
| Explainer.ExplanationGenerator.AppendDivider | backend/explainer.py:162-193 | once R1 and R2 are picked, appends what the divider part holds for them, or reports the input voltage's parse error |
| Explainer.ExplanationGenerator.AddVerification | backend/explainer.py:235-244 | appends the verification sentence of the type, if any |
| FileManager.Components | backend/file_manager.py:144-145 | the scrape finds no more pairs than there are stretches, and exactly the (ref, value) pairs of the component records |
| FileManager.ComponentsAppend | backend/file_manager.py:144-145 | the components are found in file order: scraping two stretches is scraping each |
| FileManager.FirstOf | backend/file_manager.py:148-150 | the first net header (or node record) at or after a position, none before it; or there is none |
| FileManager.NetMatchesStep | backend/file_manager.py:148-150 | a match is the first header from the search position and the first node record after it, and the search resumes just after that node record |
| FileManager.NetMatchesResume | backend/file_manager.py:150 | after any match the search resumes just past the node record that ended it |
| FileManager.NetMatchesChain | backend/file_manager.py:150 | each later match is the one a search finds from just after the previous one |
| FileManager.NetMatchesFound | backend/file_manager.py:148-150 | the search finds a match exactly when some net header is followed by a node record |
| FileManager.NetMatchesSpan | backend/file_manager.py:148-150 | every match spans a header and the first node record after it |
| FileManager.NoNodes | backend/file_manager.py:154-155 | a stretch without node records yields no nodes |
| FileManager.OneNodePerMatch | backend/file_manager.py:154-156 | the text of a match holds exactly one node record, the one that ends it, so each match adds one endpoint |
| FileManager.GroupedKeys | backend/file_manager.py:149-153 | the dictionary's nets are exactly the names some match carries |
| FileManager.GroupedEndpoints | backend/file_manager.py:150-156 | each net lists one endpoint per match naming it, in match order |
| FileManager.NoneNamed | backend/file_manager.py:150-156 | a name no match carries has no endpoints |
| FileManager.GroupedSnoc | backend/file_manager.py:151-156 | one more match extends the dictionary by the endpoints it finds |
| FileManager.AppendNodes | backend/file_manager.py:155-156 | the inner loop appends every node record found, in order |
| FileManager.ExtractNets | backend/file_manager.py:148-156 | the loop builds the dictionary of every matched net and its endpoints |
| FileManager.WithPrefix | backend/file_manager.py:159-161 | the sub-list holds exactly the components whose reference starts with the prefix |
| FileManager.WithPrefixAppend | backend/file_manager.py:159-161 | the filter keeps file order: filtering two lists is filtering each |
| FileManager.WithPrefixOne | backend/file_manager.py:159-161 | a single component is kept exactly when its reference has the prefix |
| FileManager.ClassifyIgnoresOthers | backend/file_manager.py:159-175 | a component whose reference starts with none of R, C and L does not change the layout chosen |
| FileManager.RcWhateverElse | backend/file_manager.py:164-166 | an RC stage stays an RC stage whatever is added other than a resistor or a capacitor |
| FileManager.RcPairDistinct | backend/file_manager.py:164-166 | the RC stage's resistor and capacitor are one each and have different references |
| FileManager.OutputOrder | backend/file_manager.py:708-712 | the output lists every piece once, parts first, then power symbols, wires and junctions, then labels |
| FileManager.RcFilterSchematic | backend/file_manager.py:180-393 | the method draws the RC stage of the layout for a resistor and a capacitor with different references, with 26 identifiers drawn |
| FileManager.RcLabelsAttached | backend/file_manager.py:286-310 | the IN and OUT labels each sit on a wire |
| FileManager.RcGroundTie | backend/file_manager.py:312-391 | every wire runs straight except the last, which ties the two ground symbols together on a slant |
| FileManager.RcCapacitorWired | backend/file_manager.py:294-330 | the capacitor's pins and both ground pins are wired |
| FileManager.RcPinsMissed | backend/file_manager.py:217-226 | as written, no wire ends at either pin of the source or of the resistor |
| FileManager.RcFixedPinsWired | backend/file_manager.py:346-355 | with the resistor turned and the source wired at its library pins, every pin is wired and both labels sit on wires |
| FileManager.VoltageDividerSchematic | backend/file_manager.py:502-681 | the method draws the divider of the layout for two resistors with different references, with 22 identifiers drawn |
| FileManager.DividerPinsWired | backend/file_manager.py:608-679 | every pin of every symbol of the divider is wired |
| FileManager.DividerGroundTie | backend/file_manager.py:608-679 | every wire of the divider runs straight except the last, which ties the second ground symbol to the first on a slant |
| FileManager.DividerVoutAdrift | backend/file_manager.py:620-624 | as written, the VIN label sits on a wire but the VOUT label on none |
| FileManager.DividerFixedLabels | backend/file_manager.py:622-624 | with VOUT on the wire between the resistors, both labels sit on wires |
| FileManager.GenerateSchematic | backend/file_manager.py:135-178 | an unreadable netlist gives the empty schematic; otherwise the layout the decision table picks is drawn, the RL and generic cases empty |
| PyFloat.DigitsParse | backend/explainer.py:223 | `float` reads a run of decimal digits as the integer it spells |
| PyFloat.DigitsScan | backend/explainer.py:223 | a run of digits scans as an integer part with no fraction and no exponent |
| PyFloat.DigitsAndDotsParse | backend/circuit_validator.py:141-150 | `float` accepts a text of digits and dots exactly when it has at most one dot and at least one digit; the value is then non-negative, and zero exactly when every digit is '0' |
| PyFloat.ScanCases | backend/circuit_validator.py:142 | a text of digits and dots is digits alone, digits around one dot, or holds a second dot; the first two shapes scan as the literal they spell |
| PyFloat.DotCount | backend/circuit_validator.py:142 | the three shapes hold no dot, one dot and at least two dots |

## Left out

- Running SKiDL and KiCad (`execute_skidl`, `convert_to_kicad`), cleanup of old files and download paths: subprocesses with timeouts, the filesystem and the clock.
- Reading the netlist file: the schematic generator takes the file's contents as a token stream, or `None` when the read fails, which takes the exception path to the empty schematic.
- The netlist's characters: the two regular expressions are modelled over a stream of component records, net headers, node records and other text, not over the raw s-expression text.
- The `nets` dictionary of `_generate_kicad_schematic_file` is computed and its grouping proved, but no layout reads it, as in the code.
- The schematic text: each layout is modelled as its placed symbols, wires, junctions and labels with their coordinates. The verbatim `lib_symbols` preamble, the property blocks and the number formatting of coordinates are not reproduced. The pin offsets the preamble gives each library symbol are kept.
- `uuid.uuid4()` is the next number of an identifier counter the caller seeds, and `datetime.now()` is a date parameter, so identifiers are modelled as distinct numbers rather than random strings.
- Floating point: magnitudes are exact reals, and the binary rounding of IEEE doubles is not modelled. `math.pi` is a fixed positive constant of which the proofs use only its sign. `10 ** floor(log10 v)` is the power of ten `Decades.Decade` computes.
- Printed digits: `.1f`, `.2f`, `.4f`, `.2e`, `.6e` and `str(float)` are kept as the number and the format requested (`PyFloat.Rendered`). The characters those formats print are not modelled; only the suffix chosen is.
- `Explainer.RcPart` and `Explainer.DividerPart`: the f_c and V_out figures inside the calculation texts go through the rendering parameter `show`, so the contracts do not state the text after its "Calculations:" heading. They do state which components are selected, when the section appears, when the divider's fallback sentence appears and what it says, and when an error is raised.
- Hashing: `hashlib.md5` of the normalised description is treated as injective, so the cache is keyed by the normalised text itself.
- The JSON file behind `IssueTracker`: loading and saving are abstracted. The constructor takes the records the file held, and the timestamp is a parameter.
- The message texts the schema library (pydantic) prints for a failed field: `models.dfy` records which check failed, not its wording.
- The prose of the offline demo circuits: only the keys, the fields that the lookups read, and the order are kept.
- `QaResponses.GetQaResponse` and `QaResponses.SearchQa` take the Q&A store as a parameter, any dictionary in insertion order. The ten entries of `QA_DATABASE` are not reproduced, so nothing is stated about the answers of particular keys.
- `get_all_qa_pairs` returns the store itself. With the store a parameter it is the identity, so it has no member.
- `CircuitOptimizer.OptimizeRcPair` returns the resistor, the capacitor, the actual and target frequencies and the error percentage of `optimize_rc_pair`. The "reasoning" text it returns beside them (circuit_optimizer.py:112) is dropped. That text quotes the actual frequency to one decimal and the error to two, and neither rendering is modelled.
- The HTTP API, the frontend, the LLM intent extractor, telemetry, logging, configuration and test scripts are not part of this model.
- `FileManager.RcFilterSchematic`: the drawing is stated when the resistor and the capacitor have different references, which every RC stage the decision table picks has (`FileManager.RcPairDistinct`).
- `FileManager.VoltageDividerSchematic`: when both resistors carry the same reference, the method is stated only to produce a full schematic, because the position dictionary then keeps only the lower resistor's pins.
- `Explainer.VerificationPart`: the contract says when the check sentence appears, but not its wording. The three sentences are constants of the model.
- `Strings.IsDigit`, `Strings.IsAlpha` and `Strings.Lower` cover ASCII only; `Strings.IsSpace` follows Python's whitespace. Python's `str.isdigit`, `str.isalpha`, `str.lower`, `\d` and `re.IGNORECASE` are Unicode-aware: '²' and '٥' are digits, 'Ω' is a letter, `re.IGNORECASE` matches 'ſ' against "s", and "İ".lower() is two characters long. So every member that tests characters or lower-cases through these helpers agrees with the code on ASCII text only. Those are `InputValidator`, `UserInput`, `Caching.CacheKey`, `Models`, `CircuitValidation`, `SkidlGenerator.ComponentDecl`, `Explainer.ParseValue`, `OfflineCircuits.GetCachedCircuit`, and `QaResponses.SearchQa` with `QaResponses.HitsExactly`. For example:
  - Python lower-cases "1\u212A" (KELVIN SIGN) to "1k", so `_parse_value` reads 1000.0, where `Explainer.ParseValue` reads 1.0.
  - "low-pass 1\u212AHZ" selects the rc_lowpass_1khz entry in `get_cached_circuit`, and nothing in `OfflineCircuits.GetCachedCircuit`.
  - The keyword "Ω" finds an entry containing "ω" in `search_qa`, and nothing in `QaResponses.SearchQa`.
- `PyFloat.ParseFloat` reads decimal literals only. Python's `float` also accepts "inf", "infinity" and "nan" in any case and with a sign, underscores between digits such as "1_000", and non-ASCII digits. For those texts, `Models.NumericErrors` and `ComponentValues.ParseValue` report an error where the code reads a number. `Explainer.ParseValue` is unaffected by `float`'s extra forms, because its pattern passes `float` only ASCII digits and dots. It is still subject to the lower-casing difference in the line above.
- `CircuitJson`: a JSON `null` where a string is expected is read as "". The code's truth tests treat the two alike. It differs where an f-string prints it as "None" (component items, the explainer texts, error messages) and where the validator's duplicate-id set counts `None` and "" as different ids.
- `CircuitJson`: the record types hold only what the model's field types allow. These JSON values have no representation, and the code's handling of them is not modelled:
  - `"components": null` or a non-list: `_validate_components` raises TypeError when it enumerates it (`circuit_validator.py:86`).
  - `"nets": null` or a number: the validator reports "'nets' must be a list", then `_check_floating_nodes` raises TypeError when it iterates it (`circuit_validator.py:160`).
  - `"nets"` given as a dictionary: its keys are iterated as the net names.
  - A net name that is not a string: `net.upper()` raises AttributeError (`circuit_validator.py:177`).
- `Models.IdErrors`: an `"id": null` is read as "" and reported as `IdEmpty`. Pydantic reports "none is not an allowed value" for it instead; both reject the component.

## Findings

| source | as written | input that shows it | evidently intended | confidence | as-written member | corrected member |
|---|---|---|---|---|---|---|
| backend/file_manager.py:217-226 | the RC layout takes the unturned resistor's pins to lie 5.08 left and right of (120, 100), and the source's to lie 3.81 above and below (80, 110). The library drawings put them 3.81 above and below the resistor and 6.35 above and below the source, so no wire ends at any of those four pins | any netlist with one R and one C reference, e.g. R1 = 1k and C1 = 159n | the resistor turned a quarter so its pins lie 3.81 left and right, and the source wired at (80, 103.65) and (80, 116.35); then every pin is wired and both labels sit on wires | not executed | FileManager.RcPinsMissed | FileManager.RcFixedPinsWired |
| backend/file_manager.py:620-624 | the VOUT label is placed 5 right of and 5 below the upper resistor's pin 2, at (145, 108.81), where no wire runs, so it names no net | any netlist with two R references and no C, e.g. R1 = 4.7k and R2 = 10k | the label on the wire between the resistors, at (140, 108.81); then both labels sit on wires | not executed | FileManager.DividerVoutAdrift | FileManager.DividerFixedLabels |

The corrected drawings are `FileManager.RcDrawingFixed` and `FileManager.DividerDrawingFixed`. The two layout methods still draw what the code draws (`FileManager.RcDrawing`, `FileManager.DividerDrawing`), so that `FileManager.GenerateSchematic` stays faithful to the source.

=== FILE: caching.dfy ===
/**
 * The request cache of `utils/caching.py`: the module-level dictionary `REQUEST_CACHE`
 * becomes the field `entries` of a `RequestCache` object, and the module functions that
 * read or rebind it become its methods. A key is the normalised description
 * `description.lower().strip()`; the md5 digest taken of it is treated as injective, so
 * the model keys the map by the normalised text itself.
 */
module Caching {
  import opened Wrappers
  import opened Strings

  /** One component of a cached result. */
  datatype ResultPart = ResultPart(id: string, kind: string, value: string)

  /** A cached circuit-generation result, with the fields the demo results carry. */
  datatype CircuitResult = CircuitResult(circuitType: string, components: seq<ResultPart>, explanation: string)

  /** `description.lower().strip()`, the text the key is computed from. */
  function CacheKey(description: string): (k: string)
    ensures |k| <= |description|
    ensures NoEdgeSpace(k)
  {
    Strip(Lower(description))
  }

  /** The result stored for the description's key, if any. */
  function LookupIn(entries: map<string, CircuitResult>, description: string): (r: Option<CircuitResult>)
    ensures r.Some? <==> CacheKey(description) in entries
    ensures r.Some? ==> r.value == entries[CacheKey(description)]
  {
    var key := CacheKey(description);
    if key in entries then Some(entries[key]) else None
  }

  /** The dictionary after `REQUEST_CACHE[get_cache_key(description)] = result`. */
  function Store(entries: map<string, CircuitResult>, description: string, result: CircuitResult): (m: map<string, CircuitResult>)
    ensures m.Keys == entries.Keys + {CacheKey(description)}
  {
    entries[CacheKey(description) := result]
  }

  /** Storing each item in turn, first to last. */
  function StoreAll(entries: map<string, CircuitResult>, items: seq<(string, CircuitResult)>): map<string, CircuitResult>
    decreases |items|
  {
    if items == [] then entries else StoreAll(Store(entries, items[0].0, items[0].1), items[1..])
  }

  /** The descriptions and results of `DEMO_CIRCUITS`. */
  const DemoLowPassKey := "design a low-pass rc filter with 1khz cutoff frequency"
  const DemoDividerKey := "create a voltage divider that converts 9v to 5v"

  const DemoLowPassResult :=
    CircuitResult("rc_lowpass",
                  [ResultPart("R1", "resistor", "1k"), ResultPart("C1", "capacitor", "159n")],
                  "RC low-pass filter with 1kHz cutoff. Using f_c = 1/(2πRC), with R=1kΩ and C=159nF.")

  const DemoDividerResult :=
    CircuitResult("voltage_divider",
                  [ResultPart("R1", "resistor", "1k"), ResultPart("R2", "resistor", "1.25k")],
                  "Voltage divider from 9V to 5V. Using Vout = Vin × (R2/(R1+R2)).")

  /** `DEMO_CIRCUITS`, in dictionary order. */
  const DemoCircuits: seq<(string, CircuitResult)> :=
    [(DemoLowPassKey, DemoLowPassResult), (DemoDividerKey, DemoDividerResult)]

  class RequestCache {
    var entries: map<string, CircuitResult>

    /** `REQUEST_CACHE = {}` at import time. */
    constructor()
      ensures entries == map[]
    {
      entries := map[];
    }

    /** `get_cached_result(description)`: the stored result for its key, or `None`. */
    method GetCachedResult(description: string) returns (r: Option<CircuitResult>)
      ensures r == LookupIn(entries, description)
      ensures r.Some? <==> CacheKey(description) in entries
    {
      var key := CacheKey(description);
      if key in entries {
        r := Some(entries[key]);
      } else {
        r := None;
      }
    }

    /** `cache_result(description, result)` */
    method CacheResult(description: string, result: CircuitResult)
      modifies this
      ensures entries == Store(old(entries), description, result)
    {
      var key := CacheKey(description);
      entries := entries[key := result];
    }

    /** `clear_cache()` rebinds the dictionary to an empty one. */
    method ClearCache()
      modifies this
      ensures entries == map[]
    {
      entries := map[];
    }

    /** `get_cache_size()` */
    method GetCacheSize() returns (n: nat)
      ensures n == |entries|
    {
      n := |entries|;
    }

    /** `preload_demo_cache()`: `cache_result` for every demo entry, in dictionary order. */
    method PreloadDemoCache()
      modifies this
      ensures entries == StoreAll(old(entries), DemoCircuits)
    {
      var i := 0;
      while i < |DemoCircuits|
        invariant 0 <= i <= |DemoCircuits|
        invariant StoreAll(entries, DemoCircuits[i..]) == StoreAll(old(entries), DemoCircuits)
      {
        assert DemoCircuits[i..][1..] == DemoCircuits[i + 1..];
        CacheResult(DemoCircuits[i].0, DemoCircuits[i].1);
        i := i + 1;
      }
    }
  }

  lemma LowerIdempotent(s: string)
    ensures Lower(Lower(s)) == Lower(s)
  {
    assert forall i :: 0 <= i < |s| ==> Lower(Lower(s))[i] == Lower(s)[i];
  }

  /** Whitespace has no case, and lower-casing never makes or removes whitespace. */
  lemma SpaceHasNoCase(c: char)
    ensures IsSpace(LowerChar(c)) == IsSpace(c)
    ensures IsSpace(c) ==> LowerChar(c) == c
  {
  }

  /** Lower-casing and stripping leading whitespace commute. */
  lemma {:induction false} LowerLStrip(s: string)
    ensures Lower(LStrip(s)) == LStrip(Lower(s))
    decreases |s|
  {
    if s != [] {
      SpaceHasNoCase(s[0]);
      if IsSpace(s[0]) {
        assert Lower(s)[1..] == Lower(s[1..]);
        LowerLStrip(s[1..]);
      }
    }
  }

  /** Lower-casing and stripping trailing whitespace commute. */
  lemma {:induction false} LowerRStrip(s: string)
    ensures Lower(RStrip(s)) == RStrip(Lower(s))
    decreases |s|
  {
    if s != [] {
      SpaceHasNoCase(s[|s| - 1]);
      if IsSpace(s[|s| - 1]) {
        assert Lower(s)[..|s| - 1] == Lower(s[..|s| - 1]);
        LowerRStrip(s[..|s| - 1]);
      }
    }
  }

  lemma LowerStrip(s: string)
    ensures Lower(Strip(s)) == Strip(Lower(s))
  {
    LowerLStrip(s);
    LowerRStrip(LStrip(s));
  }

  /** A key is its own normalised form. */
  lemma CacheKeyIdempotent(description: string)
    ensures CacheKey(CacheKey(description)) == CacheKey(description)
  {
    var t := Lower(description);
    LowerStrip(t);
    LowerIdempotent(description);
    StripNoEdgeSpace(Strip(t));
  }

  /** The key ignores case and surrounding whitespace. */
  lemma CacheKeyNormalises(description: string)
    ensures CacheKey(Upper(description)) == CacheKey(description)
    ensures CacheKey(Strip(description)) == CacheKey(description)
  {
    LowerOfUpper(description);
    KeyOfStripped(description);
  }

  lemma LowerOfUpper(s: string)
    ensures Lower(Upper(s)) == Lower(s)
  {
    assert forall i :: 0 <= i < |s| ==> Lower(Upper(s))[i] == Lower(s)[i];
  }

  lemma KeyOfStripped(description: string)
    ensures CacheKey(Strip(description)) == CacheKey(description)
  {
    LowerStrip(description);
    StripNoEdgeSpace(Strip(Lower(description)));
  }

  /** A stored result is found under every description with the same normalised form. */
  lemma LookupAfterStore(entries: map<string, CircuitResult>, d: string, d2: string, result: CircuitResult)
    ensures LookupIn(Store(entries, d, result), d2) ==
              if CacheKey(d2) == CacheKey(d) then Some(result) else LookupIn(entries, d2)
  {
  }

  /** In particular under its upper-cased and under its stripped form. */
  lemma FoundUnderVariants(entries: map<string, CircuitResult>, d: string, result: CircuitResult)
    ensures LookupIn(Store(entries, d, result), Upper(d)) == Some(result)
    ensures LookupIn(Store(entries, d, result), Strip(d)) == Some(result)
  {
    CacheKeyNormalises(d);
  }

  /** Overwriting an existing key keeps the size; a new key adds one. */
  lemma StoreSize(entries: map<string, CircuitResult>, d: string, result: CircuitResult)
    ensures CacheKey(d) in entries ==> |Store(entries, d, result)| == |entries|
    ensures CacheKey(d) !in entries ==> |Store(entries, d, result)| == |entries| + 1
  {
    var m := Store(entries, d, result);
    if CacheKey(d) in entries {
      assert m.Keys == entries.Keys;
    } else {
      assert m.Keys == entries.Keys + {CacheKey(d)};
    }
  }

  /** None of the items normalises to key. */
  predicate NoneKeyed(items: seq<(string, CircuitResult)>, key: string) {
    forall i :: 0 <= i < |items| ==> CacheKey(items[i].0) != key
  }

  /** No two items normalise to the same key. */
  predicate KeysDistinct(items: seq<(string, CircuitResult)>) {
    forall i, j :: 0 <= i < j < |items| ==> CacheKey(items[i].0) != CacheKey(items[j].0)
  }

  lemma NoneKeyedTail(items: seq<(string, CircuitResult)>, key: string)
    requires items != [] && NoneKeyed(items, key)
    ensures CacheKey(items[0].0) != key && NoneKeyed(items[1..], key)
  {
    assert forall i :: 1 <= i < |items| ==> items[1..][i - 1] == items[i];
  }

  lemma KeysDistinctTail(items: seq<(string, CircuitResult)>)
    requires items != [] && KeysDistinct(items)
    ensures KeysDistinct(items[1..]) && NoneKeyed(items[1..], CacheKey(items[0].0))
  {
    assert forall i :: 1 <= i < |items| ==> items[1..][i - 1] == items[i];
  }

  /** A key none of the items normalises to keeps its entry through `StoreAll`. */
  lemma {:induction false} StoreAllOutside(entries: map<string, CircuitResult>, items: seq<(string, CircuitResult)>, key: string)
    requires NoneKeyed(items, key)
    ensures key in StoreAll(entries, items) <==> key in entries
    ensures key in entries ==> StoreAll(entries, items)[key] == entries[key]
    decreases |items|
  {
    if items != [] {
      NoneKeyedTail(items, key);
      StoreAllOutside(Store(entries, items[0].0, items[0].1), items[1..], key);
    }
  }

  /** With pairwise different keys, every item is found after `StoreAll`. */
  lemma {:induction false} StoreAllFinds(entries: map<string, CircuitResult>, items: seq<(string, CircuitResult)>, k: nat)
    requires k < |items| && KeysDistinct(items)
    ensures LookupIn(StoreAll(entries, items), items[k].0) == Some(items[k].1)
    decreases |items|
  {
    var rest := items[1..];
    KeysDistinctTail(items);
    var stored := Store(entries, items[0].0, items[0].1);
    assert StoreAll(entries, items) == StoreAll(stored, rest);
    if k == 0 {
      var key := CacheKey(items[0].0);
      assert key in stored && stored[key] == items[0].1;
      StoreAllOutside(stored, rest, key);
    } else {
      assert rest[k - 1] == items[k];
      StoreAllFinds(stored, rest, k - 1);
    }
  }

  /** A key ends with the description's last character when that one is neither space nor upper case. */
  lemma KeyKeepsLast(s: string)
    requires s != [] && !IsSpace(s[|s| - 1]) && !IsUpperAscii(s[|s| - 1])
    ensures CacheKey(s) != [] && CacheKey(s)[|CacheKey(s)| - 1] == s[|s| - 1]
  {
    var l := Lower(s);
    LowerKeepsLast(s);
    var t := LStrip(l);
    LStripKeepsLast(l);
    RStripKeepsAll(t);
    assert CacheKey(s) == t;
  }

  lemma LowerKeepsLast(s: string)
    requires s != [] && !IsUpperAscii(s[|s| - 1])
    ensures Lower(s) != [] && Lower(s)[|s| - 1] == s[|s| - 1]
  {
  }

  lemma LStripKeepsLast(l: string)
    requires l != [] && !IsSpace(l[|l| - 1])
    ensures LStrip(l) != [] && LStrip(l)[|LStrip(l)| - 1] == l[|l| - 1]
  {
    var t := LStrip(l);
    assert t == l[|l| - |t|..];
  }

  lemma RStripKeepsAll(t: string)
    requires t != [] && !IsSpace(t[|t| - 1])
    ensures RStrip(t) == t
  {
  }

  /** Descriptions ending in different lower-case, non-space characters have different keys. */
  lemma KeysDifferAtEnd(s1: string, s2: string)
    requires s1 != [] && !IsSpace(s1[|s1| - 1]) && !IsUpperAscii(s1[|s1| - 1])
    requires s2 != [] && !IsSpace(s2[|s2| - 1]) && !IsUpperAscii(s2[|s2| - 1])
    requires s1[|s1| - 1] != s2[|s2| - 1]
    ensures CacheKey(s1) != CacheKey(s2)
  {
    KeyKeepsLast(s1);
    KeyKeepsLast(s2);
  }

  /** The two demo descriptions have different keys. */
  lemma DemoKeysDiffer()
    ensures CacheKey(DemoLowPassKey) != CacheKey(DemoDividerKey)
  {
    KeysDifferAtEnd(DemoLowPassKey, DemoDividerKey);
  }

  lemma DemoKeysDistinct()
    ensures forall i, j :: 0 <= i < j < |DemoCircuits| ==> CacheKey(DemoCircuits[i].0) != CacheKey(DemoCircuits[j].0)
  {
    forall i, j | 0 <= i < j < |DemoCircuits|
      ensures CacheKey(DemoCircuits[i].0) != CacheKey(DemoCircuits[j].0)
    {
      assert DemoCircuits[i].0 == DemoLowPassKey && DemoCircuits[j].0 == DemoDividerKey;
      DemoKeysDiffer();
    }
  }

  /** After preloading, each demo description finds its own demo result. */
  lemma PreloadFindsDemos(entries: map<string, CircuitResult>, k: nat)
    requires k < |DemoCircuits|
    ensures LookupIn(StoreAll(entries, DemoCircuits), DemoCircuits[k].0) == Some(DemoCircuits[k].1)
  {
    DemoKeysDistinct();
    StoreAllFinds(entries, DemoCircuits, k);
  }
}

=== FILE: circuit_json.dfy ===
/**
 * The circuit record as the validator, the DSL generator and the explainer receive it: a
 * dictionary whose keys may be missing. A missing key is `None`. A JSON `null` where a
 * string is expected is not a separate case: it is written as "", which the code's truth
 * tests treat alike, though an f-string prints it as "None" and a set of ids tells it
 * apart from "". Also the occurrence counting shared by the two floating-net scans: nets in
 * first-seen order and how often each occurs.
 */
module CircuitJson {
  import opened Wrappers
  import opened Strings

  /** A component's `nets` value: a list of names, or a string, whose iteration yields its characters. */
  datatype Nets = NetList(names: seq<string>) | NetText(text: string)

  /** What `for net in nets` visits. */
  function NetItems(n: Nets): (r: seq<string>)
    ensures n.NetList? ==> r == n.names
    ensures n.NetText? ==> |r| == |n.text|
  {
    match n
    case NetList(names) => names
    case NetText(t) => Chars(t)
  }

  /** `len(nets)` */
  function NetsLength(n: Nets): nat {
    match n
    case NetList(names) => |names|
    case NetText(t) => |t|
  }

  /** One entry of `components`. */
  datatype CompJson = CompJson(id: Option<string>, kind: Option<string>, value: Option<string>, nets: Option<Nets>)

  /** One entry of `connections`. */
  datatype ConnJson = ConnJson(net: Option<string>, nodes: Option<seq<string>>)

  /** No key occurs twice. */
  predicate DistinctKeys(d: seq<(string, string)>) {
    forall i, j :: 0 <= i < j < |d| ==> d[i].0 != d[j].0
  }

  /** A JSON object of strings: its entries in insertion order, each key once. */
  type Dict = d: seq<(string, string)> | DistinctKeys(d)

  /** `d.get(key)` */
  function Get(d: Dict, key: string): (r: Option<string>)
    ensures r.Some? <==> exists i :: 0 <= i < |d| && d[i].0 == key
    ensures r.Some? ==> exists i :: 0 <= i < |d| && d[i] == (key, r.value)
  {
    if d == [] then None
    else if d[0].0 == key then Some(d[0].1)
    else
      var rest: Dict := d[1..];
      assert forall i :: 1 <= i < |d| ==> d[i] == rest[i - 1];
      Get(rest, key)
  }

  /** The circuit record; `constraints` is a dictionary in insertion order. */
  datatype CircuitJson = CircuitJson(
    typeField: Option<string>,
    circuitType: Option<string>,
    components: Option<seq<CompJson>>,
    constraints: Option<Dict>,
    connections: Option<seq<ConnJson>>)

  /** Python truthiness of a value read from the record: present and not empty. */
  predicate Given(v: Option<string>) { v.Some? && v.value != [] }

  /** `comp.get('nets', [])`, iterated. */
  function NetsOf(c: CompJson): seq<string> {
    if c.nets.Some? then NetItems(c.nets.value) else []
  }

  /** Number of occurrences of x in xs. */
  function Count(xs: seq<string>, x: string): (n: nat)
    ensures n <= |xs|
    ensures n == 0 <==> x !in xs
  {
    if xs == [] then 0
    else Count(xs[..|xs| - 1], x) + (if xs[|xs| - 1] == x then 1 else 0)
  }

  lemma CountSnoc(xs: seq<string>, y: string, x: string)
    ensures Count(xs + [y], x) == Count(xs, x) + (if y == x then 1 else 0)
  {
    assert (xs + [y])[..|xs|] == xs;
  }

  /** The distinct elements of xs in the order of their first occurrence (dictionary key order). */
  function FirstSeen(xs: seq<string>): (r: seq<string>)
    ensures forall x :: x in r <==> x in xs
    ensures |r| <= |xs|
  {
    if xs == [] then []
    else
      var f := FirstSeen(xs[..|xs| - 1]);
      var last := xs[|xs| - 1];
      assert forall x :: x in xs <==> x in xs[..|xs| - 1] || x == last;
      if last in f then f else f + [last]
  }

  lemma FirstSeenSnoc(xs: seq<string>, y: string)
    ensures FirstSeen(xs + [y]) == if y in xs then FirstSeen(xs) else FirstSeen(xs) + [y]
  {
    assert (xs + [y])[..|xs|] == xs;
  }

  /** No net appears twice among the keys. */
  predicate Distinct(xs: seq<string>) {
    forall i, j :: 0 <= i < j < |xs| ==> xs[i] != xs[j]
  }

  lemma {:induction false} FirstSeenDistinct(xs: seq<string>)
    ensures Distinct(FirstSeen(xs))
  {
    if xs != [] {
      FirstSeenDistinct(xs[..|xs| - 1]);
    }
  }

  /** Index of the first occurrence of x. */
  function FirstIndex(xs: seq<string>, x: string): (k: nat)
    requires x in xs
    ensures k < |xs| && xs[k] == x && x !in xs[..k]
  {
    if xs[0] == x then 0
    else
      var k := 1 + FirstIndex(xs[1..], x);
      assert xs[..k] == [xs[0]] + xs[1..][..k - 1];
      k
  }

  /** The keys are ordered by first occurrence. */
  lemma {:induction false} FirstSeenOrdered(xs: seq<string>, i: nat, j: nat)
    requires i < j < |FirstSeen(xs)|
    ensures FirstIndex(xs, FirstSeen(xs)[i]) < FirstIndex(xs, FirstSeen(xs)[j])
  {
    var front := xs[..|xs| - 1];
    var f := FirstSeen(front);
    var a := FirstSeen(xs)[i];
    var b := FirstSeen(xs)[j];
    FirstIndexPrefix(xs, a, front);
    if j < |f| {
      FirstSeenOrdered(front, i, j);
      FirstIndexPrefix(xs, b, front);
    } else {
      assert b == xs[|xs| - 1] && b !in front;
      assert FirstIndex(xs, b) == |xs| - 1 by {
        FirstIndexNotIn(xs, b);
      }
    }
  }

  lemma FirstIndexPrefix(xs: seq<string>, x: string, front: seq<string>)
    requires xs != [] && front == xs[..|xs| - 1] && x in front
    ensures FirstIndex(xs, x) == FirstIndex(front, x)
  {
  }

  lemma FirstIndexNotIn(xs: seq<string>, x: string)
    requires xs != [] && xs[|xs| - 1] == x && x !in xs[..|xs| - 1]
    ensures FirstIndex(xs, x) == |xs| - 1
  {
  }

  /** The nets, in first-seen order, that occur fewer than twice. */
  function Floating(xs: seq<string>, keys: seq<string>): seq<string> {
    if keys == [] then []
    else
      var rest := Floating(xs, keys[1..]);
      if Count(xs, keys[0]) < 2 then [keys[0]] + rest else rest
  }

  /** The floating keys are exactly the keys occurring fewer than twice. */
  lemma {:induction false} FloatingMembers(xs: seq<string>, keys: seq<string>)
    ensures forall x :: x in Floating(xs, keys) <==> x in keys && Count(xs, x) < 2
  {
    if keys != [] {
      FloatingMembers(xs, keys[1..]);
      assert forall x :: x in keys <==> x == keys[0] || x in keys[1..];
    }
  }
}

=== FILE: circuit_optimizer.dfy ===
/**
 * `ComponentOptimizer`: snapping to the E12 or E24 series of IEC 60063, the unit
 * formatter, and `optimize_rc_pair`, the bounded search for the resistor of the E-series
 * times 1k, 10k or 100k whose recalculated, snapped capacitor gives the cutoff nearest the
 * target.
 */
module CircuitOptimizer {
  import opened Wrappers
  import opened PyFloat
  import opened Decades
  import opened Preferred
  import opened ComponentValues
  import opened ComponentCalculator

  /** The E24 series of IEC 60063. */
  const E24: seq<real> := [
    1.0, 1.1, 1.2, 1.3, 1.5, 1.6, 1.8, 2.0, 2.2, 2.4, 2.7, 3.0,
    3.3, 3.6, 3.9, 4.3, 4.7, 5.1, 5.6, 6.2, 6.8, 7.5, 8.2, 9.1
  ]

  lemma E24IsDecadeSeries()
    ensures DecadeSeries(E24) && E24[0] == 1.0 && E24[|E24| - 1] == 9.1
  {
    DecadeFromEnds(E24);
  }

  /**
   * The optimizer's state is the choice of series, made once by the constructor. Its E12
   * list has the same members as the calculator's, so `E12` serves both.
   */
  datatype Optimizer = Optimizer(useE24: bool) {
    function Series(): (s: seq<real>)
      ensures |s| > 0 && DecadeSeries(s)
      ensures s == (if useE24 then E24 else E12)
    {
      E12IsDecadeSeries();
      E24IsDecadeSeries();
      if useE24 then E24 else E12
    }
  }

  /** The `formatted` half of `find_nearest_standard_value`'s result. */
  datatype Printed = Note(text: string) | Number(r: Rendered)

  /** The pair `find_nearest_standard_value` returns. */
  datatype Standard = Standard(value: real, formatted: Printed)

  const Ohm: string := "\U{03A9}"
  const MicroFarad: string := "\U{00B5}F"

  /** The power of ten each unit suffix of `_format_value` divides by. */
  function UnitScale(suffix: string): real {
    if suffix == "M" then 1000000.0
    else if suffix == "k" then 1000.0
    else if suffix == MicroFarad then 0.000001
    else if suffix == "nF" then 0.000000001
    else if suffix == "pF" then 0.000000000001
    else 1.0
  }

  /** `_format_value` */
  function FormatValue(value: real, componentType: string): (r: Rendered)
    ensures componentType == "resistor" ==> r.Fixed? && r.places == 1
    ensures componentType == "resistor" ==> (r.suffix == "M" <==> value >= 1000000.0)
    ensures componentType == "resistor" ==> (r.suffix == "k" <==> 1000.0 <= value < 1000000.0)
    ensures componentType == "resistor" ==> (r.suffix == Ohm <==> value < 1000.0)
    ensures componentType == "capacitor" ==> (r.Fixed? <==> value >= 0.000000000001)
    ensures componentType == "capacitor" ==> (r.Fixed? ==> r.places == 1)
    ensures componentType == "capacitor" ==> (r.Sci? ==> r.places == 2 && r.suffix == "F")
    ensures componentType == "capacitor" ==> (r.suffix == MicroFarad <==> value >= 0.000001)
    ensures componentType == "capacitor" ==> (r.suffix == "nF" <==> 0.000000001 <= value < 0.000001)
    ensures componentType == "capacitor" ==> (r.suffix == "pF" <==> 0.000000000001 <= value < 0.000000001)
    ensures componentType != "resistor" && componentType != "capacitor" ==> r.Sci? && r.places == 2 && r.suffix == ""
    ensures r.x * UnitScale(r.suffix) == value
  {
    if componentType == "resistor" then
      if value >= 1000000.0 then Fixed(value / 1000000.0, 1, "M")
      else if value >= 1000.0 then Fixed(value / 1000.0, 1, "k")
      else Fixed(value, 1, Ohm)
    else if componentType == "capacitor" then
      if value >= 0.000001 then Fixed(value * 1000000.0, 1, MicroFarad)
      else if value >= 0.000000001 then Fixed(value * 1000000000.0, 1, "nF")
      else if value >= 0.000000000001 then Fixed(value * 1000000000000.0, 1, "pF")
      else Sci(value, 2, "F")
    else Sci(value, 2, "")
  }

  /** The optimizer prints resistances with the calculator's mantissa, and Ω where the calculator prints nothing. */
  lemma FormatResistorAgrees(value: real)
    ensures FormatValue(value, "resistor").x == FormatResistance(value).x
    ensures FormatValue(value, "resistor").suffix == (if FormatResistance(value).suffix == "" then Ohm else FormatResistance(value).suffix)
  {
  }

  /** The optimizer prints capacitances with the calculator's mantissa and form, and F after the prefix. */
  lemma FormatCapacitorAgrees(value: real)
    ensures FormatValue(value, "capacitor").x == FormatCapacitance(value).x
    ensures FormatValue(value, "capacitor").Fixed? == FormatCapacitance(value).Fixed?
    ensures FormatCapacitance(value).Fixed? ==>
      FormatValue(value, "capacitor").suffix == (if FormatCapacitance(value).suffix == "u" then "\U{00B5}" else FormatCapacitance(value).suffix) + "F"
  {
  }

  /**
   * The series the search and the snapping run on: `self.series`, fixed by the
   * constructor to E24 or E12.
   */
  predicate Usable(series: seq<real>) {
    |series| > 0 && DecadeSeries(series)
  }

  /**
   * The value half of `find_nearest_standard_value`: a positive target snapped to the
   * series, anything else unchanged.
   */
  function StandardValue(series: seq<real>, target: real): (v: real)
    requires Usable(series)
    ensures target <= 0.0 ==> v == target
    ensures target > 0.0 ==> v > 0.0
  {
    if target <= 0.0 then target
    else
      assert Snap(series, target) > 0.0 by {
        SnapIdempotent(series, target);
      }
      Snap(series, target)
  }

  /** `find_nearest_standard_value` on the optimizer's series. */
  function FindNearestStandardValue(series: seq<real>, target: real, componentType: string): (s: Standard)
    requires Usable(series)
    ensures s.value == StandardValue(series, target)
    ensures target <= 0.0 <==> s.formatted.Note?
    ensures target <= 0.0 ==> s.formatted.text == "Invalid value"
    ensures target > 0.0 ==> s.formatted == Number(FormatValue(s.value, componentType))
  {
    var v := StandardValue(series, target);
    if target <= 0.0 then Standard(v, Note("Invalid value"))
    else Standard(v, Number(FormatValue(v, componentType)))
  }

  /**
   * A positive target gives the decade times the first series member nearest to the
   * target over its decade.
   */
  lemma FindNearestSpec(series: seq<real>, target: real, componentType: string)
    requires Usable(series) && target > 0.0
    ensures var k := NearestIndex(series, target / Decade(target));
      && IsNearest(series, target / Decade(target), k)
      && FindNearestStandardValue(series, target, componentType).value == series[k] * Decade(target)
  {
    NearestSpec(series, target / Decade(target));
    SnapIsNearest(series, target);
  }

  /** With E24 a standard value lies in [decade, 9.1 * decade]. */
  lemma FindNearestE24Range(target: real, componentType: string)
    requires target > 0.0
    ensures Usable(E24)
    ensures var v := FindNearestStandardValue(E24, target, componentType).value;
      Decade(target) <= v <= 9.1 * Decade(target)
  {
    E24IsDecadeSeries();
    SnapRange(E24, target);
    ShiftScale(9.1, DecadeExp(target));
  }

  /** A standard value is its own standard value, whatever the component type. */
  lemma FindNearestIdempotent(series: seq<real>, target: real, t1: string, t2: string)
    requires Usable(series)
    ensures var v := FindNearestStandardValue(series, target, t1).value;
      FindNearestStandardValue(series, v, t2).value == v
  {
    if target > 0.0 {
      SnapIdempotent(series, target);
    }
  }

  /** The standard values of a positive target are exactly the values on the series. */
  lemma FindNearestFixedPoints(series: seq<real>, x: real, componentType: string)
    requires Usable(series) && x > 0.0
    ensures FindNearestStandardValue(series, x, componentType).value == x <==> OnSeries(series, x)
  {
    SnapFixedPoints(series, x);
  }

  /** The multipliers `optimize_rc_pair` tries for each series member. */
  const RMults: seq<real> := [1000.0, 10000.0, 100000.0]

  /** A member times each multiplier, in the inner loop's order. */
  function Row(base: real): (row: seq<real>)
    ensures |row| == |RMults|
  {
    seq(|RMults|, k requires 0 <= k < |RMults| => Mul(base, RMults[k]))
  }

  /** Every resistance the search tries, in order. */
  function Trials(series: seq<real>): (t: seq<real>)
    ensures |t| == 3 * |series|
  {
    if series == [] then []
    else Trials(series[..|series| - 1]) + Row(series[|series| - 1])
  }

  /** Trial k is member k / 3 times multiplier k % 3: series outer, multiplier inner. */
  lemma {:induction false} TrialAt(series: seq<real>, k: nat)
    requires k < 3 * |series|
    ensures Trials(series)[k] == Mul(series[k / 3], RMults[k % 3])
  {
    var n := |series| - 1;
    var init := series[..n];
    if k < 3 * n {
      TrialAt(init, k);
      assert init[k / 3] == series[k / 3];
    } else {
      assert k / 3 == n && k % 3 == k - 3 * n;
      assert Trials(series)[k] == Row(series[n])[k - 3 * n];
    }
  }

  /** The trial of member i and multiplier j, positive for a decade series. */
  lemma TrialOf(series: seq<real>, i: nat, j: nat)
    requires DecadeSeries(series) && i < |series| && j < |RMults|
    ensures 3 * i + j < |Trials(series)|
    ensures Trials(series)[3 * i + j] == Mul(series[i], RMults[j]) > 0.0
  {
    assert (3 * i + j) / 3 == i && (3 * i + j) % 3 == j;
    TrialAt(series, 3 * i + j);
    TrialPositive(series, 3 * i + j);
  }

  /** Each multiplier is a shift by three to five decades. */
  lemma MultIsShift(a: real, k: nat)
    requires k < |RMults|
    ensures Mul(a, RMults[k]) == Shift(a, 3 + k)
  {
    ShiftStep(a, 0);
    ShiftStep(a, 1);
    ShiftStep(a, 2);
    ShiftStep(a, 3);
    ShiftStep(a, 4);
  }

  /** Every trial is a series member shifted by whole decades, so it lies on the series. */
  lemma TrialOnSeries(series: seq<real>, k: nat)
    requires k < |Trials(series)|
    ensures OnSeries(series, Trials(series)[k])
  {
    TrialAt(series, k);
    MultIsShift(series[k / 3], k % 3);
  }

  lemma TrialPositive(series: seq<real>, k: nat)
    requires DecadeSeries(series) && k < |Trials(series)|
    ensures Trials(series)[k] > 0.0
  {
    TrialAt(series, k);
    MultIsShift(series[k / 3], k % 3);
    ShiftPositive(series[k / 3], 3 + k % 3);
  }

  predicate AllPositive(rs: seq<real>) {
    forall k :: 0 <= k < |rs| ==> rs[k] > 0.0
  }

  /** Every trial of a decade series is positive. */
  lemma TrialsPositive(series: seq<real>)
    requires DecadeSeries(series)
    ensures AllPositive(Trials(series))
  {
    forall k | 0 <= k < |Trials(series)| ensures Trials(series)[k] > 0.0 {
      TrialPositive(series, k);
    }
  }

  /** The candidate so far: its relative error, the resistance and its snapped capacitor. */
  datatype Best = Best(error: real, r: real, c: real)

  /** The standard capacitor for resistance r and cutoff f: `c_standard` of the loop. */
  function StandardCapacitor(series: seq<real>, r: real, f: real): (c: real)
    requires Usable(series) && r > 0.0 && f != 0.0
    ensures c != 0.0
  {
    var cCalc := CutoffReciprocal(r, f);
    assert cCalc != 0.0 by {
      NonZeroProduct(r, f);
    }
    StandardValue(series, cCalc)
  }

  /** The relative error of the cutoff that resistance r and its standard capacitor give. */
  function TrialError(series: seq<real>, r: real, f: real): real
    requires Usable(series) && r > 0.0 && f != 0.0
  {
    Abs(CutoffReciprocal(r, StandardCapacitor(series, r, f)) - f) / f
  }

  /** r is inside the preferred range, bounds included. */
  predicate InRange(r: real, lo: real, hi: real) {
    lo <= r <= hi
  }

  /** One pass of the inner loop body; an exception from an earlier trial stops the search. */
  function Consider(series: seq<real>, acc: Result<Option<Best>, PyError>, r: real, f: real, lo: real, hi: real): Result<Option<Best>, PyError>
    requires Usable(series) && r > 0.0
  {
    if acc.Failure? || !InRange(r, lo, hi) then acc
    else if f == 0.0 then Failure(ZeroDivisionError)
    else
      var e := TrialError(series, r, f);
      if acc.value.None? || e < acc.value.value.error then Success(Some(Best(e, r, StandardCapacitor(series, r, f))))
      else acc
  }

  /** The state of the search after the trials rs. */
  function Search(series: seq<real>, rs: seq<real>, f: real, lo: real, hi: real): (s: Result<Option<Best>, PyError>)
    requires Usable(series) && AllPositive(rs)
    ensures s.Success? && s.value.Some? ==> var b := s.value.value;
      f != 0.0 && b.r > 0.0 && b.c != 0.0 && InRange(b.r, lo, hi)
    decreases |rs|
  {
    if rs == [] then Success(None)
    else Consider(series, Search(series, rs[..|rs| - 1], f, lo, hi), rs[|rs| - 1], f, lo, hi)
  }

  /** The candidate carries its trial's standard capacitor and relative error. */
  lemma {:induction false} SearchCandidate(series: seq<real>, rs: seq<real>, f: real, lo: real, hi: real)
    requires Usable(series) && AllPositive(rs)
    requires Search(series, rs, f, lo, hi).Success? && Search(series, rs, f, lo, hi).value.Some?
    ensures var b := Search(series, rs, f, lo, hi).value.value;
      b.c == StandardCapacitor(series, b.r, f) && b.error == TrialError(series, b.r, f)
    decreases |rs|
  {
    var init := rs[..|rs| - 1];
    var s := Search(series, init, f, lo, hi);
    if s.Success? && s.value.Some? {
      SearchCandidate(series, init, f, lo, hi);
    }
  }

  /** Some trial lies in the preferred range. */
  predicate AnyInRange(rs: seq<real>, lo: real, hi: real) {
    exists k :: 0 <= k < |rs| && InRange(rs[k], lo, hi)
  }

  /** The search has no candidate exactly when no trial lies in range, and raises only by dividing by a zero target. */
  lemma {:induction false} SearchErrors(series: seq<real>, rs: seq<real>, f: real, lo: real, hi: real)
    requires Usable(series) && AllPositive(rs)
    ensures Search(series, rs, f, lo, hi) == Success(None) <==> !AnyInRange(rs, lo, hi)
    ensures Search(series, rs, f, lo, hi).Failure? <==> f == 0.0 && AnyInRange(rs, lo, hi)
    ensures Search(series, rs, f, lo, hi).Failure? ==> Search(series, rs, f, lo, hi).error == ZeroDivisionError
    decreases |rs|
  {
    if rs != [] {
      var init := rs[..|rs| - 1];
      var last := rs[|rs| - 1];
      SearchErrors(series, init, f, lo, hi);
      if AnyInRange(init, lo, hi) {
        var j :| 0 <= j < |init| && InRange(init[j], lo, hi);
        assert rs[j] == init[j];
      }
      if AnyInRange(rs, lo, hi) && !InRange(last, lo, hi) {
        var j :| 0 <= j < |rs| && InRange(rs[j], lo, hi);
        assert rs[j] == init[j];
      }
    }
  }

  /**
   * Trial k is the choice: in range, of minimal error among the trials in range, and
   * strictly better than every trial in range before it.
   */
  predicate FirstBest(series: seq<real>, rs: seq<real>, f: real, lo: real, hi: real, k: nat)
    requires Usable(series) && AllPositive(rs) && f != 0.0
  {
    && k < |rs| && InRange(rs[k], lo, hi)
    && (forall j :: 0 <= j < |rs| && InRange(rs[j], lo, hi) ==> TrialError(series, rs[k], f) <= TrialError(series, rs[j], f))
    && (forall j :: 0 <= j < k && InRange(rs[j], lo, hi) ==> TrialError(series, rs[j], f) > TrialError(series, rs[k], f))
  }

  /** A trial in range strictly better than the first best of the earlier trials is the new first best. */
  lemma BestReplaced(series: seq<real>, rs: seq<real>, f: real, lo: real, hi: real, k: nat)
    requires Usable(series) && AllPositive(rs) && f != 0.0 && |rs| > 0
    requires FirstBest(series, rs[..|rs| - 1], f, lo, hi, k)
    requires InRange(rs[|rs| - 1], lo, hi)
    requires TrialError(series, rs[|rs| - 1], f) < TrialError(series, rs[k], f)
    ensures FirstBest(series, rs, f, lo, hi, |rs| - 1)
  {
    var init := rs[..|rs| - 1];
    assert forall j :: 0 <= j < |init| ==> init[j] == rs[j];
  }

  /** A last trial that is out of range or not strictly better leaves the first best in place. */
  lemma BestKept(series: seq<real>, rs: seq<real>, f: real, lo: real, hi: real, k: nat)
    requires Usable(series) && AllPositive(rs) && f != 0.0 && |rs| > 0
    requires FirstBest(series, rs[..|rs| - 1], f, lo, hi, k)
    requires !InRange(rs[|rs| - 1], lo, hi) || TrialError(series, rs[|rs| - 1], f) >= TrialError(series, rs[k], f)
    ensures FirstBest(series, rs, f, lo, hi, k)
  {
    var init := rs[..|rs| - 1];
    assert forall j :: 0 <= j < |init| ==> init[j] == rs[j];
  }

  /** The first trial in range is the first best so far. */
  lemma BestFirst(series: seq<real>, rs: seq<real>, f: real, lo: real, hi: real)
    requires Usable(series) && AllPositive(rs) && f != 0.0 && |rs| > 0
    requires !AnyInRange(rs[..|rs| - 1], lo, hi) && InRange(rs[|rs| - 1], lo, hi)
    ensures FirstBest(series, rs, f, lo, hi, |rs| - 1)
  {
    var init := rs[..|rs| - 1];
    forall j | 0 <= j < |rs| - 1 ensures !InRange(rs[j], lo, hi) {
      assert init[j] == rs[j];
    }
  }

  /** The strict `<` update keeps the first trial of minimal error. */
  lemma {:induction false} SearchBest(series: seq<real>, rs: seq<real>, f: real, lo: real, hi: real)
    requires Usable(series) && AllPositive(rs)
    requires Search(series, rs, f, lo, hi).Success? && Search(series, rs, f, lo, hi).value.Some?
    ensures f != 0.0
    ensures exists k: nat :: FirstBest(series, rs, f, lo, hi, k) && rs[k] == Search(series, rs, f, lo, hi).value.value.r
    decreases |rs|
  {
    var init := rs[..|rs| - 1];
    var last := rs[|rs| - 1];
    var s := Search(series, init, f, lo, hi);
    if s.Success? && s.value.Some? {
      SearchBest(series, init, f, lo, hi);
      SearchCandidate(series, init, f, lo, hi);
      var k: nat :| FirstBest(series, init, f, lo, hi, k) && init[k] == s.value.value.r;
      assert init[k] == rs[k];
      if InRange(last, lo, hi) && TrialError(series, last, f) < s.value.value.error {
        BestReplaced(series, rs, f, lo, hi, k);
      } else {
        BestKept(series, rs, f, lo, hi, k);
      }
    } else {
      SearchErrors(series, init, f, lo, hi);
      BestFirst(series, rs, f, lo, hi);
    }
  }

  /** Extending the trials by one runs one more pass of the loop body. */
  lemma SearchStep(series: seq<real>, rs: seq<real>, n: nat, f: real, lo: real, hi: real)
    requires Usable(series) && AllPositive(rs) && n < |rs|
    ensures Search(series, rs[..n + 1], f, lo, hi) == Consider(series, Search(series, rs[..n], f, lo, hi), rs[n], f, lo, hi)
  {
    assert rs[..n + 1][..n] == rs[..n];
  }

  /** Once a trial raised, later trials change nothing. */
  lemma {:induction false} SearchFailureSticks(series: seq<real>, rs: seq<real>, n: nat, f: real, lo: real, hi: real)
    requires Usable(series) && AllPositive(rs) && n <= |rs|
    requires Search(series, rs[..n], f, lo, hi).Failure?
    ensures Search(series, rs, f, lo, hi) == Search(series, rs[..n], f, lo, hi)
    decreases |rs| - n
  {
    if n < |rs| {
      var init := rs[..|rs| - 1];
      assert init[..n] == rs[..n];
      SearchFailureSticks(series, init, n, f, lo, hi);
    } else {
      assert rs[..n] == rs;
    }
  }

  /** One component of `optimize_rc_pair`'s result. */
  datatype Part = Part(value: real, formatted: Printed, calculatedValue: real)

  /** `optimize_rc_pair`'s result, without the reasoning sentence. */
  datatype RcPair = RcPair(resistor: Part, capacitor: Part, actualFrequency: real, targetFrequency: real, errorPercent: real)

  /** The result built from the chosen candidate. */
  function PairFrom(series: seq<real>, b: Best, f: real): RcPair
    requires Usable(series) && b.r > 0.0 && b.c != 0.0 && f != 0.0
  {
    var rS := FindNearestStandardValue(series, b.r, "resistor");
    var cS := FindNearestStandardValue(series, b.c, "capacitor");
    var actual := CutoffReciprocal(rS.value, cS.value);
    RcPair(Part(rS.value, rS.formatted, b.r), Part(cS.value, cS.formatted, b.c), actual, f, Abs(actual - f) / f * 100.0)
  }

  /** What `optimize_rc_pair` returns or raises on the given series. */
  function OptimizeOutcome(series: seq<real>, f: real, lo: real, hi: real): Result<RcPair, PyError>
    requires Usable(series)
  {
    TrialsPositive(series);
    var s := Search(series, Trials(series), f, lo, hi);
    if s.Failure? then Failure(s.error)
    else if s.value.None? then Failure(TypeError)
    else Success(PairFrom(series, s.value.value, f))
  }

  /**
   * `optimize_rc_pair` raises TypeError exactly when no trial lies in the preferred range,
   * and ZeroDivisionError exactly when the target is 0 and some trial does.
   */
  lemma OptimizeErrors(series: seq<real>, f: real, lo: real, hi: real)
    requires Usable(series)
    ensures AllPositive(Trials(series))
    ensures OptimizeOutcome(series, f, lo, hi) == Failure(TypeError) <==> !AnyInRange(Trials(series), lo, hi)
    ensures OptimizeOutcome(series, f, lo, hi) == Failure(ZeroDivisionError) <==> f == 0.0 && AnyInRange(Trials(series), lo, hi)
    ensures OptimizeOutcome(series, f, lo, hi).Success? <==> f != 0.0 && AnyInRange(Trials(series), lo, hi)
  {
    TrialsPositive(series);
    SearchErrors(series, Trials(series), f, lo, hi);
  }

  /**
   * On success the resistor is the first trial of minimal error, the re-snapped values
   * equal the searched ones, and the reported error is that trial's relative error in percent.
   */
  lemma OptimizeResult(series: seq<real>, f: real, lo: real, hi: real)
    requires Usable(series) && OptimizeOutcome(series, f, lo, hi).Success?
    ensures AllPositive(Trials(series)) && f != 0.0
    ensures var p := OptimizeOutcome(series, f, lo, hi).value;
      && (exists k: nat :: FirstBest(series, Trials(series), f, lo, hi, k) && Trials(series)[k] == p.resistor.calculatedValue)
      && p.resistor.value == p.resistor.calculatedValue
      && p.capacitor.value == p.capacitor.calculatedValue
      && p.capacitor.value == StandardCapacitor(series, p.resistor.value, f)
      && p.errorPercent == TrialError(series, p.resistor.value, f) * 100.0
  {
    TrialsPositive(series);
    var rs := Trials(series);
    SearchBest(series, rs, f, lo, hi);
    var b := Search(series, rs, f, lo, hi).value.value;
    var k: nat :| FirstBest(series, rs, f, lo, hi, k) && rs[k] == b.r;
    TrialResnaps(series, k);
    SearchCandidate(series, rs, f, lo, hi);
    PairFromResnap(series, b, f);
  }

  /** The result built from a searched candidate reports its values unchanged. */
  lemma PairFromResnap(series: seq<real>, b: Best, f: real)
    requires Usable(series) && b.r > 0.0 && f != 0.0
    requires b.c == StandardCapacitor(series, b.r, f) && b.error == TrialError(series, b.r, f)
    requires FindNearestStandardValue(series, b.r, "resistor").value == b.r
    ensures var p := PairFrom(series, b, f);
      && p.resistor.value == p.resistor.calculatedValue == b.r
      && p.capacitor.value == p.capacitor.calculatedValue == b.c
      && p.errorPercent == b.error * 100.0
  {
    CapacitorResnaps(series, b.r, f);
  }

  /** A trial re-snaps to itself. */
  lemma TrialResnaps(series: seq<real>, k: nat)
    requires Usable(series) && k < |Trials(series)|
    ensures Trials(series)[k] > 0.0
    ensures FindNearestStandardValue(series, Trials(series)[k], "resistor").value == Trials(series)[k]
  {
    TrialsPositive(series);
    TrialOnSeries(series, k);
    FindNearestFixedPoints(series, Trials(series)[k], "resistor");
  }

  /** A standard capacitor re-snaps to itself. */
  lemma CapacitorResnaps(series: seq<real>, r: real, f: real)
    requires Usable(series) && r > 0.0 && f != 0.0
    ensures FindNearestStandardValue(series, StandardCapacitor(series, r, f), "capacitor").value == StandardCapacitor(series, r, f)
  {
    NonZeroProduct(r, f);
    FindNearestIdempotent(series, CutoffReciprocal(r, f), "capacitor", "capacitor");
  }

  /** `optimize_rc_pair` after a search that ended with candidate `best`. */
  lemma OptimizeFromSearch(series: seq<real>, f: real, lo: real, hi: real, best: Option<Best>)
    requires Usable(series) && AllPositive(Trials(series))
    requires Search(series, Trials(series), f, lo, hi) == Success(best)
    ensures best.None? ==> OptimizeOutcome(series, f, lo, hi) == Failure(TypeError)
    ensures best.Some? ==> best.value.r > 0.0 && best.value.c != 0.0 && f != 0.0
    ensures best.Some? ==> OptimizeOutcome(series, f, lo, hi) == Success(PairFrom(series, best.value, f))
  {
  }

  /** The inner loop body (lines 76-91): trial resistance r against the candidate so far. */
  method TryResistor(series: seq<real>, best: Option<Best>, r: real, targetFreq: real, lo: real, hi: real)
    returns (res: Result<Option<Best>, PyError>)
    requires Usable(series) && r > 0.0
    ensures res == Consider(series, Success(best), r, targetFreq, lo, hi)
  {
    if !(lo <= r <= hi) {
      return Success(best);
    }
    if targetFreq == 0.0 {
      return Failure(ZeroDivisionError);
    }
    NonZeroProduct(r, targetFreq);
    var cCalc := CutoffReciprocal(r, targetFreq);
    var cStandard := FindNearestStandardValue(series, cCalc, "capacitor").value;
    var fActual := CutoffReciprocal(r, cStandard);
    var error := Abs(fActual - targetFreq) / targetFreq;
    if best.None? || error < best.value.error {
      return Success(Some(Best(error, r, cStandard)));
    }
    return Success(best);
  }

  /** A member times a multiplier is positive. */
  lemma MulPositive(base: real, j: nat)
    requires base > 0.0 && j < |RMults|
    ensures Mul(base, RMults[j]) > 0.0
  {
    MultIsShift(base, j);
    ShiftPositive(base, 3 + j);
  }

  /** The inner loop from multiplier j on, starting from the search state acc. */
  function RowFrom(series: seq<real>, acc: Result<Option<Best>, PyError>, base: real, j: nat, f: real, lo: real, hi: real): Result<Option<Best>, PyError>
    requires Usable(series) && base > 0.0 && j <= |RMults|
    decreases |RMults| - j
  {
    if j == |RMults| then acc
    else
      MulPositive(base, j);
      RowFrom(series, Consider(series, acc, Mul(base, RMults[j]), f, lo, hi), base, j + 1, f, lo, hi)
  }

  /** An exception raised earlier passes through the rest of the row. */
  lemma {:induction false} RowFromFailure(series: seq<real>, acc: Result<Option<Best>, PyError>, base: real, j: nat, f: real, lo: real, hi: real)
    requires Usable(series) && base > 0.0 && j <= |RMults| && acc.Failure?
    ensures RowFrom(series, acc, base, j, f, lo, hi) == acc
    decreases |RMults| - j
  {
    if j < |RMults| {
      RowFromFailure(series, acc, base, j + 1, f, lo, hi);
    }
  }

  /** Searching one more row of trials runs the inner loop on that row. */
  lemma SearchRowStep(series: seq<real>, i: nat, f: real, lo: real, hi: real)
    requires Usable(series) && i < |series| && AllPositive(Trials(series))
    ensures series[i] > 0.0
    ensures Search(series, Trials(series)[..3 * i + 3], f, lo, hi)
      == RowFrom(series, Search(series, Trials(series)[..3 * i], f, lo, hi), series[i], 0, f, lo, hi)
  {
    var t := Trials(series);
    TrialOf(series, i, 0);
    TrialOf(series, i, 1);
    TrialOf(series, i, 2);
    SearchStep(series, t, 3 * i, f, lo, hi);
    SearchStep(series, t, 3 * i + 1, f, lo, hi);
    SearchStep(series, t, 3 * i + 2, f, lo, hi);
  }

  /**
   * The inner loop of `optimize_rc_pair` for series member i (line 75): trial the member
   * times each multiplier against the candidate so far.
   */
  method SearchRow(series: seq<real>, base: real, best: Option<Best>, targetFreq: real, lo: real, hi: real)
    returns (res: Result<Option<Best>, PyError>)
    requires Usable(series) && base > 0.0
    ensures res == RowFrom(series, Success(best), base, 0, targetFreq, lo, hi)
  {
    var cur := best;
    var j := 0;
    while j < |RMults|
      invariant 0 <= j <= |RMults|
      invariant RowFrom(series, Success(cur), base, j, targetFreq, lo, hi) == RowFrom(series, Success(best), base, 0, targetFreq, lo, hi)
    {
      var r := Mul(base, RMults[j]);
      MulPositive(base, j);
      var step := TryResistor(series, cur, r, targetFreq, lo, hi);
      if step.Failure? {
        RowFromFailure(series, step, base, j + 1, targetFreq, lo, hi);
        return step;
      }
      cur := step.value;
      j := j + 1;
    }
    return Success(cur);
  }

  /** `optimize_rc_pair`: the outer search loop, then the re-snap of the candidate (lines 64-113). */
  method OptimizeRcPair(opt: Optimizer, targetFreq: real, lo: real, hi: real) returns (res: Result<RcPair, PyError>)
    ensures res == OptimizeOutcome(opt.Series(), targetFreq, lo, hi)
  {
    var series := opt.Series();
    TrialsPositive(series);
    var trials := Trials(series);
    var best: Option<Best> := None;
    var i := 0;
    while i < |series|
      invariant 0 <= i <= |series|
      invariant Search(series, trials[..3 * i], targetFreq, lo, hi) == Success(best)
    {
      SearchRowStep(series, i, targetFreq, lo, hi);
      var row := SearchRow(series, series[i], best, targetFreq, lo, hi);
      if row.Failure? {
        SearchFailureSticks(series, trials, 3 * i + 3, targetFreq, lo, hi);
        return Failure(row.error);
      }
      best := row.value;
      i := i + 1;
    }
    assert trials[..3 * |series|] == trials;
    OptimizeFromSearch(series, targetFreq, lo, hi, best);
    if best.None? {
      return Failure(TypeError);
    }
    return Success(PairFrom(series, best.value, targetFreq));
  }
}

=== FILE: circuit_validator.dfy ===
/**
 * The rule engine of `circuit_validator.py`: a validator object that collects leveled
 * messages while it checks a circuit record, in a fixed order: the top-level fields, each
 * component, the nets joined to a single component, and the ground net. Each message text
 * is kept as a structured `Note`; `Note.Text` renders the string the source formats.
 */
module CircuitValidation {
  import opened Wrappers
  import opened Strings
  import opened PyFloat
  import opened CircuitJson

  datatype Level = Error | Warning | Info

  /** What a message says; `Text` is the string the source builds for it. */
  datatype Note =
    | MissingType
    | NoComponents
    | MissingId(index: nat)
    | DuplicateId(id: string)
    | MissingKind(id: string)
    | UnknownKind(id: string, kind: string)
    | MissingNets(id: string)
    | NetsNotList(id: string)
    | TooFewNets(id: string)
    | EmptyValue(id: string)
    | NoNumericPart(id: string, value: string)
    | NotPositive(id: string)
    | Unparsable(id: string, value: string)
    | OneConnection(net: string, component: string)
    | NoGround
  {
    function Text(): string {
      match this
      case MissingType => "Missing 'type' or 'circuit_type' field in circuit"
      case NoComponents => "Circuit must have at least one component"
      case MissingId(i) => "Component at index " + NatToString(i) + " missing 'id'"
      case DuplicateId(id) => "Duplicate component ID: " + id
      case MissingKind(id) => "Component " + id + " missing 'type'"
      case UnknownKind(id, k) => "Component " + id + " has unrecognized type: " + k
      case MissingNets(id) => "Component " + id + " missing 'nets'"
      case NetsNotList(id) => "Component " + id + " 'nets' must be a list"
      case TooFewNets(id) => "Component " + id + " must connect to at least 2 nets"
      case EmptyValue(id) => "Component " + id + " has empty value"
      case NoNumericPart(id, v) => "Component " + id + " value '" + v + "' has no numeric part"
      case NotPositive(id) => "Component " + id + " value must be positive"
      case Unparsable(id, v) => "Component " + id + " value '" + v + "' cannot be parsed"
      case OneConnection(net, c) => "Net '" + net + "' connects to only one component: " + c
      case NoGround => "Circuit requires a ground (GND) node but none found"
    }
  }

  /** `ValidationMessage(level, message, component_id)` */
  datatype Message = Message(level: Level, note: Note, componentId: Option<string>)

  /** Some message has level ERROR. */
  predicate HasError(ms: seq<Message>) {
    ms != [] && (ms[|ms| - 1].level == Error || HasError(ms[..|ms| - 1]))
  }

  lemma {:induction false} HasErrorConcat(a: seq<Message>, b: seq<Message>)
    ensures HasError(a + b) <==> HasError(a) || HasError(b)
    decreases |b|
  {
    if b == [] {
      assert a + b == a;
    } else {
      assert (a + b)[..|a + b| - 1] == a + b[..|b| - 1];
      HasErrorConcat(a, b[..|b| - 1]);
    }
  }

  /** Concatenation regroups; stated once so that method proofs need not unfold it. */
  lemma AppendAssoc(a: seq<Message>, b: seq<Message>, c: seq<Message>)
    ensures (a + b) + c == a + (b + c)
  {
  }

  /** HasError means what it says. */
  lemma {:induction false} HasErrorExists(ms: seq<Message>)
    ensures HasError(ms) <==> exists i :: 0 <= i < |ms| && ms[i].level == Error
  {
    if ms != [] {
      var front := ms[..|ms| - 1];
      HasErrorExists(front);
      if exists i :: 0 <= i < |ms| && ms[i].level == Error {
        var i :| 0 <= i < |ms| && ms[i].level == Error;
        if i < |front| {
          assert front[i] == ms[i];
        }
      }
    }
  }

  const ValidComponentTypes: set<string> :=
    {"resistor", "capacitor", "inductor", "diode", "led", "transistor", "voltage_source", "current_source"}

  const RequiredGroundTypes: set<string> := {"rc_filter", "rc_lowpass_filter", "rc_highpass_filter"}

  const GroundNames: set<string> := {"GND", "GROUND", "0"}

  /** What a run of checks produced: the messages added, and the exception that ended it, if any. */
  datatype Run = Run(messages: seq<Message>, raised: Option<PyError>)

  /** `_check_required_fields` */
  function RequiredMessages(j: CircuitJson): (ms: seq<Message>)
    ensures HasError(ms) <==> (j.typeField.None? && j.circuitType.None?) || j.components.None? || j.components.value == []
  {
    var m1 := if j.typeField.None? && j.circuitType.None? then [Message(Error, MissingType, None)] else [];
    var m2 := if j.components.None? || j.components.value == [] then [Message(Error, NoComponents, None)] else [];
    HasErrorConcat(m1, m2);
    assert m1 != [] ==> m1[0].level == Error;
    assert m2 != [] ==> m2[0].level == Error;
    m1 + m2
  }

  /** `''.join(c for c in value if c.isdigit() or c == '.')` */
  function NumericPart(value: string): (r: string)
    ensures DigitsAndDots(r)
    ensures HasDigit(r) <==> HasDigit(value)
    ensures ZeroDigits(r) <==> ZeroDigits(value)
    ensures CountChar(r, '.') == CountChar(value, '.')
    ensures r == [] <==> forall i :: 0 <= i < |value| ==> !IsDigit(value[i]) && value[i] != '.'
  {
    if value == [] then []
    else
      var rest := NumericPart(value[1..]);
      var c := value[0];
      assert forall i :: 1 <= i < |value| ==> value[1..][i - 1] == value[i];
      if IsDigit(c) || c == '.' then
        assert ([c] + rest)[1..] == rest;
        [c] + rest
      else rest
  }

  /** `_validate_component_value` on a present value. */
  function ValueMessages(id: string, value: string): seq<Message> {
    if value == [] then [Message(Warning, EmptyValue(id), Some(id))]
    else
      var num := NumericPart(value);
      if num == [] then [Message(Warning, NoNumericPart(id, value), Some(id))]
      else match ParseFloat(num)
        case None => [Message(Warning, Unparsable(id, value), Some(id))]
        case Some(x) => if x <= 0.0 then [Message(Error, NotPositive(id), Some(id))] else []
  }

  /**
   * The value check adds at most one message; it is an ERROR exactly when the digits and
   * dots form a number (at most one dot, some digit) whose digits are all '0'.
   */
  lemma ValueVerdict(id: string, value: string)
    ensures |ValueMessages(id, value)| <= 1
    ensures HasError(ValueMessages(id, value)) <==>
              value != [] && HasDigit(value) && CountChar(value, '.') <= 1 && ZeroDigits(value)
  {
    var ms := ValueMessages(id, value);
    if value != [] {
      var num := NumericPart(value);
      DigitsAndDotsParse(num);
      if HasDigit(value) {
        assert num != [] by {
          var i :| 0 <= i < |num| && IsDigit(num[i]);
        }
        assert ParseFloat(num).Some? <==> CountChar(value, '.') <= 1;
        if ParseFloat(num).Some? {
          assert HasError(ms) <==> ZeroDigits(value);
        } else {
          assert ms == [Message(Warning, Unparsable(id, value), Some(id))];
        }
      } else if num != [] {
        assert ParseFloat(num).None?;
        assert ms == [Message(Warning, Unparsable(id, value), Some(id))];
      } else {
        assert ms == [Message(Warning, NoNumericPart(id, value), Some(id))];
      }
    }
  }

  function TypeMessages(id: string, kind: Option<string>): seq<Message> {
    match kind
    case None => [Message(Error, MissingKind(id), Some(id))]
    case Some(k) => if k in ValidComponentTypes then [] else [Message(Warning, UnknownKind(id, k), Some(id))]
  }

  function NetMessages(id: string, nets: Option<Nets>): seq<Message> {
    match nets
    case None => [Message(Error, MissingNets(id), Some(id))]
    case Some(NetText(_)) => [Message(Error, NetsNotList(id), Some(id))]
    case Some(NetList(ns)) => if |ns| < 2 then [Message(Error, TooFewNets(id), Some(id))] else []
  }

  /** The duplicate, type and nets checks on a component with an id. */
  function FieldMessages(id: string, comp: CompJson, seen: set<string>): seq<Message> {
    DuplicateMessages(id, seen) + TypeMessages(id, comp.kind) + NetMessages(id, comp.nets)
  }

  function DuplicateMessages(id: string, seen: set<string>): seq<Message> {
    if id in seen then [Message(Error, DuplicateId(id), Some(id))] else []
  }

  /** The checks on component number idx, given the ids seen before it. */
  function ComponentRun(idx: nat, comp: CompJson, seen: set<string>): Run {
    match comp.id
    case None => Run([Message(Error, MissingId(idx), None)], None)
    case Some(id) =>
      var before := FieldMessages(id, comp, seen);
      if comp.value.None? then Run(before, None)
      else if comp.kind.None? then Run(before, Some(KeyError("type")))
      else Run(before + ValueMessages(id, comp.value.value), None)
  }

  /**
   * A component yields an ERROR exactly when it has no id, repeats an earlier id, has no
   * type, has missing, non-list or fewer than two nets, or has a value that is zero; an
   * unrecognised type alone is only a warning. A value without a type raises `KeyError`.
   */
  lemma ComponentVerdict(idx: nat, comp: CompJson, seen: set<string>)
    ensures ComponentRun(idx, comp, seen).raised.Some? <==>
              comp.id.Some? && comp.kind.None? && comp.value.Some?
    ensures ComponentRun(idx, comp, seen).raised.None? ==>
              (HasError(ComponentRun(idx, comp, seen).messages) <==>
                 || comp.id.None?
                 || comp.id.value in seen
                 || comp.kind.None?
                 || comp.nets.None? || comp.nets.value.NetText? || |comp.nets.value.names| < 2
                 || (comp.value.Some? && HasError(ValueMessages(comp.id.value, comp.value.value))))
  {
    if comp.id.Some? {
      var id := comp.id.value;
      var dup := DuplicateMessages(id, seen);
      var t := TypeMessages(id, comp.kind);
      var n := NetMessages(id, comp.nets);
      HasErrorConcat(dup, t);
      HasErrorConcat(dup + t, n);
      assert id in seen ==> HasError(dup) by {
        if id in seen { assert dup[0].level == Error; }
      }
      assert comp.kind.None? ==> HasError(t) by {
        if comp.kind.None? { assert t[0].level == Error; }
      }
      assert comp.kind.Some? ==> !HasError(t);
      var badNets := comp.nets.None? || comp.nets.value.NetText? || |comp.nets.value.names| < 2;
      assert badNets ==> HasError(n) by {
        if badNets { assert n[0].level == Error; }
      }
      if comp.value.Some? && comp.kind.Some? {
        HasErrorConcat(dup + t + n, ValueMessages(id, comp.value.value));
      }
    } else {
      assert ComponentRun(idx, comp, seen).messages[0].level == Error;
    }
  }

  /** The ids the loop has put into `component_ids`. */
  function SeenIds(comps: seq<CompJson>): set<string> {
    if comps == [] then {}
    else
      var last := comps[|comps| - 1];
      SeenIds(comps[..|comps| - 1]) + (if last.id.Some? then {last.id.value} else {})
  }

  /** `_validate_components`: each component in order, stopping at the first exception. */
  function ComponentsRun(comps: seq<CompJson>): Run {
    if comps == [] then Run([], None)
    else
      var front := comps[..|comps| - 1];
      var r := ComponentsRun(front);
      if r.raised.Some? then r
      else
        var c := ComponentRun(|front|, comps[|comps| - 1], SeenIds(front));
        Run(r.messages + c.messages, c.raised)
  }

  /** Once a component raises, later components are not checked. */
  lemma {:induction false} RunStops(comps: seq<CompJson>, n: nat)
    requires n <= |comps| && ComponentsRun(comps[..n]).raised.Some?
    ensures ComponentsRun(comps) == ComponentsRun(comps[..n])
    decreases |comps|
  {
    if n < |comps| {
      var front := comps[..|comps| - 1];
      assert front[..n] == comps[..n];
      RunStops(front, n);
    } else {
      assert comps[..n] == comps;
    }
  }

  /** One more component: the run so far extended by that component's checks. */
  lemma RunStep(comps: seq<CompJson>, n: nat)
    requires n < |comps| && ComponentsRun(comps[..n]).raised.None?
    ensures var c := ComponentRun(n, comps[n], SeenIds(comps[..n]));
            ComponentsRun(comps[..n + 1]) == Run(ComponentsRun(comps[..n]).messages + c.messages, c.raised)
  {
    assert comps[..n + 1][..n] == comps[..n];
  }

  lemma SeenStep(comps: seq<CompJson>, n: nat)
    requires n < |comps|
    ensures SeenIds(comps[..n + 1]) ==
              SeenIds(comps[..n]) + (if comps[n].id.Some? then {comps[n].id.value} else {})
  {
    assert comps[..n + 1][..n] == comps[..n];
  }

  /** Number of duplicate-id messages. */
  function DuplicateNotes(ms: seq<Message>): nat {
    if ms == [] then 0
    else DuplicateNotes(ms[..|ms| - 1]) + (if ms[|ms| - 1].note.DuplicateId? then 1 else 0)
  }

  lemma {:induction false} DuplicateNotesConcat(a: seq<Message>, b: seq<Message>)
    ensures DuplicateNotes(a + b) == DuplicateNotes(a) + DuplicateNotes(b)
    decreases |b|
  {
    if b == [] {
      assert a + b == a;
    } else {
      assert (a + b)[..|a + b| - 1] == a + b[..|b| - 1];
      DuplicateNotesConcat(a, b[..|b| - 1]);
    }
  }

  /** Number of components whose id was already seen earlier in the list. */
  function Repeats(comps: seq<CompJson>): nat {
    if comps == [] then 0
    else
      var front := comps[..|comps| - 1];
      var last := comps[|comps| - 1];
      Repeats(front) + (if last.id.Some? && last.id.value in SeenIds(front) then 1 else 0)
  }

  lemma {:induction false} DuplicateNotesNone(ms: seq<Message>)
    requires forall i :: 0 <= i < |ms| ==> !ms[i].note.DuplicateId?
    ensures DuplicateNotes(ms) == 0
  {
    if ms != [] {
      DuplicateNotesNone(ms[..|ms| - 1]);
    }
  }

  lemma DuplicateNotesOfFields(id: string, comp: CompJson, seen: set<string>)
    ensures DuplicateNotes(FieldMessages(id, comp, seen)) == if id in seen then 1 else 0
  {
    var dup := DuplicateMessages(id, seen);
    var t := TypeMessages(id, comp.kind);
    var n := NetMessages(id, comp.nets);
    DuplicateNotesNone(t);
    DuplicateNotesNone(n);
    DuplicateNotesConcat(dup, t);
    DuplicateNotesConcat(dup + t, n);
    assert DuplicateNotes(dup) == if id in seen then 1 else 0 by {
      if id in seen { assert dup[..0] == []; }
    }
  }

  lemma DuplicateNotesOfComponent(idx: nat, comp: CompJson, seen: set<string>)
    ensures DuplicateNotes(ComponentRun(idx, comp, seen).messages) ==
              if comp.id.Some? && comp.id.value in seen then 1 else 0
  {
    if comp.id.Some? {
      var id := comp.id.value;
      DuplicateNotesOfFields(id, comp, seen);
      if comp.value.Some? && comp.kind.Some? {
        ValueNotesNone(id, comp.value.value);
        DuplicateNotesConcat(FieldMessages(id, comp, seen), ValueMessages(id, comp.value.value));
      }
    } else {
      DuplicateNotesNone([Message(Error, MissingId(idx), None)]);
    }
  }

  lemma ValueNotesNone(id: string, value: string)
    ensures DuplicateNotes(ValueMessages(id, value)) == 0
  {
    DuplicateNotesNone(ValueMessages(id, value));
  }

  /** Every repetition of an earlier id yields exactly one duplicate-id ERROR. */
  lemma {:induction false} DuplicatesCounted(comps: seq<CompJson>)
    requires ComponentsRun(comps).raised.None?
    ensures DuplicateNotes(ComponentsRun(comps).messages) == Repeats(comps)
  {
    if comps != [] {
      var front := comps[..|comps| - 1];
      DuplicatesCounted(front);
      var c := ComponentRun(|front|, comps[|comps| - 1], SeenIds(front));
      DuplicateNotesConcat(ComponentsRun(front).messages, c.messages);
      DuplicateNotesOfComponent(|front|, comps[|comps| - 1], SeenIds(front));
    }
  }

  /** Every net of every component, in visit order (`comp.get('nets', [])`). */
  function AllNetsOf(comps: seq<CompJson>): seq<string> {
    if comps == [] then [] else AllNetsOf(comps[..|comps| - 1]) + NetsOf(comps[|comps| - 1])
  }

  /** `net_connections[net].append(comp_id)`, creating the entry first when it is new. */
  function AddOwner(m: map<string, seq<string>>, net: string, id: string): map<string, seq<string>> {
    m[net := (if net in m then m[net] else []) + [id]]
  }

  /** The inner loop of `_check_floating_nodes`: one component's nets, in order. */
  function AddNets(m: map<string, seq<string>>, nets: seq<string>, id: string): map<string, seq<string>> {
    if nets == [] then m else AddOwner(AddNets(m, nets[..|nets| - 1], id), nets[|nets| - 1], id)
  }

  /** `net_connections` after the first loop: each net with the ids of the components touching it. */
  function ConnMap(comps: seq<CompJson>): map<string, seq<string>> {
    if comps == [] then map[]
    else
      var last := comps[|comps| - 1];
      AddNets(ConnMap(comps[..|comps| - 1]), NetsOf(last), last.id.GetOr("UNKNOWN"))
  }

  lemma {:induction false} CountConcat(a: seq<string>, b: seq<string>, x: string)
    ensures Count(a + b, x) == Count(a, x) + Count(b, x)
    decreases |b|
  {
    if b == [] {
      assert a + b == a;
    } else {
      assert (a + b)[..|a + b| - 1] == a + b[..|b| - 1];
      CountConcat(a, b[..|b| - 1], x);
    }
  }

  lemma {:induction false} AddNetsFacts(m: map<string, seq<string>>, nets: seq<string>, id: string, x: string)
    ensures x in AddNets(m, nets, id) <==> x in m || x in nets
    ensures x in AddNets(m, nets, id) ==>
              |AddNets(m, nets, id)[x]| == (if x in m then |m[x]| else 0) + Count(nets, x)
    ensures x in m ==> AddNets(m, nets, id)[x][..|m[x]|] == m[x]
  {
    if nets != [] {
      var front := nets[..|nets| - 1];
      AddNetsFacts(m, front, id, x);
      assert forall y :: y in nets <==> y in front || y == nets[|nets| - 1];
    }
  }

  /** The dictionary holds exactly the nets seen, each with as many ids as the net has occurrences. */
  lemma {:induction false} ConnMapFacts(comps: seq<CompJson>, x: string)
    ensures x in ConnMap(comps) <==> x in AllNetsOf(comps)
    ensures x in ConnMap(comps) ==> |ConnMap(comps)[x]| == Count(AllNetsOf(comps), x)
  {
    if comps != [] {
      var front := comps[..|comps| - 1];
      var last := comps[|comps| - 1];
      ConnMapFacts(front, x);
      AddNetsFacts(ConnMap(front), NetsOf(last), last.id.GetOr("UNKNOWN"), x);
      CountConcat(AllNetsOf(front), NetsOf(last), x);
    }
  }

  /** Each net seen has a non-empty list of ids, whose length is its occurrence count. */
  predicate Tallied(conn: map<string, seq<string>>, all: seq<string>, keys: seq<string>) {
    forall x :: x in keys ==> x in conn && conn[x] != [] && |conn[x]| == Count(all, x)
  }

  lemma ConnMapTallied(comps: seq<CompJson>)
    ensures Tallied(ConnMap(comps), AllNetsOf(comps), FirstSeen(AllNetsOf(comps)))
  {
    forall x | x in FirstSeen(AllNetsOf(comps))
      ensures x in ConnMap(comps) && ConnMap(comps)[x] != [] && |ConnMap(comps)[x]| == Count(AllNetsOf(comps), x)
    {
      ConnMapFacts(comps, x);
    }
  }

  /** Every listed net has at least one component. */
  predicate Owned(conn: map<string, seq<string>>, nets: seq<string>) {
    forall x :: x in nets ==> x in conn && conn[x] != []
  }

  /** The second loop of `_check_floating_nodes`: a warning per key with fewer than two ids. */
  function FloatWarnings(conn: map<string, seq<string>>, keys: seq<string>): seq<Message>
    requires Owned(conn, keys)
  {
    if keys == [] then [] else Lonely(conn, keys[0]) + FloatWarnings(conn, keys[1..])
  }

  /** The floating-net scan only ever warns. */
  lemma {:induction false} FloatQuiet(conn: map<string, seq<string>>, keys: seq<string>)
    requires Owned(conn, keys)
    ensures !HasError(FloatWarnings(conn, keys))
  {
    if keys != [] {
      FloatQuiet(conn, keys[1..]);
      HasErrorConcat(Lonely(conn, keys[0]), FloatWarnings(conn, keys[1..]));
    }
  }

  /** The warning for one net when fewer than two components use it, naming the first. */
  function Lonely(conn: map<string, seq<string>>, net: string): seq<Message>
    requires net in conn && conn[net] != []
  {
    if |conn[net]| < 2 then [Message(Warning, OneConnection(net, conn[net][0]), None)] else []
  }

  /** One step of the scan over `keys`: the warnings from `k` on are net `k`'s, then the rest's. */
  lemma FloatStep(conn: map<string, seq<string>>, keys: seq<string>, k: nat)
    requires Owned(conn, keys) && k < |keys|
    ensures Owned(conn, keys[k..]) && Owned(conn, keys[k + 1..])
    ensures FloatWarnings(conn, keys[k..]) == Lonely(conn, keys[k]) + FloatWarnings(conn, keys[k + 1..])
  {
    assert keys[k..][1..] == keys[k + 1..];
  }

  /** `_check_floating_nodes` */
  function FloatingMessages(comps: seq<CompJson>): seq<Message> {
    ConnMapTallied(comps);
    FloatWarnings(ConnMap(comps), FirstSeen(AllNetsOf(comps)))
  }

  /** One "connects to only one component" warning per listed net, naming its first component. */
  function Warned(conn: map<string, seq<string>>, nets: seq<string>): (ms: seq<Message>)
    requires Owned(conn, nets)
    ensures |ms| == |nets|
  {
    if nets == [] then []
    else [Message(Warning, OneConnection(nets[0], conn[nets[0]][0]), None)] + Warned(conn, nets[1..])
  }

  /**
   * The nets warned about are exactly the floating ones (fewer than two occurrences), in key
   * order, and each of them has exactly one component.
   */
  lemma {:induction false} FloatWarningsAre(conn: map<string, seq<string>>, all: seq<string>, keys: seq<string>)
    requires Tallied(conn, all, keys)
    ensures Owned(conn, Floating(all, keys))
    ensures FloatWarnings(conn, keys) == Warned(conn, Floating(all, keys))
    ensures forall x :: x in Floating(all, keys) ==> |conn[x]| == 1
  {
    if keys != [] {
      assert Tallied(conn, all, keys[1..]);
      FloatWarningsAre(conn, all, keys[1..]);
      var fl := Floating(all, keys);
      var flr := Floating(all, keys[1..]);
      if |conn[keys[0]]| < 2 {
        assert fl == [keys[0]] + flr;
        assert fl[1..] == flr;
      } else {
        assert fl == flr;
      }
    }
  }

  /**
   * What the floating scan reports, for a whole component list: one warning per net that
   * occurs once, in first-seen order, naming the net's only component.
   */
  lemma FloatingReport(comps: seq<CompJson>)
    ensures var all := AllNetsOf(comps);
            Owned(ConnMap(comps), Floating(all, FirstSeen(all))) &&
            FloatingMessages(comps) == Warned(ConnMap(comps), Floating(all, FirstSeen(all))) &&
            forall x :: x in Floating(all, FirstSeen(all)) ==> Count(all, x) == 1 && |ConnMap(comps)[x]| == 1
  {
    ConnMapTallied(comps);
    FloatWarningsAre(ConnMap(comps), AllNetsOf(comps), FirstSeen(AllNetsOf(comps)));
    FloatingMembers(AllNetsOf(comps), FirstSeen(AllNetsOf(comps)));
  }

  /** `net.upper() in ['GND', 'GROUND', '0']` for some net. */
  predicate AnyGround(nets: seq<string>) {
    exists i :: 0 <= i < |nets| && Upper(nets[i]) in GroundNames
  }

  /** Some component touches a ground net. */
  predicate GroundPresent(comps: seq<CompJson>) {
    exists k :: 0 <= k < |comps| && AnyGround(NetsOf(comps[k]))
  }

  /** `_check_ground_exists` */
  function GroundMessages(comps: seq<CompJson>): (ms: seq<Message>)
    ensures HasError(ms) <==> !GroundPresent(comps)
    ensures |ms| <= 1
  {
    if GroundPresent(comps) then []
    else
      var ms := [Message(Error, NoGround, None)];
      assert ms[0].level == Error;
      ms
  }

  /** `circuit_json.get('type', circuit_json.get('circuit_type', ''))` */
  function DeclaredType(j: CircuitJson): string {
    if j.typeField.Some? then j.typeField.value else j.circuitType.GetOr("")
  }

  /** Everything `validate` adds, in order, and the exception that ends it, if any. */
  function ValidateRun(j: CircuitJson): Run {
    var required := RequiredMessages(j);
    match j.components
    case None => Run(required, None)
    case Some(comps) =>
      var checked := ComponentsRun(comps);
      if checked.raised.Some? then Run(required + checked.messages, checked.raised)
      else
        var ground := if DeclaredType(j) in RequiredGroundTypes then GroundMessages(comps) else [];
        Run(required + checked.messages + FloatingMessages(comps) + ground, None)
  }

  /**
   * The verdict of a completed run: an ERROR exists exactly when a top-level field is
   * missing, a component fails its checks, or a ground-requiring circuit has no ground.
   * The floating-net scan only ever warns.
   */
  lemma ValidateVerdict(j: CircuitJson)
    requires ValidateRun(j).raised.None?
    ensures HasError(ValidateRun(j).messages) <==>
              || HasError(RequiredMessages(j))
              || (j.components.Some? && HasError(ComponentsRun(j.components.value).messages))
              || (j.components.Some? && DeclaredType(j) in RequiredGroundTypes && !GroundPresent(j.components.value))
  {
    if j.components.Some? {
      var comps := j.components.value;
      var required := RequiredMessages(j);
      var checked := ComponentsRun(comps);
      var ground := if DeclaredType(j) in RequiredGroundTypes then GroundMessages(comps) else [];
      HasErrorConcat(required, checked.messages);
      HasErrorConcat(required + checked.messages, FloatingMessages(comps));
      ConnMapTallied(comps);
      FloatQuiet(ConnMap(comps), FirstSeen(AllNetsOf(comps)));
      HasErrorConcat(required + checked.messages + FloatingMessages(comps), ground);
    }
  }

  class CircuitValidator {
    var messages: seq<Message>
    var hasErrors: bool

    /** `has_errors` records whether an ERROR message has been added. */
    ghost predicate Valid()
      reads this
    {
      hasErrors <==> HasError(messages)
    }

    constructor()
      ensures Valid()
      ensures messages == [] && !hasErrors
    {
      messages := [];
      hasErrors := false;
    }

    /** `_add_message` */
    method AddMessage(level: Level, note: Note, componentId: Option<string>)
      requires Valid()
      modifies this
      ensures Valid()
      ensures messages == old(messages) + [Message(level, note, componentId)]
      ensures hasErrors == (old(hasErrors) || level == Error)
    {
      HasErrorConcat(messages, [Message(level, note, componentId)]);
      assert [Message(level, note, componentId)][0].level == level;
      messages := messages + [Message(level, note, componentId)];
      if level == Error {
        hasErrors := true;
      }
    }

    /**
     * `validate`: reset, run the checks in order, and report validity as the absence of
     * ERROR messages from this run.
     */
    method Validate(j: CircuitJson) returns (r: Result<(bool, seq<Message>), PyError>)
      modifies this
      ensures Valid()
      ensures messages == ValidateRun(j).messages
      ensures ValidateRun(j).raised.Some? ==> r == Failure(ValidateRun(j).raised.value)
      ensures ValidateRun(j).raised.None? ==> r == Success((!HasError(messages), messages))
    {
      messages := [];
      hasErrors := false;
      assert Valid();
      CheckRequiredFields(j);
      if j.components.Some? {
        var comps := j.components.value;
        var raised := ValidateComponents(comps);
        if raised.Some? {
          return Failure(raised.value);
        }
        ghost var checked := messages;
        assert checked == RequiredMessages(j) + ComponentsRun(comps).messages;
        CheckFloatingNodes(comps);
        ghost var floating := messages;
        if DeclaredType(j) in RequiredGroundTypes {
          CheckGroundExists(comps);
        }
        assert messages == floating + (if DeclaredType(j) in RequiredGroundTypes then GroundMessages(comps) else []);
      }
      r := Success((!hasErrors, messages));
    }

    /** `_check_required_fields` */
    method CheckRequiredFields(j: CircuitJson)
      requires Valid()
      modifies this
      ensures Valid()
      ensures messages == old(messages) + RequiredMessages(j)
    {
      ghost var start := messages;
      if j.typeField.None? && j.circuitType.None? {
        AddMessage(Error, MissingType, None);
      }
      if j.components.None? || j.components.value == [] {
        AddMessage(Error, NoComponents, None);
      }
      assert messages == start + RequiredMessages(j);
    }

    /** `_validate_components`; `Some(KeyError)` stands for the exception line 119 raises. */
    method ValidateComponents(components: seq<CompJson>) returns (raised: Option<PyError>)
      requires Valid()
      modifies this
      ensures Valid()
      ensures messages == old(messages) + ComponentsRun(components).messages
      ensures raised == ComponentsRun(components).raised
    {
      var componentIds: set<string> := {};
      var idx := 0;
      while idx < |components|
        invariant 0 <= idx <= |components|
        invariant Valid()
        invariant componentIds == SeenIds(components[..idx])
        invariant ComponentsRun(components[..idx]).raised.None?
        invariant messages == old(messages) + ComponentsRun(components[..idx]).messages
      {
        var comp := components[idx];
        var failure := CheckNext(components, idx, componentIds, old(messages));
        if failure.Some? {
          RunStops(components, idx + 1);
          return failure;
        }
        SeenStep(components, idx);
        if comp.id.Some? {
          componentIds := componentIds + {comp.id.value};
        }
        idx := idx + 1;
      }
      assert components[..idx] == components;
      raised := None;
    }

    /** One pass of the loop in `_validate_components`, as a step of the whole run. */
    method CheckNext(components: seq<CompJson>, idx: nat, componentIds: set<string>, ghost start: seq<Message>)
      returns (raised: Option<PyError>)
      requires Valid()
      requires idx < |components| && componentIds == SeenIds(components[..idx])
      requires ComponentsRun(components[..idx]).raised.None?
      requires messages == start + ComponentsRun(components[..idx]).messages
      modifies this
      ensures Valid()
      ensures messages == start + ComponentsRun(components[..idx + 1]).messages
      ensures raised == ComponentsRun(components[..idx + 1]).raised
    {
      RunStep(components, idx);
      ghost var done := ComponentsRun(components[..idx]).messages;
      ghost var here := ComponentRun(idx, components[idx], componentIds);
      raised := CheckComponent(idx, components[idx], componentIds);
      AppendAssoc(start, done, here.messages);
    }

    /** One pass of the loop in `_validate_components`, given `component_ids` so far. */
    method CheckComponent(idx: nat, comp: CompJson, componentIds: set<string>) returns (raised: Option<PyError>)
      requires Valid()
      modifies this
      ensures Valid()
      ensures messages == old(messages) + ComponentRun(idx, comp, componentIds).messages
      ensures raised == ComponentRun(idx, comp, componentIds).raised
    {
      if comp.id.None? {
        AddMessage(Error, MissingId(idx), None);
        return None;
      }
      var compId := comp.id.value;
      ghost var before := messages;
      CheckFields(compId, comp, componentIds);
      ghost var fields := FieldMessages(compId, comp, componentIds);
      assert messages == before + fields;
      ghost var run := ComponentRun(idx, comp, componentIds);
      if comp.value.None? {
        assert run == Run(fields, None);
        return None;
      }
      if comp.kind.None? {
        assert run == Run(fields, Some(KeyError("type")));
        return Some(KeyError("type"));
      }
      ValidateComponentValue(compId, comp.value.value);
      assert run == Run(fields + ValueMessages(compId, comp.value.value), None);
      AppendAssoc(before, fields, ValueMessages(compId, comp.value.value));
      raised := None;
    }

    /** The duplicate, type and nets checks of one pass of `_validate_components`. */
    method CheckFields(compId: string, comp: CompJson, componentIds: set<string>)
      requires Valid()
      modifies this
      ensures Valid()
      ensures messages == old(messages) + FieldMessages(compId, comp, componentIds)
    {
      ghost var before := messages;
      if compId in componentIds {
        AddMessage(Error, DuplicateId(compId), Some(compId));
      }
      assert messages == before + DuplicateMessages(compId, componentIds);
      if comp.kind.None? {
        AddMessage(Error, MissingKind(compId), Some(compId));
      } else if comp.kind.value !in ValidComponentTypes {
        AddMessage(Warning, UnknownKind(compId, comp.kind.value), Some(compId));
      }
      ghost var middle := messages;
      assert middle == before + DuplicateMessages(compId, componentIds) + TypeMessages(compId, comp.kind);
      match comp.nets {
        case None => AddMessage(Error, MissingNets(compId), Some(compId));
        case Some(NetText(_)) => AddMessage(Error, NetsNotList(compId), Some(compId));
        case Some(NetList(ns)) =>
          if |ns| < 2 {
            AddMessage(Error, TooFewNets(compId), Some(compId));
          }
      }
      assert messages == middle + NetMessages(compId, comp.nets);
      ghost var dup, kind := DuplicateMessages(compId, componentIds), TypeMessages(compId, comp.kind);
      AppendAssoc(before, dup, kind);
      AppendAssoc(before, dup + kind, NetMessages(compId, comp.nets));
    }

    /** `_validate_component_value` */
    method ValidateComponentValue(compId: string, value: string)
      requires Valid()
      modifies this
      ensures Valid()
      ensures messages == old(messages) + ValueMessages(compId, value)
    {
      if value == [] {
        AddMessage(Warning, EmptyValue(compId), Some(compId));
        return;
      }
      var numericPart := NumericPart(value);
      if numericPart == [] {
        AddMessage(Warning, NoNumericPart(compId, value), Some(compId));
        return;
      }
      match ParseFloat(numericPart) {
        case None =>
          AddMessage(Warning, Unparsable(compId, value), Some(compId));
        case Some(numValue) =>
          if numValue <= 0.0 {
            AddMessage(Error, NotPositive(compId), Some(compId));
          }
      }
    }

    /** `_check_floating_nodes`: build `net_connections`, then warn per net with one connection. */
    method CheckFloatingNodes(components: seq<CompJson>)
      requires Valid()
      modifies this
      ensures Valid()
      ensures messages == old(messages) + FloatingMessages(components)
      ensures hasErrors == old(hasErrors)
    {
      var netConnections, order := CollectConnections(components);
      ConnMapTallied(components);
      assert Owned(netConnections, order);
      WarnFloating(netConnections, order);
    }

    /** The warning loop of `_check_floating_nodes`, over the nets in first-seen order. */
    method WarnFloating(netConnections: map<string, seq<string>>, order: seq<string>)
      requires Valid() && Owned(netConnections, order)
      modifies this
      ensures Valid()
      ensures messages == old(messages) + FloatWarnings(netConnections, order)
      ensures hasErrors == old(hasErrors)
    {
      ghost var start := messages;
      var k := 0;
      while k < |order|
        invariant 0 <= k <= |order|
        invariant Valid()
        invariant Owned(netConnections, order[k..])
        invariant messages + FloatWarnings(netConnections, order[k..]) == start + FloatWarnings(netConnections, order)
        invariant hasErrors == old(hasErrors)
      {
        FloatStep(netConnections, order, k);
        ghost var before := messages;
        ghost var rest := FloatWarnings(netConnections, order[k + 1..]);
        var connectedComps := netConnections[order[k]];
        if |connectedComps| < 2 {
          AddMessage(Warning, OneConnection(order[k], connectedComps[0]), None);
        }
        AppendAssoc(before, Lonely(netConnections, order[k]), rest);
        k := k + 1;
      }
    }

    /** `_check_ground_exists`: scan until a ground net is found. */
    method CheckGroundExists(components: seq<CompJson>)
      requires Valid()
      modifies this
      ensures Valid()
      ensures messages == old(messages) + GroundMessages(components)
    {
      var hasGround := false;
      var i := 0;
      while i < |components|
        invariant 0 <= i <= |components|
        invariant !hasGround ==> forall k :: 0 <= k < i ==> !AnyGround(NetsOf(components[k]))
        invariant hasGround ==> GroundPresent(components)
      {
        var nets := NetsOf(components[i]);
        if AnyGround(nets) {
          hasGround := true;
          break;
        }
        i := i + 1;
      }
      if !hasGround {
        AddMessage(Error, NoGround, None);
      }
    }
  }

  /**
   * The first loop of `_check_floating_nodes`: `net_connections` maps each net to the ids of
   * the components that touch it, in visit order; `order` is its key order.
   */
  method CollectConnections(components: seq<CompJson>) returns (netConnections: map<string, seq<string>>, order: seq<string>)
    ensures netConnections == ConnMap(components)
    ensures order == FirstSeen(AllNetsOf(components))
  {
    netConnections := map[];
    order := [];
    var i := 0;
    while i < |components|
      invariant 0 <= i <= |components|
      invariant netConnections == ConnMap(components[..i])
      invariant order == FirstSeen(AllNetsOf(components[..i]))
    {
      assert components[..i + 1][..i] == components[..i];
      var comp := components[i];
      forall x ensures x in netConnections <==> x in AllNetsOf(components[..i]) {
        ConnMapFacts(components[..i], x);
      }
      assert SameKeys(netConnections, AllNetsOf(components[..i]));
      netConnections, order := ConnectNets(netConnections, order, NetsOf(comp), comp.id.GetOr("UNKNOWN"),
                                           AllNetsOf(components[..i]));
      i := i + 1;
    }
    assert components[..i] == components;
  }

  /** `setdefault(net, [])` followed by an append is one `AddOwner` step. */
  lemma DefaultThenAppend(prev: map<string, seq<string>>, net: string, id: string, m: map<string, seq<string>>)
    requires m == if net in prev then prev else prev[net := []]
    ensures net in m && m[net := m[net] + [id]] == AddOwner(prev, net, id)
  {
  }

  /** The dictionary's keys are exactly the nets seen. */
  ghost predicate SameKeys(conn: map<string, seq<string>>, seen: seq<string>) {
    forall x :: x in conn <==> x in seen
  }

  /**
   * One more net of the same component: it is already a key exactly when it was seen
   * before, and both the dictionary and the key order take one step.
   */
  lemma NetsStep(conn: map<string, seq<string>>, seen: seq<string>, nets: seq<string>, j: nat, id: string)
    requires SameKeys(conn, seen) && j < |nets|
    ensures nets[j] in AddNets(conn, nets[..j], id) <==> nets[j] in seen + nets[..j]
    ensures AddNets(conn, nets[..j + 1], id) == AddOwner(AddNets(conn, nets[..j], id), nets[j], id)
    ensures FirstSeen(seen + nets[..j + 1]) ==
              if nets[j] in seen + nets[..j] then FirstSeen(seen + nets[..j])
              else FirstSeen(seen + nets[..j]) + [nets[j]]
  {
    assert nets[..j + 1][..j] == nets[..j];
    AddNetsFacts(conn, nets[..j], id, nets[j]);
    assert seen + nets[..j + 1] == (seen + nets[..j]) + [nets[j]];
    FirstSeenSnoc(seen + nets[..j], nets[j]);
  }

  /** The inner loop of `_check_floating_nodes` for one component, after the nets seen so far. */
  method ConnectNets(conn: map<string, seq<string>>, keys: seq<string>, nets: seq<string>, compId: string,
                     ghost seen: seq<string>)
    returns (netConnections: map<string, seq<string>>, order: seq<string>)
    requires keys == FirstSeen(seen)
    requires SameKeys(conn, seen)
    ensures netConnections == AddNets(conn, nets, compId)
    ensures order == FirstSeen(seen + nets)
  {
    netConnections := conn;
    order := keys;
    var j := 0;
    assert seen + nets[..0] == seen;
    while j < |nets|
      invariant 0 <= j <= |nets|
      invariant netConnections == AddNets(conn, nets[..j], compId)
      invariant order == FirstSeen(seen + nets[..j])
    {
      var net := nets[j];
      NetsStep(conn, seen, nets, j, compId);
      ghost var prev := netConnections;
      if net !in netConnections {
        netConnections := netConnections[net := []];
        order := order + [net];
      }
      DefaultThenAppend(prev, net, compId, netConnections);
      netConnections := netConnections[net := netConnections[net] + [compId]];
      j := j + 1;
    }
    assert nets[..j] == nets;
  }
}

=== FILE: component_calculator.dfy ===
/**
 * The component calculator: an RC filter and a voltage divider sized from their
 * constraints, with resistors snapped to the E12 series and capacitors to a fixed
 * capacitor list; value formatting with unit suffixes, and `parse_value`, which reads
 * those suffixes back.
 *
 * Floats are exact reals. `math.pi` is the constant `Pi`, of which the proofs use only
 * that it is positive; `10 ** math.floor(math.log10(v))` is `Decades.Decade`.
 */
module ComponentCalculator {
  import opened Wrappers
  import opened Strings
  import opened PyFloat
  import opened Decades
  import opened Preferred
  import opened ComponentValues

  /** The E12 series of IEC 60063, one decade. */
  const E12: seq<real> := [1.0, 1.2, 1.5, 1.8, 2.2, 2.7, 3.3, 3.9, 4.7, 5.6, 6.8, 8.2]

  /** The calculator's capacitor list, which runs past one decade. */
  const CapValues: seq<real> := [
    1.0, 1.5, 2.2, 3.3, 4.7, 6.8, 10.0, 15.0, 22.0, 33.0, 47.0, 68.0,
    100.0, 150.0, 220.0, 330.0, 470.0, 680.0
  ]

  /** `math.pi` */
  const Pi: real := 3.141592653589793

  lemma E12IsDecadeSeries()
    ensures DecadeSeries(E12) && E12[0] == 1.0 && E12[|E12| - 1] == 8.2
  {
    DecadeFromEnds(E12);
  }

  /** The first six capacitor values form a decade series. */
  lemma CapPrefixIsDecadeSeries()
    ensures DecadeSeries(CapValues[..6])
  {
    IncreasingFromAdjacent(CapValues[..6]);
  }

  /** An E12 snap lies in [decade, 8.2 * decade]. */
  lemma SnapE12Range(v: real)
    requires v > 0.0
    ensures Decade(v) <= Snap(E12, v) <= 8.2 * Decade(v)
  {
    E12IsDecadeSeries();
    SnapRange(E12, v);
    ShiftScale(8.2, DecadeExp(v));
  }

  /**
   * Of the capacitor list only the first seven members (up to 10) can win, because the
   * normalised value is below 10.
   */
  lemma CapIndexBound(n: real)
    requires 1.0 <= n < 10.0
    ensures NearestIndex(CapValues, n) <= 6
  {
    assert forall j :: 6 < j < |CapValues| ==> CapValues[j] >= 15.0;
    NearestBound(CapValues, n, 6);
  }

  lemma CapTopIsTen()
    ensures CapValues[6] == 10.0
  {
  }

  lemma CapPrefixBound(k: nat)
    requires k <= 6
    ensures 1.0 <= CapValues[k] <= 10.0
  {
  }

  lemma SnapCapShifted(v: real)
    requires v > 0.0
    ensures Shift(1.0, DecadeExp(v)) <= Snap(CapValues, v) <= Shift(10.0, DecadeExp(v))
  {
    var n := Normalised(v);
    CapIndexBound(n);
    CapPrefixBound(NearestIndex(CapValues, n));
    SnapWithin(CapValues, v, 1.0, 10.0);
  }

  /** A snapped capacitance lies in [decade, 10 * decade]. */
  lemma SnapCapRange(v: real)
    requires v > 0.0
    ensures Decade(v) <= Snap(CapValues, v) <= 10.0 * Decade(v)
  {
    SnapCapShifted(v);
    ShiftScale(10.0, DecadeExp(v));
  }

  /** Snapping to the capacitor list is idempotent: a snapped 10 re-snaps as 1 of the next decade. */
  lemma SnapCapIdempotent(v: real)
    requires v > 0.0
    ensures Snap(CapValues, v) > 0.0 && Snap(CapValues, Snap(CapValues, v)) == Snap(CapValues, v)
  {
    var n := Normalised(v);
    CapIndexBound(n);
    var k := NearestIndex(CapValues, n);
    var e := DecadeExp(v);
    assert Snap(CapValues, v) == Shift(CapValues[k], e);
    CapPrefixIsDecadeSeries();
    if k < 6 {
      SnapPrefixMember(CapValues, 6, k, e);
    } else {
      assert k == 6;
      CapTopIsTen();
      TenIsNextOne(e);
      SnapPrefixMember(CapValues, 6, 0, e + 1);
    }
  }

  /** `_nearest_e12`: ValueError for a value that is not positive. */
  function NearestE12(v: real): (r: Result<real, PyError>)
    ensures r.Failure? <==> v <= 0.0
    ensures r.Failure? ==> r.error == ValueError("Resistance must be positive")
    ensures r.Success? ==> r.value == Snap(E12, v) && Decade(v) <= r.value <= 8.2 * Decade(v)
  {
    if v <= 0.0 then Failure(ValueError("Resistance must be positive"))
    else
      SnapE12Range(v);
      Success(Snap(E12, v))
  }

  /** `_nearest_capacitor`: ValueError for a value that is not positive. */
  function NearestCapacitor(v: real): (r: Result<real, PyError>)
    ensures r.Failure? <==> v <= 0.0
    ensures r.Failure? ==> r.error == ValueError("Capacitance must be positive")
    ensures r.Success? ==> r.value == Snap(CapValues, v) && Decade(v) <= r.value <= 10.0 * Decade(v)
  {
    if v <= 0.0 then Failure(ValueError("Capacitance must be positive"))
    else
      SnapCapRange(v);
      Success(Snap(CapValues, v))
  }

  /** A resistance `_nearest_e12` returned snaps to itself again. */
  lemma NearestE12Idempotent(v: real)
    requires NearestE12(v).Success?
    ensures NearestE12(NearestE12(v).value) == NearestE12(v)
  {
    E12IsDecadeSeries();
    SnapIdempotent(E12, v);
  }

  /** A capacitance `_nearest_capacitor` returned snaps to itself again. */
  lemma NearestCapacitorIdempotent(v: real)
    requires NearestCapacitor(v).Success?
    ensures NearestCapacitor(NearestCapacitor(v).value) == NearestCapacitor(v)
  {
    SnapCapIdempotent(v);
  }

  /** The starting capacitance by frequency band: 1 uF, 100 nF, 10 nF, else 1 nF. */
  function StartCapacitance(f: real): (c: real)
    ensures c > 0.0
    ensures f < 100.0 <==> c == 0.000001
    ensures 100.0 <= f < 1000.0 <==> c == 0.0000001
    ensures 1000.0 <= f < 10000.0 <==> c == 0.00000001
    ensures f >= 10000.0 <==> c == 0.000000001
  {
    if f < 100.0 then 0.000001
    else if f < 1000.0 then 0.0000001
    else if f < 10000.0 then 0.00000001
    else 0.000000001
  }

  /** A higher cutoff never starts from a larger capacitor. */
  lemma StartCapacitanceMonotone(f: real, g: real)
    requires f <= g
    ensures StartCapacitance(g) <= StartCapacitance(f)
  {
  }

  /** `1 / (2 * math.pi * a * b)` */
  function CutoffReciprocal(a: real, b: real): real
    requires a != 0.0 && b != 0.0
  {
    NonZeroProduct(a, b);
    1.0 / (2.0 * Pi * a * b)
  }

  lemma NonZeroProduct(a: real, b: real)
    requires a != 0.0 && b != 0.0
    ensures 2.0 * Pi * a * b != 0.0
  {
    assert 2.0 * Pi * a * b == (2.0 * Pi) * (a * b);
  }

  /** The sign of `1 / (2 * math.pi * a * b)` for b > 0 is the sign of a. */
  lemma CutoffReciprocalSign(a: real, b: real)
    requires a != 0.0 && b > 0.0
    ensures CutoffReciprocal(a, b) > 0.0 <==> a > 0.0
  {
    var p := 2.0 * Pi * a * b;
    assert p == (2.0 * Pi * b) * a;
    if a > 0.0 {
      PositiveProduct(2.0 * Pi * b, a);
    } else {
      PositiveProduct(2.0 * Pi * b, -a);
      assert p == -((2.0 * Pi * b) * -a);
    }
  }

  lemma PositiveProduct(a: real, b: real)
    requires a > 0.0 && b > 0.0
    ensures a * b > 0.0
  {
  }

  /**
   * The standard resistor and capacitor `calculate_rc_filter` picks: R from the band's
   * starting capacitor, then C recalculated from the standard R. A cutoff of 0 divides by
   * zero; a negative one gives a negative R, which `_nearest_e12` refuses.
   */
  function RcFilterValues(f: real): (r: Result<(real, real), PyError>)
  {
    if f == 0.0 then Failure(ZeroDivisionError)
    else
      var rCalculated := CutoffReciprocal(f, StartCapacitance(f));
      match NearestE12(rCalculated)
      case Failure(e) => Failure(e)
      case Success(rStandard) =>
        match NearestCapacitor(CutoffReciprocal(f, rStandard))
        case Failure(e) => Failure(e)
        case Success(cStandard) => Success((rStandard, cStandard))
  }

  /**
   * `calculate_rc_filter` fails exactly for a cutoff that is not positive; otherwise it
   * returns an E12 resistor and a listed capacitor, each a fixed point of its own snapping.
   */
  lemma RcFilterOutcome(f: real)
    ensures RcFilterValues(f).Failure? <==> f <= 0.0
    ensures f == 0.0 ==> RcFilterValues(f) == Failure(ZeroDivisionError)
    ensures f < 0.0 ==> RcFilterValues(f) == Failure(ValueError("Resistance must be positive"))
    ensures RcFilterValues(f).Success? ==>
      var (res, cap) := RcFilterValues(f).value;
      && res == Snap(E12, CutoffReciprocal(f, StartCapacitance(f)))
      && cap == Snap(CapValues, CutoffReciprocal(f, res))
      && NearestE12(res) == Success(res) && NearestCapacitor(cap) == Success(cap)
  {
    if f != 0.0 {
      var rCalculated := CutoffReciprocal(f, StartCapacitance(f));
      CutoffReciprocalSign(f, StartCapacitance(f));
      if f > 0.0 {
        var res := NearestE12(rCalculated).value;
        CutoffReciprocalSign(f, res);
        NearestE12Idempotent(rCalculated);
        NearestCapacitorIdempotent(CutoffReciprocal(f, res));
      }
    }
  }

  /** `calculate_rc_filter`: the resistor and capacitor, formatted. */
  function CalculateRcFilter(f: real): (r: Result<(Rendered, Rendered), PyError>)
    ensures r.Failure? <==> RcFilterValues(f).Failure?
    ensures r.Success? ==>
      r.value == (FormatResistance(RcFilterValues(f).value.0), FormatCapacitance(RcFilterValues(f).value.1))
  {
    match RcFilterValues(f)
    case Failure(e) => Failure(e)
    case Success((res, cap)) => Success((FormatResistance(res), FormatCapacitance(cap)))
  }

  /** R2 of the divider is always 10 kOhm. */
  const DividerR2: real := 10000.0

  /** `R2_target * (Vin - Vout) / Vout`: positive exactly when the output is. */
  function R1Target(vin: real, vout: real): (r: real)
    requires vout < vin && vout != 0.0
    ensures r > 0.0 <==> vout > 0.0
  {
    var ratio := (vin - vout) / vout;
    assert ratio * vout == vin - vout;
    DividerR2 * ratio
  }

  /**
   * The standard R1 and R2 of `calculate_voltage_divider`:
   * `R1 = R2 * (Vin - Vout) / Vout`, both snapped to E12.
   */
  function VoltageDividerValues(vin: real, vout: real): (r: Result<(real, real), PyError>)
  {
    if vout >= vin then Failure(ValueError("Output voltage must be less than input voltage"))
    else if vout == 0.0 then Failure(ZeroDivisionError)
    else
      match NearestE12(R1Target(vin, vout))
      case Failure(e) => Failure(e)
      case Success(r1) =>
        match NearestE12(DividerR2)
        case Failure(e) => Failure(e)
        case Success(r2) => Success((r1, r2))
  }

  /** 10 kOhm is on the E12 series, so it snaps to itself. */
  lemma SnapTenKilohm()
    ensures NearestE12(DividerR2) == Success(DividerR2)
  {
    E12IsDecadeSeries();
    assert Shift(E12[0], 4) == DividerR2;
    SnapMember(E12, 0, 4);
  }

  /**
   * `calculate_voltage_divider` fails exactly when the output is not below the input or is
   * not positive, with the exception the code raises.
   */
  lemma VoltageDividerErrors(vin: real, vout: real)
    ensures VoltageDividerValues(vin, vout).Failure? <==> vout >= vin || vout <= 0.0
    ensures vout >= vin ==>
      VoltageDividerValues(vin, vout) == Failure(ValueError("Output voltage must be less than input voltage"))
    ensures vout < vin && vout == 0.0 ==> VoltageDividerValues(vin, vout) == Failure(ZeroDivisionError)
    ensures vout < vin && vout < 0.0 ==>
      VoltageDividerValues(vin, vout) == Failure(ValueError("Resistance must be positive"))
  {
    SnapTenKilohm();
  }

  /** Otherwise R2 is exactly 10 kOhm, printed `10.0k`, and R1 is a fixed point of E12 snapping. */
  lemma VoltageDividerResult(vin: real, vout: real)
    requires 0.0 < vout < vin
    ensures VoltageDividerValues(vin, vout).Success?
    ensures var (r1, r2) := VoltageDividerValues(vin, vout).value;
      && r2 == DividerR2 && FormatResistance(r2) == Fixed(10.0, 1, "k")
      && r1 == Snap(E12, R1Target(vin, vout)) && NearestE12(r1) == Success(r1)
  {
    SnapTenKilohm();
    NearestE12Idempotent(R1Target(vin, vout));
  }

  /** `calculate_voltage_divider`: R1 and R2, formatted. */
  function CalculateVoltageDivider(vin: real, vout: real): (r: Result<(Rendered, Rendered), PyError>)
    ensures r.Failure? <==> VoltageDividerValues(vin, vout).Failure?
    ensures r.Success? ==>
      r.value == (FormatResistance(VoltageDividerValues(vin, vout).value.0), FormatResistance(VoltageDividerValues(vin, vout).value.1))
  {
    match VoltageDividerValues(vin, vout)
    case Failure(e) => Failure(e)
    case Success((r1, r2)) => Success((FormatResistance(r1), FormatResistance(r2)))
  }

  /**
   * A rendered value printed as d and followed by its suffix parses to d's float scaled by
   * the suffix; when d is exact the result is the value that was rendered.
   */
  lemma RenderedRoundTrip(r: Rendered, v: real, d: string)
    requires PrintedNumber(d) && FormatterSuffix(r.suffix) && r.x * Scale(r.suffix) == v
    ensures ParseValue(d + r.suffix) == Scaled(FloatOrError(d), Scale(r.suffix))
    ensures FloatOrError(d) == Success(r.x) ==> ParseValue(d + r.suffix) == Success(v)
  {
    ParseFormatted(d, r.suffix);
  }

  /**
   * Formatting a resistance and parsing the printed text gives back the printed mantissa
   * times the scale the formatter divided by; were the digits exact, that is the resistance.
   */
  lemma ResistanceRoundTrip(ohms: real, d: string)
    requires PrintedNumber(d)
    ensures var r := FormatResistance(ohms);
      && ParseValue(d + r.suffix) == Scaled(FloatOrError(d), Scale(r.suffix))
      && (FloatOrError(d) == Success(r.x) ==> ParseValue(d + r.suffix) == Success(ohms))
  {
    RenderedRoundTrip(FormatResistance(ohms), ohms, d);
  }

  /** The same round trip for capacitances. */
  lemma CapacitanceRoundTrip(farads: real, d: string)
    requires PrintedNumber(d)
    ensures var r := FormatCapacitance(farads);
      && ParseValue(d + r.suffix) == Scaled(FloatOrError(d), Scale(r.suffix))
      && (FloatOrError(d) == Success(r.x) ==> ParseValue(d + r.suffix) == Success(farads))
  {
    RenderedRoundTrip(FormatCapacitance(farads), farads, d);
  }
}

=== FILE: component_values.dfy ===
/**
 * The text side of the component calculator: `_format_resistance` and
 * `_format_capacitance`, which print a value with a unit suffix, and `parse_value`, which
 * reads such a suffix back as a multiplier.
 */
module ComponentValues {
  import opened Wrappers
  import opened Strings
  import opened PyFloat

  /** `parse_value`'s multipliers, in the order it tries them. */
  const Multipliers: seq<(char, real)> := [
    ('M', 1000000.0), ('k', 1000.0), ('u', 0.000001), ('n', 0.000000001), ('p', 0.000000000001)
  ]

  /** The multiplier of the first table entry for c, or 1 when there is none. */
  function MultiplierFrom(c: char, i: nat): real
    requires i <= |Multipliers|
    decreases |Multipliers| - i
  {
    if i == |Multipliers| then 1.0
    else if Multipliers[i].0 == c then Multipliers[i].1
    else MultiplierFrom(c, i + 1)
  }

  /** The scale `parse_value` applies to a number printed with this suffix. */
  function Scale(suffix: string): real {
    if |suffix| == 1 then MultiplierFrom(suffix[0], 0) else 1.0
  }

  /**
   * `x * m` as a single term, so that the solver carries equalities between operands
   * through the product.
   */
  function Mul(x: real, m: real): real { x * m }

  /** A parsed number times a multiplier; a parse error passes through. */
  function Scaled(r: Result<real, PyError>, m: real): Result<real, PyError> {
    if r.Success? then Success(Mul(r.value, m)) else r
  }

  /** The suffix search of `parse_value` from table entry i on. */
  function ParseFrom(s: string, i: nat): Result<real, PyError>
    requires i <= |Multipliers|
    decreases |Multipliers| - i
  {
    if i == |Multipliers| then FloatOrError(s)
    else if EndsWith(s, [Multipliers[i].0]) then Scaled(FloatOrError(s[..|s| - 1]), Multipliers[i].1)
    else ParseFrom(s, i + 1)
  }

  /** `parse_value` */
  function ParseValue(text: string): Result<real, PyError> {
    ParseFrom(Strip(text), 0)
  }

  /** A text that ends in a character no entry from i on uses is parsed as a plain float. */
  lemma {:induction false} ParseFromPlain(s: string, i: nat)
    requires i <= |Multipliers| && s != []
    requires forall j :: i <= j < |Multipliers| ==> Multipliers[j].0 != s[|s| - 1]
    ensures ParseFrom(s, i) == FloatOrError(s)
    decreases |Multipliers| - i
  {
    if i < |Multipliers| {
      ParseFromPlain(s, i + 1);
    }
  }

  /** A text ending in entry i's letter is scaled by entry i. */
  lemma ParseFromAt(s: string, i: nat)
    requires i < |Multipliers| && s != [] && s[|s| - 1] == Multipliers[i].0
    ensures ParseFrom(s, i) == Scaled(FloatOrError(s[..|s| - 1]), Multipliers[i].1)
  {
    assert s[|s| - 1..] == [Multipliers[i].0];
  }

  /** A text not ending in entry i's letter goes on to entry i + 1. */
  lemma ParseFromPast(s: string, i: nat)
    requires i < |Multipliers| && s != [] && s[|s| - 1] != Multipliers[i].0
    ensures ParseFrom(s, i) == ParseFrom(s, i + 1)
  {
    assert s[|s| - 1..][0] == s[|s| - 1];
  }

  /** The letters of the table are pairwise different. */
  lemma LettersDiffer(j: nat, k: nat)
    requires j < k < |Multipliers|
    ensures Multipliers[j].0 != Multipliers[k].0
  {
  }

  /** A text ending in the letter of entry k reaches entry k: no earlier entry matches it. */
  lemma {:induction false} ParseFromHit(s: string, i: nat, k: nat)
    requires i <= k < |Multipliers| && s != [] && s[|s| - 1] == Multipliers[k].0
    ensures ParseFrom(s, i) == ParseFrom(s, k)
    decreases k - i
  {
    if i < k {
      LettersDiffer(i, k);
      ParseFromPast(s, i);
      ParseFromHit(s, i + 1, k);
    }
  }

  /** The letter of entry k scales by entry k: no earlier entry matches it. */
  lemma {:induction false} MultiplierHit(i: nat, k: nat)
    requires i <= k < |Multipliers|
    ensures MultiplierFrom(Multipliers[k].0, i) == Multipliers[k].1
    decreases k - i
  {
    if i < k {
      LettersDiffer(i, k);
      MultiplierHit(i + 1, k);
    }
  }

  /** A printed number followed by the letter of entry k parses to the number times entry k. */
  lemma ParseSuffixed(d: string, k: nat)
    requires PrintedNumber(d) && k < |Multipliers|
    ensures ParseValue(d + [Multipliers[k].0]) == Scaled(FloatOrError(d), Scale([Multipliers[k].0]))
  {
    var s := d + [Multipliers[k].0];
    assert s[0] == d[0] && s[|s| - 1] == Multipliers[k].0;
    assert !IsSpace(Multipliers[k].0);
    StripNoEdgeSpace(s);
    ParseFromHit(s, 0, k);
    ParseFromAt(s, k);
    assert s[..|s| - 1] == d;
    MultiplierHit(0, k);
  }

  /** A printed number on its own parses as a plain float. */
  lemma ParseUnsuffixed(d: string)
    requires PrintedNumber(d)
    ensures ParseValue(d) == FloatOrError(d)
  {
    StripNoEdgeSpace(d);
    ParseFromPlain(d, 0);
  }

  /** The suffixes the formatters emit. */
  predicate FormatterSuffix(suffix: string) {
    suffix in {"", "M", "k", "u", "n", "p"}
  }

  /**
   * The round trip of the formatters: a printed number followed by a suffix the formatters
   * emit parses back to that number times the suffix's scale.
   */
  lemma ParseFormatted(d: string, suffix: string)
    requires PrintedNumber(d) && FormatterSuffix(suffix)
    ensures ParseValue(d + suffix) == Scaled(FloatOrError(d), Scale(suffix))
  {
    if suffix == "" {
      assert d + suffix == d;
      ParseUnsuffixed(d);
      assert Scaled(FloatOrError(d), 1.0) == FloatOrError(d);
    } else {
      var k :| 0 <= k < |Multipliers| && suffix == [Multipliers[k].0] by {
        if suffix == "M" {
          assert suffix == [Multipliers[0].0];
        } else if suffix == "k" {
          assert suffix == [Multipliers[1].0];
        } else if suffix == "u" {
          assert suffix == [Multipliers[2].0];
        } else if suffix == "n" {
          assert suffix == [Multipliers[3].0];
        } else {
          assert suffix == [Multipliers[4].0];
        }
      }
      ParseSuffixed(d, k);
    }
  }

  /** `_format_resistance`: M from 1e6, k from 1e3, no suffix below. */
  function FormatResistance(ohms: real): (r: Rendered)
    ensures r.Fixed? && r.places == 1 && FormatterSuffix(r.suffix)
    ensures r.suffix == "M" <==> ohms >= 1000000.0
    ensures r.suffix == "k" <==> 1000.0 <= ohms < 1000000.0
    ensures r.suffix == "" <==> ohms < 1000.0
    ensures r.x * Scale(r.suffix) == ohms
  {
    if ohms >= 1000000.0 then Fixed(ohms / 1000000.0, 1, "M")
    else if ohms >= 1000.0 then Fixed(ohms / 1000.0, 1, "k")
    else Fixed(ohms, 1, "")
  }

  /** `_format_capacitance`: u from 1e-6, n from 1e-9, p from 1e-12, exponent form below. */
  function FormatCapacitance(farads: real): (r: Rendered)
    ensures r.Fixed? <==> farads >= 0.000000000001
    ensures FormatterSuffix(r.suffix)
    ensures r.Fixed? ==> r.places == 1
    ensures r.Sci? ==> r.places == 2 && r.suffix == "" && r.x == farads
    ensures r.suffix == "u" <==> farads >= 0.000001
    ensures r.suffix == "n" <==> 0.000000001 <= farads < 0.000001
    ensures r.suffix == "p" <==> 0.000000000001 <= farads < 0.000000001
    ensures r.x * Scale(r.suffix) == farads
  {
    if farads >= 0.000001 then Fixed(farads * 1000000.0, 1, "u")
    else if farads >= 0.000000001 then Fixed(farads * 1000000000.0, 1, "n")
    else if farads >= 0.000000000001 then Fixed(farads * 1000000000000.0, 1, "p")
    else Sci(farads, 2, "")
  }
}

=== FILE: decades.dfy ===
/**
 * Powers of ten on the reals. `Shift(a, e)` is a times ten to the e, written as repeated
 * multiplication or division by ten so that contracts about it stay linear;
 * `ShiftIsProduct` shows it is the product `a * 10 ** e`. `DecadeExp` is
 * `math.floor(math.log10(v))`, `Decade` is `10 ** math.floor(math.log10(v))` and
 * `Normalised` is `v / decade`.
 */
module Decades {
  import opened PyFloat


  /** a times 10 to the power e. */
  function Shift(a: real, e: int): real
    decreases if e < 0 then -e else e
  {
    if e == 0 then a else if e > 0 then 10.0 * Shift(a, e - 1) else Shift(a, e + 1) / 10.0
  }

  lemma ShiftStep(a: real, e: int)
    ensures Shift(a, e + 1) == 10.0 * Shift(a, e)
  {
  }

  /** Shifting twice adds the exponents. */
  lemma {:induction false} ShiftAdd(a: real, e: int, f: int)
    ensures Shift(Shift(a, e), f) == Shift(a, e + f)
    decreases if f < 0 then -f else f
  {
    if f > 0 {
      ShiftAdd(a, e, f - 1);
      ShiftStep(a, e + f - 1);
    } else if f < 0 {
      ShiftAdd(a, e, f + 1);
      ShiftStep(a, e + f);
    }
  }

  /** Shifting preserves order, strictly. */
  lemma {:induction false} ShiftMonotone(a: real, b: real, e: int)
    requires a < b
    ensures Shift(a, e) < Shift(b, e)
    decreases if e < 0 then -e else e
  {
    if e > 0 {
      ShiftMonotone(a, b, e - 1);
    } else if e < 0 {
      ShiftMonotone(a, b, e + 1);
    }
  }

  lemma ShiftMonotoneWeak(a: real, b: real, e: int)
    requires a <= b
    ensures Shift(a, e) <= Shift(b, e)
  {
    if a < b {
      ShiftMonotone(a, b, e);
    }
  }

  lemma {:induction false} ShiftPositive(a: real, e: int)
    requires a > 0.0
    ensures Shift(a, e) > 0.0
    decreases if e < 0 then -e else e
  {
    if e > 0 {
      ShiftPositive(a, e - 1);
    } else if e < 0 {
      ShiftPositive(a, e + 1);
    }
  }

  /** Shifting up by at least one decade multiplies by at least ten. */
  lemma {:induction false} ShiftUp(a: real, e: int)
    requires a > 0.0 && e >= 1
    ensures Shift(a, e) >= 10.0 * a
    decreases e
  {
    if e > 1 {
      ShiftUp(a, e - 1);
    }
  }

  /** Shifting down by at least one decade divides by at least ten. */
  lemma {:induction false} ShiftDown(a: real, e: int)
    requires a > 0.0 && e <= -1
    ensures Shift(a, e) <= a / 10.0
    decreases -e
  {
    if e < -1 {
      ShiftDown(a, e + 1);
      ShiftPositive(a, e + 1);
    }
  }

  /** `Shift` is multiplication by a power of ten. */
  lemma {:induction false} ShiftIsProduct(a: real, e: int)
    ensures Shift(a, e) == a * Pow10(e)
    decreases if e < 0 then -e else e
  {
    if e > 0 {
      ShiftIsProduct(a, e - 1);
      ScaleRight(a, Pow10(e - 1), 10.0);
    } else if e < 0 {
      ShiftIsProduct(a, e + 1);
      Pow10Succ(e);
      ScaleRight(a, Pow10(e), 10.0);
    }
  }

  lemma ScaleRight(a: real, b: real, c: real)
    ensures a * (c * b) == c * (a * b)
  {
  }

  lemma DivTenShrinks(v: real)
    requires v >= 10.0
    ensures (v / 10.0).Floor < v.Floor
  {
    assert v / 10.0 <= v - 9.0;
  }

  lemma MulTenShrinksInverse(v: real)
    requires 0.0 < v < 0.1
    ensures (1.0 / (v * 10.0)).Floor < (1.0 / v).Floor
  {
    var x := 1.0 / v;
    assert x * v == 1.0;
    assert 1.0 / (v * 10.0) == x / 10.0;
  }

  /** The decade exponent of a value of at least 1: divide by ten until below 10. */
  function ExpUp(v: real): (e: nat)
    requires v >= 1.0
    ensures 1.0 <= Shift(v, -(e as int)) < 10.0
    decreases v.Floor
  {
    if v < 10.0 then 0
    else
      DivTenShrinks(v);
      var e := ExpUp(v / 10.0);
      ShiftAdd(v, -1, -(e as int));
      e + 1
  }

  /** The decade exponent of a value below 1: multiply by ten until at least 1. */
  function ExpDown(v: real): (e: int)
    requires 0.0 < v < 1.0
    ensures e < 0 && 1.0 <= Shift(v, -e) < 10.0
    decreases (1.0 / v).Floor
  {
    if v * 10.0 >= 1.0 then
      assert Shift(v, 1) == v * 10.0;
      -1
    else
      MulTenShrinksInverse(v);
      var e := ExpDown(v * 10.0);
      ShiftAdd(v, 1, -e);
      e - 1
  }

  /** `math.floor(math.log10(v))`: the exponent that brings v into [1, 10). */
  function DecadeExp(v: real): (e: int)
    requires v > 0.0
    ensures 1.0 <= Shift(v, -e) < 10.0
  {
    if v >= 1.0 then ExpUp(v) else ExpDown(v)
  }

  /** The exponent that brings v into [1, 10) is unique. */
  lemma DecadeExpUnique(v: real, k: int)
    requires v > 0.0 && 1.0 <= Shift(v, -k) < 10.0
    ensures DecadeExp(v) == k
  {
    var e := DecadeExp(v);
    var n := Shift(v, -e);
    ShiftAdd(v, -e, e - k);
    if e - k >= 1 {
      ShiftUp(n, e - k);
    } else if e - k <= -1 {
      ShiftDown(n, e - k);
    }
  }

  /** `10 ** math.floor(math.log10(v))` */
  function Decade(v: real): (d: real)
    requires v > 0.0
    ensures d > 0.0
  {
    ShiftPositive(1.0, DecadeExp(v));
    Shift(1.0, DecadeExp(v))
  }

  /** `v / decade`, the value brought into [1, 10). */
  function Normalised(v: real): (n: real)
    requires v > 0.0
    ensures 1.0 <= n < 10.0
  {
    Shift(v, -DecadeExp(v))
  }

  /** The decade lies at or below the value, and ten times it above. */
  lemma DecadeBounds(v: real)
    requires v > 0.0
    ensures 0.0 < Decade(v) <= v < 10.0 * Decade(v)
  {
    var e := DecadeExp(v);
    ShiftPositive(1.0, e);
    ShiftMonotoneWeak(1.0, Normalised(v), e);
    ShiftMonotone(Normalised(v), 10.0, e);
    ShiftAdd(v, -e, e);
    ShiftAdd(1.0, 1, e);
    ShiftStep(1.0, e);
    ShiftAdd(1.0, e, 1);
  }

  /** The normalised value is the quotient `value / decade` the code computes. */
  lemma NormalisedIsQuotient(v: real)
    requires v > 0.0
    ensures Normalised(v) == v / Decade(v)
  {
    ShiftQuotient(v, DecadeExp(v));
  }

  /** Shifting down by e is dividing by ten to the e. */
  lemma ShiftQuotient(v: real, e: int)
    ensures Shift(1.0, e) > 0.0 && Shift(v, -e) == v / Shift(1.0, e)
  {
    ShiftPositive(1.0, e);
    ShiftScale(v, -e);
    ShiftScale(Shift(1.0, -e), e);
    ShiftAdd(1.0, -e, e);
    Quotient(v, Shift(1.0, -e), Shift(1.0, e));
  }

  lemma Quotient(v: real, q: real, d: real)
    requires d > 0.0 && q * d == 1.0
    ensures v * q == v / d
  {
    assert (v * q) * d == v * (q * d);
  }

  /** Shifting c is c times the shifted 1. */
  lemma {:induction false} ShiftScale(c: real, e: int)
    ensures Shift(c, e) == c * Shift(1.0, e)
    decreases if e < 0 then -e else e
  {
    if e > 0 {
      ShiftScale(c, e - 1);
      ScaleRight(c, Shift(1.0, e - 1), 10.0);
    } else if e < 0 {
      ShiftScale(c, e + 1);
      ShiftStep(1.0, e);
      ShiftStep(c, e);
      ScaleRight(c, Shift(1.0, e), 10.0);
    }
  }

  /** Ten shifted by e is one shifted by e + 1. */
  lemma TenIsNextOne(e: int)
    ensures Shift(10.0, e) == Shift(1.0, e + 1)
  {
    ShiftAdd(1.0, 1, e);
    ShiftAdd(1.0, e, 1);
  }

  /** A member of [1, 10) shifted by e has decade exponent e and normalises back to itself. */
  lemma ShiftedMember(a: real, e: int)
    requires 1.0 <= a < 10.0
    ensures Shift(a, e) > 0.0 && DecadeExp(Shift(a, e)) == e && Normalised(Shift(a, e)) == a
  {
    ShiftPositive(a, e);
    ShiftAdd(a, e, -e);
    DecadeExpUnique(Shift(a, e), e);
  }
}

=== FILE: dsl_generator.dfy ===
/**
 * The DSL generator of `dsl_generator.py`: an object with a line buffer that it resets,
 * fills section by section from a circuit record and joins with newlines. The text of
 * each line is modelled character for character.
 */
module DslGenerator {
  import opened Wrappers
  import opened Strings
  import opened CircuitJson

  const HeaderPrefix := "# AutoCDA DSL - "

  /** `f"CONSTRAINT: {key}={value}"` */
  function ConstraintLine(entry: (string, string)): string {
    "CONSTRAINT: " + entry.0 + "=" + entry.1
  }

  /** `f"({', '.join(nets)})"` */
  function NetsText(c: CompJson): string {
    "(" + Join(NetsOf(c), ", ") + ")"
  }

  /** ` value={value}` for a non-empty value, else nothing. */
  function ValuePart(c: CompJson): string {
    if Given(c.value) then " value=" + c.value.value else ""
  }

  /** The `COMP:` line of one component (the two f-strings of `_add_components`). */
  function CompLine(c: CompJson): string {
    "COMP: " + c.id.GetOr("UNKNOWN") + " " + c.kind.GetOr("UNKNOWN") + ValuePart(c) + " nets=" + NetsText(c)
  }

  /** `f"NET: {net_name} connects [{nodes_str}]"` */
  function ConnectionLine(conn: ConnJson): string {
    "NET: " + conn.net.GetOr("UNKNOWN") + " connects [" + Join(conn.nodes.GetOr([]), ", ") + "]"
  }

  /** One `CONSTRAINT:` line per entry, in dictionary order. */
  function ConstraintEntries(cs: seq<(string, string)>): (r: seq<string>)
    ensures |r| == |cs|
    ensures forall k :: 0 <= k < |cs| ==> r[k] == ConstraintLine(cs[k])
  {
    if cs == [] then [] else ConstraintEntries(cs[..|cs| - 1]) + [ConstraintLine(cs[|cs| - 1])]
  }

  /** One `COMP:` line per component, in input order. */
  function ComponentEntries(comps: seq<CompJson>): (r: seq<string>)
    ensures |r| == |comps|
    ensures forall k :: 0 <= k < |comps| ==> r[k] == CompLine(comps[k])
  {
    if comps == [] then [] else ComponentEntries(comps[..|comps| - 1]) + [CompLine(comps[|comps| - 1])]
  }

  /** One `NET:` line per connection, in input order. */
  function ConnectionEntries(conns: seq<ConnJson>): (r: seq<string>)
    ensures |r| == |conns|
    ensures forall k :: 0 <= k < |conns| ==> r[k] == ConnectionLine(conns[k])
  {
    if conns == [] then [] else ConnectionEntries(conns[..|conns| - 1]) + [ConnectionLine(conns[|conns| - 1])]
  }

  /** What `_add_constraints` appends. */
  function ConstraintSection(cs: Dict): seq<string> {
    ["# Constraints"] + ConstraintEntries(cs)
  }

  /** What `_add_components` appends. */
  function ComponentSection(comps: seq<CompJson>): seq<string> {
    ["# Components"] + ComponentEntries(comps)
  }

  /** What `_add_connections` appends. */
  function ConnectionSection(conns: seq<ConnJson>): seq<string> {
    ["# Connections"] + ConnectionEntries(conns)
  }

  /** The constraint section and its blank line, when the record has the key. */
  function ConstraintPart(j: CircuitJson): seq<string> {
    if j.constraints.Some? then ConstraintSection(j.constraints.value) + [""] else []
  }

  /** The component section and its blank line, when the record has the key. */
  function ComponentPart(j: CircuitJson): seq<string> {
    if j.components.Some? then ComponentSection(j.components.value) + [""] else []
  }

  /** The connection section, when the record has the key. */
  function ConnectionPart(j: CircuitJson): seq<string> {
    if j.connections.Some? then ConnectionSection(j.connections.value) else []
  }

  /**
   * The buffer after `json_to_dsl`: the header and a blank line, then each section whose key
   * is present, in the order constraints, components, connections.
   */
  function DslLines(j: CircuitJson): (lines: seq<string>)
    ensures |lines| >= 2 && lines[0] == HeaderPrefix + j.typeField.GetOr("unknown") && lines[1] == ""
  {
    [HeaderPrefix + j.typeField.GetOr("unknown"), ""] + ConstraintPart(j) + ComponentPart(j) + ConnectionPart(j)
  }

  /** `json_to_dsl`: the lines joined by newlines. */
  function Dsl(j: CircuitJson): string {
    Join(DslLines(j), "\n")
  }

  // ---------------------------------------------------------------------------------------
  // Splitting the text back into its lines

  /** No text of the record holds a newline. */
  predicate OneLine(s: string) { '\n' !in s }

  predicate AllOneLine(xs: seq<string>) { forall k :: 0 <= k < |xs| ==> OneLine(xs[k]) }

  predicate CompOneLine(c: CompJson) {
    && OneLine(c.id.GetOr("")) && OneLine(c.kind.GetOr("")) && OneLine(c.value.GetOr(""))
    && AllOneLine(NetsOf(c))
  }

  predicate ConnOneLine(conn: ConnJson) {
    OneLine(conn.net.GetOr("")) && AllOneLine(conn.nodes.GetOr([]))
  }

  predicate RecordOneLine(j: CircuitJson) {
    && OneLine(j.typeField.GetOr(""))
    && (forall k :: 0 <= k < |j.constraints.GetOr([])| ==>
          OneLine(j.constraints.GetOr([])[k].0) && OneLine(j.constraints.GetOr([])[k].1))
    && (forall k :: 0 <= k < |j.components.GetOr([])| ==> CompOneLine(j.components.GetOr([])[k]))
    && (forall k :: 0 <= k < |j.connections.GetOr([])| ==> ConnOneLine(j.connections.GetOr([])[k]))
  }

  /** A character found in neither the elements nor the separator is not in the join. */
  lemma {:induction false} JoinAvoids(xs: seq<string>, sep: string, c: char)
    requires c !in sep && forall k :: 0 <= k < |xs| ==> c !in xs[k]
    ensures c !in Join(xs, sep)
    decreases |xs|
  {
    if |xs| > 1 {
      JoinAvoids(xs[1..], sep, c);
    }
  }

  lemma CompLineOneLine(c: CompJson)
    requires CompOneLine(c)
    ensures OneLine(CompLine(c))
  {
    JoinAvoids(NetsOf(c), ", ", '\n');
  }

  lemma ConnectionLineOneLine(conn: ConnJson)
    requires ConnOneLine(conn)
    ensures OneLine(ConnectionLine(conn))
  {
    JoinAvoids(conn.nodes.GetOr([]), ", ", '\n');
  }

  lemma ConstraintsOneLine(cs: Dict)
    requires forall k :: 0 <= k < |cs| ==> OneLine(cs[k].0) && OneLine(cs[k].1)
    ensures AllOneLine(ConstraintSection(cs) + [""])
  {
    var r := ConstraintSection(cs) + [""];
    forall k | 0 <= k < |r|
      ensures OneLine(r[k])
    {
      if 0 < k <= |cs| {
        assert r[k] == ConstraintLine(cs[k - 1]);
      }
    }
  }

  lemma ComponentsOneLine(comps: seq<CompJson>)
    requires forall k :: 0 <= k < |comps| ==> CompOneLine(comps[k])
    ensures AllOneLine(ComponentSection(comps) + [""])
  {
    var r := ComponentSection(comps) + [""];
    forall k | 0 <= k < |r|
      ensures OneLine(r[k])
    {
      if 0 < k <= |comps| {
        assert r[k] == CompLine(comps[k - 1]);
        CompLineOneLine(comps[k - 1]);
      }
    }
  }

  lemma ConnectionsOneLine(conns: seq<ConnJson>)
    requires forall k :: 0 <= k < |conns| ==> ConnOneLine(conns[k])
    ensures AllOneLine(ConnectionSection(conns))
  {
    var r := ConnectionSection(conns);
    forall k | 0 <= k < |r|
      ensures OneLine(r[k])
    {
      if 0 < k {
        assert r[k] == ConnectionLine(conns[k - 1]);
        ConnectionLineOneLine(conns[k - 1]);
      }
    }
  }

  /** No line of the buffer holds a newline when no text of the record does. */
  lemma LinesOneLine(j: CircuitJson)
    requires RecordOneLine(j)
    ensures AllOneLine(DslLines(j))
  {
    var head := [HeaderPrefix + j.typeField.GetOr("unknown"), ""];
    PartsOneLine(j);
    assert AllOneLine(head);
    AllOneLineConcat(head, ConstraintPart(j));
    AllOneLineConcat(head + ConstraintPart(j), ComponentPart(j));
    AllOneLineConcat(head + ConstraintPart(j) + ComponentPart(j), ConnectionPart(j));
  }

  lemma PartsOneLine(j: CircuitJson)
    requires RecordOneLine(j)
    ensures AllOneLine(ConstraintPart(j)) && AllOneLine(ComponentPart(j)) && AllOneLine(ConnectionPart(j))
  {
    if j.constraints.Some? {
      assert j.constraints.GetOr([]) == j.constraints.value;
      ConstraintsOneLine(j.constraints.value);
    }
    if j.components.Some? {
      assert j.components.GetOr([]) == j.components.value;
      ComponentsOneLine(j.components.value);
    }
    if j.connections.Some? {
      assert j.connections.GetOr([]) == j.connections.value;
      ConnectionsOneLine(j.connections.value);
    }
  }

  lemma AllOneLineConcat(a: seq<string>, b: seq<string>)
    requires AllOneLine(a) && AllOneLine(b)
    ensures AllOneLine(a + b)
  {
    forall k | 0 <= k < |a + b|
      ensures OneLine((a + b)[k])
    {
      if k < |a| {
        assert (a + b)[k] == a[k];
      } else {
        assert (a + b)[k] == b[k - |a|];
      }
    }
  }

  /** `dsl.split('\n')` gives back the buffer's lines when the record holds no newline. */
  lemma DslSplitsIntoLines(j: CircuitJson)
    requires RecordOneLine(j)
    ensures SplitOn(Dsl(j), "\n") == DslLines(j)
  {
    LinesOneLine(j);
    SplitJoin(DslLines(j), '\n');
  }

  // ---------------------------------------------------------------------------------------
  // The generator object

  class DslGenerator {
    var dslLines: seq<string>

    constructor()
      ensures dslLines == []
    {
      dslLines := [];
    }

    /**
     * `json_to_dsl`: the buffer is reset first, so the text and the new buffer depend on the
     * record alone.
     */
    method JsonToDsl(j: CircuitJson) returns (s: string)
      modifies this
      ensures dslLines == DslLines(j)
      ensures s == Dsl(j)
    {
      dslLines := [];
      var circuitType := j.typeField.GetOr("unknown");
      dslLines := dslLines + [HeaderPrefix + circuitType];
      dslLines := dslLines + [""];
      ghost var header := dslLines;
      assert header == [HeaderPrefix + j.typeField.GetOr("unknown"), ""];
      if j.constraints.Some? {
        AddConstraints(j.constraints.value);
        LinesAssoc(header, ConstraintSection(j.constraints.value), [""]);
        dslLines := dslLines + [""];
      }
      assert dslLines == header + ConstraintPart(j);
      ghost var before := dslLines;
      if j.components.Some? {
        AddComponents(j.components.value);
        LinesAssoc(before, ComponentSection(j.components.value), [""]);
        dslLines := dslLines + [""];
      }
      assert dslLines == header + ConstraintPart(j) + ComponentPart(j);
      if j.connections.Some? {
        AddConnections(j.connections.value);
      }
      assert dslLines == header + ConstraintPart(j) + ComponentPart(j) + ConnectionPart(j);
      s := Join(dslLines, "\n");
    }

    /** `_add_constraints` */
    method AddConstraints(constraints: Dict)
      modifies this
      ensures dslLines == old(dslLines) + ConstraintSection(constraints)
    {
      dslLines := dslLines + ["# Constraints"];
      ghost var start := dslLines;
      var i := 0;
      while i < |constraints|
        invariant 0 <= i <= |constraints|
        invariant dslLines == start + ConstraintEntries(constraints[..i])
      {
        assert constraints[..i + 1][..i] == constraints[..i];
        var (key, value) := constraints[i];
        LinesAssoc(start, ConstraintEntries(constraints[..i]), [ConstraintLine((key, value))]);
        dslLines := dslLines + ["CONSTRAINT: " + key + "=" + value];
        i := i + 1;
      }
      assert constraints[..i] == constraints;
      LinesAssoc(old(dslLines), ["# Constraints"], ConstraintEntries(constraints));
    }

    /** `_add_components` */
    method AddComponents(components: seq<CompJson>)
      modifies this
      ensures dslLines == old(dslLines) + ComponentSection(components)
    {
      dslLines := dslLines + ["# Components"];
      ghost var start := dslLines;
      var i := 0;
      while i < |components|
        invariant 0 <= i <= |components|
        invariant dslLines == start + ComponentEntries(components[..i])
      {
        assert components[..i + 1][..i] == components[..i];
        var compLine := CompLine(components[i]);
        LinesAssoc(start, ComponentEntries(components[..i]), [compLine]);
        dslLines := dslLines + [compLine];
        i := i + 1;
      }
      assert components[..i] == components;
      LinesAssoc(old(dslLines), ["# Components"], ComponentEntries(components));
    }

    /** `_add_connections` */
    method AddConnections(connections: seq<ConnJson>)
      modifies this
      ensures dslLines == old(dslLines) + ConnectionSection(connections)
    {
      dslLines := dslLines + ["# Connections"];
      ghost var start := dslLines;
      var i := 0;
      while i < |connections|
        invariant 0 <= i <= |connections|
        invariant dslLines == start + ConnectionEntries(connections[..i])
      {
        assert connections[..i + 1][..i] == connections[..i];
        var conn := connections[i];
        var netName := conn.net.GetOr("UNKNOWN");
        var nodesStr := Join(conn.nodes.GetOr([]), ", ");
        var netLine := "NET: " + netName + " connects [" + nodesStr + "]";
        LinesAssoc(start, ConnectionEntries(connections[..i]), [netLine]);
        dslLines := dslLines + [netLine];
        i := i + 1;
      }
      assert connections[..i] == connections;
      LinesAssoc(old(dslLines), ["# Connections"], ConnectionEntries(connections));
    }
  }
}

=== FILE: explainer.dfy ===
/**
 * The explanation generator of `explainer.py`: an object that collects the sections of a
 * plain-language description of a circuit (opening, components, calculations,
 * verification) and joins them with blank lines. The numbers the calculation sections
 * print through f-string formats go through `show`, which stands for Python's float
 * formatting; everything else in the text is modelled character for character.
 */
module Explainer {
  import opened Wrappers
  import opened Strings
  import opened PyFloat
  import opened CircuitJson

  const MicroSign: char := '\U{00B5}'

  /** `_parse_value`'s unit prefixes, in the order it tries them, with their scales. */
  const Multipliers: seq<(string, real)> := [
    ("g", 1000000000.0), ("m", 1000000.0), ("k", 1000.0), ("h", 100.0), ("da", 10.0),
    ("d", 0.1), ("c", 0.01), ([MicroSign], 0.000001), ("u", 0.000001),
    ("n", 0.000000001), ("p", 0.000000000001), ("f", 0.000000000000001)
  ]

  /** `[0-9.]` */
  predicate NumberChar(c: char) { IsDigit(c) || c == '.' }

  /** `[a-zµ]` */
  predicate UnitChar(c: char) { IsLowerAscii(c) || c == MicroSign }

  /** The end of the longest run of characters satisfying p that starts at i. */
  function Span(s: string, i: nat, p: char -> bool): (j: nat)
    requires i <= |s|
    ensures i <= j <= |s|
    ensures forall k :: i <= k < j ==> p(s[k])
    ensures j == |s| || !p(s[j])
    decreases |s| - i
  {
    if i < |s| && p(s[i]) then Span(s, i + 1, p) else i
  }

  /** The index of the first table prefix the unit starts with. */
  function PrefixFrom(unit: string, i: nat): (r: Option<nat>)
    requires i <= |Multipliers|
    ensures r.Some? ==> i <= r.value < |Multipliers| && StartsWith(unit, Multipliers[r.value].0)
    ensures forall k :: i <= k < |Multipliers| && (r.None? || k < r.value) ==> !StartsWith(unit, Multipliers[k].0)
    decreases |Multipliers| - i
  {
    if i == |Multipliers| then None
    else if StartsWith(unit, Multipliers[i].0) then Some(i)
    else PrefixFrom(unit, i + 1)
  }

  /** The scale of the first matching prefix; 1 when no prefix matches. */
  function UnitScale(unit: string): (m: real)
    ensures m > 0.0
  {
    match PrefixFrom(unit, 0)
    case None => 1.0
    case Some(k) => Multipliers[k].1
  }

  /** The text `_parse_value` works on: stripped, then lower-cased. */
  function Normalised(v: string): string {
    Lower(Strip(v))
  }

  /** Where the leading `[0-9.]+` run of t ends (0: the pattern does not match). */
  function NumberEnd(t: string): (n: nat)
    ensures n <= |t|
  {
    Span(t, 0, NumberChar)
  }

  /** The `[a-zµ]*` group, after the number and `\s*`. */
  function UnitOf(t: string): string {
    var n := NumberEnd(t);
    var m := Span(t, n, IsSpace);
    t[m..Span(t, m, UnitChar)]
  }

  /**
   * `_parse_value` on the stripped, lower-cased text: `Success(None)` when it does not start
   * with a digit or '.'; `Failure` where `float` rejects the leading digits-and-dots run;
   * otherwise the number scaled by the first unit prefix that matches, never negative.
   */
  function ParseText(t: string): (r: Result<Option<real>, PyError>)
    ensures var run := t[..NumberEnd(t)];
            && (r == Success(None) <==> run == [])
            && (r.Failure? <==> run != [] && !(CountChar(run, '.') <= 1 && HasDigit(run)))
    ensures r.Success? && r.value.Some? ==> r.value.value >= 0.0
  {
    var n := NumberEnd(t);
    if n == 0 then Success(None)
    else
      var run := t[..n];
      assert DigitsAndDots(run);
      DigitsAndDotsParse(run);
      match FloatOrError(run)
      case Failure(e) => Failure(e)
      case Success(x) =>
        var m := UnitScale(UnitOf(t));
        ScaledNonNegative(x, m);
        Success(Some(Times(x, m)))
  }

  /**
   * Where `float` reads the leading run as x, `_parse_value` returns x times the scale of the
   * unit; with ParseText's own contract this covers every number it returns.
   */
  lemma ParseTextValue(t: string, x: real)
    requires FloatOrError(t[..NumberEnd(t)]) == Success(x)
    ensures ParseText(t) == Success(Some(Times(x, UnitScale(UnitOf(t)))))
  {
    var run := t[..NumberEnd(t)];
    assert DigitsAndDots(run);
    DigitsAndDotsParse(run);
    assert run != [];
  }

  /** The number times the unit's multiplier. */
  function Times(x: real, m: real): real {
    x * m
  }

  /** `_parse_value`: `Success(None)` for no text or empty text. */
  function ParseValue(v: Option<string>): (r: Result<Option<real>, PyError>)
    ensures v.None? || v.value == [] ==> r == Success(None)
    ensures v.Some? && v.value != [] ==> r == ParseText(Normalised(v.value))
  {
    if v.None? || v.value == [] then Success(None) else ParseText(Normalised(v.value))
  }

  lemma ScaledNonNegative(x: real, m: real)
    requires x >= 0.0 && m > 0.0
    ensures Times(x, m) >= 0.0
  {
  }

  /** `_parse_value` lower-cases first: texts differing only in letter case parse alike. */
  lemma CaseInsensitive(a: string, b: string)
    requires Lower(a) == Lower(b)
    ensures ParseValue(Some(a)) == ParseValue(Some(b))
  {
    StripSameCase(a, b);
    assert Normalised(a) == Normalised(b);
  }

  /** No unit text scales by a thousandth: "m" (like "M") is mega, and milli cannot be written. */
  lemma {:induction false} NoMilli(unit: string)
    ensures UnitScale(unit) != 0.001
    ensures StartsWith(unit, "m") ==> UnitScale(unit) == 1000000.0
  {
    var r := PrefixFrom(unit, 0);
    if StartsWith(unit, "m") {
      assert Multipliers[1].0 == "m";
      assert r.Some? && r.value <= 1;
      assert unit[..1] == "m";
      assert !StartsWith(unit, Multipliers[0].0);
    }
  }

  /** Digits followed directly by a unit are read as their integer times the unit's scale. */
  lemma ParseNumberUnit(d: string, u: string)
    requires d != [] && AllDigits(d)
    requires u != [] && forall i :: 0 <= i < |u| ==> UnitChar(u[i])
    ensures ParseText(d + u) == Success(Some(Times(DigitsValue(d) as real, UnitScale(u))))
  {
    var t := d + u;
    assert forall k :: 0 <= k < |d| ==> t[k] == d[k];
    assert forall k :: |d| <= k < |t| ==> t[k] == u[k - |d|];
    var n := NumberEnd(t);
    assert !NumberChar(t[|d|]);
    assert n == |d|;
    assert t[..n] == d;
    assert !IsSpace(t[n]);
    assert Span(t, n, IsSpace) == n;
    assert Span(t, n, UnitChar) == |t|;
    assert UnitOf(t) == u;
    DigitsParse(d);
    ParseTextValue(t, DigitsValue(d) as real);
  }

  /** Units as `_parse_value` sees them after lower-casing: volts, nanofarads, hertz, kilohms. */
  lemma ScaleExamples()
    ensures UnitScale("v") == 1.0
    ensures UnitScale("nf") == 0.000000001
    ensures UnitScale("hz") == 100.0
    ensures UnitScale("kohm") == 1000.0
  {
    assert "v"[..1] == "v";
    assert "nf"[..1] == "n" && "nf"[..2] == "nf";
    assert "hz"[..1] == "h";
    assert "kohm"[..1] == "k";
  }

  /**
   * Whole values as `_parse_value` reads them: "9V" is 9, "159nF" is 159e-9, and "100Hz" is
   * 10000, because "h" is read as hecto.
   */
  lemma UnitExamples()
    ensures ParseValue(Some("9V")) == Success(Some(9.0))
    ensures ParseValue(Some("159nF")) == Success(Some(0.000000159))
    ensures ParseValue(Some("100Hz")) == Success(Some(10000.0))
  {
    NineVolts();
    NanoFarads();
    HundredHertz();
  }

  lemma NineVolts()
    ensures ParseValue(Some("9V")) == Success(Some(9.0))
  {
    DigitsUnitExample("9V", "9", "V", "v");
    ExampleProducts();
  }

  lemma NanoFarads()
    ensures ParseValue(Some("159nF")) == Success(Some(0.000000159))
  {
    DigitsUnitExample("159nF", "159", "nF", "nf");
    ExampleProducts();
  }

  lemma HundredHertz()
    ensures ParseValue(Some("100Hz")) == Success(Some(10000.0))
  {
    DigitsUnitExample("100Hz", "100", "Hz", "hz");
    ExampleProducts();
  }

  /** The numbers times the scales of the three examples. */
  lemma ExampleProducts()
    ensures Times(DigitsValue("9") as real, UnitScale("v")) == 9.0
    ensures Times(DigitsValue("159") as real, UnitScale("nf")) == 0.000000159
    ensures Times(DigitsValue("100") as real, UnitScale("hz")) == 10000.0
  {
    DigitsExamples();
    ScaleExamples();
  }

  /** A value written as digits and a unit in any case parses to the digits' integer times the unit's scale. */
  lemma DigitsUnitExample(v: string, d: string, upper: string, u: string)
    requires v == d + upper && d != [] && AllDigits(d)
    requires upper != [] && !IsSpace(upper[|upper| - 1])
    requires |upper| == |u| && forall i :: 0 <= i < |u| ==> LowerChar(upper[i]) == u[i] && UnitChar(u[i])
    ensures ParseValue(Some(v)) == Success(Some(Times(DigitsValue(d) as real, UnitScale(u))))
  {
    assert v != [];
    assert ParseValue(Some(v)) == ParseText(Normalised(v));
    NormalisedDigitsUnit(d, upper, u);
    ParseNumberUnit(d, u);
  }

  /** Digits followed by a unit written in any case normalise to the digits and the lower-case unit. */
  lemma NormalisedDigitsUnit(d: string, upper: string, u: string)
    requires d != [] && AllDigits(d) && upper != [] && !IsSpace(upper[|upper| - 1])
    requires |upper| == |u| && forall i :: 0 <= i < |u| ==> LowerChar(upper[i]) == u[i]
    ensures Normalised(d + upper) == d + u
  {
    var v := d + upper;
    assert !IsSpace(v[0]) by { assert v[0] == d[0] && IsDigit(d[0]); }
    assert v[|v| - 1] == upper[|upper| - 1];
    StripNoEdgeSpace(v);
    var w := d + u;
    forall i | 0 <= i < |v| ensures LowerChar(v[i]) == w[i] {
      if i < |d| {
        assert v[i] == d[i] && w[i] == d[i] && IsDigit(d[i]);
      } else {
        assert v[i] == upper[i - |d|] && w[i] == u[i - |d|];
      }
    }
    assert Lower(v) == w;
  }

  /** The three-digit runs of the examples. */
  lemma DigitsExamples()
    ensures DigitsValue("9") == 9
    ensures DigitsValue("159") == 159
    ensures DigitsValue("100") == 100
  {
    assert "15"[..1] == "1" && "159"[..2] == "15";
    assert "10"[..1] == "1" && "100"[..2] == "10";
  }

  // ---------------------------------------------------------------------------------------
  // Opening, components and verification sections

  function TypeDescription(t: string): string {
    if t == "rc_lowpass_filter" then "RC low-pass filter"
    else if t == "rc_highpass_filter" then "RC high-pass filter"
    else if t == "voltage_divider" then "voltage divider"
    else if t == "led_current_limiter" then "LED current limiter"
    else Replace(t, "_", " ")
  }

  /** The constraint phrases of the opening, in the order the source tests them. */
  function Mentions(cs: Dict): (ms: seq<string>)
    ensures var cutoff := Get(cs, "cutoff_freq");
            var both := Get(cs, "input_voltage").Some? && Get(cs, "output_voltage").Some?;
            && |ms| == (if cutoff.Some? then 1 else 0) + (if both then 1 else 0)
            && (cutoff.Some? ==> ms[0] == "a cutoff frequency of " + cutoff.value)
            && (both ==> ms[|ms| - 1] == "converting " + Get(cs, "input_voltage").value + " to " + Get(cs, "output_voltage").value)
  {
    var cutoff := Get(cs, "cutoff_freq");
    var vin := Get(cs, "input_voltage");
    var vout := Get(cs, "output_voltage");
    (if cutoff.Some? then ["a cutoff frequency of " + cutoff.value] else [])
    + (if vin.Some? && vout.Some? then ["converting " + vin.value + " to " + vout.value] else [])
  }

  /** `_add_opening` */
  function Opening(t: string, cs: Dict): string {
    var ms := Mentions(cs);
    "I designed a " + TypeDescription(t) + (if ms != [] then " with " + Join(ms, " and ") else "") + "."
  }

  /** One entry of `component_list`. */
  function ComponentItem(c: CompJson): string {
    var head := c.id.GetOr("UNKNOWN") + " (" + c.kind.GetOr("unknown");
    if Given(c.value) then head + ", " + c.value.value + ")" else head + ")"
  }

  /** `component_list`, in input order. */
  function Items(comps: seq<CompJson>): (r: seq<string>)
    ensures |r| == |comps|
    ensures forall k :: 0 <= k < |comps| ==> r[k] == ComponentItem(comps[k])
  {
    if comps == [] then [] else Items(comps[..|comps| - 1]) + [ComponentItem(comps[|comps| - 1])]
  }

  /** The sentence `_explain_components` builds from a non-empty item list. */
  function ComponentSentence(items: seq<string>): string
    requires items != []
  {
    if |items| == 1 then "The circuit uses " + items[0] + "."
    else if |items| == 2 then "The circuit uses " + items[0] + " and " + items[1] + "."
    else "The circuit uses " + Join(items[..|items| - 1], ", ") + ", and " + items[|items| - 1] + "."
  }

  /** The lists of one, two and three items read "A", "A and B" and "A, B, and C". */
  lemma SentenceForms(a: string, b: string, c: string)
    ensures ComponentSentence([a]) == "The circuit uses " + a + "."
    ensures ComponentSentence([a, b]) == "The circuit uses " + a + " and " + b + "."
    ensures ComponentSentence([a, b, c]) == "The circuit uses " + a + ", " + b + ", and " + c + "."
  {
    assert [a, b, c][..2] == [a, b];
    assert [a, b][1..] == [b];
    assert Join([a, b], ", ") == a + ", " + b;
  }

  /** What `_explain_components` appends: nothing for no components, else one sentence. */
  function ComponentsPart(comps: seq<CompJson>): (ps: seq<string>)
    ensures |ps| == if comps == [] then 0 else 1
  {
    if comps == [] then [] else [ComponentSentence(Items(comps))]
  }

  const LowpassCheck := "This configuration ensures signals above the cutoff frequency are attenuated while allowing lower frequencies to pass through."
  const HighpassCheck := "This configuration ensures signals below the cutoff frequency are attenuated while allowing higher frequencies to pass through."
  const DividerCheck := "The circuit provides a stable voltage division ratio suitable for signal conditioning or reference voltage generation."

  /** `_add_verification` */
  function VerificationPart(t: string): (ps: seq<string>)
    ensures |ps| <= 1
    ensures ps == [] <==> !IsRcType(t) && t != "voltage_divider"
  {
    if t == "rc_lowpass_filter" then
      [LowpassCheck]
    else if t == "rc_highpass_filter" then
      [HighpassCheck]
    else if t == "voltage_divider" then
      [DividerCheck]
    else []
  }

  // ---------------------------------------------------------------------------------------
  // Calculation section

  const Pi: real := 3.141592653589793
  const RcFormula := "f_c = 1 / (2\U{03C0} \U{00D7} R \U{00D7} C)"
  const DividerFormula := "V_out = V_in \U{00D7} (R2 / (R1 + R2))"

  predicate IsRcType(t: string) { t == "rc_lowpass_filter" || t == "rc_highpass_filter" }

  /** A component's value as the loop keeps it: the text and what `_parse_value` made of it. */
  datatype Pick = Pick(text: Option<string>, number: Option<real>)

  const Unset := Pick(None, None)

  /** The `if r_value and ... r_numeric` test: text given and a non-zero number. */
  predicate Usable(p: Pick) { Given(p.text) && p.number.Some? && p.number.value != 0.0 }

  predicate IsResistor(c: CompJson) { c.kind == Some("resistor") }
  predicate IsCapacitor(c: CompJson) { c.kind == Some("capacitor") }
  predicate IsR1(c: CompJson) { c.id == Some("R1") }
  predicate IsR2(c: CompJson) { c.id == Some("R2") }

  /** `_parse_value` raises on the text. */
  predicate Rejected(v: Option<string>) { ParseValue(v).Failure? }

  /** A component's value read and parsed, as one branch of the selection loop does. */
  function PickOf(c: CompJson): (r: Result<Pick, PyError>)
    ensures r.Failure? <==> Rejected(c.value)
    ensures r.Success? ==> r.value.text == c.value && ParseValue(c.value) == Success(r.value.number)
    ensures r.Success? && r.value.number.Some? ==> r.value.number.value >= 0.0
  {
    match ParseValue(c.value)
    case Failure(e) => Failure(e)
    case Success(n) => Success(Pick(c.value, n))
  }

  /**
   * The selection loop of `_explain_calculations`: each component that passes `first`
   * (else `second`) overwrites that slot with its parsed value; a parse error ends the loop.
   */
  function Select(comps: seq<CompJson>, first: CompJson -> bool, second: CompJson -> bool): (r: Result<(Pick, Pick), PyError>)
  {
    if comps == [] then Success((Unset, Unset))
    else
      match Select(comps[..|comps| - 1], first, second)
      case Failure(e) => Failure(e)
      case Success(slots) => SelectOne(slots, comps[|comps| - 1], first, second)
  }

  /** One turn of the selection loop, on the slots so far and the next component. */
  function SelectOne(slots: (Pick, Pick), c: CompJson, first: CompJson -> bool, second: CompJson -> bool): Result<(Pick, Pick), PyError> {
    if first(c) then
      match PickOf(c)
      case Failure(e) => Failure(e)
      case Success(p) => Success((p, slots.1))
    else if second(c) then
      match PickOf(c)
      case Failure(e) => Failure(e)
      case Success(p) => Success((slots.0, p))
    else Success(slots)
  }

  /** The loop's turn on the component at i. */
  lemma SelectStep(comps: seq<CompJson>, i: nat, first: CompJson -> bool, second: CompJson -> bool, slots: (Pick, Pick))
    requires i < |comps| && Select(comps[..i], first, second) == Success(slots)
    ensures Select(comps[..i + 1], first, second) == SelectOne(slots, comps[i], first, second)
  {
    assert comps[..i + 1][..i] == comps[..i];
  }

  /** The value of the last component passing `test`, or None when there is none. */
  function LastValue(comps: seq<CompJson>, test: CompJson -> bool): Option<string> {
    if comps == [] then None
    else if test(comps[|comps| - 1]) then comps[|comps| - 1].value
    else LastValue(comps[..|comps| - 1], test)
  }

  /** The value of the last component passing `second` but not `first`, or None when there is none. */
  function LastOther(comps: seq<CompJson>, first: CompJson -> bool, second: CompJson -> bool): Option<string> {
    if comps == [] then None
    else if second(comps[|comps| - 1]) && !first(comps[|comps| - 1]) then comps[|comps| - 1].value
    else LastOther(comps[..|comps| - 1], first, second)
  }

  /** Some component that the loop parses has a value `_parse_value` rejects. */
  predicate SomeRejected(comps: seq<CompJson>, first: CompJson -> bool, second: CompJson -> bool) {
    exists c :: c in comps && (first(c) || second(c)) && Rejected(c.value)
  }

  /** The loop raises exactly when some selected component's value is rejected. */
  lemma {:induction false} SelectFails(comps: seq<CompJson>, first: CompJson -> bool, second: CompJson -> bool)
    ensures Select(comps, first, second).Failure? <==> SomeRejected(comps, first, second)
  {
    if comps != [] {
      SelectFails(comps[..|comps| - 1], first, second);
      RejectedStep(comps, first, second);
    }
  }

  /** SomeRejected over a list, from its front and its last component. */
  lemma RejectedStep(comps: seq<CompJson>, first: CompJson -> bool, second: CompJson -> bool)
    requires comps != []
    ensures var front := comps[..|comps| - 1];
            var c := comps[|comps| - 1];
            SomeRejected(comps, first, second) <==>
              SomeRejected(front, first, second) || ((first(c) || second(c)) && Rejected(c.value))
  {
    assert comps == comps[..|comps| - 1] + [comps[|comps| - 1]];
  }

  /**
   * Without an error each slot holds the value of the last component selected for it (a
   * component passing both tests goes to the first slot only).
   */
  lemma {:induction false} SelectSlots(comps: seq<CompJson>, first: CompJson -> bool, second: CompJson -> bool)
    requires Select(comps, first, second).Success?
    ensures Select(comps, first, second).value.0.text == LastValue(comps, first)
    ensures Select(comps, first, second).value.1.text == LastOther(comps, first, second)
  {
    if comps != [] {
      SelectSlots(comps[..|comps| - 1], first, second);
    }
  }

  /** Each slot holds what `_parse_value` makes of the text it holds. */
  lemma {:induction false} SelectParsed(comps: seq<CompJson>, first: CompJson -> bool, second: CompJson -> bool)
    requires Select(comps, first, second).Success?
    ensures var slots := Select(comps, first, second).value;
            ParseValue(slots.0.text) == Success(slots.0.number) && ParseValue(slots.1.text) == Success(slots.1.number)
  {
    if comps != [] {
      var front := comps[..|comps| - 1];
      SelectParsed(front, first, second);
      assert Select(comps, first, second) == SelectOne(Select(front, first, second).value, comps[|comps| - 1], first, second);
      SelectOneParsed(Select(front, first, second).value, comps[|comps| - 1], first, second);
    }
  }

  /** One turn of the loop keeps each slot's number equal to what its text parses to. */
  lemma SelectOneParsed(slots: (Pick, Pick), c: CompJson, first: CompJson -> bool, second: CompJson -> bool)
    requires ParseValue(slots.0.text) == Success(slots.0.number) && ParseValue(slots.1.text) == Success(slots.1.number)
    requires SelectOne(slots, c, first, second).Success?
    ensures var next := SelectOne(slots, c, first, second).value;
            ParseValue(next.0.text) == Success(next.0.number) && ParseValue(next.1.text) == Success(next.1.number)
  {
    if first(c) || second(c) {
      var p := PickOf(c);
      assert p.Success?;
      assert ParseValue(p.value.text) == Success(p.value.number);
    }
  }

  /** The `if value and numeric` test on a text: given, parsed without error, and non-zero. */
  predicate UsableValue(v: Option<string>) {
    Given(v) && ParseValue(v).Success? && ParseValue(v).value.Some? && ParseValue(v).value.value != 0.0
  }

  /** `constraints.get('input_voltage', '')` */
  function InputVoltage(cs: Dict): string {
    Get(cs, "input_voltage").GetOr("")
  }

  /** A component that neither test selects does not change the selection. */
  lemma SelectIgnores(comps: seq<CompJson>, c: CompJson, first: CompJson -> bool, second: CompJson -> bool)
    requires !first(c) && !second(c)
    ensures Select(comps + [c], first, second) == Select(comps, first, second)
  {
    assert (comps + [c])[..|comps|] == comps;
  }

  /** The calculation text for an RC filter; the numbers are printed by `show`. */
  function RcText(r: Pick, c: Pick, target: string, show: Rendered -> string): (text: string)
    requires Usable(r) && Usable(c)
    ensures StartsWith(text, "Calculations:\n")
  {
    var rn := r.number.value;
    var cn := c.number.value;
    "Calculations:\n" + (
    "  Formula: " + RcFormula + "\n"
    + "  Given: R = " + r.text.value + ", C = " + c.text.value + "\n"
    + "  f_c = 1 / (2\U{03C0} \U{00D7} " + show(Shortest(rn, "")) + " \U{00D7} " + show(Shortest(cn, "")) + ")\n"
    + "  f_c = 1 / " + show(Sci(2.0 * Pi * rn * cn, 6, "")) + "\n"
    + "  f_c \U{2248} " + show(Fixed(1.0 / (2.0 * Pi * rn * cn), 2, "")) + " Hz"
    + (if target != "" then "\nTarget: " + target + " (achieved within standard component tolerances)" else ""))
  }

  /** The calculation text for a divider with a usable input voltage. */
  function DividerText(vIn: string, vn: real, r1: Pick, r2: Pick, target: string, show: Rendered -> string): (text: string)
    requires Usable(r1) && Usable(r2) && r1.number.value > 0.0 && r2.number.value > 0.0
    ensures StartsWith(text, "Calculations:\n")
  {
    var a := r1.number.value;
    var b := r2.number.value;
    var v := show(Shortest(vn, ""));
    "Calculations:\n" + (
    "  Formula: " + DividerFormula + "\n"
    + "  Given: V_in = " + vIn + ", R1 = " + r1.text.value + ", R2 = " + r2.text.value + "\n"
    + "  V_out = " + v + "V \U{00D7} (" + show(Shortest(b, "")) + "\U{03A9} / (" + show(Shortest(a, ""))
    + "\U{03A9} + " + show(Shortest(b, "")) + "\U{03A9}))\n"
    + "  V_out = " + v + "V \U{00D7} (" + show(Shortest(b, "")) + " / " + show(Shortest(a + b, "")) + ")\n"
    + "  V_out = " + v + "V \U{00D7} " + show(Fixed(b / (a + b), 4, "")) + "\n"
    + "  V_out \U{2248} " + show(Fixed(vn * (b / (a + b)), 2, "")) + "V"
    + (if target != "" then "\nTarget: " + target + " (achieved within standard component tolerances)" else ""))
  }

  /** The divider sentence used when the input voltage gives no number. */
  function FallbackText(r1: string, r2: string): string {
    "The resistor ratio was calculated using: " + DividerFormula + ". "
    + "With R1 = " + r1 + " and R2 = " + r2 + ", the circuit produces the target output voltage."
  }

  /** Positive once usable: the parsed numbers are never negative. */
  lemma UsablePositive(p: Pick, c: CompJson)
    requires PickOf(c) == Success(p) && Usable(p)
    ensures p.number.value > 0.0
  {
  }

  /**
   * The part `_explain_calculations` appends for an RC filter. Without an error it holds the
   * calculation text exactly when the last resistor's and the last capacitor's values are
   * usable; it raises when one of their values is rejected.
   */
  function RcPart(comps: seq<CompJson>, cs: Dict, show: Rendered -> string): (r: Result<seq<string>, PyError>)
    ensures r.Failure? <==> SomeRejected(comps, IsResistor, IsCapacitor)
    ensures r.Success? ==> |r.value| <= 1
    ensures r.Success? ==> (r.value != [] <==> BothUsable(comps, IsResistor, IsCapacitor))
    ensures r.Success? && r.value != [] ==> StartsWith(r.value[0], "Calculations:\n")
  {
    SelectFails(comps, IsResistor, IsCapacitor);
    match Select(comps, IsResistor, IsCapacitor)
    case Failure(e) => Failure(e)
    case Success(slots) =>
      SelectSlots(comps, IsResistor, IsCapacitor);
      SelectParsed(comps, IsResistor, IsCapacitor);
      PickUsable(slots.0);
      PickUsable(slots.1);
      var (r, c) := slots;
      if Usable(r) && Usable(c) then
        var text := RcText(r, c, Get(cs, "cutoff_freq").GetOr(""), show);
        Success([text])
      else Success([])
  }

  /** The last value of the first kind and the last of the second are both usable. */
  predicate BothUsable(comps: seq<CompJson>, first: CompJson -> bool, second: CompJson -> bool) {
    UsableValue(LastValue(comps, first)) && UsableValue(LastOther(comps, first, second))
  }

  /** A pick whose number is its text parsed is usable exactly when its text is. */
  lemma PickUsable(p: Pick)
    requires ParseValue(p.text) == Success(p.number)
    ensures Usable(p) <==> UsableValue(p.text)
  {
  }

  /**
   * The part `_explain_calculations` appends for a voltage divider. Without an error it holds
   * something exactly when the last R1's and R2's values are usable: the calculation text when
   * the input voltage is usable too, the fallback sentence when it is absent, empty, has no
   * leading number or reads as zero. It raises when an R1 or R2 value is rejected, or when the
   * input voltage is and both resistors are usable.
   */
  function DividerPart(comps: seq<CompJson>, cs: Dict, show: Rendered -> string): (r: Result<seq<string>, PyError>)
    ensures r.Failure? <==>
              || SomeRejected(comps, IsR1, IsR2)
              || (BothUsable(comps, IsR1, IsR2) && InputVoltage(cs) != "" && Rejected(Some(InputVoltage(cs))))
    ensures r.Success? ==> |r.value| <= 1 && (r.value != [] <==> BothUsable(comps, IsR1, IsR2))
    ensures r.Success? && r.value != [] && !UsableValue(Some(InputVoltage(cs))) ==>
              r.value == [FallbackText(LastValue(comps, IsR1).value, LastOther(comps, IsR1, IsR2).value)]
    ensures r.Success? && r.value != [] && UsableValue(Some(InputVoltage(cs))) ==>
              StartsWith(r.value[0], "Calculations:\n")
  {
    SelectFails(comps, IsR1, IsR2);
    match Select(comps, IsR1, IsR2)
    case Failure(e) => Failure(e)
    case Success(slots) =>
      SelectSlots(comps, IsR1, IsR2);
      SelectParsed(comps, IsR1, IsR2);
      SelectNonNegative(comps, IsR1, IsR2);
      PickUsable(slots.0);
      PickUsable(slots.1);
      DividerWithText(slots.0, slots.1, InputVoltage(cs), Get(cs, "output_voltage").GetOr(""), show);
      DividerWith(slots.0, slots.1, InputVoltage(cs), Get(cs, "output_voltage").GetOr(""), show)
  }

  /** How `_parse_value` on the input voltage, or None when it is empty, relates to its usability. */
  lemma InputParsed(vIn: string)
    ensures var parsed := if vIn != "" then ParseValue(Some(vIn)) else Success(None);
            && (parsed.Failure? <==> vIn != "" && Rejected(Some(vIn)))
            && (parsed.Success? ==> (parsed.value.Some? && parsed.value.value != 0.0 <==> UsableValue(Some(vIn))))
  {
  }

  /** The divider part once R1 and R2 are picked, with the input voltage and the target as given. */
  function DividerWith(r1: Pick, r2: Pick, vIn: string, target: string, show: Rendered -> string): (r: Result<seq<string>, PyError>)
    requires r1.number.Some? ==> r1.number.value >= 0.0
    requires r2.number.Some? ==> r2.number.value >= 0.0
    ensures r.Failure? <==> Usable(r1) && Usable(r2) && vIn != "" && Rejected(Some(vIn))
    ensures r.Success? ==> |r.value| <= 1 && (r.value != [] <==> Usable(r1) && Usable(r2))
  {
    if !(Usable(r1) && Usable(r2)) then Success([])
    else
      var parsed := if vIn != "" then ParseValue(Some(vIn)) else Success(None);
      InputParsed(vIn);
      match parsed
      case Failure(e) => Failure(e)
      case Success(vn) =>
        if vn.Some? && vn.value != 0.0 then
          Success([DividerText(vIn, vn.value, r1, r2, target, show)])
        else Success([FallbackText(r1.text.value, r2.text.value)])
  }
  /** Which text the divider part holds: the calculation when the input voltage is usable, else the fallback sentence. */
  lemma DividerWithText(r1: Pick, r2: Pick, vIn: string, target: string, show: Rendered -> string)
    requires r1.number.Some? ==> r1.number.value >= 0.0
    requires r2.number.Some? ==> r2.number.value >= 0.0
    ensures var r := DividerWith(r1, r2, vIn, target, show);
            && (r.Success? && r.value != [] && !UsableValue(Some(vIn)) ==> r.value == [FallbackText(r1.text.value, r2.text.value)])
            && (r.Success? && r.value != [] && UsableValue(Some(vIn)) ==> StartsWith(r.value[0], "Calculations:\n"))
  {
    InputParsed(vIn);
  }



  /** Both slots of a selection hold non-negative numbers. */
  lemma {:induction false} SelectNonNegative(comps: seq<CompJson>, first: CompJson -> bool, second: CompJson -> bool)
    requires Select(comps, first, second).Success?
    ensures var slots := Select(comps, first, second).value;
            (slots.0.number.Some? ==> slots.0.number.value >= 0.0) && (slots.1.number.Some? ==> slots.1.number.value >= 0.0)
  {
    if comps != [] {
      SelectNonNegative(comps[..|comps| - 1], first, second);
    }
  }

  /**
   * `_explain_calculations`: for an RC filter a section exactly when R and C are usable, for a
   * divider exactly when R1 and R2 are, and nothing for any other type.
   */
  function CalculationPart(t: string, comps: seq<CompJson>, cs: Dict, show: Rendered -> string): (r: Result<seq<string>, PyError>)
    ensures r.Success? ==> |r.value| <= 1
    ensures !IsRcType(t) && t != "voltage_divider" ==> r == Success([])
    ensures IsRcType(t) ==>
              && (r.Failure? <==> SomeRejected(comps, IsResistor, IsCapacitor))
              && (r.Success? ==> (r.value != [] <==> BothUsable(comps, IsResistor, IsCapacitor)))
    ensures t == "voltage_divider" ==>
              && (r.Failure? <==>
                    || SomeRejected(comps, IsR1, IsR2)
                    || (BothUsable(comps, IsR1, IsR2) && InputVoltage(cs) != "" && Rejected(Some(InputVoltage(cs)))))
              && (r.Success? ==> (r.value != [] <==> BothUsable(comps, IsR1, IsR2)))
  {
    if IsRcType(t) then RcPart(comps, cs, show)
    else if t == "voltage_divider" then DividerPart(comps, cs, show)
    else Success([])
  }

  /** The sections in the order `generate_explanation` adds them. */
  function Sections(t: string, cs: Dict, comps: seq<CompJson>, calculation: seq<string>): seq<string> {
    [Opening(t, cs)] + ComponentsPart(comps) + calculation + VerificationPart(t)
  }

  /** The sections of `generate_explanation`, in order, or the error one of them raises. */
  function Parts(j: CircuitJson, show: Rendered -> string): (r: Result<seq<string>, PyError>)
    ensures var t := j.typeField.GetOr("unknown");
            r.Success? ==>
              exists calculation ::
                && |calculation| <= 1
                && (IsRcType(t) || t == "voltage_divider" || calculation == [])
                && r.value == Sections(t, j.constraints.GetOr([]), j.components.GetOr([]), calculation)
  {
    var t := j.typeField.GetOr("unknown");
    var cs := j.constraints.GetOr([]);
    var comps := j.components.GetOr([]);
    match CalculationPart(t, comps, cs, show)
    case Failure(e) => Failure(e)
    case Success(calculation) => Success(Sections(t, cs, comps, calculation))
  }

  /** `generate_explanation`: the sections joined by blank lines. */
  function Explanation(j: CircuitJson, show: Rendered -> string): Result<string, PyError> {
    match Parts(j, show)
    case Failure(e) => Failure(e)
    case Success(ps) => Success(Join(ps, "\n\n"))
  }

  /**
   * The explanation opens with the opening sentence, then the component sentence when there
   * are components; the verification sentence closes it when the type has one; at most one
   * calculation section lies between.
   */
  lemma SectionsLayout(t: string, cs: Dict, comps: seq<CompJson>, calculation: seq<string>)
    requires |calculation| <= 1
    ensures var ps := Sections(t, cs, comps, calculation);
            && 1 <= |ps| <= 4
            && |ps| == 1 + |ComponentsPart(comps)| + |calculation| + |VerificationPart(t)|
            && ps[0] == Opening(t, cs)
            && (comps != [] ==> ps[1] == ComponentSentence(Items(comps)))
            && (calculation != [] ==> ps[1 + |ComponentsPart(comps)|] == calculation[0])
            && (VerificationPart(t) != [] ==> ps[|ps| - 1] == VerificationPart(t)[0])
  {
    var parts := ComponentsPart(comps);
    assert comps != [] ==> parts[0] == ComponentSentence(Items(comps));
    FourParts(Opening(t, cs), parts, calculation, VerificationPart(t));
  }

  /** Where the pieces of an opening, a component part, a calculation and a verification land. */
  lemma FourParts(head: string, middle: seq<string>, calculation: seq<string>, tail: seq<string>)
    requires |middle| <= 1 && |calculation| <= 1 && |tail| <= 1
    ensures var ps := [head] + middle + calculation + tail;
            && |ps| == 1 + |middle| + |calculation| + |tail|
            && ps[0] == head
            && (middle != [] ==> ps[1] == middle[0])
            && (calculation != [] ==> ps[1 + |middle|] == calculation[0])
            && (tail != [] ==> ps[|ps| - 1] == tail[0])
  {
    var front := [head] + middle;
    var back := calculation + tail;
    assert [head] + middle + calculation + tail == front + back;
    if calculation != [] {
      assert (front + back)[|front|] == back[0];
    }
    if tail != [] {
      assert (front + back)[|front + back| - 1] == back[|back| - 1];
    }
  }

  /**
   * The selection loop of `_explain_calculations`, over the components in order, with an
   * early exit where `_parse_value` raises.
   */
  method SelectValues(components: seq<CompJson>, first: CompJson -> bool, second: CompJson -> bool)
    returns (r: Result<(Pick, Pick), PyError>)
    ensures r == Select(components, first, second)
  {
    var a := Unset;
    var b := Unset;
    var i := 0;
    while i < |components|
      invariant 0 <= i <= |components|
      invariant Select(components[..i], first, second) == Success((a, b))
    {
      var comp := components[i];
      SelectStep(components, i, first, second, (a, b));
      if first(comp) {
        var parsed := ParseValue(comp.value);
        if parsed.Failure? {
          SelectStops(components, i + 1, first, second);
          return Failure(parsed.error);
        }
        a := Pick(comp.value, parsed.value);
      } else if second(comp) {
        var parsed := ParseValue(comp.value);
        if parsed.Failure? {
          SelectStops(components, i + 1, first, second);
          return Failure(parsed.error);
        }
        b := Pick(comp.value, parsed.value);
      }
      i := i + 1;
    }
    assert components[..i] == components;
    r := Success((a, b));
  }

  /** Once the loop has raised, later components change nothing. */
  lemma {:induction false} SelectStops(comps: seq<CompJson>, n: nat, first: CompJson -> bool, second: CompJson -> bool)
    requires n <= |comps| && Select(comps[..n], first, second).Failure?
    ensures Select(comps, first, second) == Select(comps[..n], first, second)
    decreases |comps|
  {
    if n < |comps| {
      var front := comps[..|comps| - 1];
      assert front[..n] == comps[..n];
      SelectStops(front, n, first, second);
    } else {
      assert comps[..n] == comps;
    }
  }

  class ExplanationGenerator {
    var explanationParts: seq<string>

    constructor()
      ensures explanationParts == []
    {
      explanationParts := [];
    }

    /**
     * `generate_explanation`: reset the parts, add the sections in order and join them with
     * blank lines. An error from `_parse_value` propagates.
     */
    method GenerateExplanation(j: CircuitJson, show: Rendered -> string) returns (r: Result<string, PyError>)
      modifies this
      ensures r == Explanation(j, show)
      ensures r.Success? ==> explanationParts == Parts(j, show).value
    {
      explanationParts := [];
      var t := j.typeField.GetOr("unknown");
      var cs := j.constraints.GetOr([]);
      var comps := j.components.GetOr([]);
      ghost var calculation := CalculationPart(t, comps, cs, show);
      AddOpening(t, cs);
      ExplainComponents(comps);
      ghost var head := explanationParts;
      assert head == [Opening(t, cs)] + ComponentsPart(comps);
      var raised := ExplainCalculations(t, comps, cs, show);
      if raised.Some? {
        assert Parts(j, show) == Failure(raised.value);
        return Failure(raised.value);
      }
      assert explanationParts == head + calculation.value;
      AddVerification(t);
      assert explanationParts == Sections(t, cs, comps, calculation.value);
      assert Parts(j, show) == Success(explanationParts);
      r := Success(Join(explanationParts, "\n\n"));
    }

    /** `_add_opening` */
    method AddOpening(circuitType: string, constraints: Dict)
      modifies this
      ensures explanationParts == old(explanationParts) + [Opening(circuitType, constraints)]
    {
      var description := TypeDescription(circuitType);
      var opening := "I designed a " + description;
      var mentions: seq<string> := [];
      var cutoff := Get(constraints, "cutoff_freq");
      if cutoff.Some? {
        mentions := mentions + ["a cutoff frequency of " + cutoff.value];
      }
      var vin := Get(constraints, "input_voltage");
      var vout := Get(constraints, "output_voltage");
      if vin.Some? && vout.Some? {
        mentions := mentions + ["converting " + vin.value + " to " + vout.value];
      }
      assert mentions == Mentions(constraints);
      var tail := "";
      if mentions != [] {
        tail := " with " + Join(mentions, " and ");
      }
      opening := opening + tail + ".";
      explanationParts := explanationParts + [opening];
    }

    /** `_explain_components` */
    method ExplainComponents(components: seq<CompJson>)
      modifies this
      ensures explanationParts == old(explanationParts) + ComponentsPart(components)
    {
      if components == [] {
        return;
      }
      var componentList: seq<string> := [];
      var i := 0;
      while i < |components|
        invariant 0 <= i <= |components|
        invariant componentList == Items(components[..i])
      {
        assert components[..i + 1][..i] == components[..i];
        var comp := components[i];
        var compId := comp.id.GetOr("UNKNOWN");
        var compType := comp.kind.GetOr("unknown");
        if Given(comp.value) {
          componentList := componentList + [compId + " (" + compType + ", " + comp.value.value + ")"];
        } else {
          componentList := componentList + [compId + " (" + compType + ")"];
        }
        i := i + 1;
      }
      assert components[..i] == components;
      var compText := ComponentSentence(componentList);
      explanationParts := explanationParts + [compText];
    }

    /** `_explain_calculations`; `Some(e)` is the error `_parse_value` raised. */
    method ExplainCalculations(circuitType: string, components: seq<CompJson>, constraints: Dict, show: Rendered -> string)
      returns (raised: Option<PyError>)
      modifies this
      ensures CalculationPart(circuitType, components, constraints, show).Failure? ==>
                raised == Some(CalculationPart(circuitType, components, constraints, show).error)
      ensures CalculationPart(circuitType, components, constraints, show).Success? ==>
                raised.None? &&
                explanationParts == old(explanationParts) + CalculationPart(circuitType, components, constraints, show).value
    {
      if IsRcType(circuitType) {
        raised := ExplainRc(components, constraints, show);
      } else if circuitType == "voltage_divider" {
        raised := ExplainDivider(components, constraints, show);
      } else {
        assert explanationParts == old(explanationParts) + [];
        raised := None;
      }
    }

    /** The RC-filter branch of `_explain_calculations`. */
    method ExplainRc(components: seq<CompJson>, constraints: Dict, show: Rendered -> string)
      returns (raised: Option<PyError>)
      modifies this
      ensures RcPart(components, constraints, show).Failure? ==>
                raised == Some(RcPart(components, constraints, show).error)
      ensures RcPart(components, constraints, show).Success? ==>
                raised.None? && explanationParts == old(explanationParts) + RcPart(components, constraints, show).value
    {
      var selected := SelectValues(components, IsResistor, IsCapacitor);
      if selected.Failure? {
        return Some(selected.error);
      }
      var (r, c) := selected.value;
      if Usable(r) && Usable(c) {
        var target := Get(constraints, "cutoff_freq").GetOr("");
        explanationParts := explanationParts + [RcText(r, c, target, show)];
      } else {
        assert explanationParts == old(explanationParts) + [];
      }
      raised := None;
    }

    /** The voltage-divider branch of `_explain_calculations`. */
    method ExplainDivider(components: seq<CompJson>, constraints: Dict, show: Rendered -> string)
      returns (raised: Option<PyError>)
      modifies this
      ensures DividerPart(components, constraints, show).Failure? ==>
                raised == Some(DividerPart(components, constraints, show).error)
      ensures DividerPart(components, constraints, show).Success? ==>
                raised.None? && explanationParts == old(explanationParts) + DividerPart(components, constraints, show).value
    {
      var selected := SelectValues(components, IsR1, IsR2);
      if selected.Failure? {
        return Some(selected.error);
      }
      var (r1, r2) := selected.value;
      SelectNonNegative(components, IsR1, IsR2);
      var vIn := Get(constraints, "input_voltage").GetOr("");
      var target := Get(constraints, "output_voltage").GetOr("");
      raised := AppendDivider(r1, r2, vIn, target, show);
    }

    /** The divider branch once R1 and R2 are picked: the section it appends, or the error it raises. */
    method AppendDivider(r1: Pick, r2: Pick, vIn: string, target: string, show: Rendered -> string)
      returns (raised: Option<PyError>)
      requires r1.number.Some? ==> r1.number.value >= 0.0
      requires r2.number.Some? ==> r2.number.value >= 0.0
      modifies this
      ensures DividerWith(r1, r2, vIn, target, show).Failure? ==>
                raised == Some(DividerWith(r1, r2, vIn, target, show).error)
      ensures DividerWith(r1, r2, vIn, target, show).Success? ==>
                raised.None? && explanationParts == old(explanationParts) + DividerWith(r1, r2, vIn, target, show).value
    {
      raised := None;
      if !(Usable(r1) && Usable(r2)) {
        assert explanationParts == old(explanationParts) + [];
        return;
      }
      var vInNumeric: Option<real> := None;
      if vIn != "" {
        var parsed := ParseValue(Some(vIn));
        if parsed.Failure? {
          return Some(parsed.error);
        }
        vInNumeric := parsed.value;
      }
      assert (if vIn != "" then ParseValue(Some(vIn)) else Success(None)) == Success(vInNumeric);
      if vInNumeric.Some? && vInNumeric.value != 0.0 {
        explanationParts := explanationParts + [DividerText(vIn, vInNumeric.value, r1, r2, target, show)];
      } else {
        explanationParts := explanationParts + [FallbackText(r1.text.value, r2.text.value)];
      }
    }

    /** `_add_verification` */
    method AddVerification(circuitType: string)
      modifies this
      ensures explanationParts == old(explanationParts) + VerificationPart(circuitType)
    {
      if circuitType == "rc_lowpass_filter" {
        explanationParts := explanationParts + [LowpassCheck];
      } else if circuitType == "rc_highpass_filter" {
        explanationParts := explanationParts + [HighpassCheck];
      } else if circuitType == "voltage_divider" {
        explanationParts := explanationParts + [DividerCheck];
      }
    }
  }
}

=== FILE: file_manager.dfy ===
/**
 * The KiCad schematic `_generate_kicad_schematic_file` writes for a netlist: the scrape of
 * the netlist, the choice of layout by reference prefix, the two hand-placed layouts (an RC
 * stage and a two-resistor divider, each with its source, labels and ground symbols) and the
 * order in which their pieces are written out.
 *
 * Every `uuid.uuid4()` draws the next number of a counter the caller seeds; the date is a
 * parameter. Coordinates are reals: every coincidence the layouts rely on compares values
 * computed by the same expressions, so the model's exact arithmetic agrees with the floats.
 */
module FileManager {
  import opened Wrappers
  import opened Strings

  // ---------------------------------------------------------------------------------------
  // Scraping the netlist

  /**
   * The netlist text as the two patterns see it: each stretch matching the component pattern,
   * a net header (`(net (code N) (name "X")`), a node record (`(node (ref "R") (pin "P"))`), and
   * whatever lies between them as `Other`.
   */
  datatype Token =
    | CompRecord(ref: string, value: string)
    | NetHeader(name: string)
    | NodeRecord(ref: string, pin: string)
    | Other

  /** `re.findall(comp_pattern, netlist_content)`: the (ref, value) pairs in file order. */
  function Components(ts: seq<Token>): (r: seq<(string, string)>)
    ensures |r| <= |ts|
    ensures forall x :: x in r <==> CompRecord(x.0, x.1) in ts
  {
    if ts == [] then []
    else
      var front := ts[..|ts| - 1];
      var t := ts[|ts| - 1];
      assert ts == front + [t];
      Components(front) + (if t.CompRecord? then [(t.ref, t.value)] else [])
  }

  /** Components are found in file order: the scrape of two stretches is the two scrapes. */
  lemma {:induction false} ComponentsAppend(a: seq<Token>, b: seq<Token>)
    ensures Components(a + b) == Components(a) + Components(b)
    decreases |b|
  {
    if b != [] {
      var front := b[..|b| - 1];
      assert a + b == (a + front) + [b[|b| - 1]];
      assert (a + b)[..|a + b| - 1] == a + front;
      ComponentsAppend(a, front);
    } else {
      assert a + b == a;
    }
  }

  /** The token is a net header (`header`) or a node record (not `header`). */
  predicate IsKind(t: Token, header: bool) {
    if header then t.NetHeader? else t.NodeRecord?
  }

  /** The first token of the kind at or after i. */
  function FirstOf(ts: seq<Token>, i: nat, header: bool): (r: Option<nat>)
    ensures r.Some? ==> i <= r.value < |ts| && IsKind(ts[r.value], header)
    ensures r.Some? ==> forall k :: i <= k < r.value ==> !IsKind(ts[k], header)
    ensures r.None? ==> forall k :: i <= k < |ts| ==> !IsKind(ts[k], header)
    decreases |ts| - i
  {
    if i >= |ts| then None
    else if IsKind(ts[i], header) then Some(i)
    else FirstOf(ts, i + 1, header)
  }

  /** One match of `net_pattern`: the header it starts at and the node record that ends it. */
  datatype NetMatch = NetMatch(name: string, header: nat, node: nat)

  /** A match spans a header and the first node record after it. */
  predicate Spans(ts: seq<Token>, m: NetMatch) {
    && m.header < m.node < |ts|
    && ts[m.header] == NetHeader(m.name)
    && ts[m.node].NodeRecord?
    && (forall k :: m.header < k < m.node ==> !ts[k].NodeRecord?)
  }

  /**
   * The match a search from position i finds: the first header at or after i, then the first
   * node record after it. The lazy `.*?` crosses anything, other headers included.
   */
  predicate MatchFrom(ts: seq<Token>, i: nat, m: NetMatch) {
    i <= m.header && Spans(ts, m) && forall k :: i <= k < m.header ==> !ts[k].NetHeader?
  }

  /** Every match spans a header and its first node record. */
  predicate Scraped(ts: seq<Token>, ms: seq<NetMatch>) {
    forall k :: 0 <= k < |ms| ==> Spans(ts, ms[k])
  }

  /**
   * `re.finditer(net_pattern, netlist_content, re.DOTALL)` from position i: each search
   * resumes after the node record that ended the previous match.
   */
  function NetMatchesFrom(ts: seq<Token>, i: nat): seq<NetMatch>
    decreases |ts| - i
  {
    match FirstOf(ts, i, true)
    case None => []
    case Some(h) =>
      match FirstOf(ts, h + 1, false)
      case None => []
      case Some(n) => [NetMatch(ts[h].name, h, n)] + NetMatchesFrom(ts, n + 1)
  }

  /** A search that finds a match resumes after the node record that ended it. */
  lemma NetMatchesStep(ts: seq<Token>, i: nat)
    ensures var r := NetMatchesFrom(ts, i);
            r != [] ==> MatchFrom(ts, i, r[0]) && r[1..] == NetMatchesFrom(ts, r[0].node + 1)
  {
  }

  /** After the k-th match the search resumes just past the node record that ended it. */
  lemma {:induction false} NetMatchesResume(ts: seq<Token>, i: nat, k: nat)
    requires 0 < k < |NetMatchesFrom(ts, i)|
    ensures var r := NetMatchesFrom(ts, i);
            r[k..] == NetMatchesFrom(ts, r[k - 1].node + 1)
    decreases k
  {
    var r := NetMatchesFrom(ts, i);
    NetMatchesStep(ts, i);
    if k > 1 {
      var rest := r[1..];
      NetMatchesResume(ts, r[0].node + 1, k - 1);
      assert r[k..] == rest[k - 1..] && r[k - 1] == rest[k - 2];
    }
  }

  /** Each match after the first is the one a search finds from just after the one before. */
  lemma NetMatchesChain(ts: seq<Token>, i: nat, k: nat)
    requires 0 < k < |NetMatchesFrom(ts, i)|
    ensures var r := NetMatchesFrom(ts, i);
            MatchFrom(ts, r[k - 1].node + 1, r[k])
  {
    var r := NetMatchesFrom(ts, i);
    NetMatchesResume(ts, i, k);
    NetMatchesStep(ts, r[k - 1].node + 1);
    assert r[k] == r[k..][0];
  }

  /** Some net header at or after i is followed by a node record. */
  predicate HasNet(ts: seq<Token>, i: nat) {
    exists h, n :: i <= h < n < |ts| && ts[h].NetHeader? && ts[n].NodeRecord?
  }

  /** The search finds a match exactly when some header is followed by a node record. */
  lemma NetMatchesFound(ts: seq<Token>, i: nat)
    ensures NetMatchesFrom(ts, i) != [] <==> HasNet(ts, i)
  {
    match FirstOf(ts, i, true)
    case None =>
    case Some(h) =>
      match FirstOf(ts, h + 1, false)
      case None =>
      case Some(n) => assert ts[h].NetHeader? && ts[n].NodeRecord?;
  }

  /** Every match the search finds spans a header and its first node record. */
  lemma {:induction false} NetMatchesSpan(ts: seq<Token>, i: nat)
    ensures Scraped(ts, NetMatchesFrom(ts, i))
    decreases |ts| - i
  {
    var r := NetMatchesFrom(ts, i);
    NetMatchesStep(ts, i);
    if r != [] {
      NetMatchesSpan(ts, r[0].node + 1);
      assert forall k :: 0 < k < |r| ==> r[k] == r[1..][k - 1];
    }
  }

  /** `re.finditer(node_pattern, match.group(0))`: the node records of a stretch, in order. */
  function NodesIn(seg: seq<Token>): seq<(string, string)> {
    if seg == [] then []
    else
      var t := seg[|seg| - 1];
      NodesIn(seg[..|seg| - 1]) + (if t.NodeRecord? then [(t.ref, t.pin)] else [])
  }

  lemma {:induction false} NoNodes(ts: seq<Token>, a: nat, b: nat)
    requires a <= b <= |ts| && forall k :: a <= k < b ==> !ts[k].NodeRecord?
    ensures NodesIn(ts[a..b]) == []
    decreases b - a
  {
    if a < b {
      assert ts[a..b][..b - 1 - a] == ts[a..b - 1];
      NoNodes(ts, a, b - 1);
    }
  }

  /** The text of a match holds exactly one node record: the one that ends it. */
  lemma OneNodePerMatch(ts: seq<Token>, m: NetMatch)
    requires Spans(ts, m)
    ensures Found(ts, m) == Endpoint(ts, m) == [(ts[m.node].ref, ts[m.node].pin)]
  {
    NoNodes(ts, m.header, m.node);
    assert ts[m.header..m.node + 1][..m.node - m.header] == ts[m.header..m.node];
  }

  /** The endpoints a match adds to its net: the node records in its text. */
  function Found(ts: seq<Token>, m: NetMatch): seq<(string, string)> {
    if m.header <= m.node < |ts| then NodesIn(ts[m.header..m.node + 1]) else []
  }

  /** The node record that ends a match. */
  function Endpoint(ts: seq<Token>, m: NetMatch): seq<(string, string)> {
    if m.node < |ts| && ts[m.node].NodeRecord? then [(ts[m.node].ref, ts[m.node].pin)] else []
  }

  /** The dictionary with the endpoints found appended to the net's list, made empty if new. */
  function AddNodes(nets: map<string, seq<(string, string)>>, name: string, found: seq<(string, string)>): map<string, seq<(string, string)>> {
    nets[name := (if name in nets then nets[name] else []) + found]
  }

  /** The `nets` dictionary after the matches ms. */
  function Grouped(ts: seq<Token>, ms: seq<NetMatch>): map<string, seq<(string, string)>> {
    if ms == [] then map[]
    else AddNodes(Grouped(ts, ms[..|ms| - 1]), ms[|ms| - 1].name, Found(ts, ms[|ms| - 1]))
  }

  /** The endpoints of the matches naming n, in the order of the matches. */
  function Endpoints(ts: seq<Token>, ms: seq<NetMatch>, n: string): seq<(string, string)> {
    if ms == [] then []
    else
      var m := ms[|ms| - 1];
      Endpoints(ts, ms[..|ms| - 1], n) + (if m.name == n then Endpoint(ts, m) else [])
  }

  /** Some match names n. */
  predicate Named(ms: seq<NetMatch>, n: string) {
    exists k :: 0 <= k < |ms| && ms[k].name == n
  }

  /** The nets are exactly the names matched. */
  lemma {:induction false} GroupedKeys(ts: seq<Token>, ms: seq<NetMatch>, n: string)
    ensures n in Grouped(ts, ms) <==> Named(ms, n)
    decreases |ms|
  {
    if ms != [] {
      var front := ms[..|ms| - 1];
      GroupedKeys(ts, front, n);
      if Named(front, n) {
        var k :| 0 <= k < |front| && front[k].name == n;
        assert ms[k].name == n;
      }
      if Named(ms, n) && ms[|ms| - 1].name != n {
        var k :| 0 <= k < |ms| && ms[k].name == n;
        assert front[k].name == n;
      }
    }
  }

  /** Each net lists one endpoint per match naming it, in the order of the matches. */
  lemma {:induction false} GroupedEndpoints(ts: seq<Token>, ms: seq<NetMatch>, n: string)
    requires Scraped(ts, ms)
    ensures n in Grouped(ts, ms) ==> Grouped(ts, ms)[n] == Endpoints(ts, ms, n)
    decreases |ms|
  {
    if ms != [] {
      var front := ms[..|ms| - 1];
      var m := ms[|ms| - 1];
      GroupedEndpoints(ts, front, n);
      assert Spans(ts, m);
      OneNodePerMatch(ts, m);
      if n !in Grouped(ts, front) {
        GroupedKeys(ts, front, n);
        NoneNamed(ts, front, n);
      }
    }
  }

  lemma {:induction false} NoneNamed(ts: seq<Token>, ms: seq<NetMatch>, n: string)
    requires !Named(ms, n)
    ensures Endpoints(ts, ms, n) == []
    decreases |ms|
  {
    if ms != [] {
      assert ms[|ms| - 1].name != n;
      NoneNamed(ts, ms[..|ms| - 1], n);
    }
  }

  /** One more match extends the dictionary by its endpoints. */
  lemma GroupedSnoc(ts: seq<Token>, ms: seq<NetMatch>, i: nat,
                    nets: map<string, seq<(string, string)>>, entry: seq<(string, string)>)
    requires i < |ms|
    requires var before := Grouped(ts, ms[..i]);
             nets == if ms[i].name in before then before else before[ms[i].name := []]
    requires ms[i].name in nets && entry == nets[ms[i].name] + Found(ts, ms[i])
    ensures nets[ms[i].name := entry] == Grouped(ts, ms[..i + 1])
  {
    assert ms[..i + 1][..i] == ms[..i];
  }

  lemma AppendOne<T>(a: seq<T>, b: seq<T>, j: nat)
    requires j < |b|
    ensures (a + b[..j]) + [b[j]] == a + b[..j + 1]
  {
    assert b[..j + 1] == b[..j] + [b[j]];
  }

  /** The inner loop: each node record found appended, in order, to the net's list. */
  method AppendNodes(entry: seq<(string, string)>, found: seq<(string, string)>) returns (r: seq<(string, string)>)
    ensures r == entry + found
  {
    r := entry;
    for j := 0 to |found|
      invariant r == entry + found[..j]
    {
      AppendOne(entry, found, j);
      r := r + [found[j]];
    }
    assert found[..|found|] == found;
  }

  /** The extraction loop of `_generate_kicad_schematic_file`. */
  method ExtractNets(ts: seq<Token>) returns (nets: map<string, seq<(string, string)>>)
    ensures nets == Grouped(ts, NetMatchesFrom(ts, 0))
  {
    var matches := NetMatchesFrom(ts, 0);
    nets := map[];
    for i := 0 to |matches|
      invariant nets == Grouped(ts, matches[..i])
    {
      var m := matches[i];
      if m.name !in nets {
        nets := nets[m.name := []];
      }
      // The list stored under the name, which `append` extends in place.
      var entry := AppendNodes(nets[m.name], Found(ts, m));
      GroupedSnoc(ts, matches, i, nets, entry);
      nets := nets[m.name := entry];
    }
    assert matches[..|matches|] == matches;
  }

  // ---------------------------------------------------------------------------------------
  // Choosing the layout

  /** `[(ref, val) for ref, val in components if ref.startswith(p)]` */
  function WithPrefix(cs: seq<(string, string)>, p: string): (r: seq<(string, string)>)
    ensures |r| <= |cs|
    ensures forall x :: x in r <==> x in cs && StartsWith(x.0, p)
  {
    if cs == [] then []
    else
      var front := cs[..|cs| - 1];
      var c := cs[|cs| - 1];
      assert cs == front + [c];
      WithPrefix(front, p) + (if StartsWith(c.0, p) then [c] else [])
  }

  lemma {:induction false} WithPrefixAppend(a: seq<(string, string)>, b: seq<(string, string)>, p: string)
    ensures WithPrefix(a + b, p) == WithPrefix(a, p) + WithPrefix(b, p)
    decreases |b|
  {
    if b != [] {
      var front := b[..|b| - 1];
      assert (a + b)[..|a + b| - 1] == a + front;
      WithPrefixAppend(a, front, p);
    } else {
      assert a + b == a;
    }
  }

  /** The layouts `_generate_kicad_schematic_file` chooses between. */
  datatype Layout = RcFilter | VoltageDivider | RlFilter | Generic

  /** The decision table on the numbers of references starting with R, C and L. */
  function Classify(cs: seq<(string, string)>): Layout {
    var resistors := |WithPrefix(cs, "R")|;
    var capacitors := |WithPrefix(cs, "C")|;
    var inductors := |WithPrefix(cs, "L")|;
    if resistors == 1 && capacitors == 1 then RcFilter
    else if resistors == 2 && capacitors == 0 then VoltageDivider
    else if resistors == 1 && inductors == 1 then RlFilter
    else Generic
  }

  /** A one-element list keeps its element when it has the prefix and is empty otherwise. */
  lemma WithPrefixOne(x: (string, string), p: string)
    ensures WithPrefix([x], p) == if StartsWith(x.0, p) then [x] else []
  {
    assert [x][..0] == [];
  }

  /** Inserting a component whose reference starts with none of R, C and L changes nothing. */
  lemma ClassifyIgnoresOthers(a: seq<(string, string)>, x: (string, string), b: seq<(string, string)>)
    requires !StartsWith(x.0, "R") && !StartsWith(x.0, "C") && !StartsWith(x.0, "L")
    ensures Classify(a + [x] + b) == Classify(a + b)
  {
    forall p | p in {"R", "C", "L"}
      ensures |WithPrefix(a + [x] + b, p)| == |WithPrefix(a + b, p)|
    {
      WithPrefixAppend(a + [x], b, p);
      WithPrefixAppend(a, [x], p);
      WithPrefixAppend(a, b, p);
      WithPrefixOne(x, p);
    }
  }

  /** An RC stage stays an RC stage whatever else but a resistor or capacitor is added. */
  lemma RcWhateverElse(a: seq<(string, string)>, x: (string, string), b: seq<(string, string)>)
    requires Classify(a + b) == RcFilter
    requires !StartsWith(x.0, "R") && !StartsWith(x.0, "C")
    ensures Classify(a + [x] + b) == RcFilter
  {
    forall p | p in {"R", "C"}
      ensures |WithPrefix(a + [x] + b, p)| == |WithPrefix(a + b, p)|
    {
      WithPrefixAppend(a + [x], b, p);
      WithPrefixAppend(a, [x], p);
      WithPrefixAppend(a, b, p);
      WithPrefixOne(x, p);
    }
  }

  /** The resistor and the capacitor of an RC stage have different references. */
  lemma RcPairDistinct(cs: seq<(string, string)>)
    requires Classify(cs) == RcFilter
    ensures |WithPrefix(cs, "R")| == 1 && |WithPrefix(cs, "C")| == 1
    ensures WithPrefix(cs, "R")[0].0 != WithPrefix(cs, "C")[0].0
  {
    var r := WithPrefix(cs, "R")[0];
    var c := WithPrefix(cs, "C")[0];
    assert r in WithPrefix(cs, "R") && c in WithPrefix(cs, "C");
    assert r.0[0] == 'R' && c.0[0] == 'C';
  }

  // ---------------------------------------------------------------------------------------
  // The drawing

  datatype Point = Point(x: real, y: real)

  /** Where a two-pin part sits and where the layout takes its pins to be (`comp_positions`). */
  datatype Placement = Placement(at: Point, pin1: Point, pin2: Point)

  /** A part the layout lays left to right: pins 5.08 either side. */
  function Horizontal(at: Point): Placement {
    Placement(at, Point(at.x - 5.08, at.y), Point(at.x + 5.08, at.y))
  }

  /** A part standing upright: pins 3.81 above and below. */
  function Vertical(at: Point): Placement {
    Placement(at, Point(at.x, at.y - 3.81), Point(at.x, at.y + 3.81))
  }

  /**
   * One piece of the schematic: a placed symbol (its library drawing, whether it is given a
   * quarter turn, the texts and where they go, its identifier and one per pin), a wire, a
   * junction dot or a net label.
   */
  datatype Item =
    | Symbol(lib: string, at: Point, turned: bool, reference: string, value: string,
             referenceAt: Point, valueAt: Point, id: nat, pinIds: seq<nat>)
    | Wire(start: Point, end: Point, id: nat)
    | Junction(at: Point, id: nat)
    | Label(text: string, at: Point, id: nat)

  const Vdc := "Simulation_SPICE:VDC"
  const Gnd := "power:GND"

  /**
   * Where the drawings in the schematic's `lib_symbols` put a symbol's pins: the resistor and
   * the capacitor 3.81 either side of the origin, the source 6.35, the ground symbol's one pin
   * at the origin. Library y grows upward and schematic y downward, so pin 1 is the upper one;
   * a quarter turn lays the pins out left (pin 1) and right.
   */
  function LibraryPins(lib: string, at: Point, turned: bool): seq<Point> {
    var d := if lib == Vdc then 6.35 else 3.81;
    if lib == Gnd then [at]
    else if turned then [Point(at.x - d, at.y), Point(at.x + d, at.y)]
    else [Point(at.x, at.y - d), Point(at.x, at.y + d)]
  }

  function Pins(it: Item): seq<Point>
    requires it.Symbol?
  {
    LibraryPins(it.lib, it.at, it.turned)
  }

  /** A two-pin symbol as the layouts write it: unturned, one identifier then one per pin. */
  function Part(lib: string, at: Point, reference: string, value: string, referenceAt: Point, valueAt: Point, id: nat): Item {
    Symbol(lib, at, false, reference, value, referenceAt, valueAt, id, [id + 1, id + 2])
  }

  /** A ground symbol: reference hidden 6.35 below it, "GND" 3.81 below it. */
  function Ground(at: Point, reference: string, id: nat): Item {
    Symbol(Gnd, at, false, reference, "GND", Point(at.x, at.y + 6.35), Point(at.x, at.y + 3.81), id, [id + 1])
  }

  /** Where the layouts put the ground symbol of a pin: 5 below it. */
  function GroundOf(pin: Point): Point {
    Point(pin.x, pin.y + 5.0)
  }

  /** The schematic text: empty, or the pieces of a layout with the document identifier. */
  datatype Schematic =
    | Empty(id: nat, date: string)
    | Full(id: nat, date: string, symbols: seq<Item>, wires: seq<Item>, labels: seq<Item>)

  /** `_build_schematic_output`: the symbols followed by the power symbols, then wires, labels. */
  function BuildOutput(symbols: seq<Item>, power: seq<Item>, wires: seq<Item>, labels: seq<Item>, id: nat, date: string): Schematic {
    Full(id, date, symbols + power, wires, labels)
  }

  /** The pieces in the order the text lists them. */
  function Blocks(s: Schematic): seq<Item> {
    if s.Empty? then [] else s.symbols + s.wires + s.labels
  }

  /** The block a piece belongs to: parts, power symbols, wires and junctions, labels. */
  function Rank(it: Item): nat {
    if it.Symbol? then (if it.lib == Gnd then 1 else 0)
    else if it.Label? then 3
    else 2
  }

  /** Every piece of a list is in the given block. */
  predicate AllRank(xs: seq<Item>, k: nat) {
    forall i :: 0 <= i < |xs| ==> Rank(xs[i]) == k
  }

  /**
   * The output lists every piece handed to it, once each, block by block: parts, then power
   * symbols, then wires and junctions, then labels.
   */
  lemma OutputOrder(symbols: seq<Item>, power: seq<Item>, wires: seq<Item>, labels: seq<Item>, id: nat, date: string)
    requires AllRank(symbols, 0) && AllRank(power, 1) && AllRank(wires, 2) && AllRank(labels, 3)
    ensures var b := Blocks(BuildOutput(symbols, power, wires, labels, id, date));
            && multiset(b) == multiset(symbols) + multiset(power) + multiset(wires) + multiset(labels)
            && forall i, j :: 0 <= i < j < |b| ==> Rank(b[i]) <= Rank(b[j])
  {
    var b := Blocks(BuildOutput(symbols, power, wires, labels, id, date));
    assert b == symbols + power + wires + labels;
    var n0, n1, n2 := |symbols|, |symbols| + |power|, |symbols| + |power| + |wires|;
    assert forall i :: 0 <= i < |b| ==> Rank(b[i]) == if i < n0 then 0 else if i < n1 then 1 else if i < n2 then 2 else 3;
  }

  /** A wire ends at p. */
  predicate Touches(wires: seq<Item>, p: Point) {
    exists k :: 0 <= k < |wires| && wires[k].Wire? && (wires[k].start == p || wires[k].end == p)
  }

  predicate Between(a: real, b: real, c: real) {
    (a <= b <= c) || (c <= b <= a)
  }

  /** p lies on a straight wire. */
  predicate OnWire(w: Item, p: Point) {
    && w.Wire?
    && ((w.start.x == p.x == w.end.x && Between(w.start.y, p.y, w.end.y))
       || (w.start.y == p.y == w.end.y && Between(w.start.x, p.x, w.end.x)))
  }

  predicate Attached(wires: seq<Item>, p: Point) {
    exists k :: 0 <= k < |wires| && OnWire(wires[k], p)
  }

  /** Every pin of every symbol is the end of a wire. */
  predicate PinsWired(s: Schematic) {
    s.Full? && forall k, j :: 0 <= k < |s.symbols| && s.symbols[k].Symbol? && 0 <= j < |Pins(s.symbols[k])| ==>
      Touches(s.wires, Pins(s.symbols[k])[j])
  }

  /** Every label sits on a wire, which is what gives the net its name. */
  predicate LabelsAttached(s: Schematic) {
    s.Full? && forall k :: 0 <= k < |s.labels| ==> s.labels[k].Label? && Attached(s.wires, s.labels[k].at)
  }

  /** A wire runs straight across or straight down. */
  predicate Straight(w: Item) {
    w.Wire? ==> w.start.x == w.end.x || w.start.y == w.end.y
  }

  // ---------------------------------------------------------------------------------------
  // The RC layout

  const RcSourceAt := Point(80.0, 110.0)
  const RcResistorAt := Point(120.0, 100.0)
  const RcCapacitorAt := Point(140.0, 115.0)
  /** Where the RC layout takes the source's pins to be. */
  const RcSourcePlus := Point(80.0, 106.19)
  const RcSourceMinus := Point(80.0, 113.81)

  /**
   * The RC stage around a resistor placed at rp (turned or not) and a source whose pins are
   * taken to be at plus and minus: the pieces `_generate_rc_filter_schematic` draws for a
   * resistor r and a capacitor c, identifiers drawn from u on.
   */
  function RcLayout(rp: Placement, turned: bool, plus: Point, minus: Point,
                    r: (string, string), c: (string, string), u: nat, date: string): Schematic
  {
    var cp := Vertical(RcCapacitorAt);
    var corner := Point(rp.pin2.x, cp.pin1.y);
    var inAt := Point(rp.pin1.x - 15.0, rp.pin1.y);
    var outAt := Point(rp.pin2.x + 5.0, cp.pin1.y);
    var gnd1 := GroundOf(cp.pin2);
    var gnd2 := GroundOf(minus);
    Full(u + 25, date,
      [ Part(Vdc, RcSourceAt, "V1", "5V", Point(75.0, 105.0), Point(75.0, 115.0), u),
        Symbol("Device:R", rp.at, turned, r.0, r.1, Point(rp.at.x, rp.at.y - 5.0), Point(rp.at.x, rp.at.y + 5.0), u + 3, [u + 4, u + 5]),
        Part("Device:C", cp.at, c.0, c.1, Point(cp.at.x + 3.0, cp.at.y), Point(cp.at.x + 3.0, cp.at.y + 3.0), u + 6),
        Ground(gnd1, "#PWR001", u + 16),
        Ground(gnd2, "#PWR002", u + 21) ],
      [ Wire(inAt, rp.pin1, u + 10),
        Wire(rp.pin2, corner, u + 11),
        Wire(corner, cp.pin1, u + 12),
        Junction(corner, u + 13),
        Wire(corner, outAt, u + 15),
        Wire(cp.pin2, gnd1, u + 18),
        Wire(plus, Point(plus.x, rp.pin1.y), u + 19),
        Wire(Point(plus.x, rp.pin1.y), inAt, u + 20),
        Wire(minus, gnd2, u + 23),
        Wire(gnd2, gnd1, u + 24) ],
      [ Label("IN", inAt, u + 9), Label("OUT", outAt, u + 14) ])
  }

  /** The RC stage as the code draws it. */
  function RcDrawing(r: (string, string), c: (string, string), u: nat, date: string): Schematic {
    RcLayout(Horizontal(RcResistorAt), false, RcSourcePlus, RcSourceMinus, r, c, u, date)
  }

  /**
   * The RC stage with the resistor given the quarter turn that lays its pins left and right
   * (3.81 either side) and the source wired at its library pins.
   */
  function RcDrawingFixed(r: (string, string), c: (string, string), u: nat, date: string): Schematic {
    var rp := Placement(RcResistorAt, Point(RcResistorAt.x - 3.81, RcResistorAt.y), Point(RcResistorAt.x + 3.81, RcResistorAt.y));
    var v := LibraryPins(Vdc, RcSourceAt, false);
    RcLayout(rp, true, v[0], v[1], r, c, u, date)
  }

  /**
   * `_generate_rc_filter_schematic`: the pieces appended part by part, the pin positions
   * recorded per reference as each part is placed, one identifier drawn per `uuid4()` call.
   */
  method RcFilterSchematic(resistors: seq<(string, string)>, capacitors: seq<(string, string)>, firstId: nat, date: string)
    returns (s: Schematic, nextId: nat)
    ensures s.Full? && firstId <= s.id < nextId
    ensures resistors != [] && capacitors != [] && resistors[0].0 != capacitors[0].0 ==>
      s == RcDrawing(resistors[0], capacitors[0], firstId, date) && nextId == firstId + 26
  {
    var symbols: seq<Item> := [];
    var power: seq<Item> := [];
    var wires: seq<Item> := [];
    var labels: seq<Item> := [];
    var positions: map<string, Placement> := map[];
    var next := firstId;
    var rComp: Option<(string, string)> := if resistors != [] then Some(resistors[0]) else None;
    var cComp: Option<(string, string)> := if capacitors != [] then Some(capacitors[0]) else None;

    symbols := symbols + [Part(Vdc, RcSourceAt, "V1", "5V", Point(75.0, 105.0), Point(75.0, 115.0), next)];
    next := next + 3;
    if rComp.Some? {
      var at := RcResistorAt;
      positions := positions[rComp.value.0 := Horizontal(at)];
      symbols := symbols + [Part("Device:R", at, rComp.value.0, rComp.value.1, Point(at.x, at.y - 5.0), Point(at.x, at.y + 5.0), next)];
      next := next + 3;
    }
    if cComp.Some? {
      var at := RcCapacitorAt;
      positions := positions[cComp.value.0 := Vertical(at)];
      symbols := symbols + [Part("Device:C", at, cComp.value.0, cComp.value.1, Point(at.x + 3.0, at.y), Point(at.x + 3.0, at.y + 3.0), next)];
      next := next + 3;
    }
    if rComp.Some? {
      var pin1 := positions[rComp.value.0].pin1;
      var inX := pin1.x - 15.0;
      labels := labels + [Label("IN", Point(inX, pin1.y), next)];
      wires := wires + [Wire(Point(inX, pin1.y), pin1, next + 1)];
      next := next + 2;
    }
    if rComp.Some? && cComp.Some? {
      var pin2 := positions[rComp.value.0].pin2;
      var cPin1 := positions[cComp.value.0].pin1;
      var corner := Point(pin2.x, cPin1.y);
      wires := wires + [Wire(pin2, corner, next)];
      wires := wires + [Wire(corner, cPin1, next + 1)];
      wires := wires + [Junction(corner, next + 2)];
      var outX := pin2.x + 5.0;
      labels := labels + [Label("OUT", Point(outX, cPin1.y), next + 3)];
      wires := wires + [Wire(corner, Point(outX, cPin1.y), next + 4)];
      next := next + 5;
    }
    if cComp.Some? {
      var cPin2 := positions[cComp.value.0].pin2;
      var gndY := cPin2.y + 5.0;
      power := power + [Ground(Point(cPin2.x, gndY), "#PWR001", next)];
      wires := wires + [Wire(cPin2, Point(cPin2.x, gndY), next + 2)];
      next := next + 3;
    }
    var plus := RcSourcePlus;
    var minus := RcSourceMinus;
    if rComp.Some? {
      var pin1 := positions[rComp.value.0].pin1;
      var inLabelX := pin1.x - 15.0;
      wires := wires + [Wire(plus, Point(plus.x, pin1.y), next)];
      wires := wires + [Wire(Point(plus.x, pin1.y), Point(inLabelX, pin1.y), next + 1)];
      next := next + 2;
    }
    var gnd2Y := minus.y + 5.0;
    power := power + [Ground(Point(minus.x, gnd2Y), "#PWR002", next)];
    wires := wires + [Wire(minus, Point(minus.x, gnd2Y), next + 2)];
    next := next + 3;
    if cComp.Some? {
      var cPin2 := positions[cComp.value.0].pin2;
      var gnd1Y := cPin2.y + 5.0;
      wires := wires + [Wire(Point(minus.x, gnd2Y), Point(cPin2.x, gnd1Y), next)];
      next := next + 1;
    }
    s := BuildOutput(symbols, power, wires, labels, next, date);
    nextId := next + 1;
  }

  /** Both labels of the RC stage sit on wires, in either drawing. */
  lemma RcLabelsAttached(rp: Placement, turned: bool, plus: Point, minus: Point,
                         r: (string, string), c: (string, string), u: nat, date: string)
    ensures LabelsAttached(RcLayout(rp, turned, plus, minus, r, c, u, date))
  {
    var d := RcLayout(rp, turned, plus, minus, r, c, u, date);
    assert OnWire(d.wires[0], d.labels[0].at);
    assert OnWire(d.wires[4], d.labels[1].at);
  }

  /**
   * As the code draws it, every wire runs straight except the last, which ties the two ground
   * symbols together on a slant.
   */
  lemma RcGroundTie(r: (string, string), c: (string, string), u: nat, date: string)
    ensures var d := RcDrawing(r, c, u, date);
            && (forall k :: 0 <= k < |d.wires| - 1 ==> Straight(d.wires[k]))
            && var tie := d.wires[|d.wires| - 1];
               tie.start == d.symbols[4].at && tie.end == d.symbols[3].at && !Straight(tie)
  {
  }

  /** As the code draws it, the capacitor's pins and the ground symbols' pins are wired. */
  lemma RcCapacitorWired(r: (string, string), c: (string, string), u: nat, date: string)
    ensures var d := RcDrawing(r, c, u, date);
            && Touches(d.wires, Pins(d.symbols[2])[0]) && Touches(d.wires, Pins(d.symbols[2])[1])
            && Touches(d.wires, Pins(d.symbols[3])[0]) && Touches(d.wires, Pins(d.symbols[4])[0])
  {
    var d := RcDrawing(r, c, u, date);
    assert d.wires[2].end == Pins(d.symbols[2])[0];
    assert d.wires[5].start == Pins(d.symbols[2])[1];
    assert d.wires[5].end == Pins(d.symbols[3])[0];
    assert d.wires[8].end == Pins(d.symbols[4])[0];
  }

  /**
   * As the code draws it, no wire ends at either pin of the source or of the resistor: the
   * layout takes the unturned resistor's pins to lie 5.08 left and right and the source's
   * 3.81 above and below, where the library puts them 3.81 above and below and 6.35 above
   * and below.
   */
  lemma RcPinsMissed(r: (string, string), c: (string, string), u: nat, date: string)
    ensures var d := RcDrawing(r, c, u, date);
            && (forall j :: 0 <= j < 2 ==> !Touches(d.wires, Pins(d.symbols[0])[j]))
            && (forall j :: 0 <= j < 2 ==> !Touches(d.wires, Pins(d.symbols[1])[j]))
  {
  }

  /** With the resistor turned and the source wired at its pins, every pin is wired. */
  lemma RcFixedPinsWired(r: (string, string), c: (string, string), u: nat, date: string)
    ensures PinsWired(RcDrawingFixed(r, c, u, date)) && LabelsAttached(RcDrawingFixed(r, c, u, date))
  {
    var d := RcDrawingFixed(r, c, u, date);
    var rp := Placement(RcResistorAt, Point(RcResistorAt.x - 3.81, RcResistorAt.y), Point(RcResistorAt.x + 3.81, RcResistorAt.y));
    var v := LibraryPins(Vdc, RcSourceAt, false);
    RcLabelsAttached(rp, true, v[0], v[1], r, c, u, date);
    assert d.wires[6].start == Pins(d.symbols[0])[0];
    assert d.wires[8].start == Pins(d.symbols[0])[1];
    assert d.wires[0].end == Pins(d.symbols[1])[0];
    assert d.wires[1].start == Pins(d.symbols[1])[1];
    assert d.wires[2].end == Pins(d.symbols[2])[0];
    assert d.wires[5].start == Pins(d.symbols[2])[1];
    assert d.wires[5].end == Pins(d.symbols[3])[0];
    assert d.wires[8].end == Pins(d.symbols[4])[0];
  }

  // ---------------------------------------------------------------------------------------
  // The divider layout

  const DividerSourceAt := Point(100.0, 90.0)
  const DividerUpperAt := Point(140.0, 100.0)
  const DividerLowerAt := Point(140.0, 130.0)
  /** Where the divider layout takes the source's pins to be. */
  const DividerSourcePlus := Point(100.0, 83.65)
  const DividerSourceMinus := Point(100.0, 96.35)

  /** An upright resistor of the divider, its texts 3 to the right. */
  function DividerResistor(at: Point, r: (string, string), id: nat): Item {
    Part("Device:R", at, r.0, r.1, Point(at.x + 3.0, at.y), Point(at.x + 3.0, at.y + 3.0), id)
  }

  /**
   * The divider `_generate_voltage_divider_schematic` draws for resistors r1 (upper) and r2
   * (lower), identifiers drawn from u on, with the VOUT label at vout.
   */
  function DividerLayout(r1: (string, string), r2: (string, string), vout: Point, u: nat, date: string): Schematic {
    var p1 := Vertical(DividerUpperAt);
    var p2 := Vertical(DividerLowerAt);
    var plus := DividerSourcePlus;
    var minus := DividerSourceMinus;
    var gnd1 := GroundOf(p2.pin2);
    var gnd2 := GroundOf(minus);
    Full(u + 21, date,
      [ Part(Vdc, DividerSourceAt, "V1", "9V", Point(95.0, 85.0), Point(95.0, 95.0), u),
        DividerResistor(p1.at, r1, u + 3),
        DividerResistor(p2.at, r2, u + 6),
        Ground(gnd1, "#PWR001", u + 14),
        Ground(gnd2, "#PWR002", u + 17) ],
      [ Wire(plus, Point(plus.x, p1.pin1.y), u + 9),
        Wire(Point(plus.x, p1.pin1.y), p1.pin1, u + 10),
        Wire(p1.pin2, p2.pin1, u + 12),
        Wire(p2.pin2, gnd1, u + 16),
        Wire(minus, gnd2, u + 19),
        Wire(gnd2, gnd1, u + 20) ],
      [ Label("VIN", Point(plus.x + 5.0, p1.pin1.y), u + 11), Label("VOUT", vout, u + 13) ])
  }

  /** The divider as the code draws it: VOUT 5 right of and 5 below the upper resistor's pin 2. */
  function DividerDrawing(r1: (string, string), r2: (string, string), u: nat, date: string): Schematic {
    var pin2 := Vertical(DividerUpperAt).pin2;
    DividerLayout(r1, r2, Point(pin2.x + 5.0, pin2.y + 5.0), u, date)
  }

  /** The divider with VOUT placed on the wire between the resistors, 5 below the upper one. */
  function DividerDrawingFixed(r1: (string, string), r2: (string, string), u: nat, date: string): Schematic {
    var pin2 := Vertical(DividerUpperAt).pin2;
    DividerLayout(r1, r2, Point(pin2.x, pin2.y + 5.0), u, date)
  }

  /**
   * `_generate_voltage_divider_schematic`: the symbols appended as each resistor is placed,
   * the wiring only when there are two of them.
   */
  method VoltageDividerSchematic(resistors: seq<(string, string)>, firstId: nat, date: string)
    returns (s: Schematic, nextId: nat)
    ensures s.Full? && firstId <= s.id < nextId
    ensures |resistors| >= 2 && resistors[0].0 != resistors[1].0 ==>
      s == DividerDrawing(resistors[0], resistors[1], firstId, date) && nextId == firstId + 22
  {
    var symbols: seq<Item> := [];
    var power: seq<Item> := [];
    var wires: seq<Item> := [];
    var labels: seq<Item> := [];
    var positions: map<string, Placement> := map[];
    var next := firstId;
    var r1: Option<(string, string)> := if |resistors| > 0 then Some(resistors[0]) else None;
    var r2: Option<(string, string)> := if |resistors| > 1 then Some(resistors[1]) else None;

    symbols := symbols + [Part(Vdc, DividerSourceAt, "V1", "9V", Point(95.0, 85.0), Point(95.0, 95.0), next)];
    next := next + 3;
    if r1.Some? {
      positions := positions[r1.value.0 := Vertical(DividerUpperAt)];
      symbols := symbols + [DividerResistor(DividerUpperAt, r1.value, next)];
      next := next + 3;
    }
    if r2.Some? {
      positions := positions[r2.value.0 := Vertical(DividerLowerAt)];
      symbols := symbols + [DividerResistor(DividerLowerAt, r2.value, next)];
      next := next + 3;
    }
    var plus := DividerSourcePlus;
    var minus := DividerSourceMinus;
    if r1.Some? && r2.Some? {
      var upper := positions[r1.value.0];
      var lower := positions[r2.value.0];
      wires := wires + [Wire(plus, Point(plus.x, upper.pin1.y), next)];
      wires := wires + [Wire(Point(plus.x, upper.pin1.y), upper.pin1, next + 1)];
      labels := labels + [Label("VIN", Point(plus.x + 5.0, upper.pin1.y), next + 2)];
      wires := wires + [Wire(upper.pin2, lower.pin1, next + 3)];
      labels := labels + [Label("VOUT", Point(upper.pin2.x + 5.0, upper.pin2.y + 5.0), next + 4)];
      var gndY := lower.pin2.y + 5.0;
      power := power + [Ground(Point(lower.pin2.x, gndY), "#PWR001", next + 5)];
      wires := wires + [Wire(lower.pin2, Point(lower.pin2.x, gndY), next + 7)];
      var gnd2Y := minus.y + 5.0;
      power := power + [Ground(Point(minus.x, gnd2Y), "#PWR002", next + 8)];
      wires := wires + [Wire(minus, Point(minus.x, gnd2Y), next + 10)];
      wires := wires + [Wire(Point(minus.x, gnd2Y), Point(lower.pin2.x, gndY), next + 11)];
      next := next + 12;
    }
    s := BuildOutput(symbols, power, wires, labels, next, date);
    nextId := next + 1;
  }

  /** In the divider every pin of every symbol is wired, whichever way VOUT is placed. */
  lemma DividerPinsWired(r1: (string, string), r2: (string, string), vout: Point, u: nat, date: string)
    ensures PinsWired(DividerLayout(r1, r2, vout, u, date))
  {
    var d := DividerLayout(r1, r2, vout, u, date);
    assert d.wires[0].start == Pins(d.symbols[0])[0];
    assert d.wires[4].start == Pins(d.symbols[0])[1];
    assert d.wires[1].end == Pins(d.symbols[1])[0];
    assert d.wires[2].start == Pins(d.symbols[1])[1];
    assert d.wires[2].end == Pins(d.symbols[2])[0];
    assert d.wires[3].start == Pins(d.symbols[2])[1];
    assert d.wires[3].end == Pins(d.symbols[3])[0];
    assert d.wires[4].end == Pins(d.symbols[4])[0];
  }

  /**
   * In the divider, too, every wire runs straight except the last, which ties the second
   * ground symbol to the first on a slant.
   */
  lemma DividerGroundTie(r1: (string, string), r2: (string, string), vout: Point, u: nat, date: string)
    ensures var d := DividerLayout(r1, r2, vout, u, date);
            && (forall k :: 0 <= k < |d.wires| - 1 ==> Straight(d.wires[k]))
            && var tie := d.wires[|d.wires| - 1];
               tie.start == d.symbols[4].at && tie.end == d.symbols[3].at && !Straight(tie)
  {
  }

  /** As the code draws it, the VIN label sits on a wire but the VOUT label on none. */
  lemma DividerVoutAdrift(r1: (string, string), r2: (string, string), u: nat, date: string)
    ensures var d := DividerDrawing(r1, r2, u, date);
            Attached(d.wires, d.labels[0].at) && d.labels[1].text == "VOUT" && !Attached(d.wires, d.labels[1].at)
  {
    var d := DividerDrawing(r1, r2, u, date);
    assert OnWire(d.wires[1], d.labels[0].at);
  }

  /** With VOUT on the wire between the resistors, both labels name a wired net. */
  lemma DividerFixedLabels(r1: (string, string), r2: (string, string), u: nat, date: string)
    ensures LabelsAttached(DividerDrawingFixed(r1, r2, u, date))
  {
    var d := DividerDrawingFixed(r1, r2, u, date);
    assert OnWire(d.wires[1], d.labels[0].at);
    assert OnWire(d.wires[2], d.labels[1].at);
  }

  // ---------------------------------------------------------------------------------------
  // Choosing and drawing

  /** The schematic the layout chosen for the scraped components draws, from identifier u. */
  predicate Chosen(ts: seq<Token>, u: nat, date: string, s: Schematic) {
    var cs := Components(ts);
    var resistors := WithPrefix(cs, "R");
    var capacitors := WithPrefix(cs, "C");
    match Classify(cs)
    case RcFilter => |resistors| == 1 && |capacitors| == 1 && s == RcDrawing(resistors[0], capacitors[0], u, date)
    case VoltageDivider =>
      && |resistors| == 2 && s.Full?
      && (resistors[0].0 != resistors[1].0 ==> s == DividerDrawing(resistors[0], resistors[1], u, date))
    case RlFilter => s == Empty(u, date)
    case Generic => s == Empty(u, date)
  }

  /**
   * `_generate_kicad_schematic_file`: a netlist that cannot be read (None) gives the empty
   * schematic; otherwise the components are scraped, the nets extracted, and the layout the
   * decision table picks is drawn, the RL stage and the generic case being drawn empty.
   */
  method GenerateSchematic(netlist: Option<seq<Token>>, firstId: nat, date: string) returns (s: Schematic, nextId: nat)
    ensures netlist.None? ==> s == Empty(firstId, date)
    ensures netlist.Some? ==> Chosen(netlist.value, firstId, date, s)
    ensures firstId <= s.id < nextId
  {
    if netlist.None? {
      s, nextId := Empty(firstId, date), firstId + 1;
      return;
    }
    var ts := netlist.value;
    var components := Components(ts);
    var nets := ExtractNets(ts);
    var resistors := WithPrefix(components, "R");
    var capacitors := WithPrefix(components, "C");
    var inductors := WithPrefix(components, "L");
    if |resistors| == 1 && |capacitors| == 1 {
      RcPairDistinct(components);
      s, nextId := RcFilterSchematic(resistors, capacitors, firstId, date);
    } else if |resistors| == 2 && |capacitors| == 0 {
      s, nextId := VoltageDividerSchematic(resistors, firstId, date);
    } else if |resistors| == 1 && |inductors| == 1 {
      s, nextId := Empty(firstId, date), firstId + 1;
    } else {
      s, nextId := Empty(firstId, date), firstId + 1;
    }
  }
}

=== FILE: input_validator.dfy ===
/**
 * The description validator `InputValidator`: its three static methods, `validate_input`,
 * `detect_ambiguity` and `extract_constraints`. The regular expressions they use are
 * modelled as functions on the text, and each is related to the set of matches the
 * pattern defines.
 */
module InputValidator {
  import opened Wrappers
  import opened Strings
  import opened PyFloat

  const MaxInputLength := 500
  const MinInputLength := 10

  const AmbiguousKeywords: seq<string> := [
    "maybe", "possibly", "uncertain", "not sure", "approximately", "roughly", "around"
  ]

  const EmptyInput := "Input cannot be empty"
  const TooLong := "Input too long. Maximum 500 characters allowed."
  const TooShort := "Input too short. Please provide at least 10 characters."
  const Forbidden := "Input contains forbidden characters or patterns"
  const TooManySpecial := "Input contains too many special characters"

  // ---------------------------------------------------------------------------------------
  // Character runs

  /** End of the run of `\w` characters that starts at index i. */
  function WordRun(s: string, i: nat): (j: nat)
    requires i <= |s|
    ensures i <= j <= |s|
    ensures forall k :: i <= k < j ==> IsWordChar(s[k])
    ensures j == |s| || !IsWordChar(s[j])
    decreases |s| - i
  {
    if i < |s| && IsWordChar(s[i]) then WordRun(s, i + 1) else i
  }

  /** End of the run of `\s` characters that starts at index i. */
  function SpaceRun(s: string, i: nat): (j: nat)
    requires i <= |s|
    ensures i <= j <= |s|
    ensures forall k :: i <= k < j ==> IsSpace(s[k])
    ensures j == |s| || !IsSpace(s[j])
    decreases |s| - i
  {
    if i < |s| && IsSpace(s[i]) then SpaceRun(s, i + 1) else i
  }

  lemma {:induction false} WordRunEnds(s: string, i: nat, j: nat)
    requires i <= j < |s| && !IsWordChar(s[j])
    requires forall k :: i <= k < j ==> IsWordChar(s[k])
    ensures WordRun(s, i) == j
    decreases j - i
  {
    if i < j {
      WordRunEnds(s, i + 1, j);
    }
  }

  lemma {:induction false} SpaceRunEnds(s: string, i: nat, j: nat)
    requires i <= j < |s| && !IsSpace(s[j])
    requires forall k :: i <= k < j ==> IsSpace(s[k])
    ensures SpaceRun(s, i) == j
    decreases j - i
  {
    if i < j {
      SpaceRunEnds(s, i + 1, j);
    }
  }

  lemma {:induction false} DigitRunEnds(s: string, i: nat, j: nat)
    requires i <= j < |s| && !IsDigit(s[j])
    requires forall k :: i <= k < j ==> IsDigit(s[k])
    ensures DigitRun(s, i) == j
    decreases j - i
  {
    if i < j {
      DigitRunEnds(s, i + 1, j);
    }
  }

  // ---------------------------------------------------------------------------------------
  // The forbidden patterns

  /** The greedy reading of `on\w+\s*=` at index i, ignoring case. */
  predicate HandlerAt(s: string, i: nat) {
    OccursAt(Lower(s), "on", i) &&
    (var w := WordRun(s, i + 2);
     w > i + 2 && (var e := SpaceRun(s, w); e < |s| && s[e] == '='))
  }

  /** One way for `on\w+\s*=` to match at i: "on", `\w` over [i+2, w), `\s` over [w, e), '='. */
  ghost predicate HandlerMatch(s: string, i: nat, w: nat, e: nat) {
    && i + 2 < w <= e < |s|
    && OccursAt(Lower(s), "on", i)
    && (forall k :: i + 2 <= k < w ==> IsWordChar(s[k]))
    && (forall k :: w <= k < e ==> IsSpace(s[k]))
    && s[e] == '='
  }

  /** The greedy reading finds a match exactly when the pattern matches at i in some way. */
  lemma HandlerGreedy(s: string, i: nat)
    ensures HandlerAt(s, i) <==> exists w: nat, e: nat :: HandlerMatch(s, i, w, e)
  {
    if HandlerAt(s, i) {
      var w := WordRun(s, i + 2);
      assert HandlerMatch(s, i, w, SpaceRun(s, w));
    }
    if exists w: nat, e: nat :: HandlerMatch(s, i, w, e) {
      var w: nat, e: nat :| HandlerMatch(s, i, w, e);
      WordRunEnds(s, i + 2, w);
      SpaceRunEnds(s, w, e);
    }
  }

  /** `re.search(r'on\w+\s*=', s, re.IGNORECASE)` finds something. */
  predicate HasHandler(s: string) {
    exists i: nat | i < |s| :: HandlerAt(s, i)
  }

  /** Some pattern of `FORBIDDEN_PATTERNS` matches the raw input, ignoring case. */
  predicate HasForbidden(s: string) {
    var t := Lower(s);
    Contains(t, "<script") || Contains(t, "javascript:") || HasHandler(s)
      || Contains(t, "eval(") || Contains(t, "exec(")
  }

  // ---------------------------------------------------------------------------------------
  // Sanitising

  /** `re.sub(r'\s+', ' ', s)`: every maximal run of whitespace becomes one space. */
  function CollapseSpaces(s: string): (r: string)
    decreases |s|
  {
    if s == [] then []
    else if IsSpace(s[0]) then " " + CollapseSpaces(LStrip(s))
    else [s[0]] + CollapseSpaces(s[1..])
  }

  /** No whitespace but ' ', and never two spaces in a row. */
  predicate SingleSpaced(r: string) {
    && (forall k :: 0 <= k < |r| ==> (IsSpace(r[k]) ==> r[k] == ' '))
    && (forall k :: 0 <= k < |r| - 1 ==> !(r[k] == ' ' && r[k + 1] == ' '))
  }

  /** Collapsing keeps the text empty or not, and puts a space at an edge exactly where there was whitespace. */
  lemma {:induction false} CollapseEdges(s: string)
    ensures var r := CollapseSpaces(s);
      && (s == [] <==> r == [])
      && (s != [] ==> (IsSpace(s[0]) <==> r[0] == ' '))
      && (s != [] ==> (IsSpace(s[|s| - 1]) <==> r[|r| - 1] == ' '))
    decreases |s|
  {
    if s != [] {
      if IsSpace(s[0]) {
        var t := LStrip(s);
        assert t == [] || t[|t| - 1] == s[|s| - 1];
        CollapseEdges(t);
      } else {
        CollapseEdges(s[1..]);
      }
    }
  }

  /** A character in front of a single-spaced text keeps it single-spaced unless it makes a double space. */
  lemma SingleSpacedCons(c: char, r: string)
    requires SingleSpaced(r) && (IsSpace(c) ==> c == ' ') && (c == ' ' ==> r == [] || r[0] != ' ')
    ensures SingleSpaced([c] + r)
  {
    var x := [c] + r;
    forall k | 0 <= k < |x| - 1 ensures !(x[k] == ' ' && x[k + 1] == ' ') {
      if k > 0 {
        assert x[k] == r[k - 1] && x[k + 1] == r[k];
      }
    }
  }

  /** Collapsing leaves no whitespace but single spaces. */
  lemma {:induction false} CollapseSingle(s: string)
    ensures SingleSpaced(CollapseSpaces(s))
    decreases |s|
  {
    if s != [] {
      if IsSpace(s[0]) {
        var t := LStrip(s);
        CollapseSingle(t);
        CollapseEdges(t);
        SingleSpacedCons(' ', CollapseSpaces(t));
      } else {
        CollapseSingle(s[1..]);
        SingleSpacedCons(s[0], CollapseSpaces(s[1..]));
      }
    }
  }

  /** Collapsing leaves the text single-spaced, with a space at an edge exactly where there was whitespace. */
  lemma CollapseShape(s: string)
    ensures var r := CollapseSpaces(s);
      && SingleSpaced(r)
      && (s == [] <==> r == [])
      && (s != [] ==> (IsSpace(s[0]) <==> r[0] == ' '))
      && (s != [] ==> (IsSpace(s[|s| - 1]) <==> r[|r| - 1] == ' '))
  {
    CollapseSingle(s);
    CollapseEdges(s);
  }

  /** Collapsing copies a leading run of non-space characters unchanged. */
  lemma {:induction false} CollapseWord(s: string, n: nat)
    requires n <= |s| && forall k :: 0 <= k < n ==> !IsSpace(s[k])
    ensures CollapseSpaces(s) == s[..n] + CollapseSpaces(s[n..])
    decreases n
  {
    if n > 0 {
      CollapseWord(s[1..], n - 1);
      assert s[1..][..n - 1] == s[1..n];
      assert s[1..][n - 1..] == s[n..];
      assert s[..n] == [s[0]] + s[1..n];
    }
  }

  /** Text without edge whitespace whose first word is not all of it. */
  predicate SeveralWords(t: string) {
    t != [] && !IsSpace(t[0]) && !IsSpace(t[|t| - 1]) && WordLen(t) < |t|
  }

  /** The text after the first word and the whitespace behind it. */
  function AfterFirstWord(t: string): (u: string)
    requires SeveralWords(t)
    ensures u != [] && !IsSpace(u[0]) && !IsSpace(u[|u| - 1]) && |u| < |t|
  {
    var rest := t[WordLen(t)..];
    assert rest[|rest| - 1] == t[|t| - 1];
    LStrip(rest)
  }

  /** `split()` yields the first word, then the words of what follows it. */
  lemma WordsSplit(t: string)
    requires SeveralWords(t)
    ensures Words(t) == [t[..WordLen(t)]] + Words(AfterFirstWord(t))
    ensures Words(AfterFirstWord(t)) != []
  {
    var n := WordLen(t);
    assert LStrip(t) == t;
    var rest := t[n..];
    var u := AfterFirstWord(t);
    assert LStrip(u) == u;
    assert Words(rest) == Words(u);
  }

  /** Collapsing copies the first word, writes one space, and goes on after the whitespace. */
  lemma CollapseSplit(t: string)
    requires SeveralWords(t)
    ensures CollapseSpaces(t) == t[..WordLen(t)] + " " + CollapseSpaces(AfterFirstWord(t))
  {
    var n := WordLen(t);
    CollapseWord(t, n);
    var rest := t[n..];
    assert IsSpace(rest[0]);
  }

  /**
   * On text without edge whitespace, collapsing the runs is `' '.join(s.split())`: the
   * words in order, each separated by exactly one space.
   */
  lemma {:induction false} CollapseIsJoinedWords(t: string)
    requires NoEdgeSpace(t)
    ensures CollapseSpaces(t) == Join(Words(t), " ")
    decreases |t|
  {
    if t != [] {
      var n := WordLen(t);
      var w := t[..n];
      if n == |t| {
        assert LStrip(t) == t;
        assert t[n..] == [];
        assert Words(t) == [w];
        CollapseWord(t, n);
      } else {
        var u := AfterFirstWord(t);
        WordsSplit(t);
        CollapseSplit(t);
        CollapseIsJoinedWords(u);
        var ws := Words(u);
        assert ([w] + ws)[1..] == ws;
      }
    }
  }

  /** A character outside `[a-zA-Z0-9\s\.,\-]`. */
  predicate IsSpecial(c: char) {
    !(IsAlnum(c) || IsSpace(c) || c == '.' || c == ',' || c == '-')
  }

  function CountSpecial(s: string): (n: nat)
    ensures n <= |s|
  {
    if s == [] then 0 else (if IsSpecial(s[0]) then 1 else 0) + CountSpecial(s[1..])
  }

  /**
   * `len(re.findall(special, s)) / len(s) > 0.3`. The quotient of two integers at most 500
   * is never within a rounding error of 0.3 unless it equals 3/10, so the floating-point
   * comparison is the exact one.
   */
  predicate TooManySpecialChars(s: string) {
    10 * CountSpecial(s) > 3 * |s|
  }

  /**
   * `InputValidator.validate_input(user_input)`: `(True, s, None)` is `Success(s)` and
   * `(False, None, message)` is `Failure(message)`. The checks run in the source's order.
   */
  function ValidateInput(input: string): (r: Result<string, string>)
    ensures r.Success? <==>
              && Strip(input) != []
              && |input| <= MaxInputLength
              && |Strip(input)| >= MinInputLength
              && !HasForbidden(input)
              && !TooManySpecialChars(CollapseSpaces(Strip(input)))
    ensures r.Success? ==> r.value == CollapseSpaces(Strip(input))
    ensures Strip(input) == [] ==> r == Failure(EmptyInput)
    ensures Strip(input) != [] && |input| > MaxInputLength ==> r == Failure(TooLong)
    ensures Strip(input) != [] && |input| <= MaxInputLength ==>
              (|Strip(input)| < MinInputLength ==> r == Failure(TooShort))
    ensures |input| <= MaxInputLength && |Strip(input)| >= MinInputLength ==>
              (HasForbidden(input) ==> r == Failure(Forbidden))
  {
    if Strip(input) == [] then Failure(EmptyInput)
    else if |input| > MaxInputLength then Failure(TooLong)
    else if |Strip(input)| < MinInputLength then Failure(TooShort)
    else if HasForbidden(input) then Failure(Forbidden)
    else
      var sanitized := CollapseSpaces(Strip(input));
      if TooManySpecialChars(sanitized) then Failure(TooManySpecial)
      else Success(sanitized)
  }

  /** What acceptance tells about the sanitised text. */
  lemma Accepted(input: string, sanitized: string)
    requires ValidateInput(input) == Success(sanitized)
    ensures Strip(input) != [] && sanitized == CollapseSpaces(Strip(input))
    ensures !TooManySpecialChars(sanitized)
  {
  }

  /** An accepted description comes back as its words joined by single spaces. */
  lemma ValidatedIsJoinedWords(input: string, sanitized: string)
    requires ValidateInput(input) == Success(sanitized)
    ensures sanitized == Join(Words(Strip(input)), " ")
  {
    Accepted(input, sanitized);
    CollapseIsJoinedWords(Strip(input));
  }

  /**
   * An accepted description has no edge space, no two spaces in a row, no whitespace but
   * ' ', and at most 30% special characters.
   */
  lemma ValidatedShape(input: string, sanitized: string)
    requires ValidateInput(input) == Success(sanitized)
    ensures sanitized != [] && NoEdgeSpace(sanitized) && SingleSpaced(sanitized)
    ensures 10 * CountSpecial(sanitized) <= 3 * |sanitized|
  {
    Accepted(input, sanitized);
    CollapseStripped(Strip(input));
  }

  /** Collapsing non-empty text without edge whitespace keeps it so. */
  lemma CollapseStripped(t: string)
    requires t != [] && NoEdgeSpace(t)
    ensures CollapseSpaces(t) != [] && NoEdgeSpace(CollapseSpaces(t)) && SingleSpaced(CollapseSpaces(t))
  {
    CollapseShape(t);
  }

  // ---------------------------------------------------------------------------------------
  // Ambiguity

  function AmbiguityMessage(keyword: string): string {
    "Your description contains ambiguous language ('" + keyword
      + "'). Please provide specific values for better results."
  }

  const FilterNeedsFrequency := "Filter design requires a specific cutoff frequency (e.g., '1kHz', '500Hz')"
  const DividerNeedsVoltages := "Voltage divider requires specific voltage values (e.g., '9V to 5V')"

  const FrequencyUnits: seq<string> := ["hz", "khz", "mhz"]

  /** `any(char.isdigit() for char in s)` */
  predicate HasDigit(s: string) {
    exists k :: 0 <= k < |s| && IsDigit(s[k])
  }

  /** Both "khz" and "mhz" contain "hz", so the unit test is just a test for "hz". */
  lemma UnitsAreHz(t: string)
    ensures AnyIn(t, FrequencyUnits) <==> Contains(t, "hz")
  {
    assert FrequencyUnits[0] == "hz";
    if AnyIn(t, FrequencyUnits) {
      var k :| 0 <= k < 3 && Contains(t, FrequencyUnits[k]);
      var i :| 0 <= i <= |t| - |FrequencyUnits[k]| && OccursAt(t, FrequencyUnits[k], i);
      if k > 0 {
        assert t[i + 1..i + 3] == FrequencyUnits[k][1..];
        assert OccursAt(t, "hz", i + 1);
      }
    }
  }

  /**
   * `InputValidator.detect_ambiguity(user_input)`: `(True, m)` is `Some(m)`, `(False, None)`
   * is `None`. The first ambiguous keyword in list order names the message; then a filter
   * without a frequency unit; then a divider without any digit.
   */
  function DetectAmbiguity(input: string): (r: Option<string>)
    ensures r.None? <==>
              && !AnyIn(Lower(input), AmbiguousKeywords)
              && (Contains(Lower(input), "filter") ==> Contains(Lower(input), "hz"))
              && (Contains(Lower(input), "divider") ==> HasDigit(input))
    ensures FirstIn(Lower(input), AmbiguousKeywords).Some? ==>
              r == Some(AmbiguityMessage(AmbiguousKeywords[FirstIn(Lower(input), AmbiguousKeywords).value]))
    ensures !AnyIn(Lower(input), AmbiguousKeywords) ==>
              (Contains(Lower(input), "filter") && !Contains(Lower(input), "hz") ==> r == Some(FilterNeedsFrequency))
    ensures && !AnyIn(Lower(input), AmbiguousKeywords)
            && !(Contains(Lower(input), "filter") && !Contains(Lower(input), "hz"))
            && Contains(Lower(input), "divider") && !HasDigit(input) ==>
              r == Some(DividerNeedsVoltages)
  {
    var lower := Lower(input);
    var k := FirstIn(lower, AmbiguousKeywords);
    UnitsAreHz(lower);
    if k.Some? then Some(AmbiguityMessage(AmbiguousKeywords[k.value]))
    else if Contains(lower, "filter") && !AnyIn(lower, FrequencyUnits) then Some(FilterNeedsFrequency)
    else if Contains(lower, "divider") && !HasDigit(input) then Some(DividerNeedsVoltages)
    else None
  }

  // ---------------------------------------------------------------------------------------
  // Constraint extraction: `(\d+(?:\.\d+)?)\s*(units)`

  const VoltageUnits: seq<string> := ["v"]
  const CircuitTypes: seq<string> := ["filter", "divider", "amplifier", "rectifier", "led"]

  /** End of `\d+(?:\.\d+)?` read greedily from a digit at index i. */
  function NumberEnd(s: string, i: nat): (b: nat)
    requires i < |s| && IsDigit(s[i])
    ensures i < b <= |s|
  {
    var a := DigitRun(s, i);
    if a + 1 < |s| && s[a] == '.' && IsDigit(s[a + 1]) then DigitRun(s, a + 1) else a
  }

  /** The first unit, in alternation order, that occurs at index c. */
  function UnitAt(s: string, units: seq<string>, c: nat): (k: Option<nat>)
    ensures k.Some? ==> k.value < |units| && OccursAt(s, units[k.value], c)
    ensures k.Some? ==> forall j :: 0 <= j < k.value ==> !OccursAt(s, units[j], c)
    ensures k.None? ==> forall j :: 0 <= j < |units| ==> !OccursAt(s, units[j], c)
  {
    UnitAtFrom(s, units, c, 0)
  }

  function UnitAtFrom(s: string, units: seq<string>, c: nat, i: nat): (k: Option<nat>)
    requires i <= |units|
    requires forall j :: 0 <= j < i ==> !OccursAt(s, units[j], c)
    ensures k.Some? ==> i <= k.value < |units| && OccursAt(s, units[k.value], c)
    ensures k.Some? ==> forall j :: 0 <= j < k.value ==> !OccursAt(s, units[j], c)
    ensures k.None? ==> forall j :: 0 <= j < |units| ==> !OccursAt(s, units[j], c)
    decreases |units| - i
  {
    if i == |units| then None
    else if OccursAt(s, units[i], c) then Some(i)
    else UnitAtFrom(s, units, c, i + 1)
  }

  /**
   * The match of `(\d+(?:\.\d+)?)\s*(units)` that starts at index i, read greedily: the end
   * of group 1 and the end of the whole match.
   */
  function MatchAt(s: string, units: seq<string>, i: nat): (m: Option<(nat, nat)>)
    ensures m.Some? ==> i < m.value.0 <= m.value.1 <= |s|
  {
    if i < |s| && IsDigit(s[i]) then
      var b := NumberEnd(s, i);
      var c := SpaceRun(s, b);
      var k := UnitAt(s, units, c);
      if k.Some? then Some((b, c + |units[k.value]|)) else None
    else None
  }

  /** Every unit is a non-empty word starting with a lower-case letter, no two alike. */
  predicate UnitsSeparate(units: seq<string>) {
    && (forall k :: 0 <= k < |units| ==> units[k] != [] && IsLowerAscii(units[k][0]))
    && (forall k, l :: 0 <= k < l < |units| ==> units[k][0] != units[l][0])
  }

  predicate DigitsIn(s: string, i: nat, j: nat) {
    forall k :: i <= k < j && k < |s| ==> IsDigit(s[k])
  }

  predicate SpacesIn(s: string, i: nat, j: nat) {
    forall k :: i <= k < j && k < |s| ==> IsSpace(s[k])
  }

  /**
   * The pattern matches at i with group 1 over [i, b) and the whole match over [i, e), for
   * SOME split of the text: digits over [i, a), an optional fraction over [a, b), spaces
   * over [b, c) and unit k at c.
   */
  ghost predicate RegexMatch(s: string, units: seq<string>, i: nat, b: nat, e: nat) {
    exists a: nat, c: nat, k: nat :: Split(s, units, i, a, b, c, k, e)
  }

  /** One split of a match: digits over [i, a), a fraction over [a, b), spaces over [b, c), unit k over [c, e). */
  predicate Split(s: string, units: seq<string>, i: nat, a: nat, b: nat, c: nat, k: nat, e: nat) {
    && i < a <= b <= c <= |s| && k < |units|
    && DigitsIn(s, i, a)
    && (b == a || (a + 1 < b && s[a] == '.' && DigitsIn(s, a + 1, b)))
    && SpacesIn(s, b, c)
    && OccursAt(s, units[k], c) && e == c + |units[k]|
  }

  /** The unit that occurs at c is the one with the letter at c. */
  lemma UnitUnique(s: string, units: seq<string>, c: nat, k: nat)
    requires UnitsSeparate(units) && k < |units| && OccursAt(s, units[k], c)
    ensures UnitAt(s, units, c) == Some(k)
  {
    assert s[c] == units[k][0];
    var r := UnitAt(s, units, c);
    if r.Some? {
      assert s[c] == units[r.value][0];
    }
  }

  /** Given a split the pattern allows, the greedy reading finds the same ends. */
  lemma GreedyFinds(s: string, units: seq<string>, i: nat, a: nat, b: nat, c: nat, k: nat, e: nat)
    requires UnitsSeparate(units) && Split(s, units, i, a, b, c, k, e)
    ensures MatchAt(s, units, i) == Some((b, e))
  {
    assert c < |s| && IsLowerAscii(s[c]);
    if b > a {
      assert s[a] == '.';
      DigitRunEnds(s, i, a);
      if b < c {
        assert IsSpace(s[b]);
      }
      DigitRunEnds(s, a + 1, b);
    } else if a < c {
      assert IsSpace(s[a]);
      DigitRunEnds(s, i, a);
    } else {
      DigitRunEnds(s, i, a);
    }
    assert NumberEnd(s, i) == b;
    SpaceRunEnds(s, b, c);
    UnitUnique(s, units, c, k);
  }

  /** The greedy reading is the regular expression's match, and the match at i is unique. */
  lemma MatchAtIsRegex(s: string, units: seq<string>, i: nat, b: nat, e: nat)
    requires UnitsSeparate(units)
    ensures MatchAt(s, units, i) == Some((b, e)) <==> RegexMatch(s, units, i, b, e)
  {
    if MatchAt(s, units, i) == Some((b, e)) {
      GreedyIsRegex(s, units, i, b, e);
    }
    if RegexMatch(s, units, i, b, e) {
      var a: nat, c: nat, k: nat :| Split(s, units, i, a, b, c, k, e);
      GreedyFinds(s, units, i, a, b, c, k, e);
    }
  }

  /** What the greedy reading finds is a match of the pattern. */
  lemma GreedyIsRegex(s: string, units: seq<string>, i: nat, b: nat, e: nat)
    requires MatchAt(s, units, i) == Some((b, e))
    ensures RegexMatch(s, units, i, b, e)
  {
    var a := DigitRun(s, i);
    var c := SpaceRun(s, b);
    var k := UnitAt(s, units, c).value;
    assert DigitsIn(s, i, a);
    assert SpacesIn(s, b, c);
    if b != a {
      assert DigitsIn(s, a + 1, b);
    }
    assert Split(s, units, i, a, b, c, k, e);
  }

  /** `re.search`: the first index at or after i where the pattern matches. */
  function FirstMatchFrom(s: string, units: seq<string>, i: nat): (r: Option<(nat, nat, nat)>)
    requires i <= |s|
    ensures r.Some? ==> i <= r.value.0 && MatchAt(s, units, r.value.0) == Some((r.value.1, r.value.2))
    ensures forall j :: i <= j < (if r.Some? then r.value.0 else |s|) ==> MatchAt(s, units, j).None?
    decreases |s| - i
  {
    if i == |s| then None
    else
      var m := MatchAt(s, units, i);
      if m.Some? then Some((i, m.value.0, m.value.1)) else FirstMatchFrom(s, units, i + 1)
  }

  /** No match of the pattern starts in [lo, hi). */
  predicate NoMatchIn(s: string, units: seq<string>, lo: nat, hi: nat) {
    forall j :: lo <= j < hi ==> MatchAt(s, units, j).None?
  }

  /**
   * `re.findall` from index p: each match as (start, end of group 1, end), scanning on from
   * the end of each match. The matches are in text order, do not overlap, and no match
   * starts before the first one or in a gap between two of them.
   */
  function MatchesFrom(s: string, units: seq<string>, p: nat): (ms: seq<(nat, nat, nat)>)
    requires p <= |s|
    ensures forall k :: 0 <= k < |ms| ==> p <= ms[k].0 < ms[k].1 <= ms[k].2 <= |s|
    decreases |s| - p
  {
    if p == |s| then []
    else
      var m := MatchAt(s, units, p);
      if m.Some? then [(p, m.value.0, m.value.1)] + MatchesFrom(s, units, m.value.1)
      else MatchesFrom(s, units, p + 1)
  }

  /** The scan from p lists the match at p, then goes on from its end; without one it moves one step. */
  lemma MatchesStep(s: string, units: seq<string>, p: nat)
    requires p < |s|
    ensures var m := MatchAt(s, units, p);
      MatchesFrom(s, units, p) ==
        if m.Some? then [(p, m.value.0, m.value.1)] + MatchesFrom(s, units, m.value.1)
        else MatchesFrom(s, units, p + 1)
  {
  }

  /** The k-th listed match is the pattern's match at its start. */
  lemma {:induction false} MatchesFromAt(s: string, units: seq<string>, p: nat, k: nat)
    requires p <= |s| && k < |MatchesFrom(s, units, p)|
    ensures var ms := MatchesFrom(s, units, p);
      MatchAt(s, units, ms[k].0) == Some((ms[k].1, ms[k].2))
    decreases |s| - p
  {
    var m := MatchAt(s, units, p);
    MatchesStep(s, units, p);
    if m.Some? {
      if k > 0 {
        MatchesFromAt(s, units, m.value.1, k - 1);
      }
    } else {
      MatchesFromAt(s, units, p + 1, k);
    }
  }

  /** The k-th listed match ends before the next one starts: they do not overlap. */
  lemma {:induction false} MatchesFromOrdered(s: string, units: seq<string>, p: nat, k: nat)
    requires p <= |s| && k + 1 < |MatchesFrom(s, units, p)|
    ensures var ms := MatchesFrom(s, units, p);
      ms[k].2 <= ms[k + 1].0
    decreases |s| - p
  {
    var m := MatchAt(s, units, p);
    MatchesStep(s, units, p);
    if m.Some? {
      if k > 0 {
        MatchesFromOrdered(s, units, m.value.1, k - 1);
      }
    } else {
      MatchesFromOrdered(s, units, p + 1, k);
    }
  }

  /** No match starts from p up to the first listed one, or anywhere when none is listed. */
  lemma {:induction false} MatchesFromFirst(s: string, units: seq<string>, p: nat)
    requires p <= |s|
    ensures var ms := MatchesFrom(s, units, p);
      NoMatchIn(s, units, p, if ms == [] then |s| else ms[0].0)
    decreases |s| - p
  {
    if p < |s| {
      MatchesStep(s, units, p);
      if MatchAt(s, units, p).None? {
        MatchesFromFirst(s, units, p + 1);
      }
    }
  }

  /** No match starts between the end of one listed match and the start of the next. */
  predicate Gapless(s: string, units: seq<string>, ms: seq<(nat, nat, nat)>) {
    forall k :: 0 <= k < |ms| - 1 ==> NoMatchIn(s, units, ms[k].2, ms[k + 1].0)
  }

  lemma ConsGapless(s: string, units: seq<string>, h: (nat, nat, nat), rest: seq<(nat, nat, nat)>)
    requires Gapless(s, units, rest)
    requires rest != [] ==> NoMatchIn(s, units, h.2, rest[0].0)
    ensures Gapless(s, units, [h] + rest)
  {
    var ms := [h] + rest;
    forall k | 0 <= k < |ms| - 1 ensures NoMatchIn(s, units, ms[k].2, ms[k + 1].0) {
      if k == 0 {
        assert ms[1] == rest[0];
      } else {
        assert ms[k] == rest[k - 1] && ms[k + 1] == rest[k];
      }
    }
  }

  /** Between two consecutive matches no match starts: the scan skips nothing. */
  lemma {:induction false} MatchesFromGaps(s: string, units: seq<string>, p: nat)
    requires p <= |s|
    ensures Gapless(s, units, MatchesFrom(s, units, p))
    decreases |s| - p
  {
    if p < |s| {
      var m := MatchAt(s, units, p);
      if m.Some? {
        var rest := MatchesFrom(s, units, m.value.1);
        MatchesFromGaps(s, units, m.value.1);
        MatchesFromFirst(s, units, m.value.1);
        ConsGapless(s, units, (p, m.value.0, m.value.1), rest);
      } else {
        MatchesFromGaps(s, units, p + 1);
      }
    }
  }

  /** The first frequency match, `group(0)`: number, spaces and unit. */
  function FrequencyOf(t: string): Option<string> {
    var m := FirstMatchFrom(t, FrequencyUnits, 0);
    if m.Some? then Some(t[m.value.0..m.value.2]) else None
  }

  /** The numbers of all voltage matches, group 1 of each, in text order. */
  function VoltagesOf(t: string): (vs: seq<string>) {
    var ms := MatchesFrom(t, VoltageUnits, 0);
    seq(|ms|, k requires 0 <= k < |ms| => t[ms[k].0..ms[k].1])
  }

  lemma UnitsAreSeparate()
    ensures UnitsSeparate(FrequencyUnits) && UnitsSeparate(VoltageUnits)
  {
  }

  /** The frequency is the leftmost match of the pattern, and there is none when it is absent. */
  lemma FrequencyIsLeftmost(t: string)
    ensures FrequencyOf(t).None? ==> forall i: nat, b: nat, e: nat :: i < |t| ==> !RegexMatch(t, FrequencyUnits, i, b, e)
    ensures FrequencyOf(t).Some? ==> exists i: nat, b: nat, e: nat ::
              && RegexMatch(t, FrequencyUnits, i, b, e) && FrequencyOf(t) == Some(t[i..e])
              && forall j: nat, b2: nat, e2: nat :: j < i ==> !RegexMatch(t, FrequencyUnits, j, b2, e2)
  {
    UnitsAreSeparate();
    var m := FirstMatchFrom(t, FrequencyUnits, 0);
    var first := if m.Some? then m.value.0 else |t|;
    forall j: nat, b2: nat, e2: nat | j < first ensures !RegexMatch(t, FrequencyUnits, j, b2, e2) {
      MatchAtIsRegex(t, FrequencyUnits, j, b2, e2);
    }
    if m.Some? {
      MatchAtIsRegex(t, FrequencyUnits, m.value.0, m.value.1, m.value.2);
    }
  }

  /** There are no voltages exactly when the voltage pattern matches nowhere. */
  lemma VoltagesNoneIffNoMatch(t: string)
    ensures VoltagesOf(t) == [] <==> forall i: nat, b: nat, e: nat :: i < |t| ==> !RegexMatch(t, VoltageUnits, i, b, e)
  {
    UnitsAreSeparate();
    var ms := MatchesFrom(t, VoltageUnits, 0);
    MatchesFromFirst(t, VoltageUnits, 0);
    if ms == [] {
      forall i: nat, b: nat, e: nat | i < |t| ensures !RegexMatch(t, VoltageUnits, i, b, e) {
        MatchAtIsRegex(t, VoltageUnits, i, b, e);
      }
    } else {
      MatchesFromAt(t, VoltageUnits, 0, 0);
      MatchAtIsRegex(t, VoltageUnits, ms[0].0, ms[0].1, ms[0].2);
      assert |VoltagesOf(t)| == |ms|;
    }
  }

  /** The value of an entry of the constraints dictionary: a string or a list of strings. */
  datatype ConstraintValue = Text(text: string) | Texts(texts: seq<string>)

  /**
   * `InputValidator.extract_constraints(user_input)`: "frequency" holds the first
   * frequency match, "voltages" all voltage numbers, "circuit_type" the first type word in
   * list order; each key is present only when something was found.
   */
  method ExtractConstraints(input: string) returns (constraints: map<string, ConstraintValue>)
    ensures constraints.Keys <= {"frequency", "voltages", "circuit_type"}
    ensures "frequency" in constraints <==> FrequencyOf(Lower(input)).Some?
    ensures "frequency" in constraints ==> constraints["frequency"] == Text(FrequencyOf(Lower(input)).value)
    ensures "voltages" in constraints <==> VoltagesOf(Lower(input)) != []
    ensures "voltages" in constraints ==> constraints["voltages"] == Texts(VoltagesOf(Lower(input)))
    ensures "circuit_type" in constraints <==> AnyIn(Lower(input), CircuitTypes)
    ensures "circuit_type" in constraints ==>
              constraints["circuit_type"] == Text(CircuitTypes[FirstIn(Lower(input), CircuitTypes).value])
  {
    var lower := Lower(input);
    constraints := map[];
    var freq := FrequencyOf(lower);
    if freq.Some? {
      constraints := constraints["frequency" := Text(freq.value)];
    }
    var voltages := VoltagesOf(lower);
    if voltages != [] {
      constraints := constraints["voltages" := Texts(voltages)];
    }
    var found := constraints;
    var i := 0;
    while i < |CircuitTypes|
      invariant 0 <= i <= |CircuitTypes|
      invariant NoneBefore(lower, CircuitTypes, i)
      invariant constraints == found
    {
      if Contains(lower, CircuitTypes[i]) {
        FirstInIs(lower, CircuitTypes, i);
        constraints := constraints["circuit_type" := Text(CircuitTypes[i])];
        break;
      }
      i := i + 1;
    }
    if i == |CircuitTypes| {
      NoneInAll(lower, CircuitTypes);
    }
  }
}

=== FILE: issue_tracker.dfy ===
/**
 * The in-memory issue list of `issue_tracker.py`. An issue is a record; the tracker keeps
 * them in a list it appends to and updates in place. Reading and writing the JSON file is
 * abstracted: the constructor takes what the file held, and `now` is a parameter standing
 * for `datetime.now().isoformat()`.
 */
module IssueTracker {
  import opened Wrappers

  /** `Priority`, an enumeration with string values. */
  datatype Priority = P0 | P1 {
    function Value(): string {
      match this
      case P0 => "P0_CRITICAL"
      case P1 => "P1_NICE_TO_HAVE"
    }
  }

  /**
   * One issue record. `resolvedAt` is `None` for JSON `null`; `resolutionNotes` is `None`
   * while the record has no such key, which `resolve_issue` adds.
   */
  datatype Issue = Issue(
    id: int, title: string, description: string, priority: string, source: string,
    status: string, createdAt: string, resolvedAt: Option<string>, resolutionNotes: Option<string>)

  const DefaultSource := "user_testing"

  /** The record `add_issue` creates. */
  function NewIssue(id: int, title: string, description: string, priority: Priority, source: string, now: string): (i: Issue)
    ensures i.id == id && i.status == "open" && i.resolvedAt.None? && i.priority == priority.Value()
  {
    Issue(id, title, description, priority.Value(), source, "open", now, None, None)
  }

  /** What `resolve_issue` writes into a record; every other field stays. */
  function Resolved(i: Issue, now: string, notes: string): (r: Issue)
    ensures r.status == "resolved" && r.resolvedAt == Some(now) && r.resolutionNotes == Some(notes)
    ensures r.id == i.id && r.title == i.title && r.priority == i.priority && r.createdAt == i.createdAt
  {
    i.(status := "resolved", resolvedAt := Some(now), resolutionNotes := Some(notes))
  }

  /** The index of the first record with the given id. */
  function FirstWithId(issues: seq<Issue>, id: int): (k: Option<nat>)
    ensures k.Some? ==> k.value < |issues| && issues[k.value].id == id
    ensures k.Some? ==> forall j :: 0 <= j < k.value ==> issues[j].id != id
    ensures k.None? <==> forall j :: 0 <= j < |issues| ==> issues[j].id != id
  {
    FirstWithIdFrom(issues, id, 0)
  }

  function FirstWithIdFrom(issues: seq<Issue>, id: int, i: nat): (k: Option<nat>)
    requires i <= |issues|
    requires forall j :: 0 <= j < i ==> issues[j].id != id
    ensures k.Some? ==> i <= k.value < |issues| && issues[k.value].id == id
    ensures k.Some? ==> forall j :: 0 <= j < k.value ==> issues[j].id != id
    ensures k.None? <==> forall j :: 0 <= j < |issues| ==> issues[j].id != id
    decreases |issues| - i
  {
    if i == |issues| then None
    else if issues[i].id == id then Some(i)
    else FirstWithIdFrom(issues, id, i + 1)
  }

  /** The list after `resolve_issue(id, notes)`: the first record with that id resolved. */
  function ResolveIn(issues: seq<Issue>, id: int, now: string, notes: string): (r: seq<Issue>)
    ensures |r| == |issues|
  {
    match FirstWithId(issues, id)
    case None => issues
    case Some(k) => issues[k := Resolved(issues[k], now, notes)]
  }

  /** The open records, restricted to one priority value when one is given, in list order. */
  function OpenWith(issues: seq<Issue>, priority: Option<string>): (r: seq<Issue>)
    ensures |r| <= |issues|
  {
    if issues == [] then []
    else
      var rest := OpenWith(issues[1..], priority);
      var x := issues[0];
      if x.status == "open" && (priority.None? || x.priority == priority.value) then [x] + rest else rest
  }

  /** The ids are 1, 2, ... in list order, as `add_issue` numbers them. */
  predicate Numbered(issues: seq<Issue>) {
    forall k :: 0 <= k < |issues| ==> issues[k].id == k + 1
  }

  class IssueTracker {
    var issues: seq<Issue>

    /** `__init__`: the stored list when the file exists, an empty one otherwise. */
    constructor(stored: Option<seq<Issue>>)
      ensures issues == stored.GetOr([])
    {
      issues := stored.GetOr([]);
    }

    /** `add_issue`: append a new open record numbered one past the current length. */
    method AddIssue(title: string, description: string, priority: Priority, source: string, now: string)
      returns (issue: Issue)
      modifies this
      ensures issue == NewIssue(|old(issues)| + 1, title, description, priority, source, now)
      ensures issues == old(issues) + [issue]
      ensures Numbered(old(issues)) ==> Numbered(issues)
    {
      issue := NewIssue(|issues| + 1, title, description, priority, source, now);
      issues := issues + [issue];
    }

    /**
     * `resolve_issue`: scan in list order; the first record with the id is resolved and
     * returned. With no such record the list is unchanged and the result is `None`.
     */
    method ResolveIssue(issueId: int, notes: string, now: string) returns (r: Option<Issue>)
      modifies this
      ensures issues == ResolveIn(old(issues), issueId, now, notes)
      ensures r.None? <==> FirstWithId(old(issues), issueId).None?
      ensures r.Some? ==> r.value == Resolved(old(issues)[FirstWithId(old(issues), issueId).value], now, notes)
    {
      var k := 0;
      while k < |issues|
        invariant 0 <= k <= |issues|
        invariant issues == old(issues)
        invariant forall j :: 0 <= j < k ==> issues[j].id != issueId
      {
        if issues[k].id == issueId {
          assert FirstWithId(issues, issueId) == Some(k) by {
            NoEarlierMatch(issues, issueId, k);
          }
          var resolved := Resolved(issues[k], now, notes);
          issues := issues[k := resolved];
          return Some(resolved);
        }
        k := k + 1;
      }
      r := None;
    }

    /** `get_open_p0_issues()` */
    function OpenP0Issues(): (r: seq<Issue>)
      reads this
      ensures r == OpenWith(issues, Some(P0.Value()))
      ensures forall x :: x in r <==> x in issues && x.status == "open" && x.priority == "P0_CRITICAL"
    {
      OpenExactly(issues, Some(P0.Value()));
      OpenWith(issues, Some(P0.Value()))
    }

    /** `get_open_p1_issues()` */
    function OpenP1Issues(): (r: seq<Issue>)
      reads this
      ensures r == OpenWith(issues, Some(P1.Value()))
      ensures forall x :: x in r <==> x in issues && x.status == "open" && x.priority == "P1_NICE_TO_HAVE"
    {
      OpenExactly(issues, Some(P1.Value()));
      OpenWith(issues, Some(P1.Value()))
    }

    /** `get_all_open_issues()` */
    function AllOpenIssues(): (r: seq<Issue>)
      reads this
      ensures r == OpenWith(issues, None)
      ensures forall x :: x in r <==> x in issues && x.status == "open"
    {
      OpenExactly(issues, None);
      OpenWith(issues, None)
    }
  }

  /** A match at k with none before it is the first match. */
  lemma NoEarlierMatch(issues: seq<Issue>, id: int, k: nat)
    requires k < |issues| && issues[k].id == id
    requires forall j :: 0 <= j < k ==> issues[j].id != id
    ensures FirstWithId(issues, id) == Some(k)
  {
  }

  /** Numbered records have pairwise distinct ids. */
  lemma NumberedDistinct(issues: seq<Issue>)
    requires Numbered(issues)
    ensures forall i, j :: 0 <= i < j < |issues| ==> issues[i].id != issues[j].id
  {
  }

  /** In a numbered list the record with id n sits at index n - 1. */
  lemma NumberedLookup(issues: seq<Issue>, id: int)
    requires Numbered(issues)
    ensures FirstWithId(issues, id) == if 1 <= id <= |issues| then Some(id - 1) else None
  {
    if 1 <= id <= |issues| {
      NoEarlierMatch(issues, id, id - 1);
    }
  }

  /** Resolving keeps the length, every other record, and the numbering. */
  lemma ResolveChangesOne(issues: seq<Issue>, id: int, now: string, notes: string)
    ensures forall j :: 0 <= j < |issues| && (FirstWithId(issues, id).None? || j != FirstWithId(issues, id).value) ==>
              ResolveIn(issues, id, now, notes)[j] == issues[j]
    ensures forall j :: 0 <= j < |issues| ==> ResolveIn(issues, id, now, notes)[j].id == issues[j].id
    ensures Numbered(issues) ==> Numbered(ResolveIn(issues, id, now, notes))
  {
  }

  /** A resolved record is no longer open: the open list loses exactly that record. */
  lemma ResolvedNotOpen(i: Issue, now: string, notes: string, priority: Option<string>)
    ensures OpenWith([Resolved(i, now, notes)], priority) == []
  {
  }

  /** One step of the filter: the head is kept or dropped, then the tail is filtered. */
  lemma OpenStep(issues: seq<Issue>, priority: Option<string>)
    requires issues != []
    ensures OpenWith(issues, priority) ==
      (if issues[0].status == "open" && (priority.None? || issues[0].priority == priority.value) then [issues[0]] else [])
      + OpenWith(issues[1..], priority)
  {
  }

  /** Filtering a concatenation filters each part, in order. */
  lemma {:induction false} OpenConcat(a: seq<Issue>, b: seq<Issue>, priority: Option<string>)
    ensures OpenWith(a + b, priority) == OpenWith(a, priority) + OpenWith(b, priority)
  {
    if a == [] {
      assert a + b == b;
    } else {
      var ab := a + b;
      assert ab[0] == a[0] && ab[1..] == a[1..] + b;
      OpenConcat(a[1..], b, priority);
      OpenStep(ab, priority);
      OpenStep(a, priority);
      var x := a[0];
      var h: seq<Issue> := if x.status == "open" && (priority.None? || x.priority == priority.value) then [x] else [];
      assert h + (OpenWith(a[1..], priority) + OpenWith(b, priority)) == (h + OpenWith(a[1..], priority)) + OpenWith(b, priority);
    }
  }

  /** Exactly the open records with the requested priority are returned. */
  lemma {:induction false} OpenExactly(issues: seq<Issue>, priority: Option<string>)
    ensures forall x :: x in OpenWith(issues, priority) <==>
                          x in issues && x.status == "open" && (priority.None? || x.priority == priority.value)
  {
    if issues != [] {
      OpenExactly(issues[1..], priority);
      assert issues == [issues[0]] + issues[1..];
    }
  }

  /** A new issue shows up at the end of the open list of its own priority and of all open issues. */
  lemma AddedIsOpen(issues: seq<Issue>, issue: Issue, priority: Priority)
    requires issue.status == "open" && issue.priority == priority.Value()
    ensures OpenWith(issues + [issue], Some(priority.Value())) == OpenWith(issues, Some(priority.Value())) + [issue]
    ensures OpenWith(issues + [issue], None) == OpenWith(issues, None) + [issue]
  {
    OpenConcat(issues, [issue], Some(priority.Value()));
    OpenConcat(issues, [issue], None);
  }

  /** The two priority values differ, so a P0 issue never appears among the P1 issues. */
  lemma PrioritiesSeparate(issues: seq<Issue>, x: Issue)
    requires x in OpenWith(issues, Some(P0.Value()))
    ensures x !in OpenWith(issues, Some(P1.Value()))
  {
    OpenExactly(issues, Some(P0.Value()));
    OpenExactly(issues, Some(P1.Value()));
  }
}

=== FILE: models.dfy ===
/**
 * The schema of `models.py`: the field validators of `Component`, `Constraints` and
 * `Circuit`, the helpers `has_ground` and `get_floating_nets`, and `validate_circuit_json`.
 * Validation collects every field error the way the schema library does: fields are
 * checked in declaration order, a field's own validator runs only when its type check
 * passed, and a validator that reads an earlier field sees it only when that field was valid.
 */
module Models {
  import opened Wrappers
  import opened Strings
  import opened PyFloat
  import opened CircuitJson

  datatype CircuitType = RcLowpass | RcHighpass | VoltageDivider
  datatype ComponentType = Resistor | Capacitor

  function CircuitTypeOf(s: string): Option<CircuitType> {
    if s == "rc_lowpass" then Some(RcLowpass)
    else if s == "rc_highpass" then Some(RcHighpass)
    else if s == "voltage_divider" then Some(VoltageDivider)
    else None
  }

  function ComponentTypeOf(s: string): Option<ComponentType> {
    if s == "resistor" then Some(Resistor)
    else if s == "capacitor" then Some(Capacitor)
    else None
  }

  datatype Component = Component(id: string, kind: ComponentType, value: string, nets: seq<string>)
  datatype Constraints = Constraints(cutoffFreq: Option<string>, inputVoltage: Option<string>, outputVoltage: Option<string>)
  datatype Circuit = Circuit(circuitType: CircuitType, components: seq<Component>, constraints: Constraints)

  /** The raw `constraints` object; `None` for a missing key or `null`. */
  datatype RawConstraints = RawConstraints(cutoffFreq: Option<string>, inputVoltage: Option<string>, outputVoltage: Option<string>)

  /** The raw record passed to `Circuit(**circuit_json)`. */
  datatype RawCircuit = RawCircuit(circuitType: Option<string>, components: Option<seq<CompJson>>, constraints: Option<RawConstraints>)

  /** One failed check; the text the schema library prints for it is not modelled. */
  datatype FieldError =
    | Missing(field: string)
    | NotAnEnum(field: string)
    | NotAList(field: string)
    | IdEmpty
    | IdNotLetter
    | ValueEmpty
    | ValueNoDigit
    | NetsCount
    | SameNet
    | NotNumeric(field: string)
    | TooFewComponents
    | InComponent(index: nat, error: FieldError)
    | DuplicateIds
    | RcNeedsParts
    | DividerNeedsResistors
    | NeedsCutoff
    | DividerNeedsVoltages

  /** What every accepted component satisfies. */
  predicate ComponentShape(c: Component) {
    c.id != [] && IsAlpha(c.id[0]) && HasDigit(c.value) && |c.nets| == 2 && c.nets[0] != c.nets[1]
  }

  /** `validate_id`, after the `str` type check. */
  function IdErrors(id: Option<string>): seq<FieldError> {
    match id
    case None => [Missing("id")]
    case Some(v) => if v == [] then [IdEmpty] else if !IsAlpha(v[0]) then [IdNotLetter] else []
  }

  function KindErrors(kind: Option<string>): seq<FieldError> {
    match kind
    case None => [Missing("type")]
    case Some(k) => if ComponentTypeOf(k).None? then [NotAnEnum("type")] else []
  }

  /** `validate_value` */
  function ValueErrors(value: Option<string>): seq<FieldError> {
    match value
    case None => [Missing("value")]
    case Some(v) => if v == [] then [ValueEmpty] else if !HasDigit(v) then [ValueNoDigit] else []
  }

  /** The two-item bound of the field, then `validate_nets`. A string is not a list. */
  function NetsErrors(nets: Option<Nets>): seq<FieldError> {
    match nets
    case None => [Missing("nets")]
    case Some(NetText(_)) => [NotAList("nets")]
    case Some(NetList(ns)) => if |ns| != 2 then [NetsCount] else if ns[0] == ns[1] then [SameNet] else []
  }

  /** `Component(**raw)`: every field error, in field order, or the component. */
  function ValidateComponent(raw: CompJson): (r: Result<Component, seq<FieldError>>)
    ensures r.Success? ==> ComponentShape(r.value)
    ensures r.Success? ==>
              && raw.id == Some(r.value.id) && raw.value == Some(r.value.value)
              && raw.nets == Some(NetList(r.value.nets)) && raw.kind.Some? && ComponentTypeOf(raw.kind.value) == Some(r.value.kind)
    ensures r.Failure? ==> r.error != []
  {
    var errors := IdErrors(raw.id) + KindErrors(raw.kind) + ValueErrors(raw.value) + NetsErrors(raw.nets);
    if errors == [] then
      Success(Component(raw.id.value, ComponentTypeOf(raw.kind.value).value, raw.value.value, raw.nets.value.names))
    else Failure(errors)
  }

  /** Each rejected field yields its own error. */
  lemma ComponentRejections(raw: CompJson)
    ensures raw.id == Some("") ==> ValidateComponent(raw).Failure? && IdEmpty in ValidateComponent(raw).error
    ensures raw.id.Some? && raw.id.value != [] && !IsAlpha(raw.id.value[0]) ==>
              ValidateComponent(raw).Failure? && IdNotLetter in ValidateComponent(raw).error
    ensures raw.value.Some? && raw.value.value != [] && !HasDigit(raw.value.value) ==>
              ValidateComponent(raw).Failure? && ValueNoDigit in ValidateComponent(raw).error
    ensures (raw.nets.Some? && raw.nets.value.NetList? && |raw.nets.value.names| == 2 &&
             raw.nets.value.names[0] == raw.nets.value.names[1]) ==>
              ValidateComponent(raw).Failure? && SameNet in ValidateComponent(raw).error
  {
    var errors := IdErrors(raw.id) + KindErrors(raw.kind) + ValueErrors(raw.value) + NetsErrors(raw.nets);
    assert forall e :: e in IdErrors(raw.id) ==> e in errors;
    assert forall e :: e in ValueErrors(raw.value) ==> e in errors;
    assert forall e :: e in NetsErrors(raw.nets) ==> e in errors;
  }

  /** The errors of the components, each tagged with its index, in list order. */
  function ItemErrors(raws: seq<CompJson>, from: nat): (es: seq<FieldError>)
    requires from <= |raws|
    ensures es == [] <==> forall k :: from <= k < |raws| ==> ValidateComponent(raws[k]).Success?
    decreases |raws| - from
  {
    if from == |raws| then []
    else
      var head := ComponentErrors(from, raws[from]);
      var rest := ItemErrors(raws, from + 1);
      assert |head + rest| == |head| + |rest|;
      head + rest
  }

  /** The errors of component k, each tagged with its index. */
  function ComponentErrors(k: nat, raw: CompJson): (es: seq<FieldError>)
    ensures es == [] <==> ValidateComponent(raw).Success?
  {
    match ValidateComponent(raw)
    case Success(_) => []
    case Failure(errs) => seq(|errs|, i requires 0 <= i < |errs| => InComponent(k, errs[i]))
  }

  /** The validated components, when every one is valid. */
  function Validated(raws: seq<CompJson>): (cs: seq<Component>)
    requires forall k :: 0 <= k < |raws| ==> ValidateComponent(raws[k]).Success?
    ensures |cs| == |raws|
    ensures forall k :: 0 <= k < |raws| ==> cs[k] == ValidateComponent(raws[k]).value
  {
    seq(|raws|, k requires 0 <= k < |raws| => ValidateComponent(raws[k]).value)
  }

  predicate UniqueIds(cs: seq<Component>) {
    forall i, j :: 0 <= i < j < |cs| ==> cs[i].id != cs[j].id
  }

  function ResistorCount(cs: seq<Component>): nat {
    if cs == [] then 0 else (if cs[0].kind == Resistor then 1 else 0) + ResistorCount(cs[1..])
  }

  predicate HasKind(cs: seq<Component>, k: ComponentType) {
    exists i :: 0 <= i < |cs| && cs[i].kind == k
  }

  /** The type requirement `validate_components` applies once the circuit type is known. */
  predicate MeetsTypeParts(t: CircuitType, cs: seq<Component>) {
    if t == VoltageDivider then ResistorCount(cs) >= 2 else HasKind(cs, Resistor) && HasKind(cs, Capacitor)
  }

  /** `validate_components`: unique ids first, then the parts the type needs. */
  function ComponentsCheck(cs: seq<Component>, t: Option<CircuitType>): (r: Option<FieldError>)
    ensures r.None? <==> UniqueIds(cs) && (t.Some? ==> MeetsTypeParts(t.value, cs))
    ensures !UniqueIds(cs) ==> r == Some(DuplicateIds)
  {
    if exists i, j :: 0 <= i < j < |cs| && cs[i].id == cs[j].id then Some(DuplicateIds)
    else if t == Some(VoltageDivider) && ResistorCount(cs) < 2 then Some(DividerNeedsResistors)
    else if t.Some? && t != Some(VoltageDivider) && !(HasKind(cs, Resistor) && HasKind(cs, Capacitor)) then Some(RcNeedsParts)
    else None
  }

  /** The `components` field: presence, at least one item, each item, then the validator. */
  function ComponentsField(raw: Option<seq<CompJson>>, t: Option<CircuitType>): (r: Result<seq<Component>, seq<FieldError>>)
    ensures r.Success? ==> r.value != [] && UniqueIds(r.value) && (t.Some? ==> MeetsTypeParts(t.value, r.value))
    ensures r.Success? ==> forall k :: 0 <= k < |r.value| ==> ComponentShape(r.value[k])
    ensures r.Failure? ==> r.error != []
  {
    match raw
    case None => Failure([Missing("components")])
    case Some(raws) =>
      if raws == [] then Failure([TooFewComponents])
      else
        var errs := ItemErrors(raws, 0);
        if errs != [] then Failure(errs)
        else
          var cs := Validated(raws);
          match ComponentsCheck(cs, t)
          case Some(e) => Failure([e])
          case None => Success(cs)
  }

  /** An absent value, or one `float` accepts. */
  predicate Numeric(v: Option<string>) { v.Some? ==> ParseFloat(v.value).Some? }

  /** `validate_numeric_fields` for one optional field. */
  function NumericErrors(field: string, v: Option<string>): (es: seq<FieldError>)
    ensures es == [] <==> Numeric(v)
  {
    if v.Some? && ParseFloat(v.value).None? then [NotNumeric(field)] else []
  }

  /** `if not v.cutoff_freq`: missing, null or empty. */
  predicate Blank(v: Option<string>) { v.None? || v.value == [] }

  /** `validate_constraints_match_circuit_type` */
  predicate MeetsTypeConstraints(t: CircuitType, c: Constraints) {
    if t == VoltageDivider then !Blank(c.inputVoltage) && !Blank(c.outputVoltage) else !Blank(c.cutoffFreq)
  }

  /** The `constraints` field: presence, the numeric checks, then the validator. */
  function ConstraintsField(raw: Option<RawConstraints>, t: Option<CircuitType>): (r: Result<Constraints, seq<FieldError>>)
    ensures r.Success? ==> t.Some? ==> MeetsTypeConstraints(t.value, r.value)
    ensures r.Success? ==> Numeric(r.value.cutoffFreq) && Numeric(r.value.inputVoltage) && Numeric(r.value.outputVoltage)
    ensures r.Failure? ==> r.error != []
  {
    match raw
    case None => Failure([Missing("constraints")])
    case Some(rc) =>
      if !(Numeric(rc.cutoffFreq) && Numeric(rc.inputVoltage) && Numeric(rc.outputVoltage)) then
        Failure(NumericErrors("cutoff_freq", rc.cutoffFreq) + NumericErrors("input_voltage", rc.inputVoltage)
                + NumericErrors("output_voltage", rc.outputVoltage))
      else
        var c := Constraints(rc.cutoffFreq, rc.inputVoltage, rc.outputVoltage);
        if t.Some? && !MeetsTypeConstraints(t.value, c) then
          Failure(if t.value == VoltageDivider then [DividerNeedsVoltages] else [NeedsCutoff])
        else Success(c)
  }

  /** What every accepted circuit satisfies. */
  predicate CircuitShape(c: Circuit) {
    && c.components != []
    && UniqueIds(c.components)
    && (forall k :: 0 <= k < |c.components| ==> ComponentShape(c.components[k]))
    && MeetsTypeParts(c.circuitType, c.components)
    && MeetsTypeConstraints(c.circuitType, c.constraints)
  }

  function TypeErrors(raw: Option<string>): seq<FieldError> {
    match raw
    case None => [Missing("circuit_type")]
    case Some(s) => if CircuitTypeOf(s).None? then [NotAnEnum("circuit_type")] else []
  }

  /** `Circuit(**raw)`: all field errors in field order, or the circuit. */
  function ValidateCircuit(raw: RawCircuit): (r: Result<Circuit, seq<FieldError>>)
    ensures r.Success? ==> CircuitShape(r.value)
    ensures r.Success? ==> raw.circuitType.Some? && CircuitTypeOf(raw.circuitType.value) == Some(r.value.circuitType)
    ensures r.Success? ==> var c := r.value.constraints;
              Numeric(c.cutoffFreq) && Numeric(c.inputVoltage) && Numeric(c.outputVoltage)
    ensures r.Failure? ==> r.error != []
  {
    var t := if raw.circuitType.Some? then CircuitTypeOf(raw.circuitType.value) else None;
    var comps := ComponentsField(raw.components, t);
    var cons := ConstraintsField(raw.constraints, t);
    var errs := TypeErrors(raw.circuitType)
                + (if comps.Failure? then comps.error else [])
                + (if cons.Failure? then cons.error else []);
    if errs == [] then Success(Circuit(t.value, comps.value, cons.value)) else Failure(errs)
  }

  /** All nets of the components, in order (`all_nets.extend(comp.nets)`). */
  function AllNets(cs: seq<Component>): (r: seq<string>)
  {
    if cs == [] then [] else AllNets(cs[..|cs| - 1]) + cs[|cs| - 1].nets
  }

  /** `has_ground`: an exact, case-sensitive "GND" among all nets. */
  predicate HasGround(c: Circuit) {
    "GND" in AllNets(c.components)
  }

  /** The dictionary `net_count` and its key order after counting the nets xs. */
  ghost predicate Tally(counts: map<string, nat>, order: seq<string>, xs: seq<string>) {
    && order == FirstSeen(xs)
    && (forall x :: x in counts <==> x in xs)
    && (forall x :: x in counts ==> counts[x] == Count(xs, x))
  }

  /** Counting one more net keeps the tally. */
  lemma TallySnoc(counts: map<string, nat>, order: seq<string>, xs: seq<string>, net: string)
    requires Tally(counts, order, xs)
    ensures net in counts ==> Tally(counts[net := counts[net] + 1], order, xs + [net])
    ensures net !in counts ==> Tally(counts[net := 1], order + [net], xs + [net])
  {
    FirstSeenSnoc(xs, net);
    forall x ensures Count(xs + [net], x) == Count(xs, x) + (if net == x then 1 else 0) {
      CountSnoc(xs, net, x);
    }
  }

  /**
   * `get_floating_nets`: count every net occurrence into a dictionary, then keep the nets
   * counted fewer than twice, in the dictionary's first-seen order.
   */
  method GetFloatingNets(components: seq<Component>) returns (floating: seq<string>)
    ensures floating == Floating(AllNets(components), FirstSeen(AllNets(components)))
  {
    var counts, order := CountNets(components);
    floating := KeepFloating(counts, order, AllNets(components));
  }

  /** The counting loop of `get_floating_nets`, component by component. */
  method CountNets(components: seq<Component>) returns (counts: map<string, nat>, order: seq<string>)
    ensures Tally(counts, order, AllNets(components))
  {
    counts := map[];
    order := [];
    var i := 0;
    while i < |components|
      invariant 0 <= i <= |components|
      invariant Tally(counts, order, AllNets(components[..i]))
    {
      assert components[..i + 1][..i] == components[..i];
      counts, order := CountInto(counts, order, AllNets(components[..i]), components[i].nets);
      i := i + 1;
    }
    assert components[..i] == components;
  }

  /** The inner counting loop: one component's nets after the nets seen so far. */
  method CountInto(counts0: map<string, nat>, order0: seq<string>, ghost seen: seq<string>, nets: seq<string>)
    returns (counts: map<string, nat>, order: seq<string>)
    requires Tally(counts0, order0, seen)
    ensures Tally(counts, order, seen + nets)
  {
    counts, order := counts0, order0;
    var j := 0;
    assert seen + nets[..0] == seen;
    while j < |nets|
      invariant 0 <= j <= |nets|
      invariant Tally(counts, order, seen + nets[..j])
    {
      var net := nets[j];
      assert seen + nets[..j + 1] == (seen + nets[..j]) + [net];
      TallySnoc(counts, order, seen + nets[..j], net);
      if net in counts {
        counts := counts[net := counts[net] + 1];
      } else {
        order := order + [net];
        counts := counts[net := 1];
      }
      j := j + 1;
    }
    assert nets[..j] == nets;
  }

  /** The filtering loop of `get_floating_nets`: the nets counted fewer than twice, in key order. */
  method KeepFloating(counts: map<string, nat>, order: seq<string>, ghost all: seq<string>)
    returns (floating: seq<string>)
    requires Tally(counts, order, all)
    ensures floating == Floating(all, order)
  {
    floating := [];
    var k := 0;
    while k < |order|
      invariant 0 <= k <= |order|
      invariant floating + Floating(all, order[k..]) == Floating(all, order)
    {
      TallyAt(counts, order, all, k);
      FloatingStep(all, order, k);
      ghost var rest := Floating(all, order[k + 1..]);
      if counts[order[k]] < 2 {
        SeqAssoc(floating, [order[k]], rest);
        floating := floating + [order[k]];
      } else {
        assert Floating(all, order[k..]) == rest;
      }
      k := k + 1;
    }
  }

  /** The tally holds the count of each key it lists. */
  lemma TallyAt(counts: map<string, nat>, order: seq<string>, all: seq<string>, k: nat)
    requires Tally(counts, order, all) && k < |order|
    ensures order[k] in counts && counts[order[k]] == Count(all, order[k])
  {
    assert order[k] in FirstSeen(all);
  }

  /** One step of the filter from key k: key k when it is counted fewer than twice, then the rest. */
  lemma FloatingStep(all: seq<string>, keys: seq<string>, k: nat)
    requires k < |keys|
    ensures Floating(all, keys[k..]) ==
              (if Count(all, keys[k]) < 2 then [keys[k]] else []) + Floating(all, keys[k + 1..])
  {
    assert keys[k..][1..] == keys[k + 1..];
  }

  lemma SeqAssoc(a: seq<string>, b: seq<string>, c: seq<string>)
    ensures (a + b) + c == a + (b + c)
  {
  }

  const NoGroundWarning := "WARNING: Circuit does not have a GND net"
  const FloatingPrefix := "WARNING: Floating nets detected: "

  /** What `validate_circuit_json` returns: the circuit with its warnings, or no circuit. */
  datatype Checked = Accepted(circuit: Circuit, warnings: seq<string>) | Rejected(errors: seq<FieldError>)

  /** The warnings of an accepted circuit: the ground test first, then the floating nets. */
  function Warnings(c: Circuit): (ws: seq<string>)
    ensures |ws| <= 2
    ensures NoGroundWarning in ws <==> !HasGround(c)
  {
    var all := AllNets(c.components);
    var floating := Floating(all, FirstSeen(all));
    assert (FloatingPrefix + Join(floating, ", "))[9] == 'F' != NoGroundWarning[9];
    (if HasGround(c) then [] else [NoGroundWarning])
    + (if floating == [] then [] else [FloatingPrefix + Join(floating, ", ")])
  }

  /** `validate_circuit_json` */
  function ValidateCircuitJson(raw: RawCircuit): (r: Checked)
    ensures r.Accepted? <==> ValidateCircuit(raw).Success?
    ensures r.Accepted? ==> CircuitShape(r.circuit) && r.warnings == Warnings(r.circuit)
    ensures r.Rejected? ==> r.errors != []
  {
    match ValidateCircuit(raw)
    case Success(c) => Accepted(c, Warnings(c))
    case Failure(es) => Rejected(es)
  }

  /** A component joined to one net twice is rejected, as the "Same Net Twice" case expects. */
  lemma SameNetTwiceRejected(raw: RawCircuit, k: nat)
    requires raw.components.Some? && k < |raw.components.value|
    requires raw.components.value[k].nets == Some(NetList(["IN", "IN"]))
    ensures ValidateCircuit(raw).Failure?
  {
    var raws := raw.components.value;
    ComponentRejections(raws[k]);
    assert ValidateComponent(raws[k]).Failure?;
  }

  /** An RC circuit without `cutoff_freq` is rejected. */
  lemma MissingCutoffRejected(raw: RawCircuit)
    requires raw.circuitType == Some("rc_lowpass") || raw.circuitType == Some("rc_highpass")
    requires raw.constraints.Some? && raw.constraints.value.cutoffFreq.None?
    ensures ValidateCircuit(raw).Failure?
  {
  }

  /** Two components with one id are rejected. */
  lemma DuplicateIdsRejected(raw: RawCircuit, i: nat, j: nat)
    requires raw.components.Some? && i < j < |raw.components.value|
    requires raw.components.value[i].id.Some? && raw.components.value[i].id == raw.components.value[j].id
    ensures ValidateCircuit(raw).Failure?
  {
  }

  /** A net is reported floating exactly when it occurs once among all nets. */
  lemma FloatingExactly(c: Circuit, net: string)
    ensures var all := AllNets(c.components);
            net in Floating(all, FirstSeen(all)) <==> Count(all, net) == 1
  {
    var all := AllNets(c.components);
    FloatingMembers(all, FirstSeen(all));
  }

  /** The floating warning names every floating net once, in first-seen order. */
  lemma FloatingDistinct(c: Circuit)
    ensures var all := AllNets(c.components); Distinct(Floating(all, FirstSeen(all)))
  {
    var all := AllNets(c.components);
    FirstSeenDistinct(all);
    FloatingSubsequence(all, FirstSeen(all));
  }

  lemma {:induction false} FloatingSubsequence(xs: seq<string>, keys: seq<string>)
    requires Distinct(keys)
    ensures Distinct(Floating(xs, keys))
  {
    if keys != [] {
      assert Distinct(keys[1..]);
      FloatingSubsequence(xs, keys[1..]);
      FloatingMembers(xs, keys[1..]);
    }
  }
}

=== FILE: offline_circuits.dfy ===
/**
 * The offline demo table `CACHED_CIRCUITS` and `get_cached_circuit`, which picks an entry
 * by an ordered chain of substring tests on the lower-cased request.
 */
module OfflineCircuits {
  import opened Wrappers
  import opened Strings

  /** One entry of the `components` list of a cached circuit. */
  datatype CachedPart = CachedPart(ref: string, value: string, kind: string)

  /** A cached circuit; its long `explanation` text is not reproduced. */
  datatype CachedCircuit = CachedCircuit(input: string, schematicPath: string, components: seq<CachedPart>)

  const DividerKey := "voltage_divider_9v_5v"
  const LowPassKey := "rc_lowpass_1khz"
  const LedKey := "led_current_limiter"

  const Divider := CachedCircuit(
    "Design a voltage divider that converts 9V to 5V",
    "/output/voltage_divider_9v_5v.kicad_sch",
    [CachedPart("R1", "3.9k", "resistor"), CachedPart("R2", "5.6k", "resistor")])

  const LowPass := CachedCircuit(
    "Low-pass RC filter with 1kHz cutoff frequency",
    "/output/rc_lowpass_1khz.kicad_sch",
    [CachedPart("R1", "1.6k", "resistor"), CachedPart("C1", "100n", "capacitor")])

  const Led := CachedCircuit(
    "LED current limiter for 5V supply with 20mA",
    "/output/led_current_limiter.kicad_sch",
    [CachedPart("R1", "150", "resistor"), CachedPart("D1", "LED", "led")])

  const CachedCircuits: map<string, CachedCircuit> :=
    map[DividerKey := Divider, LowPassKey := LowPass, LedKey := Led]

  /** The test that selects the divider: "voltage divider" and the digits 9 and 5 anywhere. */
  predicate AsksDivider(t: string) {
    Contains(t, "voltage divider") && Contains(t, "9") && Contains(t, "5")
  }

  /** The test that selects the low-pass filter: a low-pass word and a 1 kHz mention. */
  predicate AsksLowPass(t: string) {
    (Contains(t, "low-pass") || Contains(t, "lowpass")) && (Contains(t, "1khz") || Contains(t, "1000"))
  }

  /** The test that selects the LED current limiter. */
  predicate AsksLed(t: string) {
    Contains(t, "led") && Contains(t, "current")
  }

  /**
   * `get_cached_circuit(input_text)`: the first entry whose test the lower-cased text
   * passes, in the order divider, low-pass, LED; `None` when none passes.
   */
  function GetCachedCircuit(inputText: string): (r: Option<CachedCircuit>)
    ensures r == Some(Divider) <==> AsksDivider(Lower(inputText))
    ensures r == Some(LowPass) <==> !AsksDivider(Lower(inputText)) && AsksLowPass(Lower(inputText))
    ensures r == Some(Led) <==>
              !AsksDivider(Lower(inputText)) && !AsksLowPass(Lower(inputText)) && AsksLed(Lower(inputText))
    ensures r.None? <==>
              !AsksDivider(Lower(inputText)) && !AsksLowPass(Lower(inputText)) && !AsksLed(Lower(inputText))
    ensures r.Some? ==> r.value in CachedCircuits.Values
  {
    var t := Lower(inputText);
    assert CachedCircuits[DividerKey] == Divider && CachedCircuits[LowPassKey] == LowPass;
    assert CachedCircuits[LedKey] == Led;
    if AsksDivider(t) then Some(CachedCircuits[DividerKey])
    else if AsksLowPass(t) then Some(CachedCircuits[LowPassKey])
    else if AsksLed(t) then Some(CachedCircuits[LedKey])
    else None
  }

  /** Matching ignores case: upper-casing the request selects the same entry. */
  lemma MatchIgnoresCase(inputText: string)
    ensures GetCachedCircuit(Upper(inputText)) == GetCachedCircuit(inputText)
  {
    assert Lower(Upper(inputText)) == Lower(inputText);
  }

  /** The digits 9 and 5 may come from anywhere: a 15 V to 9 V divider gets the 9 V to 5 V entry. */
  lemma DividerDigitsAnywhere()
    ensures GetCachedCircuit("Voltage divider 15V to 9V") == Some(Divider)
  {
    var t := Lower("Voltage divider 15V to 9V");
    assert t == "voltage divider 15v to 9v";
    assert OccursAt(t, "voltage divider", 0);
    assert OccursAt(t, "5", 17);
    assert OccursAt(t, "9", 23);
  }
}

=== FILE: preferred.dfy ===
/**
 * Snapping a positive magnitude to a preferred-number series (the E12 and E24 series of
 * IEC 60063, or the calculator's capacitor list): the member nearest to the value divided
 * by its decade, times the decade, that is
 * `min(series, key=lambda x: abs(x - v / d)) * d` with `d = 10 ** floor(log10 v)`.
 */
module Preferred {
  import opened Decades

  function Abs(x: real): (r: real)
    ensures r >= 0.0 && (r == x || r == -x)
  {
    if x < 0.0 then -x else x
  }

  /**
   * Member k is at least as near `n` as every member, and strictly nearer than every
   * member before it: the FIRST index of minimal distance.
   */
  predicate IsNearest(series: seq<real>, n: real, k: nat) {
    && k < |series|
    && (forall j :: 0 <= j < |series| ==> Abs(series[k] - n) <= Abs(series[j] - n))
    && (forall j :: 0 <= j < k ==> Abs(series[j] - n) > Abs(series[k] - n))
  }

  /** `min(series, key=lambda x: abs(x - n))`, as an index; `NearestSpec` states what it finds. */
  function NearestIndex(series: seq<real>, n: real): (k: nat)
    requires |series| > 0
    ensures k < |series|
  {
    NearestFrom(series, n, 0, 1)
  }

  /** The scan of `min`: `best` is the candidate so far, `i` the next member to compare. */
  function NearestFrom(series: seq<real>, n: real, best: nat, i: nat): (k: nat)
    requires best < i <= |series|
    ensures best <= k < |series|
    decreases |series| - i
  {
    if i == |series| then best
    else if Abs(series[i] - n) < Abs(series[best] - n) then NearestFrom(series, n, i, i + 1)
    else NearestFrom(series, n, best, i + 1)
  }

  /** The scan keeps the first nearest member of the prefix it has seen. */
  lemma {:induction false} NearestFromSpec(series: seq<real>, n: real, best: nat, i: nat)
    requires best < i <= |series|
    requires forall j :: 0 <= j < i ==> Abs(series[best] - n) <= Abs(series[j] - n)
    requires forall j :: 0 <= j < best ==> Abs(series[j] - n) > Abs(series[best] - n)
    ensures IsNearest(series, n, NearestFrom(series, n, best, i))
    decreases |series| - i
  {
    if i < |series| {
      if Abs(series[i] - n) < Abs(series[best] - n) {
        NearestFromSpec(series, n, i, i + 1);
      } else {
        NearestFromSpec(series, n, best, i + 1);
      }
    }
  }

  /**
   * Python's `min` replaces its candidate only on a strictly smaller key, so it returns the
   * first member of minimal distance.
   */
  lemma NearestSpec(series: seq<real>, n: real)
    requires |series| > 0
    ensures IsNearest(series, n, NearestIndex(series, n))
  {
    NearestFromSpec(series, n, 0, 1);
  }

  /** The first nearest member is unique, so it is the one chosen. */
  lemma NearestIsFirstMinimal(series: seq<real>, n: real, k: nat)
    requires IsNearest(series, n, k)
    ensures NearestIndex(series, n) == k
  {
    NearestSpec(series, n);
  }

  /** No member after index m is as near `n` as member m: the choice is at or before m. */
  lemma NearestBound(series: seq<real>, n: real, m: nat)
    requires m < |series|
    requires forall j :: m < j < |series| ==> Abs(series[m] - n) < Abs(series[j] - n)
    ensures NearestIndex(series, n) <= m
  {
    NearestSpec(series, n);
  }

  /** The nearest member to the normalised value, scaled back by the decade. */
  function Snap(series: seq<real>, v: real): real
    requires |series| > 0 && v > 0.0
  {
    Shift(series[NearestIndex(series, Normalised(v))], DecadeExp(v))
  }

  /** Every member lies in [1, 10) and the members strictly increase. */
  predicate DecadeSeries(series: seq<real>) {
    && (forall i :: 0 <= i < |series| ==> 1.0 <= series[i] < 10.0)
    && (forall i, j :: 0 <= i < j < |series| ==> series[i] < series[j])
  }

  /** Each member below the next one is enough for the members to strictly increase. */
  lemma {:induction false} IncreasingFromAdjacent(series: seq<real>)
    requires forall i :: 0 < i < |series| ==> series[i - 1] < series[i]
    ensures forall i, j :: 0 <= i < j < |series| ==> series[i] < series[j]
  {
    if |series| > 1 {
      var rest := series[1..];
      assert forall i :: 0 < i < |rest| ==> rest[i - 1] == series[i] && rest[i] == series[i + 1];
      IncreasingFromAdjacent(rest);
      forall i, j | 0 <= i < j < |series| ensures series[i] < series[j] {
        if i > 0 {
          assert series[i] == rest[i - 1] && series[j] == rest[j - 1];
        } else if j > 1 {
          assert series[1] == rest[0] && series[j] == rest[j - 1];
        }
      }
    }
  }

  /** An increasing list from at least 1 to below 10 is a decade series. */
  lemma DecadeFromEnds(series: seq<real>)
    requires |series| > 0 && 1.0 <= series[0] && series[|series| - 1] < 10.0
    requires forall i :: 0 < i < |series| ==> series[i - 1] < series[i]
    ensures DecadeSeries(series)
  {
    IncreasingFromAdjacent(series);
    forall i | 0 <= i < |series| ensures 1.0 <= series[i] < 10.0 {
      if i > 0 { assert series[0] < series[i]; }
      if i < |series| - 1 { assert series[i] < series[|series| - 1]; }
    }
  }

  /** A snapped value is the member nearest to `value / decade`, times the decade. */
  lemma SnapIsNearest(series: seq<real>, v: real)
    requires |series| > 0 && v > 0.0
    ensures Snap(series, v) == series[NearestIndex(series, v / Decade(v))] * Decade(v)
  {
    NormalisedIsQuotient(v);
    ShiftScale(series[NearestIndex(series, Normalised(v))], DecadeExp(v));
  }

  lemma MemberBetween(series: seq<real>, k: nat)
    requires k < |series| && DecadeSeries(series)
    ensures series[0] <= series[k] <= series[|series| - 1]
  {
    if k > 0 {
      assert series[0] < series[k];
    }
    if k < |series| - 1 {
      assert series[k] < series[|series| - 1];
    }
  }

  /** A snapped value lies between the first and the last member, shifted by the decade. */
  lemma SnapRange(series: seq<real>, v: real)
    requires |series| > 0 && v > 0.0 && DecadeSeries(series)
    ensures Shift(series[0], DecadeExp(v)) <= Snap(series, v) <= Shift(series[|series| - 1], DecadeExp(v))
  {
    var k := NearestIndex(series, Normalised(v));
    MemberBetween(series, k);
    ShiftMonotoneWeak(series[0], series[k], DecadeExp(v));
    ShiftMonotoneWeak(series[k], series[|series| - 1], DecadeExp(v));
  }

  lemma MemberNearestItself(series: seq<real>, k: nat)
    requires DecadeSeries(series) && k < |series|
    ensures NearestIndex(series, series[k]) == k
  {
    forall j | 0 <= j < |series| && j != k
      ensures Abs(series[j] - series[k]) > 0.0
    {
      if j < k {
        assert series[j] < series[k];
      } else {
        assert series[k] < series[j];
      }
    }
    NearestIsFirstMinimal(series, series[k], k);
  }


  /** Snapping a shifted member of a decade series gives it back. */
  lemma SnapMember(series: seq<real>, k: nat, e: int)
    requires DecadeSeries(series) && k < |series|
    ensures Shift(series[k], e) > 0.0 && Snap(series, Shift(series[k], e)) == Shift(series[k], e)
  {
    ShiftedMember(series[k], e);
    MemberNearestItself(series, k);
  }

  /** Snapping to a decade series is idempotent. */
  lemma SnapIdempotent(series: seq<real>, v: real)
    requires |series| > 0 && v > 0.0 && DecadeSeries(series)
    ensures Snap(series, v) > 0.0 && Snap(series, Snap(series, v)) == Snap(series, v)
  {
    var k := NearestIndex(series, Normalised(v));
    SnapMember(series, k, DecadeExp(v));
  }

  /** A snap whose chosen member lies in [lo, hi] lies in that range shifted by the decade. */
  lemma SnapWithin(series: seq<real>, v: real, lo: real, hi: real)
    requires |series| > 0 && v > 0.0
    requires lo <= series[NearestIndex(series, Normalised(v))] <= hi
    ensures Shift(lo, DecadeExp(v)) <= Snap(series, v) <= Shift(hi, DecadeExp(v))
  {
    var k := NearestIndex(series, Normalised(v));
    ShiftMonotoneWeak(lo, series[k], DecadeExp(v));
    ShiftMonotoneWeak(series[k], hi, DecadeExp(v));
  }

  /** When a prefix already holds an exact match, members after the prefix do not win. */
  lemma NearestPrefix(series: seq<real>, m: nat, n: real)
    requires 0 < m <= |series|
    requires Abs(series[..m][NearestIndex(series[..m], n)] - n) == 0.0
    ensures NearestIndex(series, n) == NearestIndex(series[..m], n)
  {
    var low := series[..m];
    var k := NearestIndex(low, n);
    NearestSpec(low, n);
    assert series[k] == low[k];
    forall j | 0 <= j < k ensures Abs(series[j] - n) > Abs(series[k] - n) {
      assert series[j] == low[j];
    }
    NearestIsFirstMinimal(series, n, k);
  }

  /**
   * A series whose first m members form a decade series: a shifted member of that prefix
   * re-snaps to itself, even when later members lie outside [1, 10).
   */
  lemma SnapPrefixMember(series: seq<real>, m: nat, k: nat, e: int)
    requires k < m <= |series| && DecadeSeries(series[..m])
    ensures Shift(series[k], e) > 0.0 && Snap(series, Shift(series[k], e)) == Shift(series[k], e)
  {
    var low := series[..m];
    assert low[k] == series[k];
    ShiftedMember(series[k], e);
    MemberNearestItself(low, k);
    NearestPrefix(series, m, low[k]);
  }

  /** x is a member of the series times a power of ten. */
  ghost predicate OnSeries(series: seq<real>, x: real) {
    exists k, e :: 0 <= k < |series| && x == Shift(series[k], e)
  }

  /** Every snapped value is on the series. */
  lemma SnapOnSeries(series: seq<real>, v: real)
    requires |series| > 0 && v > 0.0
    ensures OnSeries(series, Snap(series, v))
  {
    var k := NearestIndex(series, Normalised(v));
    assert Snap(series, v) == Shift(series[k], DecadeExp(v));
  }

  /** The values a decade series snaps to themselves are exactly the values on the series. */
  lemma SnapFixedPoints(series: seq<real>, x: real)
    requires |series| > 0 && x > 0.0 && DecadeSeries(series)
    ensures Snap(series, x) == x <==> OnSeries(series, x)
  {
    if OnSeries(series, x) {
      var k, e :| 0 <= k < |series| && x == Shift(series[k], e);
      SnapMember(series, k, e);
    } else {
      SnapOnSeries(series, x);
    }
  }
}

=== FILE: pyfloat.dfy ===
/**
 * Python's `float(text)` for decimal literals, and powers of ten over `real`.
 * Magnitudes are exact rationals here: the binary rounding of IEEE doubles is not modelled.
 */
module PyFloat {
  import opened Strings
  import opened Wrappers

  /** 10 to the power k, for any integer k. */
  function Pow10(k: int): (r: real)
    ensures r > 0.0
    decreases if k < 0 then -k else k
  {
    if k == 0 then 1.0 else if k > 0 then 10.0 * Pow10(k - 1) else Pow10(k + 1) / 10.0
  }

  lemma Pow10Succ(k: int)
    ensures Pow10(k + 1) == 10.0 * Pow10(k)
  {
  }

  lemma {:induction false} Pow10Monotone(j: int, k: int)
    requires j < k
    ensures Pow10(j) < Pow10(k)
    decreases k - j
  {
    Pow10Succ(k - 1);
    if j < k - 1 {
      Pow10Monotone(j, k - 1);
    }
  }

  /** End of the run of ASCII digits that starts at index i. */
  function DigitRun(s: string, i: nat): (j: nat)
    requires i <= |s|
    ensures i <= j <= |s|
    ensures forall k :: i <= k < j ==> IsDigit(s[k])
    ensures j == |s| || !IsDigit(s[j])
    decreases |s| - i
  {
    if i < |s| && IsDigit(s[i]) then DigitRun(s, i + 1) else i
  }

  predicate AllDigits(s: string) {
    forall i :: 0 <= i < |s| ==> IsDigit(s[i])
  }

  /** The integer a run of decimal digits denotes. */
  function DigitsValue(d: string): (n: nat)
    requires AllDigits(d)
  {
    if d == [] then 0 else 10 * DigitsValue(d[..|d| - 1]) + (d[|d| - 1] as int - '0' as int)
  }

  /** A run of digits denotes zero exactly when every digit is '0'. */
  lemma {:induction false} DigitsValueZero(d: string)
    requires AllDigits(d)
    ensures DigitsValue(d) == 0 <==> forall i :: 0 <= i < |d| ==> d[i] == '0'
  {
    if d != [] {
      DigitsValueZero(d[..|d| - 1]);
      assert forall i :: 0 <= i < |d| - 1 ==> d[..|d| - 1][i] == d[i];
    }
  }

  /** The exponent part of a float literal: empty, or e/E, an optional sign and digits. */
  function ParseExponent(s: string): Option<int>
  {
    if s == [] then Some(0)
    else if s[0] != 'e' && s[0] != 'E' then None
    else
      var t := s[1..];
      var neg := t != [] && t[0] == '-';
      var u := if t != [] && (t[0] == '-' || t[0] == '+') then t[1..] else t;
      if u == [] || !AllDigits(u) then None
      else Some(if neg then -(DigitsValue(u) as int) else DigitsValue(u))
  }

  /** A float literal split into its parts. */
  datatype Literal = Literal(negative: bool, intDigits: string, fracDigits: string, exponent: int)

  /** Digits, an optional '.' and digits, and an optional exponent: the unsigned literal. */
  function ScanUnsigned(u: string, negative: bool): (r: Option<Literal>)
    ensures r.Some? ==> AllDigits(r.value.intDigits) && AllDigits(r.value.fracDigits)
    ensures r.Some? ==> r.value.intDigits != [] || r.value.fracDigits != []
  {
    var i := DigitRun(u, 0);
    var hasDot := i < |u| && u[i] == '.';
    var j := if hasDot then DigitRun(u, i + 1) else i;
    var intDigits := u[..i];
    var fracDigits := if hasDot then u[i + 1..j] else "";
    if intDigits == [] && fracDigits == [] then None
    else
      match ParseExponent(u[j..])
      case None => None
      case Some(e) => Some(Literal(negative, intDigits, fracDigits, e))
  }

  /** The literal with surrounding whitespace removed and an optional sign read off. */
  function ScanLiteral(s: string): Option<Literal>
  {
    var t := Strip(s);
    if t != [] && (t[0] == '-' || t[0] == '+') then ScanUnsigned(t[1..], t[0] == '-')
    else ScanUnsigned(t, false)
  }

  function LiteralValue(l: Literal): real
    requires AllDigits(l.intDigits) && AllDigits(l.fracDigits)
  {
    var m := DigitsValue(l.intDigits) as real + DigitsValue(l.fracDigits) as real / Pow10(|l.fracDigits|);
    (if l.negative then -m else m) * Pow10(l.exponent)
  }

  /**
   * `float(s)` on decimal literals: surrounding whitespace, a sign, ASCII digits with at most
   * one '.', at least one digit, an optional exponent. Everything else is None, including the
   * spellings "inf", "infinity" and "nan", underscores between digits and non-ASCII digits,
   * which Python's `float` reads.
   */
  function ParseFloat(s: string): Option<real>
  {
    match ScanLiteral(s)
    case None => None
    case Some(l) => Some(LiteralValue(l))
  }

  /** `float(s)` on the literals `ParseFloat` reads; ValueError for every other text. */
  function FloatOrError(s: string): Result<real, PyError> {
    match ParseFloat(s)
    case None => Failure(ValueError("could not convert string to float"))
    case Some(x) => Success(x)
  }

  /** Only digits and dots, as the validators and the explainer pass to `float`. */
  predicate DigitsAndDots(s: string) {
    forall i :: 0 <= i < |s| ==> IsDigit(s[i]) || s[i] == '.'
  }

  predicate HasDigit(s: string) {
    exists i | 0 <= i < |s| :: IsDigit(s[i])
  }

  /** Every digit of `s` is '0'. */
  predicate ZeroDigits(s: string) {
    forall i :: 0 <= i < |s| && IsDigit(s[i]) ==> s[i] == '0'
  }

  /**
   * A text of digits and dots parses exactly when it has at most one dot and at least one
   * digit; its value is never negative, and it is zero exactly when every digit is '0'.
   */
  lemma DigitsAndDotsParse(s: string)
    requires DigitsAndDots(s)
    ensures ParseFloat(s).Some? <==> CountChar(s, '.') <= 1 && HasDigit(s)
    ensures ParseFloat(s).Some? ==> ParseFloat(s).value >= 0.0
    ensures ParseFloat(s).Some? ==> (ParseFloat(s).value == 0.0 <==> ZeroDigits(s))
  {
    DigitsAndDotsUnsigned(s);
    DigitsAndDotsScan(s);
    var r := ScanUnsigned(s, false);
    assert ParseFloat(s).Some? <==> r.Some?;
    if r.Some? {
      var l := r.value;
      assert ParseFloat(s).value == LiteralValue(l);
      DigitsValueZero(l.intDigits);
      DigitsValueZero(l.fracDigits);
      UnsignedValue(l);
      assert ZeroDigits(l.intDigits) <==> DigitsValue(l.intDigits) == 0;
      assert ZeroDigits(l.fracDigits) <==> DigitsValue(l.fracDigits) == 0;
    }
  }

  /** A run of decimal digits alone is read as the integer it denotes. */
  lemma DigitsParse(d: string)
    requires d != [] && AllDigits(d)
    ensures FloatOrError(d) == Success(DigitsValue(d) as real)
  {
    assert DigitsAndDots(d);
    DigitsAndDotsUnsigned(d);
    DigitsScan(d);
    var l := Literal(false, d, "", 0);
    assert DigitsValue("") == 0;
    assert LiteralValue(l) == DigitsValue(d) as real by {
      assert Pow10(0) == 1.0;
    }
  }

  /** A run of digits scans as an integer part with no fraction and no exponent. */
  lemma DigitsScan(d: string)
    requires d != [] && AllDigits(d)
    ensures ScanUnsigned(d, false) == Some(Literal(false, d, "", 0))
  {
    var i := DigitRun(d, 0);
    assert i == |d|;
    assert d[..i] == d && d[i..] == [];
  }

  /** An unsigned literal with no exponent is non-negative, and zero only with zero digits. */
  lemma UnsignedValue(l: Literal)
    requires AllDigits(l.intDigits) && AllDigits(l.fracDigits)
    requires !l.negative && l.exponent == 0
    ensures LiteralValue(l) >= 0.0
    ensures LiteralValue(l) == 0.0 <==> DigitsValue(l.intDigits) == 0 && DigitsValue(l.fracDigits) == 0
  {
    var a := DigitsValue(l.intDigits) as real;
    var b := DigitsValue(l.fracDigits) as real;
    var p := Pow10(|l.fracDigits|);
    assert Pow10(0) == 1.0;
    assert LiteralValue(l) == a + b / p;
    QuotientSign(b, p);
  }

  /** A non-negative number over a positive one is non-negative, and zero only when the number is. */
  lemma QuotientSign(b: real, p: real)
    requires b >= 0.0 && p > 0.0
    ensures b / p >= 0.0
    ensures b / p == 0.0 <==> b == 0.0
  {
    assert b / p * p == b;
  }

  /** A digits-and-dots text has no surrounding space and no sign. */
  lemma DigitsAndDotsUnsigned(s: string)
    requires DigitsAndDots(s)
    ensures ScanLiteral(s) == ScanUnsigned(s, false)
  {
    if s != [] {
      assert !IsSpace(s[0]) && !IsSpace(s[|s| - 1]);
      StripNoEdgeSpace(s);
    }
  }

  /** How `ScanUnsigned` reads a digits-and-dots text. */
  lemma DigitsAndDotsScan(s: string)
    requires DigitsAndDots(s)
    ensures ScanUnsigned(s, false).Some? <==> CountChar(s, '.') <= 1 && HasDigit(s)
    ensures ScanUnsigned(s, false).Some? ==>
      var l := ScanUnsigned(s, false).value;
      l.exponent == 0 && (ZeroDigits(s) <==> ZeroDigits(l.intDigits) && ZeroDigits(l.fracDigits))
  {
    var i := DigitRun(s, 0);
    ScanCases(s);
    DotCount(s);
    if i == |s| {
      assert HasDigit(s) <==> i > 0 by {
        if i > 0 { assert IsDigit(s[0]); }
      }
    } else if DigitRun(s, i + 1) == |s| {
      assert HasDigit(s) <==> |s| > 1 by {
        if HasDigit(s) {
          var k :| 0 <= k < |s| && IsDigit(s[k]);
          assert k != i;
        }
        if |s| > 1 {
          if i > 0 { assert IsDigit(s[0]); } else { assert IsDigit(s[1]); }
        }
      }
      ZeroDigitsFraction(s, i);
    }
  }

  /** Digits only: an integer literal, or nothing for the empty text. */
  lemma ScanNoDot(s: string)
    requires DigitsAndDots(s) && DigitRun(s, 0) == |s|
    ensures ScanUnsigned(s, false) == if s == [] then None else Some(Literal(false, s, "", 0))
  {
    assert s[..|s|] == s;
    assert ParseExponent(s[|s|..]) == Some(0);
  }

  /** Digits, one dot, digits: a literal with a fraction, or nothing for the lone dot. */
  lemma ScanOneDot(s: string, i: nat)
    requires DigitsAndDots(s) && i == DigitRun(s, 0) < |s| && DigitRun(s, i + 1) == |s|
    ensures ScanUnsigned(s, false) == if |s| == 1 then None else Some(Literal(false, s[..i], s[i + 1..], 0))
  {
    assert ParseExponent(s[|s|..]) == Some(0);
    assert s[i + 1..|s|] == s[i + 1..];
  }

  /** A second dot: no literal. */
  lemma ScanTwoDots(s: string, i: nat)
    requires DigitsAndDots(s) && i == DigitRun(s, 0) < |s| && DigitRun(s, i + 1) < |s|
    ensures s[DigitRun(s, i + 1)] == '.' && ScanUnsigned(s, false) == None
  {
    var j := DigitRun(s, i + 1);
    assert s[j] == '.';
    assert s[j..][0] == '.';
  }

  /** The three shapes a digits-and-dots text can have: no dot, one dot, more. */
  lemma ScanCases(s: string)
    requires DigitsAndDots(s)
    ensures var i := DigitRun(s, 0);
      && (i == |s| ==> ScanUnsigned(s, false) == if i == 0 then None else Some(Literal(false, s, "", 0)))
      && (i < |s| ==> s[i] == '.')
      && (i < |s| && DigitRun(s, i + 1) == |s| ==>
           ScanUnsigned(s, false) == if |s| == 1 then None else Some(Literal(false, s[..i], s[i + 1..], 0)))
      && (i < |s| && DigitRun(s, i + 1) < |s| ==> s[DigitRun(s, i + 1)] == '.' && ScanUnsigned(s, false) == None)
  {
    var i := DigitRun(s, 0);
    if i == |s| {
      ScanNoDot(s);
    } else if DigitRun(s, i + 1) == |s| {
      ScanOneDot(s, i);
    } else {
      ScanTwoDots(s, i);
    }
  }

  /** Dots in the three shapes. */
  lemma DotCount(s: string)
    requires DigitsAndDots(s)
    ensures var i := DigitRun(s, 0);
      && (i == |s| ==> CountChar(s, '.') == 0)
      && (i < |s| && DigitRun(s, i + 1) == |s| ==> CountChar(s, '.') == 1)
      && (i < |s| && DigitRun(s, i + 1) < |s| ==> CountChar(s, '.') >= 2)
  {
    var i := DigitRun(s, 0);
    CountCharRange(s, 0, i);
    CountCharAt(s, 0, i);
    if i < |s| {
      var j := DigitRun(s, i + 1);
      CountCharRange(s, i + 1, j);
      CountCharAt(s, i + 1, j);
      assert CountChar(s[i..], '.') == 1 + CountChar(s[i + 1..], '.') by {
        assert s[i..][0] == '.';
        assert s[i..][1..] == s[i + 1..];
      }
      if j < |s| {
        assert CountChar(s[j..], '.') >= 1 by {
          assert s[j..][0] == '.';
        }
      }
    }
  }

  /** Splitting `s[i..]` at `j`. */
  lemma CountCharAt(s: string, i: nat, j: nat)
    requires i <= j <= |s|
    ensures CountChar(s[i..], '.') == CountChar(s[i..j], '.') + CountChar(s[j..], '.')
  {
    assert s[i..] == s[i..j] + s[j..];
    CountCharConcat(s[i..j], s[j..], '.');
  }

  /** A text split at a dot has only zero digits when both sides do. */
  lemma ZeroDigitsFraction(s: string, i: nat)
    requires i < |s| && s[i] == '.'
    ensures ZeroDigits(s) <==> ZeroDigits(s[..i]) && ZeroDigits(s[i + 1..])
  {
    if ZeroDigits(s[..i]) && ZeroDigits(s[i + 1..]) {
      forall k | 0 <= k < |s| && IsDigit(s[k]) ensures s[k] == '0' {
        if k < i {
          assert s[..i][k] == s[k];
        } else {
          assert s[i + 1..][k - i - 1] == s[k];
        }
      }
    }
    if ZeroDigits(s) {
      assert forall k :: 0 <= k < i ==> s[..i][k] == s[k];
      var t := s[i + 1..];
      forall k | 0 <= k < |t| && IsDigit(t[k]) ensures t[k] == '0' {
        assert t[k] == s[k + i + 1];
      }
    }
  }

  /** A stretch of digits holds no dot. */
  lemma {:induction false} CountCharRange(s: string, i: nat, j: nat)
    requires i <= j <= |s|
    requires forall k :: i <= k < j ==> IsDigit(s[k])
    ensures CountChar(s[i..j], '.') == 0
    decreases j - i
  {
    if i < j {
      assert s[i..j][1..] == s[i + 1..j];
      CountCharRange(s, i + 1, j);
    }
  }

  /**
   * A number as an f-string prints it, `f"{x:.{places}f}{suffix}"` (Fixed),
   * `f"{x:.{places}e}{suffix}"` (Sci) or `f"{x}{suffix}"` (Shortest, Python's shortest
   * round-tripping repr). Which digits are printed is not modelled.
   */
  datatype Rendered =
    | Fixed(x: real, places: nat, suffix: string)
    | Sci(x: real, places: nat, suffix: string)
    | Shortest(x: real, suffix: string)

  /**
   * What such a format prints for the number itself: not empty, no leading whitespace,
   * a digit last (`12.3`, `-0.5`, `1.00e-13`).
   */
  predicate PrintedNumber(d: string) {
    d != [] && !IsSpace(d[0]) && IsDigit(d[|d| - 1])
  }
}

=== FILE: qa_responses.dfy ===
/**
 * The question-and-answer store `QA_DATABASE`, its lookup `get_qa_response` and its
 * keyword search `search_qa`. The store is a parameter of each operation: a dictionary in
 * insertion order, modelled as a sequence of (key, entry) pairs. The entries of
 * `QA_DATABASE` itself are not reproduced.
 */
module QaResponses {
  import opened Wrappers
  import opened Strings

  datatype QaEntry = QaEntry(question: string, answer: string, durationSeconds: int, strategy: string)

  /** A dictionary in insertion order. */
  type QaDatabase = seq<(string, QaEntry)>

  /** A dictionary never holds a key twice. */
  predicate DistinctKeys(db: QaDatabase) {
    forall i, j :: 0 <= i < j < |db| ==> db[i].0 != db[j].0
  }

  /** What `get_qa_response` returns: a stored entry, or the fallback with two fields only. */
  datatype QaResponse =
    | Stored(entry: QaEntry)
    | Fallback(answer: string, strategy: string)

  const FallbackAnswer := "That's a great question. Let me think about that..."
  const FallbackStrategy := "Buy time, then bridge to known strengths"

  /** Position of the key in the dictionary, scanning from index i. */
  function KeyIndexFrom(db: QaDatabase, key: string, i: nat): (k: Option<nat>)
    requires i <= |db|
    ensures k.Some? ==> i <= k.value < |db| && db[k.value].0 == key
    ensures k.None? ==> forall j :: i <= j < |db| ==> db[j].0 != key
    decreases |db| - i
  {
    if i == |db| then None
    else if db[i].0 == key then Some(i)
    else KeyIndexFrom(db, key, i + 1)
  }

  /** `QA_DATABASE.get(question_key, default)` */
  function GetQaResponse(db: QaDatabase, questionKey: string): (r: QaResponse)
    ensures r.Stored? <==> exists k :: 0 <= k < |db| && db[k].0 == questionKey
    ensures r.Stored? ==> exists k :: 0 <= k < |db| && db[k] == (questionKey, r.entry)
    ensures r.Stored? && DistinctKeys(db) ==>
              forall k :: 0 <= k < |db| && db[k].0 == questionKey ==> db[k].1 == r.entry
    ensures r.Fallback? ==> r == Fallback(FallbackAnswer, FallbackStrategy)
  {
    var k := KeyIndexFrom(db, questionKey, 0);
    if k.Some? then
      assert db[k.value] == (questionKey, db[k.value].1);
      Stored(db[k.value].1)
    else Fallback(FallbackAnswer, FallbackStrategy)
  }

  /** One search result: the entry's key, question and answer. */
  datatype QaHit = QaHit(key: string, question: string, answer: string)

  function HitOf(item: (string, QaEntry)): QaHit {
    QaHit(item.0, item.1.question, item.1.answer)
  }

  /** The lower-cased keyword occurs in the lower-cased question or answer. */
  predicate Matches(entry: QaEntry, keyword: string) {
    Contains(Lower(entry.question), Lower(keyword)) || Contains(Lower(entry.answer), Lower(keyword))
  }

  /** The entries a search returns, in dictionary order. */
  function Hits(db: QaDatabase, keyword: string): (hs: seq<QaHit>)
    ensures |hs| <= |db|
  {
    if db == [] then []
    else
      var last := db[|db| - 1];
      Hits(db[..|db| - 1], keyword) + (if Matches(last.1, keyword) then [HitOf(last)] else [])
  }

  /** `search_qa(keyword)`: the loop appends one result per matching entry. */
  method SearchQa(db: QaDatabase, keyword: string) returns (results: seq<QaHit>)
    ensures results == Hits(db, keyword)
  {
    results := [];
    var keywordLower := Lower(keyword);
    var i := 0;
    while i < |db|
      invariant 0 <= i <= |db|
      invariant results == Hits(db[..i], keyword)
    {
      var data := db[i].1;
      assert db[..i + 1][..i] == db[..i];
      if Contains(Lower(data.question), keywordLower) || Contains(Lower(data.answer), keywordLower) {
        results := results + [QaHit(db[i].0, data.question, data.answer)];
      }
      i := i + 1;
    }
    assert db[..i] == db;
  }

  /** Searching a concatenation searches each part, in order. */
  lemma {:induction false} HitsConcat(a: QaDatabase, b: QaDatabase, keyword: string)
    ensures Hits(a + b, keyword) == Hits(a, keyword) + Hits(b, keyword)
    decreases |b|
  {
    if b == [] {
      assert a + b == a;
    } else {
      var b0 := b[..|b| - 1];
      assert (a + b)[..|a + b| - 1] == a + b0;
      assert (a + b)[|a + b| - 1] == b[|b| - 1];
      HitsConcat(a, b0, keyword);
    }
  }

  /** Exactly the matching entries are found. */
  lemma {:induction false} HitsExactly(db: QaDatabase, keyword: string, h: QaHit)
    ensures h in Hits(db, keyword) <==>
              exists k :: 0 <= k < |db| && Matches(db[k].1, keyword) && h == HitOf(db[k])
  {
    if db != [] {
      var front := db[..|db| - 1];
      HitsExactly(front, keyword, h);
      assert forall k :: 0 <= k < |front| ==> front[k] == db[k];
      if exists k :: 0 <= k < |db| && Matches(db[k].1, keyword) && h == HitOf(db[k]) {
        var k :| 0 <= k < |db| && Matches(db[k].1, keyword) && h == HitOf(db[k]);
        if k < |front| {
          assert Matches(front[k].1, keyword) && h == HitOf(front[k]);
        }
      }
    }
  }

  /** Every text contains the empty string, so an empty keyword finds every entry, in order. */
  lemma {:induction false} EmptyKeywordFindsAll(db: QaDatabase)
    ensures Hits(db, "") == seq(|db|, k requires 0 <= k < |db| => HitOf(db[k]))
  {
    if db != [] {
      var front := db[..|db| - 1];
      EmptyKeywordFindsAll(front);
      assert OccursAt(Lower(db[|db| - 1].1.question), Lower(""), 0);
    }
  }
}

=== FILE: round_trip.dfy ===
/**
 * Reading the DSL back: the SKiDL generator's parser recovers what the DSL generator wrote.
 * A `COMP:` line gives back the component's id, type, value (None when the line has no
 * `value=`) and nets; a `CONSTRAINT:` line gives back its key and value. Both need texts
 * the line format can carry: no ':' (a `COMP:` or `CONSTRAINT:` inside a field would be
 * removed too), no '=' (it would end the key or open another `value=` or `nets=`), tokens
 * without whitespace, and net names with no ',' or parentheses and no blank at either end.
 */
module RoundTrip {
  import opened Wrappers
  import opened Strings
  import opened CircuitJson
  import opened DslGenerator
  import opened SkidlGenerator

  /** Neither ':' nor '='. */
  predicate Unmarked(s: string) { ':' !in s && '=' !in s }

  /** A net name the `nets=(...)` list carries: single blanks inside it at most. */
  predicate NetName(n: string) {
    && Spaced(n) && NoTrailingSpace(n) && Unmarked(n)
    && ',' !in n && '(' !in n && ')' !in n
  }

  /** An id or type: one token without ':'. */
  predicate Token(s: string) { IsWord(s) && ':' !in s }

  /** A component whose `COMP:` line parses back to it. */
  predicate Parses(c: CompJson) {
    && Token(c.id.GetOr("UNKNOWN")) && Token(c.kind.GetOr("UNKNOWN"))
    && (Given(c.value) ==> IsWord(c.value.value) && Unmarked(c.value.value))
    && NetsOf(c) != []
    && forall k :: 0 <= k < |NetsOf(c)| ==> NetName(NetsOf(c)[k])
  }

  /** What the parser should give back for a component. */
  function Recovered(c: CompJson): ParsedComp {
    ParsedComp(c.id.GetOr("UNKNOWN"), c.kind.GetOr("UNKNOWN"), if Given(c.value) then c.value else None, NetsOf(c))
  }

  /** The `COMP:` line after id and type: the `value=` token, if any, then `nets=(...)`. */
  function Rest(c: CompJson): string {
    (if Given(c.value) then "value=" + c.value.value + " " else "") + "nets=" + NetsText(c)
  }

  /** The `COMP:` line without its `COMP: ` lead. */
  function Body(c: CompJson): string {
    c.id.GetOr("UNKNOWN") + (" " + (c.kind.GetOr("UNKNOWN") + (" " + Rest(c))))
  }

  // ---------------------------------------------------------------------------------------
  // The pieces of a COMP line

  lemma NetListFacts(c: CompJson)
    requires Parses(c)
    ensures var j := Join(NetsOf(c), ", ");
      && ':' !in j && '=' !in j && '(' !in j && ')' !in j && Spaced(j)
  {
    var nets := NetsOf(c);
    JoinAvoids(nets, ", ", ':');
    JoinAvoids(nets, ", ", '=');
    JoinAvoids(nets, ", ", '(');
    JoinAvoids(nets, ", ", ')');
    assert Spaced(", ");
    JoinSpaced(nets, ", ");
  }

  lemma NetsTextFacts(c: CompJson)
    requires Parses(c)
    ensures var t := NetsText(c);
      && ':' !in t && '=' !in t && Spaced(t) && NoTrailingSpace(t) && t != [] && t[0] == '('
  {
    var j := Join(NetsOf(c), ", ");
    NetListFacts(c);
    SpacedConcat("(", j);
    SpacedConcat("(" + j, ")");
  }

  /** The `value=` token is one word, so it is spaced. */
  lemma ValueToken(v: string)
    requires IsWord(v)
    ensures IsWord("value=" + v) && Spaced("value=" + v)
  {
    var w := "value=" + v;
    assert forall k :: 0 <= k < |w| ==> w[k] == if k < 6 then "value="[k] else v[k - 6];
  }

  lemma RestSpacedGiven(v: string, t: string)
    requires IsWord(v) && Spaced(t)
    ensures Spaced("value=" + v + " " + "nets=" + t)
  {
    ValueToken(v);
    SpacedBlank("value=" + v);
    KeySpaced();
    SpacedConcat("value=" + v + " ", "nets=");
    SpacedConcat("value=" + v + " " + "nets=", t);
  }

  lemma KeySpaced()
    ensures Spaced("nets=")
  {
  }

  lemma RestSpacedAlone(t: string)
    requires Spaced(t)
    ensures Spaced("nets=" + t)
  {
    KeySpaced();
    SpacedConcat("nets=", t);
  }

  lemma RestFacts(c: CompJson)
    requires Parses(c)
    ensures var r := Rest(c);
      && ':' !in r && Spaced(r) && NoTrailingSpace(r) && r != [] && !IsSpace(r[0])
  {
    var t := NetsText(c);
    NetsTextFacts(c);
    var r := Rest(c);
    if Given(c.value) {
      var v := c.value.value;
      assert r == "value=" + v + " " + "nets=" + t;
      RestSpacedGiven(v, t);
    } else {
      assert r == "nets=" + t;
      RestSpacedAlone(t);
    }
    assert r[|r| - 1] == t[|t| - 1];
    SpacedFront(r);
  }

  lemma LeadShape(id: string, ty: string, tail: string, rest: string)
    requires tail == " " + rest
    ensures "COMP: " + id + " " + ty + tail == "COMP:" + (" " + (id + (" " + (ty + (" " + rest)))))
  {
  }

  lemma ValueShape(v: string, t: string)
    ensures " value=" + v + " nets=" + t == " " + ("value=" + v + " " + "nets=" + t)
  {
  }

  lemma LineShape(c: CompJson)
    ensures CompLine(c) == "COMP:" + (" " + Body(c))
  {
    var id := c.id.GetOr("UNKNOWN");
    var ty := c.kind.GetOr("UNKNOWN");
    var t := NetsText(c);
    var tail := ValuePart(c) + " nets=" + t;
    assert CompLine(c) == "COMP: " + id + " " + ty + tail;
    if Given(c.value) {
      ValueShape(c.value.value, t);
    }
    LeadShape(id, ty, tail, Rest(c));
  }

  lemma TwoWords(a: string, b: string, r: string)
    requires IsWord(a) && IsWord(b)
    ensures Words(a + (" " + (b + (" " + r)))) == [a, b] + Words(r)
  {
    var x := b + (" " + r);
    var w := Words(r);
    WordThenBlank(a, x);
    WordThenBlank(b, r);
    ConsTwo(a, b, w);
  }

  lemma RestShape(v: string, t: string)
    ensures "value=" + v + " " + "nets=" + t == "value=" + (v + " nets" + "=" + t)
    ensures v + " nets" + "=" + t == v + (" " + ("nets" + "=" + t))
  {
  }

  /** After `value=` comes the value and then a blank: the parsed value is that token. */
  lemma ValueGiven(v: string, t: string)
    requires IsWord(v) && '=' !in v && '=' !in t
    ensures ValueOf("value=" + v + " " + "nets=" + t) == Success(Some(v))
  {
    var rest := "value=" + v + " " + "nets=" + t;
    var u := v + " nets" + "=" + t;
    RestShape(v, t);
    assert rest[..6] == "value=";
    FindAt(rest, "value=", 0);
    AfterAt(rest, "value=", 0);
    assert rest[6..] == u;
    var r := Find(u, "value=");
    OccursAtChar(u, "value=", r, 5);
    OccursAtChar(u, "value=", r, 0);
    CharOnlyAt(v + " nets", '=', t, r + 5);
    assert u[|v|] == ' ';
    SplitNone(u, "value=");
    WordThenBlank(v, "nets" + "=" + t);
  }

  /** Without `value=`, only the '=' of `nets=` is on the line. */
  lemma ValueAbsent(t: string)
    requires '=' !in t
    ensures ValueOf("nets=" + t) == Success(None)
  {
    var rest := "nets=" + t;
    assert rest == "nets" + "=" + t;
    var r := Find(rest, "value=");
    OccursAtChar(rest, "value=", r, 5);
    CharOnlyAt("nets", '=', t, r + 5);
    FindIsContains(rest, "value=");
  }

  /** `value=` gives back the value, and its absence gives None. */
  lemma ValueRoundTrip(c: CompJson)
    requires Parses(c)
    ensures ValueOf(Rest(c)) == Success(if Given(c.value) then c.value else None)
  {
    var t := NetsText(c);
    NetsTextFacts(c);
    if Given(c.value) {
      assert Rest(c) == "value=" + c.value.value + " " + "nets=" + t;
      ValueGiven(c.value.value, t);
    } else {
      assert Rest(c) == "nets=" + t;
      ValueAbsent(t);
    }
  }

  /** With a value before it, `nets=` is found after the value's blank. */
  lemma NetsGiven(v: string, t: string)
    requires '=' !in v && '=' !in t
    ensures var rest := "value=" + v + " " + "nets=" + t;
      Contains(rest, "nets=") && After(rest, "nets=") == t
  {
    var rest := "value=" + v + " " + "nets=" + t;
    var q := |v| + 7;
    var front := "value" + "=" + (v + " nets");
    assert rest == front + "=" + t;
    assert rest[q..q + 5] == "nets=";
    forall i | 0 <= i < q ensures !OccursAt(rest, "nets=", i) {
      OccursAtChar(rest, "nets=", i, 4);
      OccursAtChar(rest, "nets=", i, 0);
      assert rest[i + 4] == front[i + 4];
      CharOnlyAt("value", '=', v + " nets", i + 4);
      assert rest[1] == 'a';
    }
    FindAt(rest, "nets=", q);
    AfterAt(rest, "nets=", q);
    assert rest[q + 5..] == t;
    FindAbsent(t, "nets=", '=');
    SplitNone(t, "nets=");
  }

  lemma NetsAlone(t: string)
    requires '=' !in t
    ensures Contains("nets=" + t, "nets=") && After("nets=" + t, "nets=") == t
  {
    var rest := "nets=" + t;
    assert rest[..5] == "nets=";
    FindAt(rest, "nets=", 0);
    AfterAt(rest, "nets=", 0);
    assert rest[5..] == t;
    FindAbsent(t, "nets=", '=');
    SplitNone(t, "nets=");
  }

  /** The piece after `nets=` is the whole parenthesised list. */
  lemma NetsAfter(c: CompJson)
    requires Parses(c)
    ensures Contains(Rest(c), "nets=") && After(Rest(c), "nets=") == NetsText(c)
  {
    var t := NetsText(c);
    NetsTextFacts(c);
    if Given(c.value) {
      assert Rest(c) == "value=" + c.value.value + " " + "nets=" + t;
      NetsGiven(c.value.value, t);
    } else {
      assert Rest(c) == "nets=" + t;
      NetsAlone(t);
    }
  }

  /** Stripping the parentheses, splitting on ',' and trimming gives back the names. */
  lemma NetNamesRoundTrip(c: CompJson)
    requires Parses(c)
    ensures NetNames(NetsText(c)) == NetsOf(c)
  {
    var nets := NetsOf(c);
    var j := Join(nets, ", ");
    NetListFacts(c);
    assert NetsText(c) == ['('] + j + [')'];
    StripWrapped(j, {'(', ')'}, '(', ')');
    JoinSplitSeparator(nets, ",", " ");
    assert "," + " " == ", ";
    var led := Led(nets, " ");
    assert [','] == ",";
    SplitJoin(led, ',');
    forall k | 0 <= k < |nets| ensures Strip(led[k]) == nets[k] {
      if nets[k] != [] {
        SpacedFront(nets[k]);
      }
      if k == 0 {
        StripNoEdgeSpace(nets[0]);
      } else {
        StripBlankFront(nets[k]);
      }
    }
  }

  // ---------------------------------------------------------------------------------------
  // The round trips

  /** Removing `COMP:` and stripping leaves id, type and the rest, one blank apart. */
  lemma StrippedBody(c: CompJson)
    requires Parses(c)
    ensures Strip(Replace(CompLine(c), "COMP:", "")) == Body(c)
  {
    var body := Body(c);
    var rest := Rest(c);
    LineShape(c);
    RestFacts(c);
    assert ':' !in " " + body;
    ReplaceFront("COMP:", " " + body, "");
    ReplaceAbsent(" " + body, "COMP:", "", ':');
    var replaced := Replace(CompLine(c), "COMP:", "");
    assert replaced == "" + (" " + body);
    assert replaced == " " + body;
    assert body[0] == c.id.GetOr("UNKNOWN")[0];
    assert body[|body| - 1] == rest[|rest| - 1];
    StripBlankFront(body);
  }

  /** `_parse_component` on a line whose tokens are id, type and then a text that joins back. */
  lemma ParseTokens(line: string, id: string, ty: string, rest: string)
    requires Words(Strip(Replace(line, "COMP:", ""))) == [id, ty] + Words(rest)
    requires Join(Words(rest), " ") == rest
    ensures ParseComponent(line) ==
      match ValueOf(rest)
      case Failure(e) => Failure(e)
      case Success(v) =>
        Success(ParsedComp(id, ty, v, if Contains(rest, "nets=") then NetNames(After(rest, "nets=")) else []))
  {
    var parts := [id, ty] + Words(rest);
    assert parts[0] == id && parts[1] == ty && parts[2..] == Words(rest);
  }

  /** `_parse_component` undoes `_add_components` for one component. */
  lemma {:induction false} ComponentRoundTrip(c: CompJson)
    requires Parses(c)
    ensures ParseComponent(CompLine(c)) == Success(Recovered(c))
  {
    var rest := Rest(c);
    StrippedBody(c);
    TwoWords(c.id.GetOr("UNKNOWN"), c.kind.GetOr("UNKNOWN"), rest);
    RestFacts(c);
    SpacedJoinWords(rest);
    ParseTokens(CompLine(c), c.id.GetOr("UNKNOWN"), c.kind.GetOr("UNKNOWN"), rest);
    ValueRoundTrip(c);
    NetsAfter(c);
    NetNamesRoundTrip(c);
  }

  /** A constraint key or value the line carries: non-empty, unpadded, no ':' or '='. */
  predicate Setting(s: string) { s != [] && NoEdgeSpace(s) && Unmarked(s) }

  lemma ConstraintShape(k: string, v: string)
    ensures "CONSTRAINT: " + k + "=" + v == "CONSTRAINT:" + (" " + (k + "=" + v))
  {
  }

  /** Replacing the marker removes it from the front of a text with no ':' after it. */
  lemma MarkerDropped(body: string)
    requires ':' !in body
    ensures Replace("CONSTRAINT:" + body, "CONSTRAINT:", "") == body
  {
    ReplaceFront("CONSTRAINT:", body, "");
    ReplaceAbsent(body, "CONSTRAINT:", "", ':');
  }

  /** `key=value` for a key and a value the line can carry has no ':' and no edge whitespace. */
  lemma PairShape(k: string, v: string)
    requires Setting(k) && Setting(v)
    ensures ':' !in " " + (k + "=" + v) && NoEdgeSpace(k + "=" + v)
  {
    var kv := k + "=" + v;
    assert kv[0] == k[0] && kv[|kv| - 1] == v[|v| - 1];
  }

  /** Dropping the marker and stripping leaves exactly `key=value`. */
  lemma ConstraintTextOf(k: string, v: string)
    requires Setting(k) && Setting(v)
    ensures ConstraintText(ConstraintLine((k, v))) == k + "=" + v
  {
    var kv := k + "=" + v;
    ConstraintShape(k, v);
    PairShape(k, v);
    MarkerDropped(" " + kv);
    StripBlankFront(kv);
  }

  /** `_parse_constraint` undoes `_add_constraints` for one entry. */
  lemma ConstraintRoundTrip(entry: (string, string))
    requires Setting(entry.0) && Setting(entry.1)
    ensures ParseConstraint(ConstraintLine(entry)) == Success(entry)
  {
    var (k, v) := entry;
    var kv := k + "=" + v;
    ConstraintTextOf(k, v);
    assert Join([k, v], "=") == kv;
    SplitJoin([k, v], '=');
    SplitPieces(kv, '=');
    StripNoEdgeSpace(k);
    StripNoEdgeSpace(v);
  }

  // ---------------------------------------------------------------------------------------
  // The whole DSL, line by line

  /** Every constraint and component of the record can be carried by its line. */
  predicate RecordParses(j: CircuitJson) {
    SettingsParse(j.constraints.GetOr([])) && ComponentsParse(j.components.GetOr([]))
  }

  /** Every key and value of the constraints can be carried by a `CONSTRAINT:` line. */
  predicate SettingsParse(cs: seq<(string, string)>) {
    forall k :: 0 <= k < |cs| ==> Setting(cs[k].0) && Setting(cs[k].1)
  }

  /** Every component can be carried by a `COMP:` line. */
  predicate ComponentsParse(cs: seq<CompJson>) {
    forall k :: 0 <= k < |cs| ==> Parses(cs[k])
  }

  function RecoveredAll(cs: seq<CompJson>): (r: seq<ParsedComp>)
    ensures |r| == |cs|
    ensures forall k :: 0 <= k < |cs| ==> r[k] == Recovered(cs[k])
  {
    seq(|cs|, k requires 0 <= k < |cs| => Recovered(cs[k]))
  }

  lemma ConstraintLead(k: string, v: string)
    ensures var line := ConstraintLine((k, v));
      && StartsWith(line, "CONSTRAINT:") && !StartsWith(line, "COMP:") && line[0] == 'C'
      && (v != [] ==> line[|line| - 1] == v[|v| - 1])
  {
    var line := ConstraintLine((k, v));
    var tail := " " + (k + "=" + v);
    ConstraintShape(k, v);
    assert line == "CONSTRAINT:" + tail;
    assert line[..11] == "CONSTRAINT:";
    assert line[..5][2] == 'N';
  }

  /** A `CONSTRAINT:` line adds its entry. */
  lemma ConstraintLineParses(q: Parsed, entry: (string, string))
    requires Setting(entry.0) && Setting(entry.1)
    ensures ParseLine(q, ConstraintLine(entry)) == Success(q.(constraints := q.constraints + [entry]))
  {
    var line := ConstraintLine(entry);
    ConstraintLead(entry.0, entry.1);
    StripNoEdgeSpace(line);
    ConstraintRoundTrip(entry);
    ConstraintStep(q, line, entry);
  }

  /** A `COMP:` line adds the component it was written from. */
  lemma ComponentLineParses(q: Parsed, c: CompJson)
    requires Parses(c)
    ensures ParseLine(q, CompLine(c)) == Success(q.(components := q.components + [Recovered(c)]))
  {
    var line := CompLine(c);
    var t := NetsText(c);
    assert line[|line| - 1] == t[|t| - 1] == ')';
    assert line[..5] == "COMP:";
    StripNoEdgeSpace(line);
    ComponentRoundTrip(c);
  }

  lemma SnocAppend<T>(a: seq<T>, s: seq<T>)
    requires s != []
    ensures a + s[..|s| - 1] + [s[|s| - 1]] == a + s
  {
    assert s == s[..|s| - 1] + [s[|s| - 1]];
  }

  lemma RecoveredSnoc(cs: seq<CompJson>)
    requires cs != []
    ensures RecoveredAll(cs)[..|cs| - 1] == RecoveredAll(cs[..|cs| - 1])
    ensures RecoveredAll(cs)[|cs| - 1] == Recovered(cs[|cs| - 1])
  {
  }

  lemma {:induction false} ScanConstraintLines(p: Parsed, cs: seq<(string, string)>)
    requires SettingsParse(cs)
    ensures ScanFrom(p, ConstraintEntries(cs)) == Success(p.(constraints := p.constraints + cs))
    decreases |cs|
  {
    if cs == [] {
      assert p.constraints + cs == p.constraints;
    } else {
      var front := cs[..|cs| - 1];
      var last := cs[|cs| - 1];
      ScanConstraintLines(p, front);
      ScanFromAppend(p, ConstraintEntries(front), [ConstraintLine(last)]);
      var q := p.(constraints := p.constraints + front);
      ConstraintLineParses(q, last);
      ScanOne(q, ConstraintLine(last));
      SnocAppend(p.constraints, cs);
    }
  }

  lemma {:induction false} ScanComponentLines(p: Parsed, cs: seq<CompJson>)
    requires ComponentsParse(cs)
    ensures ScanFrom(p, ComponentEntries(cs)) == Success(p.(components := p.components + RecoveredAll(cs)))
    decreases |cs|
  {
    if cs == [] {
      assert p.components + RecoveredAll(cs) == p.components;
    } else {
      var front := cs[..|cs| - 1];
      var last := cs[|cs| - 1];
      ScanComponentLines(p, front);
      ScanFromAppend(p, ComponentEntries(front), [CompLine(last)]);
      var q := p.(components := p.components + RecoveredAll(front));
      ComponentLineParses(q, last);
      ScanOne(q, CompLine(last));
      RecoveredSnoc(cs);
      SnocAppend(p.components, RecoveredAll(cs));
    }
  }

  /** `NET:` lines are skipped. */
  lemma ConnectionIgnored(conn: ConnJson)
    ensures Ignored(ConnectionLine(conn))
  {
    var line := ConnectionLine(conn);
    assert line[0] == 'N';
    IgnoredByFirst(line);
  }

  lemma {:induction false} ScanConnectionLines(p: Parsed, conns: seq<ConnJson>)
    ensures ScanFrom(p, ConnectionEntries(conns)) == Success(p)
    decreases |conns|
  {
    if conns != [] {
      var front := conns[..|conns| - 1];
      var line := ConnectionLine(conns[|conns| - 1]);
      ScanConnectionLines(p, front);
      ConnectionIgnored(conns[|conns| - 1]);
      ScanSkipBack(p, ConnectionEntries(front), line);
    }
  }

  // ---------------------------------------------------------------------------------------
  // Sections

  /** A skipped line leaves the parse state as it was. */
  lemma IgnoredStep(p: Parsed, line: string)
    requires Ignored(line)
    ensures ParseLine(p, line) == Success(p)
  {
  }

  lemma ScanSkipFront(p: Parsed, line: string, rest: seq<string>)
    requires Ignored(line)
    ensures ScanFrom(p, [line] + rest) == ScanFrom(p, rest)
  {
    IgnoredStep(p, line);
    assert ([line] + rest)[0] == line && ([line] + rest)[1..] == rest;
  }

  lemma ScanSkipBack(p: Parsed, a: seq<string>, line: string)
    requires Ignored(line)
    ensures ScanFrom(p, a + [line]) == ScanFrom(p, a)
  {
    SkipsIgnored(p, a, line, []);
    assert a + [line] + [] == a + [line] && a + [] == a;
  }

  /** Section headings start with `#`, which no keyword does. */
  lemma HeadingIgnored(h: string)
    requires h != [] && h[0] == '#'
    ensures Ignored(h)
  {
    IgnoredByFirst(h);
  }

  lemma BlankIgnored()
    ensures Ignored("")
  {
    IgnoredByFirst("");
  }

  lemma Framed(h: string, e: seq<string>, t: string)
    ensures [h] + e + [t] == [h] + (e + [t])
  {
  }

  lemma {:induction false} ScanConstraintPart(p: Parsed, j: CircuitJson)
    requires SettingsParse(j.constraints.GetOr([]))
    ensures ScanFrom(p, ConstraintPart(j)) == Success(p.(constraints := p.constraints + j.constraints.GetOr([])))
  {
    if j.constraints.Some? {
      var cs := j.constraints.value;
      var e := ConstraintEntries(cs);
      Framed("# Constraints", e, "");
      HeadingIgnored("# Constraints");
      BlankIgnored();
      ScanSkipFront(p, "# Constraints", e + [""]);
      ScanSkipBack(p, e, "");
      ScanConstraintLines(p, cs);
    } else {
      assert p.constraints + [] == p.constraints;
    }
  }

  lemma {:induction false} ScanComponentPart(p: Parsed, j: CircuitJson)
    requires ComponentsParse(j.components.GetOr([]))
    ensures ScanFrom(p, ComponentPart(j)) ==
      Success(p.(components := p.components + RecoveredAll(j.components.GetOr([]))))
  {
    if j.components.Some? {
      var cs := j.components.value;
      var e := ComponentEntries(cs);
      Framed("# Components", e, "");
      HeadingIgnored("# Components");
      BlankIgnored();
      ScanSkipFront(p, "# Components", e + [""]);
      ScanSkipBack(p, e, "");
      ScanComponentLines(p, cs);
    } else {
      assert p.components + RecoveredAll([]) == p.components;
    }
  }

  lemma {:induction false} ScanConnectionPart(p: Parsed, j: CircuitJson)
    ensures ScanFrom(p, ConnectionPart(j)) == Success(p)
  {
    if j.connections.Some? {
      HeadingIgnored("# Connections");
      ScanSkipFront(p, "# Connections", ConnectionEntries(j.connections.value));
      ScanConnectionLines(p, j.connections.value);
    }
  }

  lemma ScanHeader(p: Parsed, t: string)
    ensures ScanFrom(p, [HeaderPrefix + t, ""]) == Success(p)
  {
    var h := HeaderPrefix + t;
    assert h[0] == '#';
    HeadingIgnored(h);
    BlankIgnored();
    assert [h, ""] == [h] + [""];
    ScanSkipFront(p, h, [""]);
    ScanOne(p, "");
  }

  /**
   * Parsing what `json_to_dsl` writes recovers every constraint, in order, and every
   * component, in order, with the value it was given and its nets.
   */
  lemma {:induction false} DslScan(j: CircuitJson)
    requires RecordParses(j)
    ensures Scan(DslLines(j)) ==
      Success(Parsed(RecoveredAll(j.components.GetOr([])), j.constraints.GetOr([])))
  {
    var start := Parsed([], []);
    var head := [HeaderPrefix + j.typeField.GetOr("unknown"), ""];
    var cs := j.constraints.GetOr([]);
    var q1 := start.(constraints := [] + cs);
    var q2 := q1.(components := [] + RecoveredAll(j.components.GetOr([])));
    ScanHeader(start, j.typeField.GetOr("unknown"));
    ScanConstraintPart(start, j);
    ScanFromAppend(start, head, ConstraintPart(j));
    ScanComponentPart(q1, j);
    ScanFromAppend(start, head + ConstraintPart(j), ComponentPart(j));
    ScanConnectionPart(q2, j);
    ScanFromAppend(start, head + ConstraintPart(j) + ComponentPart(j), ConnectionPart(j));
    EmptyAppend(cs);
    EmptyAppend(RecoveredAll(j.components.GetOr([])));
  }

  lemma EmptyAppend<T>(s: seq<T>)
    ensures [] + s == s
  {
  }

  /** The SKiDL script for the DSL of a record is the script for its recovered components. */
  lemma DslToScript(j: CircuitJson)
    requires RecordParses(j)
    ensures SkidlOfLines(DslLines(j)) == Success(Script(RecoveredAll(j.components.GetOr([]))))
  {
    DslScan(j);
  }

  // ---------------------------------------------------------------------------------------
  // The whole DSL, as text

  lemma LinesOpenConcat(a: seq<string>, b: seq<string>)
    requires LinesOpen(a) && LinesOpen(b)
    ensures LinesOpen(a + b)
  {
    forall k | 0 <= k < |a + b|
      ensures (a + b)[k] == [] || !IsSpace((a + b)[k][0])
    {
      if k >= |a| {
        assert (a + b)[k] == b[k - |a|];
      }
    }
  }

  lemma ConstraintEntriesOpen(cs: seq<(string, string)>)
    ensures LinesOpen(ConstraintEntries(cs))
  {
    forall k | 0 <= k < |cs|
      ensures ConstraintLine(cs[k])[0] == 'C'
    {
      ConstraintLead(cs[k].0, cs[k].1);
    }
  }

  lemma CompLead(c: CompJson)
    ensures CompLine(c)[0] == 'C'
  {
  }

  lemma ComponentEntriesOpen(cs: seq<CompJson>)
    ensures LinesOpen(ComponentEntries(cs))
  {
    forall k | 0 <= k < |cs|
      ensures CompLine(cs[k])[0] == 'C'
    {
      CompLead(cs[k]);
    }
  }

  lemma ConnectionLead(conn: ConnJson)
    ensures ConnectionLine(conn)[0] == 'N'
  {
  }

  lemma ConnectionEntriesOpen(conns: seq<ConnJson>)
    ensures LinesOpen(ConnectionEntries(conns))
  {
    forall k | 0 <= k < |conns|
      ensures ConnectionLine(conns[k])[0] == 'N'
    {
      ConnectionLead(conns[k]);
    }
  }

  /** A section: its heading, its entries and perhaps a blank line. */
  lemma SectionOpen(h: string, e: seq<string>, tail: seq<string>)
    requires h != [] && h[0] == '#' && LinesOpen(e) && (tail == [] || tail == [""])
    ensures LinesOpen([h] + e + tail)
  {
    LinesOpenConcat([h], e);
    LinesOpenConcat([h] + e, tail);
  }

  /** Every line `json_to_dsl` writes is blank or starts with `#`, `C` or `N`. */
  lemma DslOpen(j: CircuitJson)
    ensures LinesOpen(DslLines(j))
  {
    var h := HeaderPrefix + j.typeField.GetOr("unknown");
    assert h[0] == '#';
    if j.constraints.Some? {
      ConstraintEntriesOpen(j.constraints.value);
      SectionOpen("# Constraints", ConstraintEntries(j.constraints.value), [""]);
    }
    if j.components.Some? {
      ComponentEntriesOpen(j.components.value);
      SectionOpen("# Components", ComponentEntries(j.components.value), [""]);
    }
    if j.connections.Some? {
      ConnectionEntriesOpen(j.connections.value);
      SectionOpen("# Connections", ConnectionEntries(j.connections.value), []);
      assert ConnectionPart(j) == ["# Connections"] + ConnectionEntries(j.connections.value) + [];
    }
    assert LinesOpen([h, ""]);
    LinesOpenConcat([h, ""], ConstraintPart(j));
    LinesOpenConcat([h, ""] + ConstraintPart(j), ComponentPart(j));
    LinesOpenConcat([h, ""] + ConstraintPart(j) + ComponentPart(j), ConnectionPart(j));
  }

  /**
   * `dsl_to_skidl(json_to_dsl(j))`: the script for the components of the record, when every
   * text of the record fits on its line and every entry can be carried by it.
   */
  lemma DslToSkidlText(j: CircuitJson)
    requires RecordParses(j) && RecordOneLine(j)
    ensures Skidl(Dsl(j)) == Success(Script(RecoveredAll(j.components.GetOr([]))))
  {
    var lines := DslLines(j);
    LinesOneLine(j);
    DslOpen(j);
    assert lines[0] != [];
    forall k | 0 <= k < |lines|
      ensures '\n' !in lines[k]
    {
      assert OneLine(lines[k]);
    }
    ScanText(lines);
    DslScan(j);
  }
}

=== FILE: skidl_generator.dfy ===
/**
 * The SKiDL generator: it reads the DSL text back (only `COMP:` and `CONSTRAINT:` lines
 * matter) and writes a SKiDL script made of a fixed header, one `Part(...)` per supported
 * component, one `Net(...)` per distinct net name in sorted order, one `id[i] += net` per
 * pin, and a fixed footer.
 */
module SkidlGenerator {
  import opened Wrappers
  import opened Strings
  import opened CircuitJson
  import opened DslGenerator

  /** What `_parse_component` returns. */
  datatype ParsedComp = ParsedComp(id: string, kind: string, value: Option<string>, nets: seq<string>)

  /** The two lists `dsl_to_skidl` fills; each constraint is a one-entry dictionary. */
  datatype Parsed = Parsed(components: seq<ParsedComp>, constraints: seq<(string, string)>)

  // ---------------------------------------------------------------------------------------
  // Parsing the DSL

  /** `value=` in the rest of the line: the first whitespace token after it, or None. */
  function ValueOf(fullLine: string): (r: Result<Option<string>, PyError>)
    ensures r.Failure? ==> r.error == IndexError
    ensures r.Success? && r.value.Some? ==> IsWord(r.value.value)
    ensures r == Success(None) <==> !Contains(fullLine, "value=")
  {
    if Contains(fullLine, "value=") then
      var tokens := Words(After(fullLine, "value="));
      if tokens == [] then Failure(IndexError) else Success(Some(tokens[0]))
    else Success(None)
  }

  /** The text after `nets=`: outer parentheses stripped, split on ',', each name trimmed. */
  function NetNames(netsPart: string): (r: seq<string>)
    ensures |r| >= 1
    ensures forall k :: 0 <= k < |r| ==> NoEdgeSpace(r[k])
  {
    StripAll(SplitOn(StripChars(netsPart, {'(', ')'}), ","))
  }

  /** `_parse_component`: indexing a line with fewer than two tokens raises IndexError. */
  function ParseComponent(line: string): (r: Result<ParsedComp, PyError>)
    ensures r.Failure? ==> r.error == IndexError
    ensures r.Success? ==>
      && IsWord(r.value.id) && IsWord(r.value.kind)
      && (r.value.value.Some? ==> IsWord(r.value.value.value))
      && forall k :: 0 <= k < |r.value.nets| ==> NoEdgeSpace(r.value.nets[k])
  {
    var parts := Words(Strip(Replace(line, "COMP:", "")));
    if |parts| < 2 then Failure(IndexError)
    else
      var fullLine := Join(parts[2..], " ");
      var value := ValueOf(fullLine);
      if value.Failure? then Failure(value.error)
      else
        var nets := if Contains(fullLine, "nets=") then NetNames(After(fullLine, "nets=")) else [];
        Success(ParsedComp(parts[0], parts[1], value.value, nets))
  }

  /** The text `_parse_constraint` splits: the line without `CONSTRAINT:`, stripped. */
  function ConstraintText(line: string): string {
    Strip(Replace(line, "CONSTRAINT:", ""))
  }

  /** `_parse_constraint`: unpacking `split('=')` into two names needs exactly one '='. */
  function ParseConstraint(line: string): (r: Result<(string, string), PyError>)
    ensures r.Success? <==> CountChar(ConstraintText(line), '=') == 1
    ensures r.Failure? ==> r.error.ValueError?
    ensures r.Success? ==>
      && '=' !in r.value.0 && '=' !in r.value.1
      && NoEdgeSpace(r.value.0) && NoEdgeSpace(r.value.1)
  {
    var pieces := SplitOn(ConstraintText(line), "=");
    SplitPieces(ConstraintText(line), '=');
    if |pieces| < 2 then
      Failure(ValueError("not enough values to unpack (expected 2, got " + NatToString(|pieces|) + ")"))
    else if |pieces| > 2 then
      Failure(ValueError("too many values to unpack (expected 2)"))
    else
      StripInside(pieces[0], '=');
      StripInside(pieces[1], '=');
      Success((Strip(pieces[0]), Strip(pieces[1])))
  }

  /** One iteration of the parse loop of `dsl_to_skidl`, on the stripped line. */
  function ParseLine(p: Parsed, line: string): Result<Parsed, PyError> {
    ParseStripped(p, Strip(line))
  }

  /** The loop body on a stripped line `l`. */
  function ParseStripped(p: Parsed, l: string): Result<Parsed, PyError> {
    if StartsWith(l, "COMP:") then
      match ParseComponent(l)
      case Success(c) => Success(p.(components := p.components + [c]))
      case Failure(e) => Failure(e)
    else if StartsWith(l, "CONSTRAINT:") then
      match ParseConstraint(l)
      case Success(kv) => Success(p.(constraints := p.constraints + [kv]))
      case Failure(e) => Failure(e)
    else Success(p)
  }

  /** A line that parses as a constraint adds it. */
  lemma ConstraintStep(p: Parsed, line: string, kv: (string, string))
    requires !StartsWith(Strip(line), "COMP:") && StartsWith(Strip(line), "CONSTRAINT:")
    requires ParseConstraint(Strip(line)) == Success(kv)
    ensures ParseLine(p, line) == Success(p.(constraints := p.constraints + [kv]))
  {
  }

  /** A line that parses as a component adds it. */
  lemma ComponentStep(p: Parsed, line: string, c: ParsedComp)
    requires StartsWith(Strip(line), "COMP:") && ParseComponent(Strip(line)) == Success(c)
    ensures ParseLine(p, line) == Success(p.(components := p.components + [c]))
  {
  }

  /** The parse loop from an intermediate state; the first error ends it. */
  function ScanFrom(p: Parsed, lines: seq<string>): Result<Parsed, PyError>
    decreases |lines|
  {
    if lines == [] then Success(p)
    else
      match ParseLine(p, lines[0])
      case Failure(e) => Failure(e)
      case Success(q) => ScanFrom(q, lines[1..])
  }

  function Scan(lines: seq<string>): Result<Parsed, PyError> {
    ScanFrom(Parsed([], []), lines)
  }

  // ---------------------------------------------------------------------------------------
  // Writing the script

  const Header := "from skidl import *\n\n# Create circuit\nreset()\n\n"
  const Footer := "# Generate netlist\ngenerate_netlist()\n\nprint(\"SKiDL circuit generated successfully!\")\n"

  /** The keys of `supported_components`: the lower-cased types that get a part. */
  const Supported: set<string> := {"resistor", "capacitor", "voltage_source", "ground"}

  /** `f"{value}"`: a missing value prints as None. */
  function ValueText(v: Option<string>): string {
    if v.Some? then v.value else "None"
  }

  /** The `Part(...)` line of one component; other types give nothing. */
  function ComponentDecl(c: ParsedComp): (code: string)
    ensures code == "" <==> Lower(c.kind) !in Supported
    ensures code != "" ==> StartsWith(code, c.id + " = Part(")
  {
    var t := Lower(c.kind);
    var v := ValueText(c.value);
    var code :=
      if t == "resistor" then
        c.id + " = Part(" + "'Device', 'R', value='" + v + "', footprint='Resistor_SMD:R_0805_2012Metric')\n"
      else if t == "capacitor" then
        c.id + " = Part(" + "'Device', 'C', value='" + v + "', footprint='Capacitor_SMD:C_0805_2012Metric')\n"
      else if t == "voltage_source" then
        c.id + " = Part(" + "'pspice', 'VSRC', value='" + v + "')\n"
      else if t == "ground" then
        c.id + " = Part(" + "'power', 'GND')\n"
      else "";
    assert code != "" ==> code[..|c.id + " = Part("|] == c.id + " = Part(";
    code
  }

  /** The `Part(...)` lines, in input order. */
  function ComponentDecls(cs: seq<ParsedComp>): string {
    if cs == [] then "" else ComponentDecls(cs[..|cs| - 1]) + ComponentDecl(cs[|cs| - 1])
  }

  /** `_generate_components` */
  function ComponentsCode(cs: seq<ParsedComp>): string {
    "# Component definitions\n" + ComponentDecls(cs) + "\n"
  }

  /** Every net name of every component, in order, repeats included. */
  function AllNets(cs: seq<ParsedComp>): seq<string> {
    if cs == [] then [] else AllNets(cs[..|cs| - 1]) + cs[|cs| - 1].nets
  }

  /** Python's `<` on `str`: code point by code point, a proper prefix first. */
  predicate Below(a: string, b: string)
    decreases |a|
  {
    b != [] && (a == [] || a[0] < b[0] || (a[0] == b[0] && Below(a[1..], b[1..])))
  }

  /** Strictly increasing, so also free of repeats. */
  predicate Increasing(xs: seq<string>) {
    forall i, j :: 0 <= i < j < |xs| ==> Below(xs[i], xs[j])
  }

  /** Inserting a name into an increasing list, once. */
  function Insert(xs: seq<string>, x: string): (r: seq<string>)
    requires Increasing(xs)
    ensures Increasing(r)
    ensures forall y :: y in r <==> y in xs || y == x
  {
    if xs == [] then [x]
    else if x == xs[0] then xs
    else if Below(x, xs[0]) then
      forall j | 0 < j < |xs| ensures Below(x, xs[j]) {
        BelowTransitive(x, xs[0], xs[j]);
      }
      [x] + xs
    else
      BelowTotal(x, xs[0]);
      var rest := Insert(xs[1..], x);
      assert forall y :: y in rest ==> Below(xs[0], y);
      [xs[0]] + rest
  }

  /** `sorted(set(xs))`: the distinct names in increasing order. */
  function SortedNames(xs: seq<string>): (r: seq<string>)
    ensures Increasing(r)
    ensures forall y :: y in r <==> y in xs
  {
    if xs == [] then []
    else
      var front := xs[..|xs| - 1];
      assert forall y :: y in xs <==> y in front || y == xs[|xs| - 1];
      Insert(SortedNames(front), xs[|xs| - 1])
  }

  /** `f"{n} = Net('{n}')"` for a non-empty name. */
  function NetDecl(n: string): (code: string)
    ensures code == "" <==> n == ""
  {
    if n != "" then n + " = Net('" + n + "')\n" else ""
  }

  function NetDecls(names: seq<string>): string {
    if names == [] then "" else NetDecls(names[..|names| - 1]) + NetDecl(names[|names| - 1])
  }

  /** `f"{id}[{i}] += {n}"` for pin i and a non-empty name. */
  function PinLine(id: string, i: nat, n: string): (code: string)
    ensures code == "" <==> n == ""
  {
    if n != "" then id + "[" + NatToString(i) + "] += " + n + "\n" else ""
  }

  /** The pin lines of one component; the names are numbered from 1, empty ones included. */
  function Pins(id: string, nets: seq<string>): string {
    if nets == [] then "" else Pins(id, nets[..|nets| - 1]) + PinLine(id, |nets|, nets[|nets| - 1])
  }

  function Connects(cs: seq<ParsedComp>): string {
    if cs == [] then "" else Connects(cs[..|cs| - 1]) + Pins(cs[|cs| - 1].id, cs[|cs| - 1].nets)
  }

  /** `_generate_connections` */
  function ConnectionsCode(cs: seq<ParsedComp>): string {
    "# Net connections\n" + NetDecls(SortedNames(AllNets(cs))) + "\n# Connect components to nets\n" + Connects(cs) + "\n"
  }

  /** The script for the parsed components: header, components, connections, footer. */
  function Script(cs: seq<ParsedComp>): string {
    Header + ComponentsCode(cs) + ConnectionsCode(cs) + Footer
  }

  /** The script for a list of DSL lines, or the first parse error. */
  function SkidlOfLines(lines: seq<string>): Result<string, PyError> {
    match Scan(lines)
    case Failure(e) => Failure(e)
    case Success(p) => Success(Script(p.components))
  }

  /** `dsl_string.strip().split('\n')` */
  function TextLines(dsl: string): seq<string> {
    SplitOn(Strip(dsl), "\n")
  }

  /** `dsl_to_skidl` */
  function Skidl(dsl: string): Result<string, PyError> {
    SkidlOfLines(TextLines(dsl))
  }

  // ---------------------------------------------------------------------------------------
  // The order of names

  lemma {:induction false} BelowIrreflexive(a: string)
    ensures !Below(a, a)
    decreases |a|
  {
    if a != [] {
      BelowIrreflexive(a[1..]);
    }
  }

  lemma {:induction false} BelowTransitive(a: string, b: string, c: string)
    requires Below(a, b) && Below(b, c)
    ensures Below(a, c)
    decreases |a|
  {
    if a != [] && a[0] == b[0] && b[0] == c[0] {
      BelowTransitive(a[1..], b[1..], c[1..]);
    }
  }

  lemma {:induction false} BelowTotal(a: string, b: string)
    ensures a == b || Below(a, b) || Below(b, a)
    decreases |a|
  {
    if a != [] && b != [] && a[0] == b[0] {
      BelowTotal(a[1..], b[1..]);
      assert a == [a[0]] + a[1..] && b == [b[0]] + b[1..];
    }
  }

  lemma BelowAsymmetric(a: string, b: string)
    ensures Below(a, b) ==> !Below(b, a)
  {
    if Below(a, b) && Below(b, a) {
      BelowTransitive(a, b, a);
      BelowIrreflexive(a);
    }
  }

  /** In an increasing list every later name is above the first. */
  lemma TailAbove(xs: seq<string>, y: string)
    requires Increasing(xs) && xs != []
    ensures y in xs ==> y == xs[0] || Below(xs[0], y)
  {
  }

  /** Two increasing lists with the same names are the same list. */
  lemma {:induction false} IncreasingUnique(a: seq<string>, b: seq<string>)
    requires Increasing(a) && Increasing(b)
    requires forall y :: y in a <==> y in b
    ensures a == b
    decreases |a|
  {
    if a != [] {
      assert a[0] in b;
    }
    if b != [] {
      assert b[0] in a;
    }
    if a != [] && b != [] {
      BelowAsymmetric(a[0], b[0]);
      TailAbove(a, b[0]);
      TailAbove(b, a[0]);
      assert a[0] == b[0];
      forall y ensures y in a[1..] <==> y in b[1..] {
        BelowIrreflexive(y);
        TailAbove(a, y);
        TailAbove(b, y);
        assert y in a <==> y == a[0] || y in a[1..];
        assert y in b <==> y == b[0] || y in b[1..];
      }
      IncreasingUnique(a[1..], b[1..]);
      assert a == [a[0]] + a[1..] && b == [b[0]] + b[1..];
    }
  }

  /** One more line of the parse loop. */
  lemma ScanStep(p: Parsed, lines: seq<string>, i: nat)
    requires i < |lines|
    ensures ScanFrom(p, lines[i..]) ==
      match ParseLine(p, lines[i])
      case Failure(e) => Failure(e)
      case Success(q) => ScanFrom(q, lines[i + 1..])
  {
    assert lines[i..][0] == lines[i];
    assert lines[i..][1..] == lines[i + 1..];
  }

  lemma PinsStep(id: string, nets: seq<string>, i: nat)
    requires 0 < i <= |nets|
    ensures Pins(id, nets[..i]) == Pins(id, nets[..i - 1]) + PinLine(id, i, nets[i - 1])
  {
    assert nets[..i][..i - 1] == nets[..i - 1];
  }

  // ---------------------------------------------------------------------------------------
  // The parse loop

  /** The loop over two stretches of lines is the loop over the first, then over the second. */
  lemma {:induction false} ScanFromAppend(p: Parsed, a: seq<string>, b: seq<string>)
    ensures ScanFrom(p, a + b) ==
      match ScanFrom(p, a)
      case Failure(e) => Failure(e)
      case Success(q) => ScanFrom(q, b)
    decreases |a|
  {
    if a == [] {
      assert a + b == b;
    } else {
      assert (a + b)[0] == a[0] && (a + b)[1..] == a[1..] + b;
      match ParseLine(p, a[0])
      case Failure(e) =>
      case Success(q) => ScanFromAppend(q, a[1..], b);
    }
  }

  /** A line that, stripped, starts with neither keyword changes nothing. */
  predicate Ignored(line: string) {
    !StartsWith(Strip(line), "COMP:") && !StartsWith(Strip(line), "CONSTRAINT:")
  }

  /** Comments, blank lines and `NET:` lines are skipped. */
  lemma SkipsIgnored(p: Parsed, a: seq<string>, line: string, b: seq<string>)
    requires Ignored(line)
    ensures ScanFrom(p, a + [line] + b) == ScanFrom(p, a + b)
  {
    ScanFromAppend(p, a + [line], b);
    ScanFromAppend(p, a, [line]);
    ScanFromAppend(p, a, b);
    match ScanFrom(p, a)
    case Failure(e) =>
    case Success(q) =>
      assert ScanFrom(q, [line]) == Success(q) by {
        assert [line][1..] == [];
      }
  }

  /** Blank text, and text whose first character is neither whitespace nor 'C', is skipped. */
  lemma IgnoredByFirst(line: string)
    requires line == [] || (!IsSpace(line[0]) && line[0] != 'C')
    ensures Ignored(line)
  {
    if line != [] {
      StripKeepsFirst(line);
    }
  }

  /** The outcome of the parse loop without the constraints. */
  function ComponentsOf(r: Result<Parsed, PyError>): Result<seq<ParsedComp>, PyError> {
    match r
    case Failure(e) => Failure(e)
    case Success(p) => Success(p.components)
  }

  /** What was collected as constraints never changes the components or the errors. */
  lemma {:induction false} ComponentsIgnoreConstraints(p: Parsed, q: Parsed, lines: seq<string>)
    requires p.components == q.components
    ensures ComponentsOf(ScanFrom(p, lines)) == ComponentsOf(ScanFrom(q, lines))
    decreases |lines|
  {
    if lines != [] {
      LineIgnoresConstraints(p, q, lines[0]);
      match ParseLine(p, lines[0])
      case Failure(e) =>
      case Success(p2) =>
        var q2 := ParseLine(q, lines[0]).value;
        ComponentsIgnoreConstraints(p2, q2, lines[1..]);
    }
  }

  lemma LineIgnoresConstraints(p: Parsed, q: Parsed, line: string)
    requires p.components == q.components
    ensures ComponentsOf(ParseLine(p, line)) == ComponentsOf(ParseLine(q, line))
  {
  }

  /** Dropping a `CONSTRAINT:` line that parses leaves the script as it was. */
  lemma DropsConstraint(a: seq<string>, line: string, b: seq<string>)
    requires StartsWith(Strip(line), "CONSTRAINT:") && !StartsWith(Strip(line), "COMP:")
    requires ParseConstraint(Strip(line)).Success?
    ensures SkidlOfLines(a + [line] + b) == SkidlOfLines(a + b)
  {
    var start := Parsed([], []);
    ScanFromAppend(start, a + [line], b);
    ScanFromAppend(start, a, [line]);
    ScanFromAppend(start, a, b);
    match ScanFrom(start, a)
    case Failure(e) =>
    case Success(q) =>
      var q2 := q.(constraints := q.constraints + [ParseConstraint(Strip(line)).value]);
      assert ScanFrom(q, [line]) == Success(q2) by {
        assert [line][1..] == [];
      }
      ComponentsIgnoreConstraints(q2, q, b);
  }

  /** Every line is blank or starts with a non-space character. */
  predicate LinesOpen(xs: seq<string>) {
    forall k :: 0 <= k < |xs| ==> xs[k] == [] || !IsSpace(xs[k][0])
  }

  /** Trailing whitespace of a line does not change how it parses. */
  lemma ParseLineRStrip(p: Parsed, line: string)
    ensures ParseLine(p, RStrip(line)) == ParseLine(p, line)
  {
    StripRStrip(line);
  }

  /** A trailing blank line adds nothing. */
  lemma ScanDropBlank(front: seq<string>)
    ensures Scan(front + [""]) == Scan(front)
  {
    IgnoredByFirst("");
    SkipsIgnored(Parsed([], []), front, "", []);
    assert front + [""] + [] == front + [""] && front + [] == front;
  }

  /** One step of the loop over a single line. */
  lemma ScanOne(p: Parsed, line: string)
    ensures ScanFrom(p, [line]) ==
      match ParseLine(p, line)
      case Failure(e) => Failure(e)
      case Success(q) => Success(q)
  {
    assert [line][1..] == [];
  }

  /** Trailing whitespace on the last line adds nothing. */
  lemma ScanLastRStrip(front: seq<string>, last: string)
    ensures Scan(front + [RStrip(last)]) == Scan(front + [last])
  {
    var start := Parsed([], []);
    ScanFromAppend(start, front, [RStrip(last)]);
    ScanFromAppend(start, front, [last]);
    match ScanFrom(start, front)
    case Failure(e) =>
    case Success(q) =>
      ParseLineRStrip(q, last);
      ScanOne(q, last);
      ScanOne(q, RStrip(last));
  }

  /** The text of lines stripped of a final blank line strips to the same text. */
  lemma TextDropBlank(front: seq<string>)
    requires front != [] && front[0] != [] && !IsSpace(front[0][0])
    ensures Strip(Join(front + [""], "\n")) == Strip(Join(front, "\n"))
  {
    var u := Join(front, "\n");
    JoinSnoc(front, "", "\n");
    assert Join(front + [""], "\n") == u + "\n";
    JoinFirst(front, "\n");
    JoinFirst(front + [""], "\n");
    RStripSpace(u, '\n');
  }

  /** The text of lines that starts and ends in a non-space strips to the trimmed last line. */
  lemma TextTrimLast(front: seq<string>, last: string)
    requires RStrip(last) != []
    requires front == [] ==> !IsSpace(last[0])
    requires front != [] ==> front[0] != [] && !IsSpace(front[0][0])
    ensures Strip(Join(front + [last], "\n")) == Join(front + [RStrip(last)], "\n")
  {
    var r := RStrip(last);
    if front == [] {
      assert [last] == front + [last] && [r] == front + [r];
      assert r[0] == last[0];
    } else {
      JoinSnoc(front, last, "\n");
      JoinSnoc(front, r, "\n");
      JoinFirst(front + [last], "\n");
      RStripConcat(Join(front, "\n") + "\n", last);
    }
  }

  /**
   * Stripping the text of a list of lines, as `dsl_to_skidl` does before it splits it, only
   * drops trailing blank lines and the trailing whitespace of the last line left, none of which
   * changes the script.
   */
  lemma {:induction false} ScanText(xs: seq<string>)
    requires xs != [] && xs[0] != [] && LinesOpen(xs) && SingleLines(xs)
    ensures Scan(TextLines(Join(xs, "\n"))) == Scan(xs)
    decreases |xs|
  {
    var front := xs[..|xs| - 1];
    var last := xs[|xs| - 1];
    LinesFront(xs);
    if last == [] {
      ScanText(front);
      ScanTextBlank(front);
    } else {
      ScanTextTrim(front, last);
    }
  }

  /** No line holds a line break. */
  predicate SingleLines(xs: seq<string>) {
    forall k :: 0 <= k < |xs| ==> '\n' !in xs[k]
  }

  /** What the conditions of `ScanText` say about the last line and the lines before it. */
  lemma LinesFront(xs: seq<string>)
    requires xs != [] && xs[0] != [] && LinesOpen(xs) && SingleLines(xs)
    ensures var front := xs[..|xs| - 1];
            && xs == front + [xs[|xs| - 1]]
            && LinesOpen(front) && SingleLines(front) && '\n' !in xs[|xs| - 1]
            && (xs[|xs| - 1] != [] ==> !IsSpace(xs[|xs| - 1][0]))
            && (front != [] ==> front[0] == xs[0] && !IsSpace(front[0][0]))
            && (front == [] ==> !IsSpace(xs[|xs| - 1][0]))
  {
  }

  /** The blank-last-line step of `ScanText`. */
  lemma ScanTextBlank(front: seq<string>)
    requires front != [] && front[0] != [] && !IsSpace(front[0][0])
    requires Scan(TextLines(Join(front, "\n"))) == Scan(front)
    ensures Scan(TextLines(Join(front + [""], "\n"))) == Scan(front + [""])
  {
    TextDropBlank(front);
    ScanDropBlank(front);
  }

  /** The last step of `ScanText`: the last line is not blank. */
  lemma ScanTextTrim(front: seq<string>, last: string)
    requires last != [] && !IsSpace(last[0])
    requires front != [] ==> front[0] != [] && !IsSpace(front[0][0])
    requires '\n' !in last && SingleLines(front)
    ensures Scan(TextLines(Join(front + [last], "\n"))) == Scan(front + [last])
  {
    RStripKeepsFirst(last);
    TextTrimLast(front, last);
    SplitTrimmed(front, last, '\n');
    ScanLastRStrip(front, last);
  }

  // ---------------------------------------------------------------------------------------
  // The imperative generator

  /** `sorted(all_nets)` */
  method SortSet(names: set<string>) returns (r: seq<string>)
    ensures Increasing(r)
    ensures forall x :: x in r <==> x in names
  {
    r := [];
    var rest := names;
    while rest != {}
      invariant Increasing(r)
      invariant forall x :: x in names <==> x in r || x in rest
      decreases |rest|
    {
      var x :| x in rest;
      r := Insert(r, x);
      rest := rest - {x};
    }
  }

  /** `_generate_components` */
  method GenerateComponents(components: seq<ParsedComp>) returns (code: string)
    ensures code == ComponentsCode(components)
  {
    code := "# Component definitions\n";
    var i := 0;
    while i < |components|
      invariant 0 <= i <= |components|
      invariant code == "# Component definitions\n" + ComponentDecls(components[..i])
    {
      code := code + ComponentDecl(components[i]);
      assert components[..i + 1][..i] == components[..i];
      TextAssoc("# Component definitions\n", ComponentDecls(components[..i]), ComponentDecl(components[i]));
      i := i + 1;
    }
    assert components[..i] == components;
    code := code + "\n";
  }

  /** The inner loop of `_generate_connections`: one component's pins, numbered from 1. */
  method ConnectPins(compId: string, nets: seq<string>) returns (code: string)
    ensures code == Pins(compId, nets)
  {
    code := "";
    var pinIdx := 1;
    while pinIdx <= |nets|
      invariant 1 <= pinIdx <= |nets| + 1
      invariant code == Pins(compId, nets[..pinIdx - 1])
    {
      var netName := nets[pinIdx - 1];
      ghost var before := code;
      if netName != "" {
        code := code + (compId + "[" + NatToString(pinIdx) + "] += " + netName + "\n");
      }
      assert code == before + PinLine(compId, pinIdx, netName);
      PinsStep(compId, nets, pinIdx);
      pinIdx := pinIdx + 1;
    }
    assert nets[..pinIdx - 1] == nets;
  }

  /** The first loop of `_generate_connections`: every net name any component mentions. */
  method CollectNets(components: seq<ParsedComp>) returns (allNets: set<string>)
    ensures forall x :: x in allNets <==> x in AllNets(components)
  {
    allNets := {};
    var i := 0;
    while i < |components|
      invariant 0 <= i <= |components|
      invariant forall x :: x in allNets <==> x in AllNets(components[..i])
    {
      assert components[..i + 1][..i] == components[..i];
      allNets := allNets + (set n | n in components[i].nets);
      i := i + 1;
    }
    assert components[..i] == components;
  }

  /** The second loop of `_generate_connections`: one `Net` per non-empty name, in order. */
  method DeclareNets(names: seq<string>) returns (code: string)
    ensures code == NetDecls(names)
  {
    code := "";
    var k := 0;
    while k < |names|
      invariant 0 <= k <= |names|
      invariant code == NetDecls(names[..k])
    {
      var netName := names[k];
      if netName != "" {
        code := code + (netName + " = Net('" + netName + "')\n");
      }
      assert names[..k + 1][..k] == names[..k];
      k := k + 1;
    }
    assert names[..k] == names;
  }

  /** The third loop of `_generate_connections`: every component's pin connections. */
  method ConnectAll(components: seq<ParsedComp>) returns (code: string)
    ensures code == Connects(components)
  {
    code := "";
    var i := 0;
    while i < |components|
      invariant 0 <= i <= |components|
      invariant code == Connects(components[..i])
    {
      var pins := ConnectPins(components[i].id, components[i].nets);
      code := code + pins;
      assert components[..i + 1][..i] == components[..i];
      i := i + 1;
    }
    assert components[..i] == components;
  }

  /** `_generate_connections` */
  method GenerateConnections(components: seq<ParsedComp>) returns (code: string)
    ensures code == ConnectionsCode(components)
  {
    var allNets := CollectNets(components);
    var names := SortSet(allNets);
    IncreasingUnique(names, SortedNames(AllNets(components)));
    var decls := DeclareNets(names);
    var connects := ConnectAll(components);
    code := "# Net connections\n" + decls + "\n# Connect components to nets\n" + connects + "\n";
  }

  /** The parse loop of `dsl_to_skidl`: the lines read in order, stopping at the first error. */
  method ParseLines(lines: seq<string>) returns (r: Result<Parsed, PyError>)
    ensures r == Scan(lines)
  {
    var components: seq<ParsedComp> := [];
    var constraints: seq<(string, string)> := [];
    var i := 0;
    while i < |lines|
      invariant 0 <= i <= |lines|
      invariant ScanFrom(Parsed(components, constraints), lines[i..]) == Scan(lines)
    {
      ghost var p := Parsed(components, constraints);
      ScanStep(p, lines, i);
      var line := Strip(lines[i]);
      if StartsWith(line, "COMP:") {
        var c := ParseComponent(line);
        if c.Failure? {
          return Failure(c.error);
        }
        components := components + [c.value];
      } else if StartsWith(line, "CONSTRAINT:") {
        var kv := ParseConstraint(line);
        if kv.Failure? {
          return Failure(kv.error);
        }
        constraints := constraints + [kv.value];
      }
      assert ParseLine(p, lines[i]) == Success(Parsed(components, constraints));
      i := i + 1;
    }
    return Success(Parsed(components, constraints));
  }

  /** `dsl_to_skidl`: the first line that fails to parse ends the call with its error. */
  method DslToSkidl(dslString: string) returns (r: Result<string, PyError>)
    ensures r == Skidl(dslString)
  {
    var lines := SplitOn(Strip(dslString), "\n");
    var parsed := ParseLines(lines);
    if parsed.Failure? {
      return Failure(parsed.error);
    }
    var components := parsed.value.components;
    var skidlCode := Header;
    var componentCode := GenerateComponents(components);
    skidlCode := skidlCode + componentCode;
    var connectionCode := GenerateConnections(components);
    skidlCode := skidlCode + connectionCode;
    skidlCode := skidlCode + Footer;
    return Success(skidlCode);
  }
}

=== FILE: strings.dfy ===
/**
 * The parts of Python's `str` that the modelled code relies on: character classes,
 * `strip`, `lower`, `upper`, `in`, `startswith`, `endswith`, `find`, `split`, `join`
 * and `replace`. Letters and digits are ASCII; whitespace is Python's full
 * `str.isspace()` set, which is also what `\s`, `strip()` and `split()` use.
 */
module Strings {
  import opened Wrappers

  /** `c.isspace()` for a Python `str` character. */
  predicate IsSpace(c: char) {
    || c in {' ', '\t', '\n', '\r', '\U{000B}', '\U{000C}', '\U{001C}', '\U{001D}', '\U{001E}',
             '\U{001F}', '\U{0085}', '\U{00A0}', '\U{1680}', '\U{2028}', '\U{2029}', '\U{202F}',
             '\U{205F}', '\U{3000}'}
    || ('\U{2000}' <= c <= '\U{200A}')
  }

  predicate IsDigit(c: char) { '0' <= c <= '9' }
  predicate IsUpperAscii(c: char) { 'A' <= c <= 'Z' }
  predicate IsLowerAscii(c: char) { 'a' <= c <= 'z' }
  predicate IsAlpha(c: char) { IsUpperAscii(c) || IsLowerAscii(c) }
  predicate IsAlnum(c: char) { IsAlpha(c) || IsDigit(c) }
  /** `\w` of a regular expression. */
  predicate IsWordChar(c: char) { IsAlnum(c) || c == '_' }

  function LowerChar(c: char): (r: char)
    ensures IsUpperAscii(c) ==> IsLowerAscii(r) && r as int == c as int + 32
    ensures !IsUpperAscii(c) ==> r == c
  {
    if IsUpperAscii(c) then (c as int + 32) as char else c
  }

  function UpperChar(c: char): (r: char)
    ensures IsLowerAscii(c) ==> IsUpperAscii(r) && r as int == c as int - 32
    ensures !IsLowerAscii(c) ==> r == c
  {
    if IsLowerAscii(c) then (c as int - 32) as char else c
  }

  /** `s.lower()` */
  function Lower(s: string): (r: string)
    ensures |r| == |s|
    ensures forall i :: 0 <= i < |s| ==> r[i] == LowerChar(s[i])
  {
    seq(|s|, i requires 0 <= i < |s| => LowerChar(s[i]))
  }

  /** `s.upper()` */
  function Upper(s: string): (r: string)
    ensures |r| == |s|
    ensures forall i :: 0 <= i < |s| ==> r[i] == UpperChar(s[i])
  {
    seq(|s|, i requires 0 <= i < |s| => UpperChar(s[i]))
  }

  lemma LowerAppend(a: string, b: string)
    ensures Lower(a + b) == Lower(a) + Lower(b)
  {
    assert forall i :: 0 <= i < |a + b| ==> Lower(a + b)[i] == (Lower(a) + Lower(b))[i];
  }

  predicate StartsWith(s: string, p: string) { |p| <= |s| && s[..|p|] == p }
  predicate EndsWith(s: string, p: string) { |p| <= |s| && s[|s| - |p|..] == p }

  /** `p` occurs in `s` starting at index `i`. */
  predicate OccursAt(s: string, p: string, i: int) {
    0 <= i && i + |p| <= |s| && s[i..i + |p|] == p
  }

  /** `p in s` */
  predicate Contains(s: string, p: string) {
    exists i | 0 <= i <= |s| - |p| :: OccursAt(s, p, i)
  }

  /** `any(p in text for p in patterns)` */
  function AnyIn(text: string, patterns: seq<string>): (b: bool)
    ensures b <==> exists k :: 0 <= k < |patterns| && Contains(text, patterns[k])
  {
    if patterns == [] then false
    else if Contains(text, patterns[0]) then true
    else
      assert forall k :: 0 < k < |patterns| ==> patterns[k] == patterns[1..][k - 1];
      AnyIn(text, patterns[1..])
  }

  /** The index of the first pattern, in list order, that occurs in `text`. */
  function FirstIn(text: string, patterns: seq<string>): (r: Option<nat>)
    ensures r.Some? ==> r.value < |patterns| && Contains(text, patterns[r.value])
    ensures r.Some? ==> forall j :: 0 <= j < r.value ==> !Contains(text, patterns[j])
    ensures r.None? <==> !AnyIn(text, patterns)
  {
    FirstInFrom(text, patterns, 0)
  }

  /** None of the first i patterns occurs in `text`. */
  predicate NoneBefore(text: string, patterns: seq<string>, i: nat)
    requires i <= |patterns|
  {
    forall j :: 0 <= j < i ==> !Contains(text, patterns[j])
  }

  /** The pattern at i occurs and none before it does: it is the first. */
  lemma FirstInIs(text: string, patterns: seq<string>, i: nat)
    requires i < |patterns| && NoneBefore(text, patterns, i) && Contains(text, patterns[i])
    ensures FirstIn(text, patterns) == Some(i)
  {
  }

  /** No pattern occurs, so there is no first one. */
  lemma NoneInAll(text: string, patterns: seq<string>)
    requires NoneBefore(text, patterns, |patterns|)
    ensures !AnyIn(text, patterns) && FirstIn(text, patterns) == None
  {
  }

  function FirstInFrom(text: string, patterns: seq<string>, i: nat): (r: Option<nat>)
    requires i <= |patterns|
    requires forall j :: 0 <= j < i ==> !Contains(text, patterns[j])
    ensures r.Some? ==> i <= r.value < |patterns| && Contains(text, patterns[r.value])
    ensures r.Some? ==> forall j :: 0 <= j < r.value ==> !Contains(text, patterns[j])
    ensures r.None? <==> forall j :: 0 <= j < |patterns| ==> !Contains(text, patterns[j])
    decreases |patterns| - i
  {
    if i == |patterns| then None
    else if Contains(text, patterns[i]) then Some(i)
    else FirstInFrom(text, patterns, i + 1)
  }

  /** `s.find(p, i)`: the first occurrence at or after `i`, or -1. */
  function FindFrom(s: string, p: string, i: nat): (r: int)
    requires p != []
    ensures r == -1 || (i <= r <= |s| - |p| && OccursAt(s, p, r))
    ensures forall j :: i <= j && (r == -1 || j < r) ==> !OccursAt(s, p, j)
    decreases |s| - i
  {
    if i + |p| > |s| then -1
    else if OccursAt(s, p, i) then i
    else FindFrom(s, p, i + 1)
  }

  /** `s.find(p)` */
  function Find(s: string, p: string): (r: int)
    requires p != []
    ensures r == -1 || (0 <= r <= |s| - |p| && OccursAt(s, p, r))
    ensures forall j :: 0 <= j && (r == -1 || j < r) ==> !OccursAt(s, p, j)
  {
    FindFrom(s, p, 0)
  }

  lemma FindIsContains(s: string, p: string)
    requires p != []
    ensures Find(s, p) >= 0 <==> Contains(s, p)
  {
  }

  /** `s.lstrip()` */
  function LStrip(s: string): (r: string)
    ensures |r| <= |s| && r == s[|s| - |r|..]
    ensures r == [] || !IsSpace(r[0])
    ensures forall i :: 0 <= i < |s| - |r| ==> IsSpace(s[i])
  {
    if s != [] && IsSpace(s[0]) then LStrip(s[1..]) else s
  }

  /** `s.rstrip()` */
  function RStrip(s: string): (r: string)
    ensures |r| <= |s| && r == s[..|r|]
    ensures r == [] || !IsSpace(r[|r| - 1])
    ensures forall i :: |r| <= i < |s| ==> IsSpace(s[i])
  {
    if s != [] && IsSpace(s[|s| - 1]) then RStrip(s[..|s| - 1]) else s
  }

  /** Neither the first nor the last character is whitespace. */
  predicate NoEdgeSpace(s: string) {
    s == [] || (!IsSpace(s[0]) && !IsSpace(s[|s| - 1]))
  }

  /** `s.strip()` */
  function Strip(s: string): (r: string)
    ensures |r| <= |s|
    ensures NoEdgeSpace(r)
  {
    RStrip(LStrip(s))
  }

  lemma StripNoEdgeSpace(s: string)
    requires NoEdgeSpace(s)
    ensures Strip(s) == s
  {
  }

  lemma LowerSlice(s: string, i: nat, j: nat)
    requires i <= j <= |s|
    ensures Lower(s[i..j]) == Lower(s)[i..j]
  {
    assert forall k :: 0 <= k < j - i ==> Lower(s[i..j])[k] == Lower(s)[i..j][k];
  }

  /** Two texts that lower-case alike have their whitespace at the same places. */
  lemma SameCaseSpace(a: string, b: string, i: nat)
    requires Lower(a) == Lower(b) && i < |a|
    ensures IsSpace(a[i]) <==> IsSpace(b[i])
  {
    assert LowerChar(a[i]) == LowerChar(b[i]);
  }

  lemma {:induction false} LStripSameCase(a: string, b: string)
    requires Lower(a) == Lower(b)
    ensures Lower(LStrip(a)) == Lower(LStrip(b))
    decreases |a|
  {
    if a != [] {
      SameCaseSpace(a, b, 0);
      if IsSpace(a[0]) {
        LowerSlice(a, 1, |a|);
        LowerSlice(b, 1, |b|);
        LStripSameCase(a[1..], b[1..]);
      }
    }
  }

  lemma {:induction false} RStripSameCase(a: string, b: string)
    requires Lower(a) == Lower(b)
    ensures Lower(RStrip(a)) == Lower(RStrip(b))
    decreases |a|
  {
    if a != [] {
      SameCaseSpace(a, b, |a| - 1);
      if IsSpace(a[|a| - 1]) {
        var n := |a| - 1;
        LowerSlice(a, 0, n);
        LowerSlice(b, 0, n);
        RStripSameCase(a[..n], b[..n]);
      }
    }
  }

  /** `s.strip().lower()` sees only the lower-cased text. */
  lemma StripSameCase(a: string, b: string)
    requires Lower(a) == Lower(b)
    ensures Lower(Strip(a)) == Lower(Strip(b))
  {
    LStripSameCase(a, b);
    RStripSameCase(LStrip(a), LStrip(b));
  }

  /** `s.strip(chars)` for an explicit set of characters. */
  function StripChars(s: string, cs: set<char>): (r: string)
    ensures |r| <= |s|
    decreases |s|
  {
    if s != [] && s[0] in cs then StripChars(s[1..], cs)
    else if s != [] && s[|s| - 1] in cs then StripChars(s[..|s| - 1], cs)
    else s
  }

  /** Length of the run of non-space characters at the start of `s`. */
  function WordLen(s: string): (n: nat)
    ensures n <= |s|
    ensures forall i :: 0 <= i < n ==> !IsSpace(s[i])
    ensures n == |s| || IsSpace(s[n])
  {
    if s == [] || IsSpace(s[0]) then 0 else 1 + WordLen(s[1..])
  }

  /** A non-empty run of non-space characters. */
  predicate IsWord(w: string) {
    w != [] && forall i :: 0 <= i < |w| ==> !IsSpace(w[i])
  }

  /** `s.split()` with no separator: the maximal runs of non-space characters. */
  function Words(s: string): (r: seq<string>)
    ensures forall k :: 0 <= k < |r| ==> IsWord(r[k])
    decreases |s|
  {
    var t := LStrip(s);
    if t == [] then []
    else
      var n := WordLen(t);
      FirstWord(t);
      var rest := Words(t[n..]);
      WordInFront(t[..n], rest);
      [t[..n]] + rest
  }

  /** A text that starts with a non-space character starts with a word. */
  lemma FirstWord(t: string)
    requires t != [] && !IsSpace(t[0])
    ensures 0 < WordLen(t) && IsWord(t[..WordLen(t)])
  {
    var n := WordLen(t);
    assert forall i :: 0 <= i < n ==> t[..n][i] == t[i];
  }

  /** A word in front of a list of words gives a list of words. */
  lemma WordInFront(w: string, rest: seq<string>)
    requires IsWord(w) && forall k :: 0 <= k < |rest| ==> IsWord(rest[k])
    ensures forall k :: 0 <= k < |[w] + rest| ==> IsWord(([w] + rest)[k])
  {
    forall k | 0 <= k < |[w] + rest| ensures IsWord(([w] + rest)[k]) {
      if k > 0 { assert ([w] + rest)[k] == rest[k - 1]; }
    }
  }

  /** `sep.join(xs)` */
  function Join(xs: seq<string>, sep: string): string
  {
    if xs == [] then ""
    else if |xs| == 1 then xs[0]
    else xs[0] + sep + Join(xs[1..], sep)
  }

  /** `s.split(sep)` for a non-empty separator. */
  function SplitOn(s: string, sep: string): (r: seq<string>)
    requires sep != []
    ensures |r| >= 1
    decreases |s|
  {
    var i := Find(s, sep);
    if i < 0 then [s] else [s[..i]] + SplitOn(s[i + |sep|..], sep)
  }

  /** `s.replace(p, rep)`: leftmost occurrences, scanned left to right, never overlapping. */
  function Replace(s: string, p: string, rep: string): string
    requires p != []
    decreases |s|
  {
    if StartsWith(s, p) then rep + Replace(s[|p|..], p, rep)
    else if s == [] then []
    else [s[0]] + Replace(s[1..], p, rep)
  }

  /** `s.count(c)` for one character. */
  function CountChar(s: string, c: char): nat
  {
    if s == [] then 0 else (if s[0] == c then 1 else 0) + CountChar(s[1..], c)
  }

  lemma {:induction false} CountCharConcat(a: string, b: string, c: char)
    ensures CountChar(a + b, c) == CountChar(a, c) + CountChar(b, c)
  {
    if a == [] {
      assert a + b == b;
    } else {
      assert (a + b)[0] == a[0];
      assert (a + b)[1..] == a[1..] + b;
      CountCharConcat(a[1..], b, c);
    }
  }

  /** The characters of `s`, each as a one-character string (what iterating a `str` yields). */
  function Chars(s: string): (r: seq<string>)
    ensures |r| == |s|
    ensures forall i :: 0 <= i < |s| ==> r[i] == [s[i]]
  {
    seq(|s|, i requires 0 <= i < |s| => [s[i]])
  }

  /** Decimal text of a natural number, as `str(n)` prints it. */
  function NatToString(n: nat): (r: string)
    ensures r != [] && forall i :: 0 <= i < |r| ==> IsDigit(r[i])
  {
    if n < 10 then [('0' as int + n) as char]
    else NatToString(n / 10) + [('0' as int + n % 10) as char]
  }

  // ---------------------------------------------------------------------------------------
  // Splitting what was joined

  /** Regrouping a concatenation of lists of lines. */
  lemma LinesAssoc(a: seq<string>, b: seq<string>, c: seq<string>)
    ensures (a + b) + c == a + (b + c)
  {
  }

  /** A word followed by whitespace (or nothing) is the first word. */
  lemma {:induction false} WordLenConcat(w: string, rest: string)
    requires IsWord(w) && (rest == [] || IsSpace(rest[0]))
    ensures WordLen(w + rest) == |w|
    decreases |w|
  {
    assert (w + rest)[0] == w[0];
    if |w| == 1 {
      assert (w + rest)[1..] == rest;
    } else {
      assert (w + rest)[1..] == w[1..] + rest;
      WordLenConcat(w[1..], rest);
    }
  }

  /** `(w + rest).split()` starts with w when whitespace or nothing follows it. */
  lemma WordsCons(w: string, rest: string)
    requires IsWord(w) && (rest == [] || IsSpace(rest[0]))
    ensures Words(w + rest) == [w] + Words(rest)
  {
    assert (w + rest)[0] == w[0];
    assert LStrip(w + rest) == w + rest;
    WordLenConcat(w, rest);
    assert (w + rest)[..|w|] == w;
    assert (w + rest)[|w|..] == rest;
  }

  /** Leading whitespace does not change `split()`. */
  lemma WordsSkipSpace(s: string)
    requires s != [] && IsSpace(s[0])
    ensures Words(s) == Words(s[1..])
  {
    assert LStrip(s) == LStrip(s[1..]);
  }

  /** Every whitespace character is a ' ' with a non-space character right before it. */
  predicate Spaced(s: string) {
    forall k :: 0 <= k < |s| && IsSpace(s[k]) ==> s[k] == ' ' && 0 < k && !IsSpace(s[k - 1])
  }

  /** Text that does not end in a blank. */
  predicate NoTrailingSpace(r: string) { r == [] || !IsSpace(r[|r| - 1]) }

  /** A spaced text cut just before a non-blank is spaced again. */
  lemma SpacedTail(r: string, m: nat)
    requires Spaced(r) && m < |r| && !IsSpace(r[m])
    ensures Spaced(r[m..])
  {
    var u := r[m..];
    forall k | 0 <= k < |u| && IsSpace(u[k])
      ensures u[k] == ' ' && 0 < k && !IsSpace(u[k - 1])
    {
      assert u[k] == r[m + k];
    }
  }

  /** A text cut at a character: the part before, that character, the part after. */
  lemma CutAt(s: string, i: nat)
    requires i < |s|
    ensures s == s[..i] + [s[i]] + s[i + 1..]
    ensures s[i..] == [s[i]] + s[i + 1..]
  {
  }

  lemma CutAtBlank(s: string, i: nat)
    requires i < |s| && s[i] == ' '
    ensures s == s[..i] + " " + s[i + 1..]
  {
    CutAt(s, i);
  }

  /** Spaced text of several words: the first word, one blank, then the remaining words. */
  lemma SpacedSplit(r: string)
    requires Spaced(r) && r != [] && NoTrailingSpace(r) && WordLen(r) < |r|
    ensures var n := WordLen(r);
            && 1 <= n < |r| - 1
            && r[n] == ' '
            && Words(r) == [r[..n]] + Words(r[n + 1..])
  {
    var n := WordLen(r);
    var w := r[..n];
    var rest := r[n..];
    assert r == w + rest;
    WordsCons(w, rest);
    assert IsSpace(r[n]);
    CutAt(r, n);
    assert rest[1..] == r[n + 1..];
    WordsSkipSpace(rest);
  }

  /** What follows the first blank of spaced text is spaced text not starting with a blank. */
  lemma SpacedRest(r: string)
    requires Spaced(r) && r != [] && NoTrailingSpace(r) && WordLen(r) < |r|
    ensures var n := WordLen(r);
            && n + 1 < |r|
            && Spaced(r[n + 1..]) && NoTrailingSpace(r[n + 1..]) && !IsSpace(r[n + 1])
  {
    var n := WordLen(r);
    assert IsSpace(r[n]);
    assert n + 1 < |r| && !IsSpace(r[n + 1]);
    SpacedTail(r, n + 1);
    var u := r[n + 1..];
    assert u[|u| - 1] == r[|r| - 1];
  }

  /** A spaced text with no blank at its end has words, the first ending at the first blank. */
  lemma SpacedWords(r: string)
    requires Spaced(r) && r != [] && NoTrailingSpace(r)
    ensures Words(r) != [] && Words(r)[0] == r[..WordLen(r)]
  {
    var n := WordLen(r);
    assert r == r[..n] + r[n..];
    WordsCons(r[..n], r[n..]);
  }

  lemma JoinCons(w: string, ws: seq<string>, sep: string)
    requires ws != []
    ensures Join([w] + ws, sep) == w + sep + Join(ws, sep)
  {
    assert ([w] + ws)[1..] == ws;
  }

  /** `' '.join(s.split()) == s` for text spaced by single blanks, with no blank at its end. */
  lemma {:induction false} SpacedJoinWords(r: string)
    requires Spaced(r) && NoTrailingSpace(r)
    ensures Join(Words(r), " ") == r
    decreases |r|
  {
    if r != [] {
      var n := WordLen(r);
      if n == |r| {
        SpacedWords(r);
        assert r[n..] == [];
        WordsCons(r, []);
        assert r + [] == r;
      } else {
        SpacedSplit(r);
        SpacedRest(r);
        CutAtBlank(r, n);
        var u := r[n + 1..];
        SpacedJoinWords(u);
        SpacedWords(u);
        JoinCons(r[..n], Words(u), " ");
      }
    }
  }

  /** A one-character pattern occurs exactly where that character is. */
  lemma OccursChar(s: string, c: char, i: int)
    ensures OccursAt(s, [c], i) <==> 0 <= i < |s| && s[i] == c
  {
    if 0 <= i < |s| {
      assert s[i..i + 1] == [s[i]];
    }
  }

  /** In `a + c + b`, the first c is the one after a, when a has none. */
  lemma FindCharAfter(a: string, c: char, b: string)
    requires c !in a
    ensures Find(a + [c] + b, [c]) == |a|
  {
    var s := a + [c] + b;
    var r := Find(s, [c]);
    OccursChar(s, c, |a|);
    OccursChar(s, c, r);
  }

  /** No occurrence of a character it lacks. */
  lemma FindCharAbsent(a: string, c: char)
    requires c !in a
    ensures Find(a, [c]) == -1
  {
    var r := Find(a, [c]);
    OccursChar(a, c, r);
  }

  /** `s.split(c)` undoes `c.join(xs)` when no element holds the separator. */
  lemma {:induction false} SplitJoin(xs: seq<string>, c: char)
    requires xs != [] && forall k :: 0 <= k < |xs| ==> c !in xs[k]
    ensures SplitOn(Join(xs, [c]), [c]) == xs
    decreases |xs|
  {
    if |xs| == 1 {
      FindCharAbsent(xs[0], c);
    } else {
      var rest := Join(xs[1..], [c]);
      assert Join(xs, [c]) == xs[0] + [c] + rest;
      FindCharAfter(xs[0], c, rest);
      var s := xs[0] + [c] + rest;
      assert s[..|xs[0]|] == xs[0];
      assert s[|xs[0]| + 1..] == rest;
      SplitJoin(xs[1..], c);
      assert xs == [xs[0]] + xs[1..];
    }
  }

  /** `rep + ...`: replacing starts by replacing a leading occurrence. */
  lemma ReplaceFront(p: string, s: string, rep: string)
    requires p != []
    ensures Replace(p + s, p, rep) == rep + Replace(s, p, rep)
  {
    assert (p + s)[..|p|] == p;
    assert (p + s)[|p|..] == s;
  }

  /** Text lacking one of the pattern's characters is left as it is. */
  lemma {:induction false} ReplaceAbsent(s: string, p: string, rep: string, x: char)
    requires p != [] && x in p && x !in s
    ensures Replace(s, p, rep) == s
    decreases |s|
  {
    if s != [] {
      ReplaceAbsent(s[1..], p, rep, x);
      assert s == [s[0]] + s[1..];
    }
  }

  /** The elements after the first, each behind a prefix b. */
  function Led(xs: seq<string>, b: string): (r: seq<string>)
    ensures |r| == |xs|
    ensures forall k :: 0 <= k < |xs| ==> r[k] == if k == 0 then xs[0] else b + xs[k]
  {
    seq(|xs|, k requires 0 <= k < |xs| => if k == 0 then xs[0] else b + xs[k])
  }

  lemma JoinHeadPrefix(b: string, y: string, zs: seq<string>, a: string)
    ensures Join([b + y] + zs, a) == b + Join([y] + zs, a)
  {
    if zs != [] {
      assert ([b + y] + zs)[1..] == zs;
      assert ([y] + zs)[1..] == zs;
    }
  }

  /** Joining with `a + b` is joining with a after putting b before every element but the first. */
  lemma {:induction false} JoinSplitSeparator(xs: seq<string>, a: string, b: string)
    requires xs != []
    ensures Join(xs, a + b) == Join(Led(xs, b), a)
    decreases |xs|
  {
    if |xs| > 1 {
      var tail := xs[1..];
      JoinSplitSeparator(tail, a, b);
      var lt := Led(tail, b);
      var l := Led(xs, b);
      assert l[1..] == [b + lt[0]] + lt[1..];
      JoinHeadPrefix(b, lt[0], lt[1..], a);
      assert [lt[0]] + lt[1..] == lt;
      assert Join(l, a) == xs[0] + a + (b + Join(lt, a));
    }
  }

  // ---------------------------------------------------------------------------------------
  // Where a pattern can occur, and what `split` then yields

  lemma TextAssoc(a: string, b: string, c: string)
    ensures (a + b) + c == a + (b + c)
  {
  }

  /** The characters of an occurrence are the pattern's. */
  lemma OccursAtChar(s: string, p: string, i: int, k: int)
    ensures OccursAt(s, p, i) && 0 <= k < |p| ==> s[i + k] == p[k]
  {
    if OccursAt(s, p, i) && 0 <= k < |p| {
      assert s[i..i + |p|][k] == s[i + k];
    }
  }

  /** A pattern holding a character the text lacks does not occur in it. */
  lemma FindAbsent(s: string, p: string, x: char)
    requires p != [] && x in p && x !in s
    ensures Find(s, p) == -1 && !Contains(s, p)
  {
    var k :| 0 <= k < |p| && p[k] == x;
    var r := Find(s, p);
    OccursAtChar(s, p, r, k);
    FindIsContains(s, p);
  }

  /** In `a + [c] + b` with c in neither part, c is only at index |a|. */
  lemma CharOnlyAt(a: string, c: char, b: string, k: int)
    requires c !in a && c !in b
    ensures 0 <= k < |a + [c] + b| && (a + [c] + b)[k] == c ==> k == |a|
  {
    if 0 <= k < |a| {
      assert (a + [c] + b)[k] == a[k];
    } else if |a| < k < |a + [c] + b| {
      assert (a + [c] + b)[k] == b[k - |a| - 1];
    }
  }

  /** The first occurrence is at q when there is one at q and none before it. */
  lemma FindAt(s: string, p: string, q: nat)
    requires p != [] && OccursAt(s, p, q)
    requires forall i :: 0 <= i < q ==> !OccursAt(s, p, i)
    ensures Find(s, p) == q
  {
  }

  /** `s.split(sep)[1]` when sep occurs in s. */
  function After(s: string, sep: string): (r: string)
    requires sep != [] && Contains(s, sep)
  {
    FindIsContains(s, sep);
    SplitOn(s, sep)[1]
  }

  /** The piece after a first occurrence at q runs to the next occurrence. */
  lemma AfterAt(s: string, sep: string, q: nat)
    requires sep != [] && Find(s, sep) == q
    ensures Contains(s, sep) && q + |sep| <= |s| && After(s, sep) == SplitOn(s[q + |sep|..], sep)[0]
  {
    var rest := SplitOn(s[q + |sep|..], sep);
    SplitAt(s, sep);
    assert ([s[..q]] + rest)[1] == rest[0];
    FindIsContains(s, sep);
  }

  lemma SplitAt(s: string, sep: string)
    requires sep != [] && Find(s, sep) >= 0
    ensures SplitOn(s, sep) == [s[..Find(s, sep)]] + SplitOn(s[Find(s, sep) + |sep|..], sep)
  {
  }

  /** A text the separator does not occur in splits into itself alone. */
  lemma SplitNone(s: string, sep: string)
    requires sep != [] && Find(s, sep) == -1
    ensures SplitOn(s, sep) == [s]
  {
  }

  /** `[x.strip() for x in xs]` */
  function StripAll(xs: seq<string>): (r: seq<string>)
    ensures |r| == |xs|
    ensures forall k :: 0 <= k < |xs| ==> r[k] == Strip(xs[k])
  {
    seq(|xs|, k requires 0 <= k < |xs| => Strip(xs[k]))
  }

  /** Stripping a blank followed by text with no whitespace at its edges. */
  lemma StripBlankFront(s: string)
    requires NoEdgeSpace(s)
    ensures Strip(" " + s) == s
  {
    assert (" " + s)[1..] == s;
  }

  /** Stripping keeps a first character that is not whitespace. */
  lemma StripKeepsFirst(s: string)
    requires s != [] && !IsSpace(s[0])
    ensures Strip(s) != [] && Strip(s)[0] == s[0]
  {
    var r := RStrip(s);
    assert LStrip(s) == s;
    assert |r| > 0;
  }

  /** What strip leaves is part of the text. */
  lemma StripInside(s: string, c: char)
    requires c !in s
    ensures c !in Strip(s)
  {
    var l := LStrip(s);
    var r := RStrip(l);
    forall i | 0 <= i < |r| ensures r[i] != c {
      assert r[i] == l[i] == s[|s| - |l| + i];
    }
  }

  /** A spaced text has no whitespace in front. */
  lemma SpacedFront(s: string)
    requires Spaced(s) && s != []
    ensures !IsSpace(s[0])
  {
  }

  lemma {:induction false} SpacedConcat(a: string, b: string)
    requires Spaced(a) && Spaced(b)
    ensures Spaced(a + b)
  {
    forall k | 0 <= k < |a + b| && IsSpace((a + b)[k])
      ensures (a + b)[k] == ' ' && 0 < k && !IsSpace((a + b)[k - 1])
    {
      if k < |a| {
        assert (a + b)[k] == a[k];
        assert (a + b)[k - 1] == a[k - 1];
      } else {
        assert (a + b)[k] == b[k - |a|];
        if k > |a| {
          assert (a + b)[k - 1] == b[k - 1 - |a|];
        }
      }
    }
  }

  /** Joining spaced texts with a spaced separator gives a spaced text. */
  lemma {:induction false} JoinSpaced(xs: seq<string>, sep: string)
    requires Spaced(sep) && forall k :: 0 <= k < |xs| ==> Spaced(xs[k])
    ensures Spaced(Join(xs, sep))
    decreases |xs|
  {
    if |xs| > 1 {
      JoinSpaced(xs[1..], sep);
      SpacedConcat(xs[0], sep);
      SpacedConcat(xs[0] + sep, Join(xs[1..], sep));
    }
  }

  /** Stripping the characters cs from a text wrapped in two of them. */
  lemma StripWrapped(s: string, cs: set<char>, open: char, close: char)
    requires open in cs && close in cs
    requires forall k :: 0 <= k < |s| ==> s[k] !in cs
    ensures StripChars([open] + s + [close], cs) == s
  {
    var w := [open] + s + [close];
    var t := s + [close];
    assert w[0] == open && w[1..] == t;
    assert StripChars(w, cs) == StripChars(t, cs);
    if s == [] {
      assert t == [close] && t[1..] == [];
    } else {
      assert t[0] == s[0] && t[|t| - 1] == close && t[..|t| - 1] == s;
      assert StripChars(t, cs) == StripChars(s, cs);
      assert s[|s| - 1] !in cs;
    }
  }

  /** Splitting on one character: one more piece than occurrences, none holding the character. */
  lemma {:induction false} SplitPieces(s: string, c: char)
    ensures |SplitOn(s, [c])| == CountChar(s, c) + 1
    ensures forall k :: 0 <= k < |SplitOn(s, [c])| ==> c !in SplitOn(s, [c])[k]
    decreases |s|
  {
    var i := Find(s, [c]);
    if i < 0 {
      FindCharCount(s, c);
    } else {
      OccursChar(s, c, i);
      var front := s[..i];
      var back := s[i + 1..];
      assert s == front + [c] + back;
      forall j | 0 <= j < |front| ensures front[j] != c {
        OccursChar(s, c, j);
      }
      FindCharCount(front, c);
      FindCharAbsent(front, c);
      CountCharConcat(front + [c], back, c);
      CountCharConcat(front, [c], c);
      SplitPieces(back, c);
    }
  }

  /** A character that is never found is never counted. */
  lemma FindCharCount(s: string, c: char)
    requires Find(s, [c]) == -1 || c !in s
    ensures CountChar(s, c) == 0 && c !in s
  {
    forall j | 0 <= j < |s| ensures s[j] != c {
      OccursChar(s, c, j);
    }
    CountCharAbsent(s, c);
  }

  lemma CountCharAbsent(s: string, c: char)
    requires c !in s
    ensures CountChar(s, c) == 0
  {
  }

  /** A blank after a non-blank keeps a text spaced. */
  lemma SpacedBlank(a: string)
    requires Spaced(a) && a != [] && !IsSpace(a[|a| - 1])
    ensures Spaced(a + " ")
  {
    var s := a + " ";
    forall k | 0 <= k < |s| && IsSpace(s[k]) ensures s[k] == ' ' && 0 < k && !IsSpace(s[k - 1]) {
      if k < |a| {
        assert s[k] == a[k] && s[k - 1] == a[k - 1];
      } else {
        assert s[k - 1] == a[|a| - 1];
      }
    }
  }

  lemma DropBlank(s: string)
    ensures (" " + s)[1..] == s && (" " + s)[0] == ' '
  {
  }

  /** A word and a blank: `split()` gives the word, then the words of what follows. */
  lemma WordThenBlank(w: string, rest: string)
    requires IsWord(w)
    ensures Words(w + (" " + rest)) == [w] + Words(rest)
  {
    WordsCons(w, " " + rest);
    DropBlank(rest);
    WordsSkipSpace(" " + rest);
  }

  lemma ConsTwo(a: string, b: string, w: seq<string>)
    ensures [a] + ([b] + w) == [a, b] + w
  {
  }

  // ---------------------------------------------------------------------------------------
  // Stripping a text made of lines

  /** The only prefix that ends in a non-space and leaves only whitespace behind is `rstrip`'s. */
  lemma {:induction false} RStripIs(s: string, r: string)
    requires |r| <= |s| && r == s[..|r|] && NoTrailingSpace(r)
    requires forall i :: |r| <= i < |s| ==> IsSpace(s[i])
    ensures RStrip(s) == r
    decreases |s|
  {
    if |s| > |r| {
      var t := s[..|s| - 1];
      assert r == t[..|r|];
      RStripIs(t, r);
    } else {
      assert r == s;
    }
  }

  /** `(x + c).lstrip()` for a whitespace character c. */
  lemma {:induction false} LStripSnoc(x: string, c: char)
    requires IsSpace(c)
    ensures LStrip(x + [c]) == if LStrip(x) == [] then [] else LStrip(x) + [c]
    decreases |x|
  {
    if x == [] {
      assert [c][1..] == [];
    } else if IsSpace(x[0]) {
      assert (x + [c])[1..] == x[1..] + [c];
      LStripSnoc(x[1..], c);
    }
  }

  /** Trailing whitespace does not survive `rstrip`. */
  lemma RStripSpace(s: string, c: char)
    requires IsSpace(c)
    ensures RStrip(s + [c]) == RStrip(s)
  {
    assert (s + [c])[..|s|] == s;
  }

  /** `x.rstrip().strip() == x.strip()` */
  lemma {:induction false} StripRStrip(x: string)
    ensures Strip(RStrip(x)) == Strip(x)
    decreases |x|
  {
    if x != [] && IsSpace(x[|x| - 1]) {
      var front := x[..|x| - 1];
      var c := x[|x| - 1];
      assert x == front + [c];
      RStripSpace(front, c);
      StripRStrip(front);
      LStripSnoc(front, c);
      if LStrip(front) != [] {
        RStripSpace(LStrip(front), c);
      }
    }
  }

  /** Stripping the end of `u + v` only touches `v`, when `v` holds a non-space. */
  lemma RStripConcat(u: string, v: string)
    requires RStrip(v) != []
    ensures RStrip(u + v) == u + RStrip(v)
  {
    var r := RStrip(v);
    assert u + r == (u + v)[..|u| + |r|];
    forall i | |u| + |r| <= i < |u + v|
      ensures IsSpace((u + v)[i])
    {
      assert (u + v)[i] == v[i - |u|];
    }
    RStripIs(u + v, u + r);
  }

  lemma {:induction false} JoinSnoc(xs: seq<string>, x: string, sep: string)
    requires xs != []
    ensures Join(xs + [x], sep) == Join(xs, sep) + sep + x
    decreases |xs|
  {
    if |xs| == 1 {
      assert (xs + [x])[1..] == [x];
    } else {
      assert (xs + [x])[1..] == xs[1..] + [x];
      JoinSnoc(xs[1..], x, sep);
      var j := Join(xs[1..], sep);
      assert xs[0] + sep + (j + sep + x) == (xs[0] + sep + j) + sep + x;
    }
  }

  lemma JoinFirst(xs: seq<string>, sep: string)
    requires xs != [] && xs[0] != []
    ensures Join(xs, sep) != [] && Join(xs, sep)[0] == xs[0][0]
  {
  }

  /** Lines none of which holds c split back out of their join on c, the last one trimmed. */
  lemma SplitTrimmed(front: seq<string>, last: string, c: char)
    requires c !in last && forall k :: 0 <= k < |front| ==> c !in front[k]
    ensures SplitOn(Join(front + [RStrip(last)], [c]), [c]) == front + [RStrip(last)]
  {
    var r := RStrip(last);
    var ys := front + [r];
    forall k | 0 <= k < |ys|
      ensures c !in ys[k]
    {
      if k < |front| {
        assert ys[k] == front[k];
      } else {
        assert r == last[..|r|];
      }
    }
    SplitJoin(ys, c);
  }

  lemma RStripKeepsFirst(s: string)
    requires s != [] && !IsSpace(s[0])
    ensures RStrip(s) != [] && RStrip(s)[0] == s[0]
  {
  }
}

=== FILE: user_input.dfy ===
/**
 * The request-level input checks: `validate_user_input`, a chain of checks that either
 * raises `InputValidationError` or returns the stripped description, and
 * `sanitize_filename`, which removes path separators and parent references and then
 * replaces every character outside `[A-Za-z0-9._-]` by '_'.
 */
module UserInput {
  import opened Wrappers
  import opened Strings

  const MaxInputLength := 500
  const MinInputLength := 10

  /** Searched case-insensitively; none of them holds a regular-expression operator. */
  const ForbiddenPatterns: seq<string> := ["<script", "javascript:", "onerror=", "onclick="]

  const CircuitKeywords: seq<string> := [
    "circuit", "filter", "resistor", "capacitor", "voltage", "current",
    "divider", "amplifier", "led", "diode", "transistor", "design",
    "create", "build", "rc", "lc", "rl", "low-pass", "high-pass", "lowpass", "highpass"
  ]

  const NotAString := "Input must be a non-empty string"
  const TooShort := "Input too short. Please provide at least 10 characters describing your circuit."
  const TooLong := "Input too long. Please keep your description under 500 characters."
  const Forbidden := "Input contains forbidden characters or patterns"
  const NotACircuit := "Input doesn't appear to describe a circuit. Please include terms like 'filter', 'resistor', 'capacitor', 'voltage divider', etc."

  /** Some forbidden pattern occurs, ignoring case. */
  predicate HasForbidden(text: string) {
    AnyIn(Lower(text), ForbiddenPatterns)
  }

  /** Some circuit keyword occurs in the lower-cased text. */
  predicate HasCircuitKeyword(text: string) {
    AnyIn(Lower(text), CircuitKeywords)
  }

  /** Everything a stripped description must satisfy to be accepted. */
  predicate Acceptable(t: string) {
    MinInputLength <= |t| <= MaxInputLength && !HasForbidden(t) && HasCircuitKeyword(t)
  }

  /**
   * `validate_user_input(text)`; `None` stands for an argument that is not a `str`, and a
   * failure carries the message of the raised `InputValidationError`. The checks run in
   * the source's order, so each failure names the first check that fails.
   */
  function ValidateUserInput(text: Option<string>): (r: Result<string, string>)
    ensures text.None? || text == Some("") ==> r == Failure(NotAString)
    ensures r.Success? <==> text.Some? && text.value != "" && Acceptable(Strip(text.value))
    ensures r.Success? ==> r.value == Strip(text.value)
    ensures r.Success? ==> MinInputLength <= |r.value| <= MaxInputLength
    ensures text.Some? && text.value != "" && |Strip(text.value)| < MinInputLength ==> r == Failure(TooShort)
    ensures text.Some? && |Strip(text.value)| > MaxInputLength ==> r == Failure(TooLong)
    ensures text.Some? && text.value != "" && Acceptable(Strip(text.value)) ==> r == Success(Strip(text.value))
    ensures text.Some? && MinInputLength <= |Strip(text.value)| <= MaxInputLength ==>
              (HasForbidden(Strip(text.value)) ==> r == Failure(Forbidden))
  {
    if text.None? || text.value == "" then Failure(NotAString)
    else
      var t := Strip(text.value);
      if |t| < MinInputLength then Failure(TooShort)
      else if |t| > MaxInputLength then Failure(TooLong)
      else if HasForbidden(t) then Failure(Forbidden)
      else if !HasCircuitKeyword(t) then Failure(NotACircuit)
      else Success(t)
  }

  /** Stripping a stripped string changes nothing. */
  lemma StripIdempotent(s: string)
    ensures Strip(Strip(s)) == Strip(s)
  {
    StripNoEdgeSpace(Strip(s));
  }

  /** An accepted description is accepted again, unchanged. */
  lemma ValidateIdempotent(text: string, accepted: string)
    requires ValidateUserInput(Some(text)) == Success(accepted)
    ensures ValidateUserInput(Some(accepted)) == Success(accepted)
  {
    StripIdempotent(text);
  }

  /** Upper case never hides a forbidden pattern: the test is the same on the lower-cased text. */
  lemma ForbiddenIgnoresCase(text: string)
    ensures HasForbidden(Upper(text)) == HasForbidden(text)
    ensures HasCircuitKeyword(Upper(text)) == HasCircuitKeyword(text)
  {
    assert Lower(Upper(text)) == Lower(text);
  }

  /** The characters `[a-zA-Z0-9._-]` the sanitiser keeps. */
  predicate SafeChar(c: char) {
    IsAlnum(c) || c == '.' || c == '_' || c == '-'
  }

  /** `re.sub(r'[^a-zA-Z0-9._-]', '_', s)`: each character maps to itself or to '_'. */
  function ReplaceUnsafe(s: string): (r: string)
    ensures |r| == |s|
    ensures forall i :: 0 <= i < |s| ==> r[i] == if SafeChar(s[i]) then s[i] else '_'
  {
    seq(|s|, i requires 0 <= i < |s| => if SafeChar(s[i]) then s[i] else '_')
  }

  /** No two consecutive dots. */
  predicate NoDoubleDot(s: string) {
    forall i :: 0 <= i < |s| - 1 ==> !(s[i] == '.' && s[i + 1] == '.')
  }

  /** Deleting occurrences never lengthens a string. */
  lemma {:induction false} RemoveShortens(s: string, p: string)
    requires p != []
    ensures |Replace(s, p, "")| <= |s|
    decreases |s|
  {
    if StartsWith(s, p) {
      RemoveShortens(s[|p|..], p);
    } else if s != [] {
      RemoveShortens(s[1..], p);
    }
  }

  /** A string that does not start with '.' keeps its first character through the removal. */
  lemma RemoveDotsFirst(s: string)
    requires s != [] && s[0] != '.'
    ensures Replace(s, "..", "") != [] && Replace(s, "..", "")[0] == s[0]
  {
  }

  /** One left-to-right pass removing ".." leaves no ".." behind. */
  lemma {:induction false} RemoveDotsNoDoubleDot(s: string)
    ensures NoDoubleDot(Replace(s, "..", ""))
    decreases |s|
  {
    if StartsWith(s, "..") {
      RemoveDotsNoDoubleDot(s[2..]);
    } else if s != [] {
      var rest := Replace(s[1..], "..", "");
      RemoveDotsNoDoubleDot(s[1..]);
      assert Replace(s, "..", "") == [s[0]] + rest;
      if s[0] == '.' && |s| > 1 {
        assert s[1] != '.' by {
          assert s[..2] != "..";
        }
        RemoveDotsFirst(s[1..]);
      }
    }
  }

  /** Text without occurrences of p is left unchanged by replacing p. */
  lemma {:induction false} ReplaceAbsent(s: string, p: string, rep: string)
    requires p != [] && !Contains(s, p)
    ensures Replace(s, p, rep) == s
    decreases |s|
  {
    if StartsWith(s, p) {
      assert OccursAt(s, p, 0);
    } else if s != [] {
      forall i | 0 <= i <= |s[1..]| - |p| ensures !OccursAt(s[1..], p, i) {
        assert s[1..][i..i + |p|] == s[i + 1..i + 1 + |p|];
        assert !OccursAt(s, p, i + 1);
      }
      ReplaceAbsent(s[1..], p, rep);
    }
  }

  /** Mapping the unsafe characters to '_' creates no "..", since '_' is not a dot. */
  lemma ReplaceUnsafeNoParent(c: string)
    requires NoDoubleDot(c)
    ensures !Contains(ReplaceUnsafe(c), "..")
  {
    var r := ReplaceUnsafe(c);
    forall i | 0 <= i <= |r| - 2 ensures !OccursAt(r, "..", i) {
      assert !(c[i] == '.' && c[i + 1] == '.');
      assert r[i..i + 2][0] == r[i] && r[i..i + 2][1] == r[i + 1];
    }
  }

  /**
   * `sanitize_filename(filename)`: the result holds only `[A-Za-z0-9._-]`, so never a path
   * separator, never holds "..", and is never longer than the original.
   */
  function SanitizeFilename(filename: string): (r: string)
    ensures forall i :: 0 <= i < |r| ==> SafeChar(r[i]) && r[i] != '/' && r[i] != '\\'
    ensures !Contains(r, "..")
    ensures |r| <= |filename|
  {
    var a := Replace(filename, "/", "");
    var b := Replace(a, "\\", "");
    var c := Replace(b, "..", "");
    RemoveShortens(filename, "/");
    RemoveShortens(a, "\\");
    RemoveShortens(b, "..");
    RemoveDotsNoDoubleDot(b);
    ReplaceUnsafeNoParent(c);
    ReplaceUnsafe(c)
  }

  /** A name made only of kept characters, without "..", is its own sanitised form. */
  lemma SanitizeFixedPoint(name: string)
    requires forall i :: 0 <= i < |name| ==> SafeChar(name[i])
    requires !Contains(name, "..")
    ensures SanitizeFilename(name) == name
  {
    forall i | 0 <= i <= |name| - 1 ensures !OccursAt(name, "/", i) && !OccursAt(name, "\\", i) {
      assert name[i..i + 1][0] == name[i];
    }
    ReplaceAbsent(name, "/", "");
    ReplaceAbsent(name, "\\", "");
    ReplaceAbsent(name, "..", "");
  }

  /** Sanitising twice gives what sanitising once gives. */
  lemma SanitizeIdempotent(filename: string)
    ensures SanitizeFilename(SanitizeFilename(filename)) == SanitizeFilename(filename)
  {
    SanitizeFixedPoint(SanitizeFilename(filename));
  }
}

=== FILE: wrappers.dfy ===
/** Option and Result values used for Python's `None` returns and raised exceptions. */
module Wrappers {

  datatype Option<+T> = None | Some(value: T) {
    function GetOr(default: T): T {
      match this
      case Some(v) => v
      case None => default
    }
  }

  datatype Result<+T, +E> = Success(value: T) | Failure(error: E)

  /** The Python exceptions the modelled code raises, by class, with their messages. */
  datatype PyError =
    | ValueError(message: string)
    | ZeroDivisionError
    | TypeError
    | KeyError(key: string)
    | IndexError
}
